=== FILE: README.md ===
# A verified model of a learning-management web application

The application is a Flask learning-management site. Subjects group courses (sessions) into a hierarchy. A course holds ordered checkpoints. Students time their progress through each checkpoint. Live sessions add a chat, slide broadcast with per-slide reactions and bookmarks, and screen sharing. Around these sit attendance, quizzes, analytics, a course forum, a site guide board and study-group communities. All data lives in a document store: every record is a document keyed by an id or by a composite key.

This project models the logic that remains once every store, socket and identity-provider call is taken away. Each route handler and socket event becomes a pure function. It takes the relevant collections as finite maps and the current time as an integer number of seconds. It returns the new collections, or an error that carries the HTTP status the route answers with: `BadRequest` is 400, `Forbidden` is 403 and `NotFound` is 404. Routes that flash a message and redirect instead get a small reply type of their own, such as `Refused` or `Unchanged`. Every operation is stated by its contract. Lemmas relate operations to each other:
- round trips (encode/decode, toggle twice, comment then delete);
- invariants the operations preserve (the progress timer's well-formedness, foreign keys, one record per composite key);
- idempotence (reset, auto-enrolment, re-submitting a reaction, marking complete);
- reference definitions (the elapsed time against the accumulated intervals, counts against filtered sets).

Modules, one per source area:

| module | file | models |
|---|---|---|
| `Wrappers` | wrappers.dfy | `Option`, `Result` and the route error codes |
| `Text` | text.dfy | the Python string methods the routes use (`strip`, `lower`, `upper`, `split`, `rsplit`, `os.path.splitext`, `int`, `str`) |
| `Records` | records.dfy | documents as maps of values, `_parse_datetime`, the generic `to_dict`/`from_dict` with timestamp defaults, study-group tags |
| `RecordSchemas` | record_schemas.dfy | the field patterns of every record class in app/firestore_models.py |
| `ProgressTimer` | progress_timer.dfy | the timer transitions of app/routes/progress.py, the `checkpoint_completed` socket event and `Progress.get_elapsed_seconds` |
| `ProgressDocs` | progress_docs.dfy | the progress document encoding, record defaults and `count_completed_progress` |
| `Users` | users.dfy | user display helpers, role helpers, `CurrentUser`, `auth_required`, `role_required`, `_verify_session` |
| `Access` | access.dfy | `Course.is_accessible_by`, `can_start`, `has_course_access`, `has_subject_access`, forum and live-room access |
| `Courses` | courses.dfy | course listing, create, view, edit, delete (with the enrolment cascade), invite-code regeneration and enrolment by code |
| `Checkpoints` | checkpoints.dfy | checkpoint creation order, edit, soft delete and reorder |
| `Enrollments` | enrollments.dfy | the (course, user) enrolment store and subject auto-enrolment |
| `Subjects` | subjects.dfy | subject enrolment, approval workflows, role changes, member management, course sorting, Excel rows |
| `InviteCodes` | invite_codes.dfy | invite-code generation from caller-supplied draws and code normalisation |
| `Sessions` | sessions.dfy | video id extraction, watch log, quiz start, scoring and pass rule, completion marks, page time |
| `SlideDecks` | slide_decks.dfy | upload validation and conversion status, slide change, slide-image index, AI sampling and checkpoint saving |
| `Tally` | tally.dfy | counting values in a keyed store |
| `SlideReactions` | slide_reactions.dfy | the reaction store, slide aggregates, the auto-flag rule and understanding submissions |
| `Bookmarks` | bookmarks.dfy | the auto/manual bookmark state machine and the memo |
| `LiveRoom` | live_room.dfy | chat edit and delete guards, and screen-share state |
| `Analytics` | analytics.dfy | per-checkpoint and per-student counts, lagging students, slowest checkpoints, CSV rows |
| `Attendance` | attendance.dfy | marking, bulk marking, self check-in, student summary and the attendance upsert |
| `Notifications` | notifications.dfy | notification creation, read marks and batched `mark_all_read` |
| `Community` | community.dfy | study groups, membership approval, Q&A answers, views, likes and filters |
| `Forum` | forum.dfy | the course forum |
| `Guide` | guide.dfy | the site guide board |
| `Auth` | auth.dfy | `is_safe_url`, username de-duplication, reset tickets, profile-image checks, profile updates |

Three facts about the code that the model keeps:
- Resuming a timer (app/routes/progress.py:225) needs only a paused record with no completion time. No rule stops a timer after a long pause, and none limits how long a pause may last.
- When a conversion finishes, app/routes/slides.py:107 stores the status `completed`.
- A progress record is keyed by user, checkpoint and mode (app/firestore_dao.py:474-486).

## Model

| member | source | states |
|---|---|---|
| Access.OwnerGuard | app/routes/analytics.py:14-17 | a missing course gives 404, another user's course gives 403, and the guard passes exactly for the owner |
| Access.AccessibleWith | app/models.py:185-214 | the owner always has access and a user who is not enrolled never does; for an enrolled user, `public` grants, `private` denies, `date_based` grants inside the closed window with open missing ends, and any other visibility grants |
| Access.VisibilityRules | app/models.py:185-200 | the visibility rules hold of the as-written check: owner first, then enrolment, then the visibility setting |
| Access.DateWindowIsInterval | app/models.py:194-200 | a date-based course open at two instants is open at every instant in between |
| Access.FewerCheckpointsThanRows | app/models.py:203-207 | several progress rows can name one checkpoint, so there are never more distinct checkpoints than rows |
| Access.CorrectedImpliesAsWritten | app/models.py:201-214 | anyone who completed every live checkpoint of the prerequisite course also passes the as-written count test |
| Access.CountTestAdmitsHalfDone | app/models.py:203-214 | a student who completed one of two prerequisite checkpoints in two modes passes the count test but not the intended test |
| Access.CanStartStaysTrue | app/models.py:296-301 | an immediate session can always start; a scheduled session with no time never starts; once a session can start it can start at every later instant |
| Access.HasSubjectAccess | app/routes/subjects.py:26-34 | access holds iff the user is the subject's instructor or a member whose role is listed (instructor and assistant by default) |
| Access.HasCourseAccess | app/routes/sessions.py:11-20 | access holds iff the user owns the course, or the course has a subject and the user is its member with a listed role |
| Access.StudentsAreNotStaff | app/routes/sessions.py:11-20 | with the default roles a student member gets neither subject nor course staff access |
| Access.CourseFollowsSubject | app/routes/sessions.py:16-19 | a subject member with a listed role has staff access to every course of that subject |
| Access.ForumAccess | app/routes/forum.py:9-14 | no course means no access; an owner holding an instructor role has access; everyone else needs an enrolment |
| Access.LiveAccessImpliesForumAccess | app/events.py:19-24 | the live classroom admits only users the forum admits, while the forum also admits an org-admin owner who is not enrolled |
| LiveRoom.Guard | app/events.py:265-281 | edit and delete pass the guards iff the message exists, the request names its course, the course exists, the user has socket course access and is the author or the owning instructor; otherwise nothing changes |
| LiveRoom.EditMessage | app/events.py:253-288 | an edit happens iff an id and a non-blank text are given and the guards pass; then only that message changes, to the stripped non-empty text |
| LiveRoom.DeleteMessage | app/events.py:291-325 | a delete happens iff an id is given and the guards pass, and then exactly that message is removed |
| LiveRoom.StrangersCannotModerate | app/events.py:277-279 | a user who neither wrote a message nor owns its course as instructor can neither edit nor delete it |
| LiveRoom.StartShare | app/events.py:672-693 | only the instructor who owns the deck's course becomes its presenter; any other request leaves the share table unchanged |
| LiveRoom.StopShare | app/events.py:696-716 | only the owning instructor ends a deck's share, which then is gone; any other request changes nothing |
| LiveRoom.Disconnect | app/events.py:35-47 | exactly the shares presented by the leaving user end and are reported; every other share stays as it was |
| LiveRoom.NoFramesAfterDisconnect | app/events.py:719-737 | after a presenter disconnects none of their frames is relayed, and other presenters' shares stay active |
| LiveRoom.StartThenStop | app/events.py:684-708 | a share started and then stopped by its owner leaves the table as it was |
| Users.DisplayName | app/firestore_models.py:122-128 | a non-empty nickname wins; with no nickname a non-empty full name is used; with neither the username is used; the result is empty only when all three are |
| Users.Initial | app/firestore_models.py:130-135 | the initial is one character: `?` for an empty name, otherwise the name's first character upper-cased, never a lower-case letter |
| Users.RoleHierarchy | app/firestore_models.py:139-152 | both admin roles count as instructors, a student does not, and the instructor test holds for exactly three roles |
| Users.CanAccessSubject | app/firestore_models.py:154-166 | a system admin always has access; an org admin has access to subjects of their organisation or taught by them; anyone else only to subjects they teach |
| Users.SubjectAccessNeedsTeachingOrAdmin | app/firestore_models.py:154-166 | a non-admin who does not teach a subject reaches it only as an org admin, and as a student never |
| Users.VerifySession | app/decorators.py:6-28 | a user document is produced iff a non-empty cookie verifies to a uid whose document exists, and it then carries that uid as `uid` and `id` and is marked authenticated |
| Users.Load | app/decorators.py:34-35 | the proxy holds the verified document, or the empty document when there is none |
| Users.Uid | app/decorators.py:55-61 | `uid` and `id` read the stored uid, or the empty string when none is stored |
| Users.Role | app/decorators.py:63-65 | the role is the stored role, or `student` when none is stored |
| Users.AuthenticatedIffVerified | app/decorators.py:51-53 | a request is authenticated exactly when its session cookie verifies to a stored user, and then its uid is the verified uid |
| Users.AnonymousDefaults | app/decorators.py:51-65 | an anonymous caller is unauthenticated, a student, and has the empty uid |
| Users.ProxyDisplayName | app/decorators.py:67-73 | a truthy nickname wins; otherwise a truthy full name; otherwise the stored username, or the empty string when there is none |
| Users.ProxyInitial | app/decorators.py:75-78 | `?` for a falsy display name; otherwise the upper-cased first character of a text display name, and none for a non-text one |
| Users.ProxyAgreesWithRecord | app/decorators.py:67-84 | over a stored user document the proxy gives the same display name, initial and instructor test as the user record |
| Users.AuthRequired | app/decorators.py:107-116 | the handler runs iff the caller is authenticated; otherwise the caller is sent to log in |
| Users.RoleRequired | app/decorators.py:119-133 | an anonymous caller is sent to log in; the handler runs iff the caller is authenticated and their role is listed; otherwise the caller goes to the dashboard |
| Users.RoleGateIsStricter | app/decorators.py:107-133 | a role gate admits only callers the login gate admits, listing more roles admits no fewer, and both gates send the same callers to log in |
| InviteCodes.Letter | app/firestore_dao.py:187 | every drawn position names a character of A-Z or 0-9 |
| InviteCodes.LetterIsBijective | app/firestore_dao.py:187 | distinct positions give distinct characters and every character of the alphabet is reachable |
| InviteCodes.Spell | app/firestore_dao.py:189 | an attempt spells one alphabet character per draw, in order |
| InviteCodes.FirstFree | app/firestore_dao.py:188-197 | the chosen attempt is unused; when none is chosen every attempt was already used |
| InviteCodes.Generate | app/firestore_dao.py:185-197 | the returned code is eight characters of A-Z and 0-9 and not already used, and it is the first unused attempt |
| InviteCodes.Normalize | app/routes/subjects.py:394 | the looked-up code is the typed code stripped of surrounding whitespace and upper-cased: no longer than what was typed and with no lower-case letter |
| InviteCodes.GeneratedCodeIsNormal | app/routes/subjects.py:394 | a generated code is non-empty and survives stripping and upper-casing unchanged |
| InviteCodes.LowerCaseCodeIsFound | app/routes/subjects.py:394-399 | a generated code typed in lower case is looked up as the code itself |
| InviteCodes.NormalizeIdempotent | app/routes/subjects.py:394 | normalising a typed code twice gives the same as once |
| Records.Get | app/firestore_models.py:76-79 | a stored key reads its stored value, null included; a missing key reads the default |
| Records.ReplaceZ | app/firestore_models.py:33 | every `Z` becomes `+00:00` and nothing else changes: the replacement distributes over concatenation, a lone `Z` becomes `+00:00`, and a string without `Z` is unchanged |
| Records.ReplaceZAppend | app/firestore_models.py:33 | replacing in a concatenation is replacing in each part |
| Records.ParseDatetime | app/firestore_models.py:24-39 | null gives none, a datetime is returned as it is, a string is parsed after `Z` becomes `+00:00`, and any other value gives none |
| Records.CommaTags | app/firestore_models.py:1040 | each piece is stripped and the empty ones dropped, in order: one piece gives its stripped form or nothing, and every kept tag is non-empty with no surrounding whitespace |
| Records.CommaTagsAppend | app/firestore_models.py:1040 | the tags of two runs of pieces are the tags of the first followed by the tags of the second |
| Records.ParseTags | app/firestore_models.py:1037-1040 | a legacy tag string is split on commas and the pieces kept as `CommaTags` keeps them |
| Records.ParseTagsOfJoin | app/firestore_models.py:1037-1040 | a tag string joined from comma-free pieces parses to those pieces, stripped and with the empty ones dropped |
| Records.ToDict | app/firestore_models.py:62-70 | the document has exactly the schema's fields; a creation or update stamp is never null (a missing one becomes now); an empty collection is written as its empty value |
| Records.FromDict | app/firestore_models.py:72-82 | the record read back has exactly the schema's fields; its values are stated by the round-trip and default lemmas |
| Records.RoundTrip | app/firestore_models.py:488-514 | reading back a written record gives the record again whenever its stamps are present and its collections are non-empty or already empty |
| Records.WrittenDocumentsAreStable | app/firestore_models.py:62-82 | writing what was read from a written document gives the same document |
| Records.EmptyDocumentGivesDefaults | app/firestore_models.py:72-82 | reading an empty document gives each plain field its default and every datetime and collection null |
| Records.WriteKeepsUnfilled | app/firestore_models.py:488-499 | a schema with no stamped and no collection field writes every record unchanged |
| ProgressDocs.Encode | app/firestore_models.py:488-499 | a progress record is written as exactly nine fields, each holding the record's own value |
| ProgressDocs.Decode | app/firestore_models.py:501-514 | a decoded record carries the stored user and checkpoint, and is completed exactly when `completed_at` is not null |
| ProgressDocs.DecodeEncode | app/firestore_models.py:488-514 | decoding an encoded progress record gives back its key and timer record |
| ProgressDocs.WriteKeepsRecord | app/firestore_models.py:488-499 | writing a progress record fills nothing in: the document is the record itself |
| ProgressDocs.DocRoundTrip | app/firestore_models.py:488-514 | every timer record survives a write followed by a read |
| ProgressDocs.ProgressDefaults | app/firestore_models.py:501-514 | a progress record read from an empty document has mode `self_paced`, total 0, not paused, and no timestamps |
| ProgressDocs.DeckDefaults | app/firestore_models.py:1600-1616 | a slide deck read from an empty document has status `pending`, no slides, index 0 and flag thresholds 5 and 0.25 |
| ProgressDocs.BatchesCoverOnce | app/firestore_dao.py:527-528 | batches of 30 consecutive ids cover every id, and an id of a duplicate-free list exactly once |
| ProgressDocs.CountCompleted | app/firestore_dao.py:521-541 | no ids give no counts; the counts have exactly the given ids as keys, and each count adds the matching documents of every batch that holds the id |
| ProgressDocs.CountsOfDistinctIds | app/firestore_dao.py:521-541 | with distinct ids each count is exactly the number of matching progress documents |
| ProgressDocs.AsWrittenCountsNothing | app/firestore_dao.py:529-533 | as written the query filters on a `completed` field no progress document carries, so nothing ever matches |
| ProgressDocs.MatchesStored | app/firestore_dao.py:529-535 | a stored document matches the intended query iff its record is for that checkpoint, is completed, and has the requested mode when one is given |
| ProgressDocs.CorrectedCountsCompletions | app/firestore_dao.py:521-541 | filtering on a non-null `completed_at` matches exactly the completed stored records of that checkpoint and mode |
| ProgressDocs.CompletedRecordIsMissed | app/firestore_dao.py:529-533 | one completed self-paced record is counted once by the intended query and not at all as written |
| ProgressDocs.EncodeConforms | app/firestore_models.py:476-499 | the document written for a progress record has exactly the fields the `Progress` class declares, each of a kind its field pattern admits, so the generic record round trip applies to it |
| ProgressDocs.CountBatches | app/firestore_dao.py:524-540 | every given id gets a count, and each id's count adds its matching documents once for every batch of 30 ids that holds it |
| Analytics.Found | app/firestore_dao.py:474-486 | a single-mode lookup finds a record iff one is stored under that user, checkpoint and mode, and returns that record |
| Analytics.CheckpointCount | app/routes/analytics.py:31-37 | the count never exceeds the students; it is 0 iff no student is done and equals the students iff all are (the exact value is pinned by Analytics.CheckpointCountAppend) |
| Analytics.StudentCount | app/routes/analytics.py:57-61 | the count never exceeds the checkpoints; it is 0 iff the student finished none and equals the checkpoints iff they finished all (the exact value is pinned by Analytics.StudentCountAppend) |
| Analytics.CheckpointCountAppend | app/routes/analytics.py:31-37 | the completed count of a checkpoint adds one per done student: no students count 0, one student counts 1 exactly when done, and two groups count the sum of their counts |
| Analytics.StudentCountAppend | app/routes/analytics.py:57-61 | a student's count adds one per completed checkpoint: none count 0, one checkpoint counts 1 exactly when completed, and two runs of checkpoints count the sum |
| Analytics.StatOf | app/routes/analytics.py:42-52 | a checkpoint's completed count is the number of students with a completed record for it, at most the student total; its rate lies in 0-100 and is 0 without students |
| Analytics.RowOf | app/routes/analytics.py:63-69 | a student's completed count is the number of checkpoints the student completed, at most the checkpoint total; the percentage lies in 0-100 and is 0 without checkpoints |
| Analytics.Rows | app/routes/analytics.py:56-69 | the table has one row per student, in the students' order |
| Analytics.AsWrittenSeesNoCompletion | app/routes/analytics.py:35-37 | as written, when every record carries a string mode, every checkpoint count and every student count is 0 |
| Analytics.CompletedStudentIsMissed | app/routes/analytics.py:59-61 | a student who completed a checkpoint in the default mode is counted by the any-mode reading and missed by the null-mode query |
| Analytics.AnyModeCountsEveryMode | app/routes/analytics.py:31-37 | the any-mode reading finds a completion iff some mode's query does, so it counts at least as many as any single-mode query |
| Analytics.Percents | app/routes/analytics.py:71 | the averaged values are the rows' percentages, in order |
| Analytics.Below | app/routes/analytics.py:72 | the kept rows are exactly the rows below the bound, with their multiplicities |
| Analytics.Lagging | app/routes/analytics.py:71-72 | the lagging students are the rows whose percentage is below 70% of the average, kept in row order |
| Analytics.BelowAppend | app/routes/analytics.py:71-72 | filtering rows below a bound commutes with concatenation, so the lagging list keeps row order |
| Analytics.NotEveryoneLags | app/routes/analytics.py:71-72 | with at least one student, not every student lags |
| Analytics.RowsAreNonNegative | app/routes/analytics.py:68 | every student percentage is non-negative |
| Analytics.Durations | app/routes/analytics.py:97-101 | one duration per checkpoint, in checkpoint order |
| Analytics.SortSlowest | app/routes/analytics.py:119-121 | the sorted list is a permutation of its input, slowest first |
| Analytics.Positive | app/routes/analytics.py:119 | the kept entries are exactly those with a positive duration, with their multiplicities |
| Analytics.Slowest | app/routes/analytics.py:119-122 | the positive-duration entries sorted slowest first and cut to three: exactly min(3, number of positive entries) checkpoints, no entry more often than among the positive entries, slowest first, and no positive entry left out is slower than the third |
| Analytics.ProgressCells | app/routes/analytics.py:175-185 | three cells per checkpoint, all blank without a record, and the start cell blank exactly when the record has no start |
| Analytics.Header | app/routes/analytics.py:167-171 | the header has 2 + 3 x checkpoints cells and starts with Student and Email |
| Analytics.CsvRow | app/routes/analytics.py:173-186 | every student row has 2 + 3 x checkpoints cells and starts with the name and email |
| Analytics.CellsOfCheckpoint | app/routes/analytics.py:175-185 | checkpoint i's cells sit at columns 2+3i to 2+3i+2 of a student row |
| Analytics.HeaderOfCheckpoint | app/routes/analytics.py:168-170 | checkpoint i's header cells sit at the same columns as its row cells |
| Analytics.StudentGuard | app/routes/analytics.py:85-89 | the student dashboard gives 404 for an unknown course, 403 without an enrolment, and passes exactly for an enrolled student |
| Tally.CountValues | app/firestore_dao.py:1076-1089 | the result has exactly the counted values as keys, and each holds the number of selected documents carrying that value; other values are ignored |
| Tally.Rewrite | app/firestore_dao.py:1048-1057 | overwriting one selected document moves at most one unit, from its old value's count to its new value's |
| Tally.Remove | app/firestore_dao.py:1060-1064 | deleting one selected document lowers only its value's count, by one |
| Tally.Unselected | app/firestore_dao.py:1079-1083 | documents of another deck or slide never change a count |
| Tally.AddValue | app/events.py:502-512 | counting one more value adds exactly its holders to the total |
| Tally.Percent | app/routes/analytics.py:42 | a share in percent is 0 for an empty whole, otherwise part times 100 over whole, never negative and at most 100 when the part fits in the whole |
| SlideReactions.AggregateOf | app/events.py:502-512 | `total_reacted` is the sum of the understood, question and hard counts |
| SlideReactions.TotalCountsReactingUsers | app/events.py:502-512 | the total counts each user whose reaction to the slide is one of the three counted values exactly once |
| SlideReactions.GetSlideAggregate | app/events.py:502-512 | the counting loop over the slide's reaction documents gives the aggregate, whose total is the number of reacting users |
| SlideReactions.FlaggedIsTheFractionRule | app/events.py:515-531 | a slide is flagged iff question plus hard reaches the count threshold, or some users reacted and question plus hard over the total reaches the rate threshold |
| SlideReactions.FlagReason | app/events.py:524-529 | the recorded reason is the head count when that rule fired and the rate percentages otherwise |
| SlideReactions.CheckAndUpdateFlag | app/events.py:515-556 | the flag follows the thresholds (3 and one half when the deck lacks them); a flagged slide's bookmark ends up automatic with the reason; an unflagged slide's bookmark is not automatic; a manual bookmark survives; no other slide's bookmark changes |
| SlideReactions.SetReaction | app/events.py:559-594 | instructors, unknown values, unknown decks and users without access change nothing; a missing reaction reads as `none`, which withdraws the user's reaction to the slide, and any other value replaces it; no other reaction changes; the slide's bookmark is refreshed by the flag check on the new aggregate, and the broadcast carries that aggregate, flag and reason |
| SlideReactions.OneVoteMovesOneUnit | app/firestore_dao.py:1037-1065 | since reactions are keyed by (deck, user, slide), one user's vote moves each count and the total by at most one |
| SlideReactions.OtherSlidesUnchanged | app/firestore_dao.py:1076-1089 | a reaction to one slide leaves every other slide's aggregate unchanged |
| SlideReactions.CountUnderstanding | app/firestore_dao.py:1161-1175 | only understood and confused are counted, each as the number of that (checkpoint, session)'s answers with that value |
| SlideReactions.SubmitUnderstanding | app/events.py:398-434 | instructors and other values are ignored, a user without course access is refused, and without an active session nothing is stored; otherwise only the user's answer for (checkpoint, session) is replaced |
| SlideReactions.ResubmitIsIdempotent | app/firestore_dao.py:1143-1158 | answering the poll again with the same value changes nothing |
| Bookmarks.Toggle | app/events.py:646-662 | absent becomes manual-only, automatic-only becomes both, manual-only is deleted, otherwise the manual flag flips; the automatic flag never changes; the broadcast `is_bookmarked` is whether the result carries a flag |
| Bookmarks.ToggleTwice | app/routes/slides.py:292-305 | toggling twice restores an absent bookmark and any bookmark carrying the automatic flag |
| Bookmarks.SaveMemo | app/routes/slides.py:260-273 | the memo and supplement link are stored; a missing bookmark is created manual and not automatic, an existing one keeps both flags |
| Bookmarks.ApplyFlag | app/events.py:532-553 | flagged: the bookmark ends automatic with the new reason, a new one not manual and an existing one keeping its manual flag; not flagged: an automatic-only bookmark is deleted, an automatic and manual one loses the automatic flag and its reason becomes null with nothing else changed, any other is untouched |
| Bookmarks.ManualSurvivesFlags | app/events.py:532-553 | a manual bookmark survives every series of threshold outcomes and stays manual |
| Bookmarks.ToggleIn | app/firestore_dao.py:1096-1122 | a toggle changes only its own (deck, slide) entry, and the broadcast value is whether that entry is shown afterwards |
| SlideDecks.NewDeck | app/routes/slides.py:78-88 | a new deck starts converting with no slides and current slide index 0, keeps only a positive time estimate, and has no thresholds or error |
| SlideDecks.Finish | app/routes/slides.py:95-126 | conversion only moves a converting deck to completed (with the slide count) or failed (with the error message); nothing else changes |
| SlideDecks.Upload | app/routes/slides.py:51-126 | 404 for an unknown course, 403 without access, 400 for a missing file, a disallowed extension or more than 50 MiB, with no deck created; otherwise the deck is stored, completed with 200 or failed with 500 |
| SlideDecks.ChangeSlide | app/events.py:475-494 | the current slide index moves iff the deck exists, the caller is its course's instructor, and the index names an existing slide; only that index changes |
| SlideDecks.Follow | app/events.py:475-494 | a run of change requests changes only the current index, which ends as it started or at the index of one of the requests |
| SlideDecks.CurrentIndexStaysInRange | app/events.py:475-494 | over any sequence of change requests, a current slide index that starts on a slide (or at 0) stays on a slide (or at 0) |
| SlideDecks.ServeIndex | app/routes/slides.py:26-42 | 404 for an unknown deck or course, 403 for a user neither enrolled nor managing it, 404 for a non-integer stem; otherwise the index is the file name's integer stem |
| SlideDecks.ServeIndexOfImageName | app/routes/slides.py:39-42 | the image name `<n>.png` serves slide n |
| SlideDecks.Present | app/routes/slides.py:349-353 | the kept images are the existing ones, in slide order, and none are kept only when none exist |
| SlideDecks.SamplePositionsIncrease | app/routes/slides.py:356-360 | with more than 50 images the sampled positions are strictly increasing and name existing images |
| SlideDecks.Sample | app/routes/slides.py:356-360 | at most 50 images are left unsampled; more are sampled down to exactly 50, the i-th at position floor(i x n / 50) |
| SlideDecks.AiImages | app/routes/slides.py:331-362 | 404 for an unknown deck, 403 without access, 400 unless conversion completed with slides, and 404 exactly when no slide image exists; otherwise the images sent are the sample of at most 50 taken from the existing images |
| SlideDecks.AiImagesInSlideOrder | app/routes/slides.py:347-361 | the images sent keep slide order: all existing images when there are at most 50, otherwise 50 of them taken at strictly increasing positions |
| SlideDecks.AiSave | app/routes/slides.py:379-406 | 404 and 403 as above, 400 for an empty list; otherwise one live checkpoint of the deck's course per draft, in order, with the draft's title and description and 5 minutes by default; the i-th is numbered i + 1 above the course's largest order (soft-deleted included), so 1 for a course without checkpoints |
| SlideDecks.AiSaveSplit | app/routes/slides.py:379-406 | saving drafts a + b is saving a and then saving b after them: the numbering carries on |
| SlideDecks.AiSaveOneIsCreate | app/routes/slides.py:379-406 | saving one draft makes the checkpoint the create route makes for the course instructor from the same fields |
| Checkpoints.MaxOrZero | app/routes/checkpoints.py:20 | the SQL `max(...) or 0`: at least every order of the course, attained by one of them, and 0 when the course has none |
| Checkpoints.CourseOrders | app/routes/checkpoints.py:20 | the orders the maximum ranges over include every checkpoint of the course, soft-deleted ones too, since the query does not filter on deletion |
| Checkpoints.Create | app/routes/checkpoints.py:10-31 | 404 for an unknown course, and a user other than its instructor is turned away (the route redirects; the model answers 403), refused exactly in those two cases; otherwise one checkpoint is appended, live, with the given title, description and estimated minutes, an order above every order in the course and 1 more than the largest (1 for a course without checkpoints) |
| Checkpoints.OrdersComeFromCourse | app/routes/checkpoints.py:20 | every order the maximum ranges over belongs to a checkpoint of that course |
| Checkpoints.Edit | app/routes/checkpoints.py:35-51 | 404 for an unknown checkpoint, 403 unless the caller teaches its course; otherwise exactly title, description and estimate change, and no other checkpoint does |
| Checkpoints.Delete | app/routes/checkpoints.py:55-67 | 404 for an unknown checkpoint, 403 unless the caller teaches its course; otherwise the checkpoint stays stored with `deleted_at` set to now, nothing else changed |
| Checkpoints.Reorder | app/routes/checkpoints.py:69-82 | 400 exactly when the body has no `checkpoints` list; otherwise each stored checkpoint is the result of applying the items in turn, where only the caller's own checkpoints take the order of the last item naming them |
| Checkpoints.ReorderOnlyOwnOrders | app/routes/checkpoints.py:76-79 | a reorder never touches another instructor's checkpoint, and on any checkpoint it changes nothing but the order |
| ProgressTimer.Fresh | app/routes/progress.py:26-37 | the record `start` creates is running from now with nothing accumulated |
| ProgressTimer.Elapsed | app/models.py:265-278 | a completed record with a non-zero duration reports that duration; otherwise a stopped or paused record reports its stored total and a running one adds exactly the time since it was started |
| ProgressTimer.CalculateDuration | app/models.py:260-263 | with both stamps present the duration becomes their distance; otherwise the record is untouched; no other field changes |
| ProgressTimer.Start | app/routes/progress.py:24-62 | the record is started afterwards: a missing one is created fresh, a paused or running one is kept as is, a completed one restarts from zero, a stopped one restarts keeping its total |
| ProgressTimer.Complete | app/routes/progress.py:85-117 | completion is stamped now, the clock stops, the stored total plus any running interval becomes the total, completed before or not, and the duration equals the total; with no record a zero-duration one is created |
| ProgressTimer.SocketComplete | app/events.py:115-158 | ignored for an unknown checkpoint, a user without access and an instructor; a missing record is created started and completed now with duration 0; otherwise completion is stamped and the duration is the time since the stored start, pauses and stored total not consulted; nothing else changes |
| ProgressTimer.SocketAgreesOnUninterruptedRun | app/events.py:141-157 | on a missing record, and on a record running without a break since it was created, the socket event records the same as the `complete` route |
| ProgressTimer.SocketDropsTimeBeforeResume | app/events.py:152-157 | after a pause and a resume the socket event counts only the time since the resume: 10 seconds where the `complete` route records 20 |
| ProgressTimer.Uncomplete | app/routes/progress.py:149-171 | succeeds exactly on a completed record (else 400) and clears only the completion stamp and duration |
| ProgressTimer.Pause | app/routes/progress.py:188-206 | succeeds exactly on a running record (else 400); the record is paused at now and its running interval joins the total |
| ProgressTimer.Resume | app/routes/progress.py:223-239 | succeeds exactly on a paused, uncompleted record (else 400); the clock restarts now and the total is kept |
| ProgressTimer.Stop | app/routes/progress.py:256-279 | succeeds exactly on a started, uncompleted record (else 400); the clock stops, a running interval joins the total, and the duration equals the total |
| ProgressTimer.Reset | app/routes/progress.py:312-330 | an existing record is cleared to zero with every stamp removed, a missing one stays missing |
| ProgressTimer.Step | app/routes/progress.py:9-330 | one route call on one record: start and complete always leave a record, only reset removes one, and reset is exactly `Reset` |
| ProgressTimer.StepKeepsValid | app/routes/progress.py:9-330 | one call at a later instant keeps the record well formed (a pause stamp exactly while paused, a non-negative total, a start stamp in the past) |
| ProgressTimer.ReplayKeepsValid | app/routes/progress.py:9-330 | any chronological sequence of route calls keeps the record well formed; in particular the accumulated total is never negative |
| ProgressTimer.TransitionsKeepElapsed | app/models.py:265-278 | pausing, resuming, stopping and completing do not change the elapsed time read at the instant of the call |
| ProgressTimer.ElapsedMonotone | app/models.py:265-278 | with no call in between, elapsed time never decreases, and is constant unless the clock runs |
| ProgressTimer.ResetIdempotent | app/routes/progress.py:312-330 | resetting twice is resetting once |
| ProgressTimer.CompleteThenUncompleteKeepsTotal | app/routes/progress.py:149-171 | reopening a record just completed succeeds and keeps the elapsed total it had at completion |
| ProgressTimer.UninterruptedRunAgreesWithCalculateDuration | app/models.py:260-263 | for a run with no pause the route's duration equals the one `calculate_duration` derives from the two stamps |
| ProgressTimer.PairsThenStop | app/routes/progress.py:188-279 | from a running record, any number of pause/resume pairs and a stop accumulate exactly the sum of the running intervals, which also becomes the duration |
| ProgressTimer.SessionAdditivity | app/routes/progress.py:9-279 | start, any number of pause/resume pairs and stop leave a stopped record whose total and duration are the sum of the running intervals |
| ProgressTimer.ModeOf | app/routes/progress.py:22 | a missing `mode` means `self_paced`, and only an explicit JSON null gives no mode |
| ProgressTimer.Route | app/routes/progress.py:11-24 | 404 for an unknown checkpoint, then 403 for a caller neither enrolled nor teaching; otherwise only the record under (user, checkpoint, mode) changes, as one `Step`, and the only refusals left are the 400s of the four conditional transitions |
| Subjects.EnrollSubject | app/routes/subjects.py:307-350 | refused exactly for instructors and for missing, deleted or hidden subjects; any existing enrolment leaves everything unchanged; otherwise an approved enrolment is written and the course enrolments grow by exactly the eligible courses |
| Subjects.EnrollSubjectCount | app/routes/subjects.py:324-347 | the number of course enrolments a first enrolment in an open subject reports is exactly the number of eligible courses the user was not already enrolled in |
| Subjects.EnrollThenAgain | app/routes/subjects.py:324-347 | when a non-instructor with no enrolment enrols in an open subject, the user is approved and enrolled in every non-deleted, non-private course, and enrolling again changes nothing |
| Subjects.EnrollByCode | app/routes/subjects.py:386-431 | instructors, an empty code and an unknown code are refused; a successful enrolment by code enrols in the subject the code names |
| Subjects.ByCodeIsEnrollSubject | app/routes/subjects.py:394-400 | enrolling by any typed text that strips and upper-cases to a known, non-empty code is enrolling in the subject that code names |
| Subjects.LowerCaseCodeEnrolls | app/routes/subjects.py:394 | a generated code typed in lower case enrols in the same subject, since the code is stripped and upper-cased before lookup |
| Subjects.MemberRole | app/routes/subjects.py:1056-1058 | the member role an approval grants is ta or auditor when that was requested and student in every other case |
| Subjects.Approve | app/routes/subjects.py:1032-1075 | refused exactly unless the caller's own enrolment is pending; then it becomes approved (stamped now), a member record is created only when none exists, and the eligible courses are enrolled |
| Subjects.Reject | app/routes/subjects.py:1078-1100 | refused exactly unless the caller's own enrolment is pending; then it becomes rejected (stamped now) and nothing else changes |
| Subjects.AdminApprove | app/routes/subjects.py:1103-1161 | refused for anyone without subject access, and otherwise the same approval as the self-service one |
| Subjects.AdminReject | app/routes/subjects.py:1164-1201 | refused for anyone without subject access, and otherwise the same rejection as the self-service one |
| Subjects.DecidedOnce | app/routes/subjects.py:1044-1097 | a pending enrolment is decided once: after approval the user is a member (a new one as student, ta or auditor) and after either decision neither approval nor rejection applies again |
| Subjects.ChangeStatus | app/routes/subjects.py:1204-1246 | refused exactly without subject access or without an enrolment; only the statuses approved, pending and rejected and the roles student and ta are applied, nothing applicable means no write; rejection stamps `rejected_at`, approving a non-approved enrolment clears it, and no other enrolment changes |
| Subjects.ChangeStatusStaysInRange | app/routes/subjects.py:1229-1244 | a status change keeps the enrolment among the three statuses, grants no role but student or ta, and a new rejection is stamped now |
| Subjects.ApplyRole | app/routes/subjects.py:1263-1301 | refused exactly for a role other than ta or auditor or a missing subject; an approved or pending enrolment blocks it; otherwise the enrolment (kept or new) is pending with the requested role and its creation time is kept |
| Subjects.ApplyThenApprove | app/routes/subjects.py:1270-1301 | applying for ta or auditor and having it approved makes the user a member with exactly that role |
| Subjects.EnrollmentRole | app/routes/subjects.py:718 | an invitation records instructor and assistant as student and keeps every other role |
| Subjects.AddMember | app/routes/subjects.py:688-771 | refused exactly without subject access, for an unknown role or an unknown user; an existing member only has its role replaced and nothing is enrolled; an approved enrolment stops it; otherwise only that enrolment is written (an existing one keeps its creation time, a new one is created now), pending with nothing else changed when approval is required, else approved and stamped now together with the member record and the course enrolments, reporting the number of courses newly enrolled |
| Subjects.InvitedStaffJoinAsStudents | app/routes/subjects.py:718-757 | an instructor or assistant invited with approval required becomes a student member on approving, while a direct add keeps the staff role |
| Subjects.NumberKey | app/routes/subjects.py:135 | a missing or zero order or week number sorts as 9999, any other number as itself |
| Subjects.StrLeTotal | app/routes/subjects.py:135 | the creation-time component of the sort key orders any two strings |
| Subjects.KeyLeTotal | app/routes/subjects.py:135 | the course sort key orders any two courses, so sorting by it is well defined |
| Subjects.Insert | app/routes/subjects.py:135 | inserting into a list sorted by the key keeps it sorted and adds exactly the one course |
| Subjects.SortByKey | app/routes/subjects.py:135 | the result is sorted by the key and is a permutation of the input |
| Subjects.Live | app/routes/subjects.py:134 | the filter keeps every non-deleted course as often as it occurred and no deleted one |
| Subjects.CourseListing | app/routes/subjects.py:132-135 | the subject page lists exactly the non-deleted courses, as a permutation of them, sorted by the key |
| Subjects.ListingFollowsOrderNumbers | app/routes/subjects.py:135 | order numbers never decrease along the listing, so unnumbered courses come after numbered ones |
| Subjects.ValidEmailHasOneAt | app/routes/subjects.py:933-935 | an address the import's email pattern accepts contains exactly one `@` |
| Subjects.DomainHasNoAt | app/routes/subjects.py:934 | the domain part the pattern accepts contains no `@` |
| Subjects.RowRole | app/routes/subjects.py:929-941 | the role read from a row is instructor, assistant or student: the stripped lower-cased cell when it is one of those, student when the cell is empty or anything else |
| Subjects.ReadRow | app/routes/subjects.py:924-941 | a row with no first cell is skipped, a one-cell row aborts the import, and the stripped address is reported as bad exactly when the pattern rejects it; an accepted entry carries the stripped address, the normalised role and the stripped name when the third cell is non-empty |
| Subjects.RoleDisplay | app/routes/subjects.py:12-23 | the five member roles get a label of their own and every other string is shown as it is |
| Subjects.MemberRoleDisplay | app/firestore_models.py:1143-1149 | the member model labels only instructor, assistant and student, and shows any other role as it is |
| Subjects.RoleLabelsAgree | app/firestore_models.py:1143-1149 | the two label tables agree on the staff roles and on unknown roles but give student different labels |
| Sessions.FormAt | app/routes/sessions.py:25-27 | the first link form, in the pattern's alternation order, that matches at a position followed by eleven id characters, and none only when no form matches there |
| Sessions.SearchFrom | app/routes/sessions.py:29-32 | a search hit is always an eleven-character id over letters, digits, `_` and `-` |
| Sessions.VideoId | app/routes/sessions.py:22-33 | a missing or empty link gives no id; any id returned has eleven characters from the id alphabet |
| Sessions.ShortLinkRoundTrip | app/routes/sessions.py:22-33 | the id of a `youtu.be/` link comes back out unchanged |
| Sessions.LogWatch | app/routes/sessions.py:109-132 | the stored seconds become the larger of stored and reported, a new play adds exactly one play, and the percentage is recomputed only for a positive length: 100 exactly when the seconds reach the length, otherwise watched over length times 100 |
| Sessions.PercentOfPositive | app/routes/sessions.py:126 | the percentage formula times the length gives back 100 times the watched seconds, and is non-negative for non-negative seconds |
| Sessions.WatchedIsRunningMax | app/routes/sessions.py:121 | over any run of reports the stored seconds are the largest seen: never below the start or any report, and always one of them |
| Sessions.CorrectCount | app/routes/sessions.py:444-449 | the result page counts at most one correct answer per question |
| Sessions.ScoreBounds | app/routes/sessions.py:332-372 | with non-negative points the score lies between 0 and the maximum fixed at start, and a fully correct submission scores the maximum |
| Sessions.SixtyPercent | app/routes/sessions.py:385 | the integer form of the pass rule is exactly `score >= max_score * 0.6` |
| Sessions.OpenAttempt | app/firestore_dao.py:924-936 | the intended lookup: the attempt found is the newest incomplete attempt of that user in that course (no later one is incomplete), and none is found exactly when no such attempt exists |
| Sessions.WrittenOpenAttempt | app/firestore_dao.py:924-936 | the lookup as written: the attempt found is one whose stored `completed` field is false, and none is found exactly when no attempt of the user in the course has that field false |
| Sessions.StartQuiz | app/routes/sessions.py:312-344 | with the intended lookup: 404 without a course, 400 unless it is a quiz, 403 unless enrolled; an open attempt is returned unchanged; otherwise one attempt is appended whose maximum is the sum of the questions' points |
| Sessions.QuizGate | app/routes/sessions.py:316-324 | the quiz routes go on exactly when the course exists, is a quiz and the user is enrolled; otherwise 404, 400 or 403, and 404 without a course |
| Sessions.StartQuizAsWritten | app/routes/sessions.py:312-344 | the start route with the lookup as written: the same guards, and a new attempt whenever the lookup finds none |
| Sessions.StartQuizIsIdempotent | app/routes/sessions.py:326-329 | with the intended lookup, starting again returns the same attempt and changes nothing, and no user ever has two open attempts in one course (as written this fails: Sessions.QuizAsWrittenNeverFindsAttempt) |
| Sessions.SubmitQuiz | app/routes/sessions.py:346-403 | with the intended lookup: the start guards, then 400 without an open attempt; the open attempt is scored and closed, the pass uses the course's pass score when set and 60% of the maximum otherwise, and a pass adds a `quiz_pass` completion only when none exists |
| Sessions.SubmitQuizAsWritten | app/routes/sessions.py:346-403 | the submit route with the lookup as written: the same guards, and 400 whenever the lookup finds none |
| Sessions.QuizAsWrittenNeverFindsAttempt | app/firestore_dao.py:931-933 | as written, when every stored attempt lacks the `completed` field, two starts store two open attempts and a submission after a start is refused with 400 |
| Sessions.StartThenSubmit | app/routes/sessions.py:326-378 | with the intended lookup a submission right after a start succeeds and closes the attempt the start returned |
| Sessions.SubmitClosesAttempt | app/routes/sessions.py:374-378 | with the intended lookup, after a submission the user has no open attempt in the course and nobody has two |
| Sessions.QuizComment | app/routes/sessions.py:463-472 | a pass congratulates; otherwise at most 20% wrong answers is "almost", more than 50% wrong is "start over", and the middle band is "review" |
| Sessions.CommentIsMonotone | app/routes/sessions.py:463-472 | more correct answers never earn harsher advice |
| Sessions.MarkComplete | app/routes/sessions.py:484-511 | 404 and 403 guards, then a manual completion exists afterwards and an existing one is left untouched |
| Sessions.MarkUncomplete | app/routes/sessions.py:513-529 | 404 and 403 guards, then the completion is gone and every other one is kept |
| Sessions.MarkCompleteIdempotent | app/routes/sessions.py:498-529 | a second completion changes nothing, and un-completing undoes a first completion |
| Sessions.LogPageTime | app/routes/sessions.py:531-574 | the reported seconds are added to the stored total; a video session whose total reaches the minimum (the course's non-zero value, else 60) and has no completion gets an `auto_time` completion, and completions are otherwise unchanged |
| Sessions.AutoCompletesOnce | app/routes/sessions.py:557-567 | once a report has completed the session automatically no later report does it again |
| Sessions.PageTimeAccumulates | app/routes/sessions.py:545-553 | two reports in a row add up: the second total is the first plus the new seconds |
| Sessions.EarnedBounds | app/routes/sessions.py:368-372 | with non-negative points, the points earned over the questions lie between 0 and the sum of all points, and equal that sum when every question is marked correct |
| Enrollments.Enroll | app/firestore_dao.py:270-277 | afterwards the user is enrolled with the creation time now, the pair is the only key added, and every other enrolment is unchanged |
| Enrollments.Unenroll | app/firestore_dao.py:280-282 | afterwards the user is not enrolled, only that pair's document is gone, and every other enrolment is unchanged |
| Enrollments.EnrollIsUpsert | app/firestore_dao.py:270-277 | a second create under the composite id replaces the first rather than adding a document, and a create adds a document only for a new pair |
| Enrollments.EnrollTouchesOnePair | app/firestore_dao.py:270-304 | enrolling changes the answer of `is_enrolled` for exactly one pair, and a delete undoes any create of its pair |
| Enrollments.TargetsAreEligibleCourses | app/routes/subjects.py:337-338 | a pair is enrolled by a subject enrolment exactly when it joins the user to a listed course that is neither deleted nor private |
| Enrollments.AutoEnroll | app/routes/subjects.py:337-347 | after the loop the enrolments are the old ones plus exactly the eligible courses, existing enrolments are untouched and new ones are stamped now |
| Enrollments.AutoEnrollCount | app/routes/subjects.py:339-347 | the count the loop reports is the number of eligible courses the user was not yet enrolled in |
| Enrollments.AutoEnrollIdempotent | app/routes/subjects.py:339-347 | running the loop a second time creates nothing and reports zero |
| Enrollments.Created | app/firestore_dao.py:330-337 | a new subject enrollment document carries the given status and role, is stamped with the current time as its creation, and has no approval, rejection or update time yet |
| Community.CreateGroup | app/routes/community.py:264-302 | a new group is recruiting with the given maximum and one member, its creator, whose membership is already approved; no other group changes |
| Community.Join | app/routes/community.py:338-371 | refused for a missing group, for a user with any membership in it, and for a full group; otherwise exactly one pending request is added and nothing else changes |
| Community.CreateThenJoin | app/routes/community.py:338-371 | a new group already counts its creator: the creator's request is refused as a repeat, another user's request is taken exactly when max_members exceeds 1 and refused as full otherwise, and approving it brings the group to two members |
| Community.JoinKeepsOneMembershipEach | app/routes/community.py:348-367 | joining never gives a user a second membership of the same group |
| Community.Guard | app/routes/community.py:373-398 | approval and rejection proceed exactly when the group exists, the caller created it, and the member belongs to that group |
| Community.Approve | app/routes/community.py:373-412 | past the guard the membership becomes approved and the member count grows by exactly one; capacity and every other group are untouched |
| Community.ApproveIgnoresCapacity | app/routes/community.py:400-408 | a group already holding its maximum still takes an approval and ends above its maximum |
| Community.Reject | app/routes/community.py:414-446 | past the guard the membership is deleted and nothing else changes |
| Community.RejectAllowsRejoin | app/routes/community.py:348-367 | after a rejection the user has no membership left, so a new join is not refused as a repeat |
| Community.AcceptAnswer | app/routes/community.py:209-237 | 404 for a missing question, 403 for anyone but its author, refused for an answer that is missing or belongs to another question; otherwise exactly that answer is marked accepted and the question resolved |
| Community.AcceptResolves | app/routes/community.py:232-233 | after accepting, the question is resolved and the answer accepted, and accepting again changes nothing |
| Community.InsertAnswer | app/routes/community.py:175 | inserting into an ordered answer list keeps it ordered and adds exactly that answer |
| Community.OrderAnswers | app/routes/community.py:175 | the answer list is a permutation of the fetched answers, accepted first and then by likes descending |
| Community.AcceptedFirst | app/routes/community.py:175 | along the ordered list no unaccepted answer precedes an accepted one, and among equals likes never increase |
| Community.CountView | app/routes/community.py:60-69 | a view of an existing document stores and shows its count (0 when missing) plus one; a missing document gives nothing |
| Community.Like | app/routes/community.py:104-113 | 404 exactly for a missing review; otherwise its like count (0 when missing) grows by one and is returned |
| Community.ViewsAdd | app/routes/community.py:161-170 | two views add exactly two |
| Community.FilterPosts | app/routes/community.py:116-128 | the resolved filter keeps exactly the resolved posts, the unresolved filter exactly the others, each as often as fetched, and any other tab keeps the list |
| Community.FiltersPartition | app/routes/community.py:122-125 | the two filters together hold every fetched post exactly as often as the full list |
| Attendance.MarkOne | app/routes/attendance.py:41-84 | refused exactly for anyone but the course's instructor; otherwise the one row of (course, user, session) holds the given status (present by default), the notes (empty by default), now and the instructor, and no other row changes |
| Attendance.BulkMark | app/routes/attendance.py:126-165 | refused exactly for anyone but the course's instructor; otherwise one upsert per entry in order, and the reported count is the number of entries, repeats included |
| Attendance.ListedNamesEntries | app/routes/attendance.py:139-146 | a row is touched by a bulk request exactly when some entry names its user in that course and session |
| Attendance.BulkTouchesListed | app/routes/attendance.py:139-161 | a bulk mark adds exactly the listed rows, never a second row for a listed one, and leaves every other row as it was |
| Attendance.BulkLastEntryWins | app/routes/attendance.py:139-161 | a listed row ends with the status of its user's last entry (present when missing), checked by the instructor |
| Attendance.SelfCheck | app/routes/attendance.py:86-124 | 404 without the course, 403 unless enrolled, 400 without an open session; an existing row is returned as it is, otherwise a present row is inserted |
| Attendance.SelfCheckIdempotent | app/routes/attendance.py:105-116 | checking in twice is checking in once, and a check-in never overrides a status the instructor set |
| Attendance.CountStatus | app/routes/attendance.py:192-195 | a status is counted at most once per session |
| Attendance.CountsWithinSessions | app/routes/attendance.py:192-195 | present, late and absent together never exceed the number of sessions |
| Attendance.NoRowsMeansAbsent | app/routes/attendance.py:179-195 | a student with no rows is absent from every session and present at none |
| Attendance.StudentSummary | app/routes/attendance.py:167-206 | 404 without the course or the student, 403 for anyone but the instructor or the student; the present, late and absent counts are the numbers of sessions with that status, within the number of sessions, and the rate is the present share in percent, 0 without sessions |
| Attendance.CountIsMultiplicity | app/routes/attendance.py:179-195 | the count of a status is its multiplicity among the sessions' statuses |
| Attendance.CountsCoverSessions | app/routes/attendance.py:179-195 | when every session's status is present, late or absent, the three counts add up to the number of sessions |
| Attendance.SummaryCountsRecords | app/routes/attendance.py:167-206 | the summary's counts are the multiplicities of the statuses, and with only the three statuses they add up to the total |
| Attendance.UpsertAsWritten | app/firestore_dao.py:729-738 | the document-store upsert as written: one document per (course, user, session), `updated_at` stamped now, and a `created_at` always present |
| Attendance.AsWrittenResetsCreation | app/firestore_dao.py:735-737 | as written, updating a stored record without a `created_at` in the request overwrites its creation time with the update time |
| Attendance.ReMarkedRecordLosesCreation | app/firestore_dao.py:729-738 | a record created at time 100 and re-marked at 200 reports being created at 200 |
| Attendance.Upsert | app/firestore_dao.py:729-738 | the upsert as intended: one document per key, `updated_at` stamped now, every requested field written, other documents untouched |
| Attendance.UpsertKeepsCreation | app/firestore_dao.py:729-738 | with the corrected upsert a record's creation time survives every later upsert and re-marking never adds a document |
| Notifications.Create | app/firestore_dao.py:754-759 | exactly one notification is added under a new id for the given user, read as stated or unread by default, created at the given time or now, and nothing else changes |
| Notifications.CreateCountsUnread | app/firestore_dao.py:754-759 | creating a notification raises the user's unread count by one unless it is created read |
| Notifications.CreateKeepsOthers | app/firestore_dao.py:754-759 | creating a notification leaves every other user's unread count unchanged |
| Notifications.Read | app/firestore_dao.py:772-777 | a read mark sets the flag and stamps the read time, keeping owner and creation time |
| Notifications.MarkRead | app/firestore_dao.py:772-777 | fails exactly for a missing notification; otherwise only that notification is marked read |
| Notifications.Batches | app/firestore_dao.py:780-799 | the commits cover the streamed ids in order, none is empty, every batch but the last holds exactly 500 writes, and there are as many commits as 500 goes into the count, rounded up |
| Notifications.CommitFull | app/firestore_dao.py:795-797 | appending a full batch keeps every committed batch at exactly 500 writes |
| Notifications.Commit | app/firestore_dao.py:780-799 | committing the batches in order applies the updates of the whole stream in order |
| Notifications.MarkAllRead | app/firestore_dao.py:780-799 | every unread notification of the user ends read at the same instant, nothing else changes, and the writes go out in batches of at most 500 covering the stream |
| Notifications.ReadAll | app/firestore_dao.py:791-793 | read marks never add or remove a notification |
| Notifications.ReadAllConcat | app/firestore_dao.py:791-799 | applying two runs of updates is applying their concatenation |
| Notifications.ReadAllMarks | app/firestore_dao.py:791-793 | updating distinct existing ids reads each of them once and touches nothing else |
| Notifications.CountStep | app/firestore_dao.py:794-795 | one write moves the count's remainder and quotient by 500 as the commit test expects |
| Notifications.BatchCount | app/firestore_dao.py:795-799 | the number of commits is the full batches plus one for a remainder |
| Notifications.FlattenSnoc | app/firestore_dao.py:795-799 | committing one more batch extends the committed ids by that batch |
| Notifications.MarkAllReadClears | app/firestore_dao.py:780-811 | afterwards the user's unread count is 0 and no other user's unread notifications change |
| Courses.ByCode | app/routes/courses.py:101 | the lookup finds a course exactly when some course has that code, and the course it finds has it |
| Courses.ByCodeFindsTheRow | app/routes/courses.py:101 | with unique codes, a course's own code finds that course and no other |
| Courses.Listing | app/routes/courses.py:9-17 | an instructor lists exactly the courses they teach, anyone else exactly the courses they are enrolled in |
| Courses.Create | app/routes/courses.py:19-39 | refused with 403 exactly for non-instructors; otherwise exactly one course is added, taught by the creator with the generated code, and the codes stay unique |
| Courses.View | app/routes/courses.py:41-59 | 404 exactly for an unknown course; the instructor page exactly for an instructor who teaches it; the student page exactly for anyone else who is enrolled; everyone else is turned away |
| Courses.ViewAdmitsLessThanForum | app/routes/courses.py:46-56 | everyone the course page admits, the forum admits too, while an enrolled instructor who does not teach the course is admitted by the forum and turned away by the page |
| Courses.Edit | app/routes/courses.py:61-77 | refused exactly for anyone but the course's instructor (404 for an unknown course); otherwise only title and description of that course change |
| Courses.Delete | app/routes/courses.py:79-90 | refused exactly for anyone but the course's instructor; otherwise the course and, by the cascade, exactly its enrolments are gone |
| Courses.RegenerateCode | app/routes/courses.py:137-146 | refused exactly for anyone but the course's instructor; otherwise the new code finds the course, the old code finds nothing, and nothing else changes |
| Courses.OwnerOnlyChanges | app/routes/courses.py:65-85 | an accepted edit or delete was asked for by the course's instructor, and anyone else gets 403 for both |
| Courses.DeletedCourseIsGone | app/routes/courses.py:79-90 | the instructor's delete succeeds, after which the course page answers 404 and no listing shows the course |
| Courses.Enroll | app/routes/courses.py:92-116 | instructors are turned away; the code is upper-cased and looked up, an unknown code enrols nothing, an existing enrolment is reported and nothing added, and otherwise exactly that one pair is added |
| Courses.EnrollTwiceIsOnce | app/routes/courses.py:106-108 | enrolling with the same code again adds nothing and reports the existing enrolment |
| Courses.LowerCaseCodeEnrolls | app/routes/courses.py:101 | a generated code typed in lower case finds its course |
| Courses.SpacedCodeIsInvalid | app/routes/courses.py:101-104 | a code with a trailing space finds no course, since this form upper-cases but does not strip |
| Forum.CreatePost | app/routes/forum.py:27-59 | 404 for an unknown course, 403 without course access, refused when the stripped title or content is empty; otherwise exactly one post is added with the stripped texts and the poster as author |
| Forum.AddComment | app/routes/forum.py:74-97 | 404 for an unknown post, 403 without access to its course, refused for a blank comment; otherwise exactly one comment is added with the stripped text |
| Forum.DeletePost | app/routes/forum.py:99-112 | 404 for an unknown post; allowed exactly for its author or the course's instructor, and then the post and exactly its comments are gone |
| Forum.DeleteComment | app/routes/forum.py:114-128 | 404 for an unknown comment; allowed exactly for its author or the course's instructor, and then only that comment is gone |
| Forum.StoredTextIsClean | app/routes/forum.py:36-41 | every stored title, content and comment is non-empty and has no surrounding whitespace |
| Forum.CommentThenDeleteIsNoOp | app/routes/forum.py:74-128 | a comment its author deletes again leaves the board as it was |
| Forum.DeleteIgnoresAccess | app/routes/forum.py:99-112 | an author who has lost course access may still delete their post, and anyone neither author nor instructor may not, whatever their access |
| Guide.IndexCategory | app/routes/guide.py:25-28 | the index shows the requested category when it is one of the six and `notice` otherwise |
| Guide.Pin | app/routes/guide.py:75 | a post is pinned exactly when the box was ticked by an admin |
| Guide.CreatePost | app/routes/guide.py:58-100 | an unknown category is refused, an admin-only one needs an admin, blank title or content is refused; otherwise exactly one post is added with the stripped texts, the pin rule, unanswered and no views |
| Guide.ViewPost | app/routes/guide.py:42-55 | 404 exactly for a missing post; otherwise its view count grows by one and nothing else changes |
| Guide.EditPost | app/routes/guide.py:103-130 | 404 for a missing post; succeeds exactly for the author or an admin with non-blank texts, replacing title and content by the stripped texts and setting the pin anew, so a non-admin's edit unpins |
| Guide.DeletePost | app/routes/guide.py:133-147 | 404 for a missing post; allowed exactly for the author or an admin, and then the post and exactly its comments are gone |
| Guide.AddComment | app/routes/guide.py:150-174 | 404 for a missing post, refused for a blank comment; otherwise exactly one comment is added recording whether an admin wrote it, and an admin's comment on a Q&A post marks it answered, nothing else changing |
| Guide.DeleteComment | app/routes/guide.py:177-191 | 404 for a missing comment; allowed exactly for its author or an admin, and then only that comment is gone |
| Guide.ToggleAnswered | app/routes/guide.py:194-204 | the admin check comes first (403 even for a missing post), then 404; otherwise only the answered flag of that post flips |
| Guide.ToggleTwiceRestores | app/routes/guide.py:194-204 | toggling twice restores the board |
| Guide.AdminPrivileges | app/routes/guide.py:75-169 | a pinned post after a create or an edit, and a post newly answered by a comment, were the work of an admin |
| Guide.UserRolesAreNotGuideAdmins | app/routes/guide.py:19-20 | none of the roles users actually carry is `admin`, so their holders cannot post in an admin-only category or toggle the answered flag |
| Auth.LStrip | app/routes/auth.py:52 | drops exactly the leading run of control characters and spaces: the result is a suffix, everything dropped is such a character and the result does not start with one |
| Auth.RemoveUnsafe | app/routes/auth.py:52 | splitting deletes every tab and line break, leaving none |
| Auth.RemoveUnsafeAppend | app/routes/auth.py:52 | deleting tabs and line breaks works piece by piece |
| Auth.RemoveUnsafeKeeps | app/routes/auth.py:52 | a text without tabs and line breaks is kept as it is |
| Auth.FirstOf | app/routes/auth.py:52 | the position found is the first character from the stop set, or the end when there is none |
| Auth.SplitScheme | app/routes/auth.py:52 | a scheme is split off only when the text before the first `:` is a letter followed by scheme characters, and then the rest is what follows that `:` |
| Auth.SplitNetloc | app/routes/auth.py:52 | a network location never contains `/`, `?` or `#` |
| Auth.UrlSplit | app/routes/auth.py:51-52 | the network location of a split URL never contains `/`, `?` or `#` |
| Auth.IsSafeUrl | app/routes/auth.py:48-53 | an empty target is unsafe; a safe target has an empty, http or https scheme and exactly the application's network location; any other network location is unsafe; a malformed target raises |
| Auth.LoginRedirect | app/routes/auth.py:136-142 | after login the `next` target is followed exactly when it is given and safe, and the dashboard is used otherwise |
| Auth.FirstOfPrefix | app/routes/auth.py:52 | the first stop in a prefix is the first stop of the whole text |
| Auth.FirstOfAfter | app/routes/auth.py:52 | with no stop in the prefix and a stop (or nothing) right after it, the first stop is at the prefix's end |
| Auth.SanitizePrefix | app/routes/auth.py:52 | a prefix free of control characters and spaces comes through the clean-up unchanged |
| Auth.SchemeSplits | app/routes/auth.py:52-53 | a scheme name followed by `:` splits off as the lower-cased name |
| Auth.RelativePathIsRefused | app/routes/auth.py:48-53 | a relative path `/...` is refused whatever the host, since its network location is empty |
| Auth.SanitizeKeepsClean | app/routes/auth.py:52 | a clean text is unchanged by the clean-up |
| Auth.NoSchemeWithoutLetter | app/routes/auth.py:52 | a text that does not start with a letter has no scheme |
| Auth.ScriptSchemeIsRefused | app/routes/auth.py:48-53 | a `javascript:` target is never accepted, whatever follows |
| Auth.OwnHostIsAccepted | app/routes/auth.py:48-53 | a scheme-relative link `//host...` to the application's own host is accepted whatever path follows |
| Auth.NetlocRestClean | app/routes/auth.py:52 | `//host` plus a path without control characters has nothing for the clean-up to delete |
| Auth.OwnNetloc | app/routes/auth.py:52 | the network location of `//host` followed by a path is the host |
| Auth.Base | app/routes/auth.py:64 | the username base is the text before the first `@` and holds no `@` |
| Auth.CandidateInjective | app/routes/auth.py:64-69 | the names tried (base, base1, base2, ...) are all different |
| Auth.CandidatesCount | app/routes/auth.py:64-69 | the first n names tried are n different names |
| Auth.Pigeonhole | app/routes/auth.py:67-69 | n taken candidates need at least n taken names, so the loop ends |
| Auth.Username | app/routes/auth.py:64-69 | the username chosen is not taken, and is the first of base, base1, base2, ... that is free |
| Auth.Forgot | app/routes/auth.py:170-189 | an unknown email files nothing; a known one files exactly one ticket under the new token, for that user and email, expiring one hour from now |
| Auth.Reset | app/routes/auth.py:192-220 | an unknown token is refused; an expired one is deleted and refused; a submitted form whose password update succeeds resets the ticket's user's password and consumes the ticket |
| Auth.TicketLifecycle | app/routes/auth.py:176-220 | a ticket works for exactly one hour after it is issued and only once; an expired ticket is gone after the first refusal |
| Auth.Extension | app/routes/auth.py:268 | the extension is the lower-cased text after the last dot, empty without a dot, and never holds a dot |
| Auth.CheckImage | app/routes/auth.py:262-293 | no file name does nothing; an extension other than png, jpg or jpeg is refused first; then more than 1 MiB is refused; otherwise the image is accepted with its extension |
| Auth.ExtensionIsAfterLastDot | app/routes/auth.py:268 | for an extension of one dot followed by no dot, the extension of `<name><ext>` is the text after that dot lower-cased, whatever dots the name holds |
| Auth.UpperCaseExtensionPasses | app/routes/auth.py:268-269 | `photo.PNG` is accepted as png |
| Auth.LastExtensionCounts | app/routes/auth.py:268-269 | a name ending in `.exe` is refused whatever comes before, so `x.png.exe` does not pass |
| Auth.UpdateBasicInfo | app/routes/auth.py:295-320 | a changed email is refused exactly when another user has it, then fails when the identity provider refuses it; otherwise email and phone are saved; an unchanged email skips both checks |
| Auth.EmailsStayUnique | app/routes/auth.py:297-318 | saving basic information keeps every user's email distinct |
| Auth.RequestVerification | app/routes/auth.py:354-360 | a verified instructor's request changes nothing; otherwise only the request time of that user is stamped now |
| Text.TrimLeft | app/routes/forum.py:36 | the leading part removed is all whitespace and what remains starts with a non-space (the left half of `str.strip`) |
| Text.TrimRight | app/routes/forum.py:36 | the trailing part removed is all whitespace and what remains ends with a non-space (the right half of `str.strip`) |
| Text.Strip | app/routes/forum.py:36-37 | the stripped field is a slice of the input with only whitespace cut on either side, and has no surrounding whitespace; an already trimmed value is kept as is |
| Text.StripEmptyIffBlank | app/routes/forum.py:36-41 | the stripped field is empty exactly when the input was all whitespace, which is what the "title and content required" refusal tests |
| Text.StripIdempotent | app/routes/forum.py:36-37 | stripping a stripped value changes nothing |
| Text.Lower | app/routes/subjects.py:930 | `str.lower` maps each character and keeps the length |
| Text.Upper | app/routes/subjects.py:394 | `str.upper` maps each character and keeps the length |
| Text.CaseFolding | app/routes/subjects.py:394 | upper- and lower-casing are idempotent and lower-casing forgets an earlier upper-casing, so an upper-cased invite code compares case-insensitively |
| Text.LastIndexOf | app/routes/auth.py:268 | the last occurrence of a character (as `rsplit(sep, 1)` finds it): none exactly when absent, otherwise at that index with no occurrence after it |
| Text.SplitExt | app/routes/slides.py:40 | `os.path.splitext`: root and extension concatenate back to the path; the extension is empty or starts at the last dot of the base name, when that dot follows a non-dot; with no extension no dot of the base name follows a non-dot |
| Text.Split | app/firestore_models.py:1040 | `str.split` on one separator gives at least one part and no part contains the separator |
| Text.SplitJoin | app/firestore_models.py:1040 | joining the parts of a split with the separator gives back the original string |
| Text.NatToString | app/routes/auth.py:68 | the decimal form of a counter is a non-empty digit string without leading zero |
| Text.NatToStringRoundTrip | app/routes/auth.py:68 | reading the digits of the decimal form back gives the number |
| Text.NatToStringInjective | app/routes/auth.py:64-69 | distinct counters give distinct suffixes, so the username candidates tried are pairwise different |
| Text.ParseInt | app/routes/slides.py:39-42 | a parse succeeds only on a stripped run of digits with at most one leading sign, and its value is the digits' value, negated after a minus sign; other file names are the ValueError the route turns into 404 |
| Text.ParseDigits | app/routes/slides.py:40 | `int()` of a digit string is the value of its digits |
| Text.ParseIntOfNatToString | app/routes/slides.py:40 | `int()` reads back every decimal form `str()` writes |
| Text.SignedParse | app/routes/slides.py:40 | `int()` reads a signed decimal form back to the signed value |
| Text.Field | app/routes/forum.py:35-38 | a form field is kept exactly when its stripped text is non-empty, and then it is that stripped text, which has no surrounding whitespace |
| Text.SplitExtOfName | app/routes/slides.py:40 | a name made of a non-empty stem without dots or slashes and an extension of one dot and no further dot splits into exactly that stem and extension |
| Text.SplitOfJoin | app/firestore_models.py:1040 | splitting pieces joined by a separator none of them contains gives back the pieces |

## Left out

- Storage, sockets and identity: every document-store, SQL, Socket.IO and Firebase call is replaced by finite maps passed in and returned, and by parameters (the verified session claims, the current time). Broadcasts, flashes, redirects and rendered pages are not modelled beyond the status or reply kind they stand for.
- Time is an integer number of seconds supplied by the caller. Python `datetime` arithmetic on whole seconds is exact, so `int(total_seconds())` needs no rounding.
- Floating-point values are modelled exactly: percentages as `real`, and the fixed fractions of the source by cross-multiplication (0.6 for the quiz pass mark, 0.7 for lagging students, 0.2 and 0.5 for the quiz comment tiers, the flag rate). Python's float rounding and the attendance rate's rounding to one decimal are not modelled.
- Text is handled character by character with ASCII case mapping. Whitespace is what `str.strip` removes among ASCII characters: space, `\t` to `\r`, and `\x1c` to `\x1f`. Unicode case folding and non-ASCII whitespace are not modelled.
- Text.ParseInt: Python's `int()` also accepts underscores between digits (`1_0`) and non-ASCII decimal digits, and the model rejects both. For a file named `1_0.png`, `serve_slide_image` (app/routes/slides.py:40) serves slide 10 where the model answers 404.
- The slide converter (LibreOffice and PDF rasterising), the AI client, file storage and signed URLs are external processes. Their outcome is a parameter: conversion success with a slide count, or failure.
- The two YouTube link patterns are written out as their literal link forms followed by eleven id characters, searched leftmost-first the way `re.search` does. No general regular-expression engine is modelled.
- Live-session status transitions and `delete_deck` are broadcast and file-deletion glue with no state rule beyond the owner checks modelled elsewhere. The `checkpoint_completed` event is modelled by ProgressTimer.SocketComplete only as far as the progress record goes; its `progress_update` broadcast is not modelled.
- Notification text and `get_notifications` paging are left out; only creation, read marks and `mark_all_read` are modelled.
- The read-only JSON reports `student_progress` and `course_progress` (app/routes/progress.py:281-295 and 332-400) are left out; they only read the progress store that `ProgressTimer` models.
- Password, nickname and profile-URL form plumbing, Firebase sign-in and the user creation in `register` are left out. Only the username de-duplication, reset tickets, image checks, the email-uniqueness check and the basic-info update are modelled.
- The order in which a query streams documents is left out wherever the result does not depend on it. `mark_all_read` takes the stream order as a parameter.
- Python's sort is stable; the sort members state sortedness and permutation only, not stability.
- Excel cells are given as already converted strings (`str(cell)`). A row with a single cell, where the source would raise an index error, is modelled as an aborted import.
- The guide's `updated_at` stamp is not modelled.
- `course_avg` and `avg_duration` in the analytics pages are averages of reals and are left out; the counts and percentages they are built from are modelled.
- The community index filters other than the resolved/unresolved Q&A filter (category and search) only narrow a listing and are left out.
- InviteCodes.Generate: the source draws until it finds an unused code. The model's draws are a finite caller-supplied sequence, so it answers None when every draw is taken. Non-termination of the source loop when all 36^8 codes are used is not modelled.
- Courses.Create and Courses.RegenerateCode require the new code to be a well-formed unused invite code, which is what `generate_invite_code` promises.
- Quiz attempts are kept in the order they were created, so the newest attempt by `created_at` is the one at the highest index.
- Sessions.ScoreBounds requires non-negative points. The source does not validate points, and a negative-point question could push the score below zero.
- Community.CreateGroup: the study-group form's fields other than the size limit (name, description, tags, schedule) are not modelled, and the size limit is taken as already validated by the form.
- Attendance.SelfCheck does not check that the attendance session belongs to the course named in the request, and neither does the source. The model keeps that gap rather than adding a check.
- Auth.IsSafeUrl follows the scheme and network-location split that `urlparse` and `urlsplit` share. IPv6 brackets, ports, credentials and non-ASCII host checks inside `urlsplit` are not modelled, and the own-host case is proved for the scheme-relative form `//host/path` only (Auth.OwnHostIsAccepted); the `http://host/path` form is not proved.
- `create_or_update_bookmark` and `set_understanding` re-stamp `created_at` the same way `create_or_update_attendance` does (the fourth finding below). Only the attendance store models both the as-written and the corrected upsert.
- `get_progress` filters on `mode == None` as well when called with None. This is the second finding below.
- Slide decks: `SlideDeck.from_dict` defaults the flag thresholds to 5 and 0.25, while `check_and_update_flag` falls back to 3 and 0.5 when a deck document lacks the fields. Both defaults are modelled where they apply (ProgressDocs.DeckDefaults and SlideReactions.CheckAndUpdateFlag).

## Findings

| source | as written | input that shows it | evidently intended | confidence | as-written member | corrected member |
|---|---|---|---|---|---|---|
| app/firestore_dao.py:529-533 | `count_completed_progress` filters on a field `completed == True`, which no writer of a progress document ever sets (completion is recorded in `completed_at`) | one progress document of checkpoint `c1` with `completed_at` set: the count for `c1` is 0 | count the documents whose `completed_at` is not null | not executed | ProgressDocs.CompletedRecordIsMissed | ProgressDocs.CorrectedCountsCompletions |
| app/routes/analytics.py:35-37 | the per-checkpoint statistics call `get_progress(uid, checkpoint, None)`, which adds the filter `mode == None`, so only documents with a null mode match, and every progress document has a string mode | a student who completed checkpoint `c1` in mode `self_paced`: the completed count is 0 | look the record up in any mode | not executed | Analytics.CompletedStudentIsMissed | Analytics.AnyModeCountsEveryMode |
| app/models.py:201-214 | the prerequisite test compares the number of completed progress rows with the number of live checkpoints, and one checkpoint completed in two modes gives two rows | a prerequisite course with checkpoints `c1` and `c2`, and a student who completed `c1` in `self_paced` and in `live` mode only: admitted | every live checkpoint of the prerequisite course completed | not executed | Access.CountTestAdmitsHalfDone | Access.CorrectedImpliesAsWritten |
| app/firestore_dao.py:729-738 | `create_or_update_attendance` puts `created_at = now` into the data whenever the caller's data lacks it, and the merge-write then overwrites the stored creation time | a record created at time 100 and re-marked at 200 reports being created at 200 | keep the stored `created_at`, stamp it only on a new record | not executed | Attendance.ReMarkedRecordLosesCreation | Attendance.UpsertKeepsCreation |
| app/firestore_dao.py:931-933 | `start_quiz` and `submit_quiz` (app/routes/sessions.py:326 and 360) look up the open attempt with `get_quiz_attempt(..., completed=False)`, which filters on a field `completed == False`; the attempt documents written at app/routes/sessions.py:334-342 and 374-378 never carry that field | an enrolled student starts a quiz and then submits: the submission is refused with 400, and every further start stores one more open attempt | the newest attempt of the user in the course whose `completed_at` is null | not executed | Sessions.QuizAsWrittenNeverFindsAttempt | Sessions.StartThenSubmit |

=== FILE: access.dfy ===
/**
 * Who may see what: course visibility (`Course.is_accessible_by`), when a
 * scheduled session may start, and the owner/member access checks the
 * session, subject and forum routes share.
 */
module Access {
  import opened Wrappers
  import ProgressTimer
  import Checkpoints
  import LiveRoom

  /** The course lookup and owner check the attendance, analytics and
      course-management routes share: an unknown course (`owner` None) is
      404 and anyone but its instructor 403. */
  function OwnerGuard(owner: Option<string>, actor: string): (r: Option<Error>)
    ensures r.None? <==> owner == Some(actor)
    ensures owner.None? ==> r == Some(NotFound)
    ensures owner.Some? && owner.value != actor ==> r == Some(Forbidden)
  {
    if owner.None? then Some(NotFound)
    else if owner.value != actor then Some(Forbidden)
    else None
  }

  // ---------------------------------------------------------------------
  // Course visibility.

  /** The attributes of a course that visibility reads. Dates are instants in
      whole seconds; a missing one leaves that side of the window open. */
  datatype Course = Course(
    instructor: string,
    visibility: string,
    startDate: Option<int>,
    endDate: Option<int>,
    prerequisite: Option<string>)

  /** `date_based`: inside the window, both ends included. */
  predicate InWindow(c: Course, now: int) {
    && (c.startDate.Some? ==> now >= c.startDate.value)
    && (c.endDate.Some? ==> now <= c.endDate.value)
  }

  /** The progress rows the prerequisite query counts: the user's rows with a
      completion time whose checkpoint belongs to the prerequisite course,
      deleted checkpoints included, one row per mode. */
  function CompletedRows(progress: ProgressTimer.Store, cps: Checkpoints.Store, uid: string, course: string): set<ProgressTimer.Key> {
    set k | k in progress && k.user == uid && progress[k].completedAt.Some?
                          && k.checkpoint in cps && cps[k.checkpoint].courseId == course
  }

  /** The prerequisite course's checkpoints that are not soft-deleted. */
  function LiveCheckpoints(cps: Checkpoints.Store, course: string): set<string> {
    set id | id in cps && cps[id].courseId == course && cps[id].deletedAt.None?
  }

  /** The prerequisite test as written: at least as many completed rows as
      live checkpoints, and at least one live checkpoint. */
  predicate PrerequisiteCountsMet(progress: ProgressTimer.Store, cps: Checkpoints.Store, uid: string, course: string) {
    |CompletedRows(progress, cps, uid, course)| >= |LiveCheckpoints(cps, course)| && |LiveCheckpoints(cps, course)| > 0
  }

  /** The prerequisite test as intended: the course has a live checkpoint and
      the user has completed every live checkpoint, in some mode. */
  predicate PrerequisiteMet(progress: ProgressTimer.Store, cps: Checkpoints.Store, uid: string, course: string) {
    && LiveCheckpoints(cps, course) != {}
    && forall id :: id in LiveCheckpoints(cps, course) ==>
         exists k :: k in CompletedRows(progress, cps, uid, course) && k.checkpoint == id
  }

  /** `Course.is_accessible_by`, parameterised by the prerequisite test. */
  function AccessibleWith(c: Course, uid: string, enrolled: bool, now: int, prereqMet: bool): (r: bool)
    ensures c.instructor == uid ==> r
    ensures c.instructor != uid && !enrolled ==> !r
    ensures c.instructor != uid && enrolled ==>
              (r <==> (c.visibility == "date_based" ==> InWindow(c, now))
                      && c.visibility != "private"
                      && (c.visibility == "prerequisite" && c.prerequisite.Some? ==> prereqMet))
  {
    if c.instructor == uid then true
    else if !enrolled then false
    else if c.visibility == "public" then true
    else if c.visibility == "private" then false
    else if c.visibility == "date_based" then InWindow(c, now)
    else if c.visibility == "prerequisite" then
      if c.prerequisite.None? then true else prereqMet
    else true
  }

  /** `Course.is_accessible_by` as written. */
  function IsAccessibleBy(c: Course, uid: string, enrolled: bool, now: int,
                          progress: ProgressTimer.Store, cps: Checkpoints.Store): bool
  {
    AccessibleWith(c, uid, enrolled, now,
                   c.prerequisite.Some? && PrerequisiteCountsMet(progress, cps, uid, c.prerequisite.value))
  }

  /** `Course.is_accessible_by` with the prerequisite test as intended. */
  function IsAccessibleByCorrected(c: Course, uid: string, enrolled: bool, now: int,
                                   progress: ProgressTimer.Store, cps: Checkpoints.Store): bool
  {
    AccessibleWith(c, uid, enrolled, now,
                   c.prerequisite.Some? && PrerequisiteMet(progress, cps, uid, c.prerequisite.value))
  }

  /** Visibility as the course settings promise it: the owner always, an
      outsider never, and an enrolled student by the visibility rule. */
  lemma VisibilityRules(c: Course, uid: string, enrolled: bool, now: int,
                        progress: ProgressTimer.Store, cps: Checkpoints.Store)
    ensures c.instructor == uid ==> IsAccessibleBy(c, uid, enrolled, now, progress, cps)
    ensures c.instructor != uid && !enrolled ==> !IsAccessibleBy(c, uid, enrolled, now, progress, cps)
    ensures c.instructor != uid && enrolled ==>
              && (c.visibility == "public" ==> IsAccessibleBy(c, uid, enrolled, now, progress, cps))
              && (c.visibility == "private" ==> !IsAccessibleBy(c, uid, enrolled, now, progress, cps))
              && (c.visibility == "date_based" ==> (IsAccessibleBy(c, uid, enrolled, now, progress, cps) <==> InWindow(c, now)))
              && (c.visibility == "prerequisite" && c.prerequisite.None? ==> IsAccessibleBy(c, uid, enrolled, now, progress, cps))
              && (c.visibility !in {"public", "private", "date_based", "prerequisite"} ==> IsAccessibleBy(c, uid, enrolled, now, progress, cps))
  {
  }

  /** A date-based course is open on an interval: access at two instants means
      access at every instant between them. */
  lemma DateWindowIsInterval(c: Course, uid: string, t1: int, t2: int, t3: int,
                             progress: ProgressTimer.Store, cps: Checkpoints.Store)
    requires c.visibility == "date_based" && t1 <= t2 <= t3
    requires IsAccessibleBy(c, uid, true, t1, progress, cps) && IsAccessibleBy(c, uid, true, t3, progress, cps)
    ensures IsAccessibleBy(c, uid, true, t2, progress, cps)
  {
  }

  function CheckpointsOf(rows: set<ProgressTimer.Key>): set<string> {
    set k | k in rows :: k.checkpoint
  }

  /** Several rows can name one checkpoint, never the other way round. */
  lemma {:induction false} FewerCheckpointsThanRows(rows: set<ProgressTimer.Key>)
    ensures |CheckpointsOf(rows)| <= |rows|
    decreases |rows|
  {
    if rows != {} {
      var k :| k in rows;
      FewerCheckpointsThanRows(rows - {k});
      assert CheckpointsOf(rows) == CheckpointsOf(rows - {k}) + {k.checkpoint};
    }
  }

  lemma {:induction false} SubsetNoLarger(a: set<string>, b: set<string>)
    requires a <= b
    ensures |a| <= |b|
    decreases |a|
  {
    if a != {} {
      var x :| x in a;
      SubsetNoLarger(a - {x}, b - {x});
    }
  }

  /** Whoever meets the prerequisite as intended also passes the count test. */
  lemma CorrectedImpliesAsWritten(progress: ProgressTimer.Store, cps: Checkpoints.Store, uid: string, course: string)
    requires PrerequisiteMet(progress, cps, uid, course)
    ensures PrerequisiteCountsMet(progress, cps, uid, course)
  {
    var rows := CompletedRows(progress, cps, uid, course);
    var live := LiveCheckpoints(cps, course);
    assert live <= CheckpointsOf(rows) by {
      forall id | id in live ensures id in CheckpointsOf(rows) {
        var k :| k in rows && k.checkpoint == id;
      }
    }
    SubsetNoLarger(live, CheckpointsOf(rows));
    FewerCheckpointsThanRows(rows);
    var id :| id in live;
  }

  /** The count test admits a student who completed one of two checkpoints in
      two modes: two rows against two live checkpoints. */
  lemma CountTestAdmitsHalfDone()
    ensures var cp := Checkpoints.Checkpoint("pre", "", "", None, 1, None);
            var cps := map["c1" := cp, "c2" := cp.(order := 2)];
            var done := ProgressTimer.Progress(Some(0), None, false, 10, Some(10), Some(10));
            var progress := map[ProgressTimer.Key("u", "c1", Some("self_paced")) := done,
                                ProgressTimer.Key("u", "c1", Some("live")) := done];
            var c := Course("t", "prerequisite", None, None, Some("pre"));
            IsAccessibleBy(c, "u", true, 0, progress, cps) && !IsAccessibleByCorrected(c, "u", true, 0, progress, cps)
  {
    var cp := Checkpoints.Checkpoint("pre", "", "", None, 1, None);
    var cps := map["c1" := cp, "c2" := cp.(order := 2)];
    var done := ProgressTimer.Progress(Some(0), None, false, 10, Some(10), Some(10));
    var k1 := ProgressTimer.Key("u", "c1", Some("self_paced"));
    var k2 := ProgressTimer.Key("u", "c1", Some("live"));
    var progress := map[k1 := done, k2 := done];
    assert LiveCheckpoints(cps, "pre") == {"c1", "c2"};
    assert CompletedRows(progress, cps, "u", "pre") == {k1, k2};
    assert "c2" in LiveCheckpoints(cps, "pre");
    assert !exists k :: k in CompletedRows(progress, cps, "u", "pre") && k.checkpoint == "c2";
  }

  // ---------------------------------------------------------------------
  // Scheduled sessions.

  /** `ActiveSession.can_start`: an immediate session may always start; any
      other only once its scheduled time has come. */
  predicate CanStart(sessionType: string, scheduledAt: Option<int>, now: int) {
    sessionType == "immediate" || (scheduledAt.Some? && now >= scheduledAt.value)
  }

  /** Once a session may start it may start at every later instant, and a
      non-immediate session without a schedule never may. */
  lemma CanStartStaysTrue(sessionType: string, scheduledAt: Option<int>, t1: int, t2: int)
    requires t1 <= t2
    ensures CanStart(sessionType, scheduledAt, t1) ==> CanStart(sessionType, scheduledAt, t2)
    ensures sessionType != "immediate" && scheduledAt.None? ==> !CanStart(sessionType, scheduledAt, t2)
    ensures sessionType != "immediate" && scheduledAt.Some? ==>
              (CanStart(sessionType, scheduledAt, t2) <==> t2 >= scheduledAt.value)
  {
  }

  // ---------------------------------------------------------------------
  // Owner and member checks.

  /** Subject members: (subject id, user id) to the member's role. */
  type Members = map<(string, string), string>

  const DefaultRoles: seq<string> := ["instructor", "assistant"]

  function RolesOr(roles: Option<seq<string>>): seq<string> {
    roles.GetOr(DefaultRoles)
  }

  predicate MemberWithRole(members: Members, subject: string, uid: string, roles: seq<string>) {
    (subject, uid) in members && members[(subject, uid)] in roles
  }

  /** `has_subject_access` (subjects routes): the subject's instructor, or a
      member whose role is listed (instructor or assistant by default). */
  function HasSubjectAccess(subjectId: string, subjectInstructor: string, uid: string,
                            members: Members, roles: Option<seq<string>>): (r: bool)
    ensures r <==> subjectInstructor == uid || MemberWithRole(members, subjectId, uid, RolesOr(roles))
  {
    if subjectInstructor == uid then true
    else MemberWithRole(members, subjectId, uid, RolesOr(roles))
  }

  /** `has_course_access` (sessions routes): the course's instructor, or a
      listed member of the course's subject when the course has one. */
  function HasCourseAccess(courseInstructor: Option<string>, subjectId: Option<string>, uid: string,
                           members: Members, roles: Option<seq<string>>): (r: bool)
    ensures r <==> courseInstructor == Some(uid)
                   || (subjectId.Some? && subjectId.value != "" && MemberWithRole(members, subjectId.value, uid, RolesOr(roles)))
  {
    if courseInstructor == Some(uid) then true
    else if subjectId.Some? && subjectId.value != "" then MemberWithRole(members, subjectId.value, uid, RolesOr(roles))
    else false
  }

  /** With the default roles a student member gets no staff access, and a
      course's access follows its subject's for everyone but the owner. */
  lemma StudentsAreNotStaff(subjectId: string, subjectInstructor: string, courseInstructor: Option<string>,
                            uid: string, members: Members)
    requires (subjectId, uid) in members && members[(subjectId, uid)] == "student"
    requires subjectInstructor != uid && courseInstructor != Some(uid)
    ensures !HasSubjectAccess(subjectId, subjectInstructor, uid, members, None)
    ensures !HasCourseAccess(courseInstructor, Some(subjectId), uid, members, None)
  {
  }

  lemma CourseFollowsSubject(subjectId: string, subjectInstructor: string, courseInstructor: Option<string>,
                             uid: string, members: Members, roles: Option<seq<string>>)
    requires subjectId != "" && courseInstructor != Some(uid) && subjectInstructor != uid
    ensures HasCourseAccess(courseInstructor, Some(subjectId), uid, members, roles)
            == HasSubjectAccess(subjectId, subjectInstructor, uid, members, roles)
  {
  }

  /** `user_has_course_access` (forum routes): no course, no access; the owning
      instructor (any instructor role), or an enrolled user. */
  function ForumAccess(role: string, uid: string, courseInstructor: Option<string>, enrolled: bool): (r: bool)
    ensures courseInstructor.None? ==> !r
    ensures courseInstructor.Some? ==>
              (r <==> (role in {"instructor", "org_admin", "system_admin"} && courseInstructor.value == uid) || enrolled)
  {
    if courseInstructor.None? then false
    else if (role == "instructor" || role == "org_admin" || role == "system_admin") && courseInstructor.value == uid then true
    else enrolled
  }

  /** The live classroom's check admits only users the forum admits; the forum
      also admits an owning admin, whom the classroom turns away. */
  lemma LiveAccessImpliesForumAccess(role: string, uid: string, owner: string, enrolled: bool)
    ensures LiveRoom.CourseAccess(true, role, uid, owner, enrolled) ==> ForumAccess(role, uid, Some(owner), enrolled)
    ensures role == "org_admin" && owner == uid && !enrolled ==>
              ForumAccess(role, uid, Some(owner), enrolled) && !LiveRoom.CourseAccess(true, role, uid, owner, enrolled)
  {
  }
}

=== FILE: analytics.dfy ===
/**
 * The analytics dashboards: per-checkpoint completion counts, per-student
 * progress, lagging students, a student's slowest checkpoints, and the CSV
 * export's shape. Every handler reads a student's record of a checkpoint
 * with `get_progress(uid, checkpoint, None)`, an equality on `mode` that
 * only a record stored with a null mode satisfies; the routes store every
 * record under a string mode unless the request sends an explicit null.
 * The lookups are therefore parameterised by the query (`Query`), and the
 * reading that counts a record in any mode is the corrected one.
 */
module Analytics {
  import opened Wrappers
  import opened ProgressTimer
  import Tally

  // ---------------------------------------------------------------------
  // The lookup.

  /** How a dashboard asks for a student's record: with `mode == m`, or (the
      corrected reading) in any mode. */
  datatype Query = ModeIs(mode: Option<string>) | AnyMode

  /** The query the handlers make: `get_progress(uid, checkpoint, None)`. */
  const AsWritten: Query := ModeIs(None)

  /** `p and p.get('completed_at')`: the query finds a completed record. */
  predicate Done(s: Store, q: Query, user: string, cp: string) {
    match q
    case ModeIs(m) => Key(user, cp, m) in s && s[Key(user, cp, m)].completedAt.Some?
    case AnyMode => exists k :: k in s && k.user == user && k.checkpoint == cp && s[k].completedAt.Some?
  }

  /** The record a single-mode query returns. */
  function Found(s: Store, m: Option<string>, user: string, cp: string): (r: Option<Progress>)
    ensures r.Some? <==> Key(user, cp, m) in s
    ensures r.Some? ==> r.value == s[Key(user, cp, m)]
  {
    if Key(user, cp, m) in s then Some(s[Key(user, cp, m)]) else None
  }

  // ---------------------------------------------------------------------
  // Counts.

  /** `completed_count` of one checkpoint over the course's students. */
  function CheckpointCount(s: Store, q: Query, students: seq<string>, cp: string): (n: nat)
    ensures n <= |students|
    ensures n == 0 <==> forall i :: 0 <= i < |students| ==> !Done(s, q, students[i], cp)
    ensures n == |students| <==> forall i :: 0 <= i < |students| ==> Done(s, q, students[i], cp)
    decreases |students|
  {
    if |students| == 0 then 0
    else
      var front := students[..|students| - 1];
      var rest := CheckpointCount(s, q, front, cp);
      assert forall i :: 0 <= i < |front| ==> front[i] == students[i];
      rest + if Done(s, q, students[|students| - 1], cp) then 1 else 0
  }

  /** `completed_checkpoints` of one student over the course's checkpoints. */
  function StudentCount(s: Store, q: Query, user: string, cps: seq<string>): (n: nat)
    ensures n <= |cps|
    ensures n == 0 <==> forall i :: 0 <= i < |cps| ==> !Done(s, q, user, cps[i])
    ensures n == |cps| <==> forall i :: 0 <= i < |cps| ==> Done(s, q, user, cps[i])
    decreases |cps|
  {
    if |cps| == 0 then 0
    else
      var front := cps[..|cps| - 1];
      var rest := StudentCount(s, q, user, front);
      assert forall i :: 0 <= i < |front| ==> front[i] == cps[i];
      rest + if Done(s, q, user, cps[|cps| - 1]) then 1 else 0
  }

  /** One more student adds one when that student is done. */
  lemma CheckpointCountSnoc(s: Store, q: Query, xs: seq<string>, cp: string)
    requires |xs| > 0
    ensures CheckpointCount(s, q, xs, cp)
            == CheckpointCount(s, q, xs[..|xs| - 1], cp) + if Done(s, q, xs[|xs| - 1], cp) then 1 else 0
  {
  }

  /** One more checkpoint adds one when the student completed it. */
  lemma StudentCountSnoc(s: Store, q: Query, user: string, xs: seq<string>)
    requires |xs| > 0
    ensures StudentCount(s, q, user, xs)
            == StudentCount(s, q, user, xs[..|xs| - 1]) + if Done(s, q, user, xs[|xs| - 1]) then 1 else 0
  {
  }

  /** The completed count counts students one by one: a single student
      counts 1 exactly when done, and the count of two groups of students is
      the sum of their counts. */
  lemma {:induction false} CheckpointCountAppend(s: Store, q: Query, a: seq<string>, b: seq<string>, cp: string)
    ensures CheckpointCount(s, q, [], cp) == 0
    ensures |a| == 1 ==> CheckpointCount(s, q, a, cp) == if Done(s, q, a[0], cp) then 1 else 0
    ensures CheckpointCount(s, q, a + b, cp) == CheckpointCount(s, q, a, cp) + CheckpointCount(s, q, b, cp)
    decreases |b|
  {
    if |a| == 1 {
      assert a[..0] == [];
    }
    if b == [] {
      assert a + b == a;
    } else {
      var n := |b| - 1;
      CheckpointCountAppend(s, q, a, b[..n], cp);
      SnocParts(a, b);
      CheckpointCountSnoc(s, q, a + b, cp);
      CheckpointCountSnoc(s, q, b, cp);
    }
  }

  /** The same for the checkpoints a student completed. */
  lemma {:induction false} StudentCountAppend(s: Store, q: Query, user: string, a: seq<string>, b: seq<string>)
    ensures StudentCount(s, q, user, []) == 0
    ensures |a| == 1 ==> StudentCount(s, q, user, a) == if Done(s, q, user, a[0]) then 1 else 0
    ensures StudentCount(s, q, user, a + b) == StudentCount(s, q, user, a) + StudentCount(s, q, user, b)
    decreases |b|
  {
    if |a| == 1 {
      assert a[..0] == [];
    }
    if b == [] {
      assert a + b == a;
    } else {
      var n := |b| - 1;
      StudentCountAppend(s, q, user, a, b[..n]);
      SnocParts(a, b);
      StudentCountSnoc(s, q, user, a + b);
      StudentCountSnoc(s, q, user, b);
    }
  }

  /** One entry of the instructor's checkpoint table (rounding left out). */
  datatype CheckpointStat = CheckpointStat(checkpoint: string, completed: nat, total: nat, rate: real)

  function StatOf(s: Store, q: Query, students: seq<string>, cp: string): (r: CheckpointStat)
    ensures r.checkpoint == cp && r.total == |students| && r.completed <= r.total
    ensures r.completed == CheckpointCount(s, q, students, cp)
    ensures 0.0 <= r.rate <= 100.0
    ensures r.total == 0 ==> r.rate == 0.0
    ensures r.rate == Tally.Percent(r.completed, r.total)
  {
    var n := CheckpointCount(s, q, students, cp);
    CheckpointStat(cp, n, |students|, Tally.Percent(n, |students|))
  }

  /** One entry of the instructor's student table. */
  datatype StudentRow = StudentRow(user: string, completed: nat, total: nat, percent: real)

  function RowOf(s: Store, q: Query, user: string, cps: seq<string>): (r: StudentRow)
    ensures r.user == user && r.total == |cps| && r.completed <= r.total
    ensures r.completed == StudentCount(s, q, user, cps)
    ensures 0.0 <= r.percent <= 100.0
    ensures r.total == 0 ==> r.percent == 0.0
    ensures r.percent == Tally.Percent(r.completed, r.total)
  {
    var n := StudentCount(s, q, user, cps);
    StudentRow(user, n, |cps|, Tally.Percent(n, |cps|))
  }

  function Rows(s: Store, q: Query, students: seq<string>, cps: seq<string>): (r: seq<StudentRow>)
    ensures |r| == |students|
    ensures forall i :: 0 <= i < |r| ==> r[i] == RowOf(s, q, students[i], cps)
    decreases |students|
  {
    if |students| == 0 then []
    else Rows(s, q, students[..|students| - 1], cps) + [RowOf(s, q, students[|students| - 1], cps)]
  }

  // ---------------------------------------------------------------------
  // The finding: the null-mode query sees none of the routes' records.

  /** Every record was stored by a progress route under a string mode. */
  predicate StringModes(s: Store) {
    forall k :: k in s ==> k.mode.Some?
  }

  /** As written, a course whose records all carry a string mode shows no
      completion at all: every checkpoint count and every student count is 0. */
  lemma AsWrittenSeesNoCompletion(s: Store, students: seq<string>, cps: seq<string>, cp: string, user: string)
    requires StringModes(s)
    ensures CheckpointCount(s, AsWritten, students, cp) == 0
    ensures StudentCount(s, AsWritten, user, cps) == 0
  {
  }

  /** A concrete case: a student who completed a checkpoint in the default
      mode counts for the any-mode reading and not for the handlers' query. */
  lemma CompletedStudentIsMissed()
    ensures var s := map[Key("u", "c", Some("self_paced")) := Progress(Some(10), None, false, 5, Some(15), Some(5))];
            CheckpointCount(s, AsWritten, ["u"], "c") == 0 && CheckpointCount(s, AnyMode, ["u"], "c") == 1
  {
    var s := map[Key("u", "c", Some("self_paced")) := Progress(Some(10), None, false, 5, Some(15), Some(5))];
    assert Done(s, AnyMode, "u", "c") by {
      assert Key("u", "c", Some("self_paced")) in s;
    }
  }

  /** The corrected reading counts a completion in any mode: it is done
      exactly when some mode's query finds a completed record, so it counts
      at least as many as any single-mode query. */
  lemma {:induction false} AnyModeCountsEveryMode(s: Store, students: seq<string>, cp: string, m: Option<string>)
    ensures forall u :: Done(s, AnyMode, u, cp) <==> exists m' :: Done(s, ModeIs(m'), u, cp)
    ensures CheckpointCount(s, ModeIs(m), students, cp) <= CheckpointCount(s, AnyMode, students, cp)
    decreases |students|
  {
    forall u
      ensures Done(s, AnyMode, u, cp) <==> exists m' :: Done(s, ModeIs(m'), u, cp)
    {
      if Done(s, AnyMode, u, cp) {
        var k :| k in s && k.user == u && k.checkpoint == cp && s[k].completedAt.Some?;
        assert k == Key(u, cp, k.mode);
        assert Done(s, ModeIs(k.mode), u, cp);
      }
    }
    if |students| > 0 {
      AnyModeCountsEveryMode(s, students[..|students| - 1], cp, m);
    }
  }

  // ---------------------------------------------------------------------
  // Lagging students.

  function Sum(ps: seq<real>): real
    decreases |ps|
  {
    if |ps| == 0 then 0.0 else Sum(ps[..|ps| - 1]) + ps[|ps| - 1]
  }

  function Percents(rows: seq<StudentRow>): (r: seq<real>)
    ensures |r| == |rows| && forall i :: 0 <= i < |rows| ==> r[i] == rows[i].percent
    decreases |rows|
  {
    if |rows| == 0 then [] else Percents(rows[..|rows| - 1]) + [rows[|rows| - 1].percent]
  }

  /** `avg_progress`: the mean progress, 0 for no students. */
  function Average(rows: seq<StudentRow>): real {
    if |rows| == 0 then 0.0 else Sum(Percents(rows)) / (|rows| as real)
  }

  /** The rows below a bound, in order. */
  function Below(rows: seq<StudentRow>, bound: real): (r: seq<StudentRow>)
    ensures |r| <= |rows|
    ensures forall x :: multiset(r)[x] == if x.percent < bound then multiset(rows)[x] else 0
    ensures |r| == |rows| ==> forall i :: 0 <= i < |rows| ==> rows[i].percent < bound
    decreases |rows|
  {
    if |rows| == 0 then []
    else
      var front := rows[..|rows| - 1];
      var last := rows[|rows| - 1];
      assert rows == front + [last];
      assert forall i :: 0 <= i < |front| ==> front[i] == rows[i];
      Below(front, bound) + if last.percent < bound then [last] else []
  }

  /** The filter keeps the input order: filtering a concatenation is
      concatenating the filtered parts. */
  lemma {:induction false} BelowAppend(a: seq<StudentRow>, b: seq<StudentRow>, bound: real)
    ensures Below(a + b, bound) == Below(a, bound) + Below(b, bound)
    decreases |b|
  {
    if |b| == 0 {
      assert a + b == a;
      assert Below(b, bound) == [];
    } else {
      BelowAppend(a, b[..|b| - 1], bound);
      BelowAppendStep(a, b, bound);
    }
  }

  lemma BelowAppendStep(a: seq<StudentRow>, b: seq<StudentRow>, bound: real)
    requires |b| > 0
    requires Below(a + b[..|b| - 1], bound) == Below(a, bound) + Below(b[..|b| - 1], bound)
    ensures Below(a + b, bound) == Below(a, bound) + Below(b, bound)
  {
    var front := b[..|b| - 1];
    var last := b[|b| - 1];
    var tail := if last.percent < bound then [last] else [];
    SnocParts(a, b);
    BelowStep(a + b, bound);
    BelowStep(b, bound);
    var x, y := Below(a, bound), Below(front, bound);
    assert Below(a + b, bound) == (x + y) + tail;
    assert Below(b, bound) == y + tail;
    ConcatAssoc(x, y, tail);
  }

  lemma ConcatAssoc<T>(x: seq<T>, y: seq<T>, z: seq<T>)
    ensures (x + y) + z == x + (y + z)
  {
  }

  lemma SnocParts<T>(a: seq<T>, b: seq<T>)
    requires |b| > 0
    ensures (a + b)[..|a + b| - 1] == a + b[..|b| - 1] && (a + b)[|a + b| - 1] == b[|b| - 1]
  {
  }

  /** One step of the filter: the last row is kept when it is below the bound. */
  lemma BelowStep(rows: seq<StudentRow>, bound: real)
    requires |rows| > 0
    ensures Below(rows, bound) == Below(rows[..|rows| - 1], bound)
                                  + if rows[|rows| - 1].percent < bound then [rows[|rows| - 1]] else []
  {
  }

  /** `lagging_students`: below 70% of the average. */
  function Lagging(rows: seq<StudentRow>): (r: seq<StudentRow>)
    ensures forall x :: multiset(r)[x] == if x.percent < 0.7 * Average(rows) then multiset(rows)[x] else 0
    ensures r == Below(rows, 0.7 * Average(rows))
  {
    Below(rows, 0.7 * Average(rows))
  }

  /** Values all under a bound sum to less than that many bounds. */
  lemma {:induction false} SumBelow(ps: seq<real>, bound: real)
    requires |ps| > 0 && forall i :: 0 <= i < |ps| ==> ps[i] < bound
    ensures Sum(ps) < (|ps| as real) * bound
    decreases |ps|
  {
    if |ps| > 1 {
      SumBelow(ps[..|ps| - 1], bound);
    }
  }

  lemma {:induction false} SumNonNegative(ps: seq<real>)
    requires forall i :: 0 <= i < |ps| ==> ps[i] >= 0.0
    ensures Sum(ps) >= 0.0
    decreases |ps|
  {
    if |ps| > 0 {
      SumNonNegative(ps[..|ps| - 1]);
    }
  }

  /** Not every student lags: with at least one student, some student is at
      or above 70% of the average. */
  lemma NotEveryoneLags(rows: seq<StudentRow>)
    requires |rows| > 0
    requires forall i :: 0 <= i < |rows| ==> rows[i].percent >= 0.0
    ensures |Lagging(rows)| < |rows|
  {
    var ps := Percents(rows);
    var bound := 0.7 * Average(rows);
    SomeAtLeast(ps, bound);
  }

  /** Among non-negative values, some value reaches 70% of their mean. */
  lemma SomeAtLeast(ps: seq<real>, bound: real)
    requires |ps| > 0 && bound == 0.7 * (Sum(ps) / (|ps| as real))
    requires forall i :: 0 <= i < |ps| ==> 0.0 <= ps[i]
    ensures exists i :: 0 <= i < |ps| && ps[i] >= bound
  {
    SumNonNegative(ps);
    if forall i :: 0 <= i < |ps| ==> ps[i] < bound {
      SumBelow(ps, bound);
      ScaledMean(|ps|, Sum(ps), bound);
      assert false;
    }
  }

  /** `n` times 70% of the mean of `n` values is 70% of their sum. */
  lemma ScaledMean(n: nat, total: real, bound: real)
    requires n > 0 && bound == 0.7 * (total / (n as real))
    ensures (n as real) * bound == 0.7 * total
  {
  }

  /** The instructor rows of real records always satisfy `NotEveryoneLags`. */
  lemma RowsAreNonNegative(s: Store, q: Query, students: seq<string>, cps: seq<string>)
    ensures forall i :: 0 <= i < |students| ==> Rows(s, q, students, cps)[i].percent >= 0.0
  {
  }

  // ---------------------------------------------------------------------
  // A student's slowest checkpoints.

  /** A checkpoint and the student's recorded seconds on it (0 when the
      record or its duration is missing or 0). */
  datatype Timed = Timed(checkpoint: string, seconds: int)

  function Durations(s: Store, q: Query, user: string, cps: seq<string>): (r: seq<Timed>)
    requires q.ModeIs?
    ensures |r| == |cps|
    ensures forall i :: 0 <= i < |cps| ==> r[i].checkpoint == cps[i]
    decreases |cps|
  {
    if |cps| == 0 then []
    else
      var cp := cps[|cps| - 1];
      var p := Found(s, q.mode, user, cp);
      var d := if p.Some? && p.value.duration.Some? then p.value.duration.value else 0;
      Durations(s, q, user, cps[..|cps| - 1]) + [Timed(cp, d)]
  }

  predicate SlowestFirst(s: seq<Timed>) {
    forall i :: 0 <= i < |s| - 1 ==> s[i].seconds >= s[i + 1].seconds
  }

  function InsertSlow(t: Timed, s: seq<Timed>): (r: seq<Timed>)
    requires SlowestFirst(s)
    ensures SlowestFirst(r)
    ensures multiset(r) == multiset(s) + multiset{t}
    ensures |r| == |s| + 1 && (r[0] == t || (|s| > 0 && r[0] == s[0]))
    decreases |s|
  {
    if |s| == 0 || t.seconds >= s[0].seconds then [t] + s
    else
      assert s == [s[0]] + s[1..];
      [s[0]] + InsertSlow(t, s[1..])
  }

  function SortSlowest(s: seq<Timed>): (r: seq<Timed>)
    ensures SlowestFirst(r) && multiset(r) == multiset(s)
    decreases |s|
  {
    if |s| == 0 then []
    else
      assert s == [s[0]] + s[1..];
      InsertSlow(s[0], SortSlowest(s[1..]))
  }

  function Positive(s: seq<Timed>): (r: seq<Timed>)
    ensures forall x :: multiset(r)[x] == if x.seconds > 0 then multiset(s)[x] else 0
    decreases |s|
  {
    if |s| == 0 then []
    else
      assert s == [s[0]] + s[1..];
      (if s[0].seconds > 0 then [s[0]] else []) + Positive(s[1..])
  }

  lemma {:induction false} SlowestFirstSpan(s: seq<Timed>, i: nat, j: nat)
    requires SlowestFirst(s) && i <= j < |s|
    ensures s[i].seconds >= s[j].seconds
    decreases j - i
  {
    if i < j {
      SlowestFirstSpan(s, i, j - 1);
    }
  }

  /** `slowest_checkpoints`: at most three, each with a positive time, the
      slowest first, each taken from the input, and no positive entry left
      out is slower than the third. */
  function Slowest(items: seq<Timed>): (r: seq<Timed>)
    ensures |r| <= 3 && SlowestFirst(r)
    ensures forall i :: 0 <= i < |r| ==> r[i].seconds > 0 && r[i] in items
    ensures forall x :: x in items && x.seconds > 0 && x !in r ==> |r| == 3 && x.seconds <= r[2].seconds
    ensures |r| == if |Positive(items)| < 3 then |Positive(items)| else 3
    ensures multiset(r) <= multiset(Positive(items))
  {
    var sorted := SortSlowest(Positive(items));
    SortedPositives(items);
    var r := sorted[..if |sorted| < 3 then |sorted| else 3];
    TopThree(items, sorted, r);
    PrefixMultiset(sorted, |r|);
    r
  }

  /** A prefix holds no entry more often than the whole list. */
  lemma PrefixMultiset<T>(s: seq<T>, n: nat)
    requires n <= |s|
    ensures multiset(s[..n]) <= multiset(s)
  {
    assert s == s[..n] + s[n..];
  }

  /** The sorted positive entries are exactly the input's positive entries. */
  lemma SortedPositives(items: seq<Timed>)
    ensures forall x :: x in SortSlowest(Positive(items)) ==> x.seconds > 0 && x in items
    ensures forall x :: x in items && x.seconds > 0 ==> x in SortSlowest(Positive(items))
  {
    var sorted := SortSlowest(Positive(items));
    forall x | x in sorted
      ensures x.seconds > 0 && x in items
    {
      assert multiset(sorted)[x] > 0;
    }
    forall x | x in items && x.seconds > 0
      ensures x in sorted
    {
      assert multiset(items)[x] > 0;
      assert multiset(sorted)[x] > 0;
    }
  }

  /** The first three of a slowest-first list hold the three slowest. */
  lemma TopThree(items: seq<Timed>, sorted: seq<Timed>, r: seq<Timed>)
    requires SlowestFirst(sorted)
    requires forall x :: x in sorted ==> x.seconds > 0 && x in items
    requires forall x :: x in items && x.seconds > 0 ==> x in sorted
    requires r == sorted[..if |sorted| < 3 then |sorted| else 3]
    ensures |r| <= 3 && SlowestFirst(r)
    ensures forall i :: 0 <= i < |r| ==> r[i].seconds > 0 && r[i] in items
    ensures forall x :: x in items && x.seconds > 0 && x !in r ==> |r| == 3 && x.seconds <= r[2].seconds
  {
    assert forall i :: 0 <= i < |r| ==> r[i] == sorted[i];
    forall x | x in items && x.seconds > 0 && x !in r
      ensures |r| == 3 && x.seconds <= r[2].seconds
    {
      var j :| 0 <= j < |sorted| && sorted[j] == x;
      assert j >= |r|;
      SlowestFirstSpan(sorted, 2, j);
    }
  }

  // ---------------------------------------------------------------------
  // The CSV export.

  /** A CSV cell: text, a formatted instant, minutes, or blank. */
  datatype Cell = Blank | Text(s: string) | At(t: int) | Minutes(m: real)

  /** The three header cells of one checkpoint. */
  function HeaderCells(title: string): (r: seq<Cell>) {
    [Text(title + " - Started"), Text(title + " - Completed"), Text(title + " - Duration (min)")]
  }

  /** The three cells of one checkpoint for one student: the start and
      completion instants, and the duration in minutes when non-zero (the
      formatting and rounding are left out). */
  function ProgressCells(p: Option<Progress>): (r: seq<Cell>)
    ensures |r| == 3
    ensures p.None? ==> r == [Blank, Blank, Blank]
    ensures p.Some? ==> (r[0] == Blank <==> p.value.startedAt.None?)
                        && (r[1] == Blank <==> p.value.completedAt.None?)
                        && (r[2] == Blank <==> p.value.duration.None? || p.value.duration == Some(0))
  {
    match p
    case None => [Blank, Blank, Blank]
    case Some(q) =>
      [if q.startedAt.Some? then At(q.startedAt.value) else Blank,
       if q.completedAt.Some? then At(q.completedAt.value) else Blank,
       if q.duration.Some? && q.duration.value != 0 then Minutes(q.duration.value as real / 60.0) else Blank]
  }

  function HeaderTail(titles: seq<string>): (r: seq<Cell>)
    ensures |r| == 3 * |titles|
    decreases |titles|
  {
    if |titles| == 0 then [] else HeaderTail(titles[..|titles| - 1]) + HeaderCells(titles[|titles| - 1])
  }

  /** The export's header row. */
  function Header(titles: seq<string>): (r: seq<Cell>)
    ensures |r| == 2 + 3 * |titles|
    ensures r[..2] == [Text("Student"), Text("Email")]
  {
    [Text("Student"), Text("Email")] + HeaderTail(titles)
  }

  function RowTail(s: Store, q: Query, user: string, cps: seq<string>): (r: seq<Cell>)
    requires q.ModeIs?
    ensures |r| == 3 * |cps|
    decreases |cps|
  {
    if |cps| == 0 then []
    else RowTail(s, q, user, cps[..|cps| - 1]) + ProgressCells(Found(s, q.mode, user, cps[|cps| - 1]))
  }

  /** One student's row: name, email, then three cells per checkpoint. */
  function CsvRow(s: Store, q: Query, user: string, name: string, email: string, cps: seq<string>): (r: seq<Cell>)
    requires q.ModeIs?
    ensures |r| == 2 + 3 * |cps|
    ensures r[..2] == [Text(name), Text(email)]
  {
    [Text(name), Text(email)] + RowTail(s, q, user, cps)
  }

  /** Checkpoint `i`'s cells sit at columns 2 + 3i to 2 + 3i + 2 of a row. */
  lemma {:induction false} CellsOfCheckpoint(s: Store, q: Query, user: string, cps: seq<string>, i: nat)
    requires q.ModeIs? && i < |cps|
    ensures RowTail(s, q, user, cps)[3 * i..3 * i + 3] == ProgressCells(Found(s, q.mode, user, cps[i]))
    decreases |cps|
  {
    var n := |cps| - 1;
    var front := RowTail(s, q, user, cps[..n]);
    var last := ProgressCells(Found(s, q.mode, user, cps[n]));
    assert RowTail(s, q, user, cps) == front + last;
    if i < n {
      CellsOfCheckpoint(s, q, user, cps[..n], i);
      assert cps[..n][i] == cps[i];
    }
    PickCells(front, last, n, i, ProgressCells(Found(s, q.mode, user, cps[i])));
  }

  /** The three cells at position `i` of a run of `n` triples followed by one
      more triple. */
  lemma PickCells<T>(front: seq<T>, last: seq<T>, n: nat, i: nat, want: seq<T>)
    requires |front| == 3 * n && |last| == 3 && i <= n
    requires i < n ==> front[3 * i..3 * i + 3] == want
    requires i == n ==> last == want
    ensures (front + last)[3 * i..3 * i + 3] == want
  {
    if i < n {
      SliceOfLeft(front, last, 3 * i, 3 * i + 3);
    } else {
      SliceOfRight(front, last);
    }
  }

  /** The header cells of checkpoint `i` sit at the same columns. */
  lemma {:induction false} HeaderOfCheckpoint(titles: seq<string>, i: nat)
    requires i < |titles|
    ensures HeaderTail(titles)[3 * i..3 * i + 3] == HeaderCells(titles[i])
    decreases |titles|
  {
    var n := |titles| - 1;
    var front := HeaderTail(titles[..n]);
    if i < n {
      HeaderOfCheckpoint(titles[..n], i);
      assert titles[..n][i] == titles[i];
      SliceOfLeft(front, HeaderCells(titles[n]), 3 * i, 3 * i + 3);
    } else {
      SliceOfRight(front, HeaderCells(titles[n]));
    }
  }

  lemma SliceOfLeft<T>(a: seq<T>, b: seq<T>, lo: nat, hi: nat)
    requires lo <= hi <= |a|
    ensures (a + b)[lo..hi] == a[lo..hi]
  {
  }

  lemma SliceOfRight<T>(a: seq<T>, b: seq<T>)
    ensures (a + b)[|a|..|a| + |b|] == b
  {
  }

  // ---------------------------------------------------------------------
  // Who may see which dashboard.

  /** `student_dashboard`: 404 for an unknown course, 403 unless enrolled. */
  function StudentGuard(courseFound: bool, enrolled: bool): (r: Option<Error>)
    ensures r.None? <==> courseFound && enrolled
    ensures !courseFound ==> r == Some(NotFound)
    ensures courseFound && !enrolled ==> r == Some(Forbidden)
  {
    if !courseFound then Some(NotFound) else if !enrolled then Some(Forbidden) else None
  }
}

=== FILE: attendance.dfy ===
/**
 * Attendance: the instructor marks students (one at a time or in bulk), a
 * student checks themself in during an open session, and a per-student
 * summary counts present, late and absent sessions. One record is kept per
 * (course, user, session). The document-store variant of the same upsert
 * (`create_or_update_attendance`) is modelled at the end.
 */
module Attendance {
  import opened Wrappers
  import opened Records
  import Tally
  import Access

  /** (course id, user id, session id). */
  type Key = (string, string, string)

  /** An attendance row. `notes` is None where the row was created without
      notes (the column is nullable). */
  datatype Mark = Mark(status: string, notes: Option<string>, checkedAt: int, checkedBy: Option<string>)

  type Sheet = map<Key, Mark>

  /** `mark_attendance`: update the row when there is one (status, notes,
      check time and checker), else insert it. A missing status means
      present and missing notes mean the empty text. */
  function MarkOne(s: Sheet, owner: Option<string>, actor: string, k: Key,
                   status: Option<string>, notes: Option<string>, now: int): (r: Result<Sheet>)
    ensures r.Err? <==> owner != Some(actor)
    ensures r.Err? ==> Some(r.error) == Access.OwnerGuard(owner, actor)
    ensures r.Ok? ==> && r.value.Keys == s.Keys + {k}
                      && r.value[k] == Mark(status.GetOr("present"), Some(notes.GetOr("")), now, Some(actor))
                      && forall k2 :: k2 in s && k2 != k ==> r.value[k2] == s[k2]
  {
    match Access.OwnerGuard(owner, actor)
    case Some(e) => Err(e)
    case None => Ok(s[k := Mark(status.GetOr("present"), Some(notes.GetOr("")), now, Some(actor))])
  }

  /** One entry of a bulk request: a user id and an optional status. */
  datatype Entry = Entry(user: string, status: Option<string>)

  /** One bulk step: an existing row keeps its notes, a new row has none. */
  function BulkStep(s: Sheet, course: string, session: string, e: Entry, actor: string, now: int): (r: Sheet)
    ensures r.Keys == s.Keys + {(course, e.user, session)}
  {
    var k := (course, e.user, session);
    var notes := if k in s then s[k].notes else None;
    s[k := Mark(e.status.GetOr("present"), notes, now, Some(actor))]
  }

  function Bulk(s: Sheet, course: string, session: string, entries: seq<Entry>, actor: string, now: int): (r: Sheet)
    decreases |entries|
  {
    if |entries| == 0 then s
    else BulkStep(Bulk(s, course, session, entries[..|entries| - 1], actor, now), course, session, entries[|entries| - 1], actor, now)
  }

  /** The rows a bulk request lists. */
  function Listed(course: string, session: string, entries: seq<Entry>): (t: set<Key>)
    decreases |entries|
  {
    if |entries| == 0 then {}
    else Listed(course, session, entries[..|entries| - 1]) + {(course, entries[|entries| - 1].user, session)}
  }

  /** `bulk_mark`: the owner guard, then one upsert per entry; the reported
      count is the number of entries, repeats included. */
  function BulkMark(s: Sheet, owner: Option<string>, actor: string, course: string, session: string,
                    entries: seq<Entry>, now: int): (r: Result<(Sheet, nat)>)
    ensures r.Err? <==> owner != Some(actor)
    ensures r.Ok? ==> r.value.1 == |entries| && r.value.0 == Bulk(s, course, session, entries, actor, now)
  {
    match Access.OwnerGuard(owner, actor)
    case Some(e) => Err(e)
    case None => Ok((Bulk(s, course, session, entries, actor, now), |entries|))
  }

  /** A row is listed exactly when some entry names its user. */
  lemma {:induction false} ListedNamesEntries(course: string, session: string, entries: seq<Entry>, k: Key)
    ensures k in Listed(course, session, entries) <==>
            k.0 == course && k.2 == session && exists i :: 0 <= i < |entries| && entries[i].user == k.1
    decreases |entries|
  {
    if |entries| > 0 {
      var n := |entries| - 1;
      var front := entries[..n];
      ListedNamesEntries(course, session, front, k);
      if exists i :: 0 <= i < |front| && front[i].user == k.1 {
        var i :| 0 <= i < |front| && front[i].user == k.1;
        assert entries[i] == front[i];
      }
      if exists i :: 0 <= i < |entries| && entries[i].user == k.1 {
        var i :| 0 <= i < |entries| && entries[i].user == k.1;
        if i < n {
          assert front[i] == entries[i];
        }
      }
    }
  }

  /** A bulk mark adds exactly the listed rows and leaves the others as
      they were. */
  lemma {:induction false} BulkTouchesListed(s: Sheet, course: string, session: string, entries: seq<Entry>, actor: string, now: int)
    ensures var r := Bulk(s, course, session, entries, actor, now);
            && r.Keys == s.Keys + Listed(course, session, entries)
            && forall k :: k in s && k !in Listed(course, session, entries) ==> r[k] == s[k]
    decreases |entries|
  {
    if |entries| > 0 {
      BulkTouchesListed(s, course, session, entries[..|entries| - 1], actor, now);
    }
  }

  /** The status a listed row ends with is the one of its user's last
      entry (a missing status meaning present). */
  lemma {:induction false} BulkLastEntryWins(s: Sheet, course: string, session: string, entries: seq<Entry>,
                                             actor: string, now: int, i: nat)
    requires i < |entries|
    requires forall j :: i < j < |entries| ==> entries[j].user != entries[i].user
    ensures var k := (course, entries[i].user, session);
            var r := Bulk(s, course, session, entries, actor, now);
            k in r && r[k].status == entries[i].status.GetOr("present") && r[k].checkedBy == Some(actor)
    decreases |entries|
  {
    var n := |entries| - 1;
    if i < n {
      var front := entries[..n];
      assert front[i] == entries[i];
      forall j | i < j < |front|
        ensures front[j].user != front[i].user
      {
        assert front[j] == entries[j];
      }
      BulkLastEntryWins(s, course, session, front, actor, now, i);
    }
  }

  /** `self_check`: the course must exist (404), the caller must be
      enrolled (403) and the session must be open (400). An existing row is
      returned as it is; otherwise a present row is inserted. */
  function SelfCheck(s: Sheet, courseFound: bool, enrolled: bool, sessionOpen: bool, k: Key, now: int): (r: Result<Sheet>)
    ensures !courseFound ==> r == Err(NotFound)
    ensures courseFound && !enrolled ==> r == Err(Forbidden)
    ensures courseFound && enrolled && !sessionOpen ==> r == Err(BadRequest)
    ensures r.Ok? <==> courseFound && enrolled && sessionOpen
    ensures r.Ok? && k in s ==> r.value == s
    ensures r.Ok? && k !in s ==> r.value == s[k := Mark("present", None, now, None)]
  {
    if !courseFound then Err(NotFound)
    else if !enrolled then Err(Forbidden)
    else if !sessionOpen then Err(BadRequest)
    else if k in s then Ok(s)
    else Ok(s[k := Mark("present", None, now, None)])
  }

  /** Checking in twice is checking in once, and a check-in never overrides
      a status the instructor set. */
  lemma SelfCheckIdempotent(s: Sheet, courseFound: bool, enrolled: bool, sessionOpen: bool, k: Key, t1: int, t2: int)
    requires SelfCheck(s, courseFound, enrolled, sessionOpen, k, t1).Ok?
    ensures var once := SelfCheck(s, courseFound, enrolled, sessionOpen, k, t1).value;
            && SelfCheck(once, courseFound, enrolled, sessionOpen, k, t2) == Ok(once)
            && k in once
            && (k in s ==> once[k] == s[k])
            && (k !in s ==> once[k].status == "present")
  {
  }

  // ---------------------------------------------------------------------
  // The per-student summary.

  /** A session's status for the student: the row's, or absent when there
      is none. */
  function StatusOf(s: Sheet, course: string, user: string, session: string): string {
    var k := (course, user, session);
    if k in s then s[k].status else "absent"
  }

  function CountStatus(s: Sheet, course: string, user: string, sessions: seq<string>, status: string): (n: nat)
    ensures n <= |sessions|
    decreases |sessions|
  {
    if |sessions| == 0 then 0
    else CountStatus(s, course, user, sessions[1..], status) + (if StatusOf(s, course, user, sessions[0]) == status then 1 else 0)
  }

  /** The per-session records of `student_attendance`, by status. */
  function Statuses(s: Sheet, course: string, user: string, sessions: seq<string>): (r: seq<string>)
    ensures |r| == |sessions|
    ensures forall i :: 0 <= i < |sessions| ==> r[i] == StatusOf(s, course, user, sessions[i])
    decreases |sessions|
  {
    if |sessions| == 0 then [] else [StatusOf(s, course, user, sessions[0])] + Statuses(s, course, user, sessions[1..])
  }

  /** Counting a status session by session is counting it among the records. */
  lemma {:induction false} CountIsMultiplicity(s: Sheet, course: string, user: string, sessions: seq<string>, status: string)
    ensures CountStatus(s, course, user, sessions, status) == multiset(Statuses(s, course, user, sessions))[status]
    decreases |sessions|
  {
    if |sessions| > 0 {
      CountIsMultiplicity(s, course, user, sessions[1..], status);
      var head := [StatusOf(s, course, user, sessions[0])];
      assert Statuses(s, course, user, sessions) == head + Statuses(s, course, user, sessions[1..]);
    }
  }

  /** When every session's status is one of the three, the three counts
      account for every session. */
  lemma {:induction false} CountsCoverSessions(s: Sheet, course: string, user: string, sessions: seq<string>)
    requires forall i :: 0 <= i < |sessions| ==> StatusOf(s, course, user, sessions[i]) in {"present", "late", "absent"}
    ensures CountStatus(s, course, user, sessions, "present") + CountStatus(s, course, user, sessions, "late")
            + CountStatus(s, course, user, sessions, "absent") == |sessions|
    decreases |sessions|
  {
    if |sessions| > 0 {
      assert forall i :: 0 <= i < |sessions[1..]| ==> sessions[1..][i] == sessions[i + 1];
      CountsCoverSessions(s, course, user, sessions[1..]);
    }
  }

  datatype Summary = Summary(total: nat, present: nat, late: nat, absent: nat, rate: real)

  /** The three counts never exceed the number of sessions together (a row
      with any other status is in none of them). */
  lemma {:induction false} CountsWithinSessions(s: Sheet, course: string, user: string, sessions: seq<string>)
    ensures CountStatus(s, course, user, sessions, "present") + CountStatus(s, course, user, sessions, "late")
            + CountStatus(s, course, user, sessions, "absent") <= |sessions|
    decreases |sessions|
  {
    if |sessions| > 0 {
      CountsWithinSessions(s, course, user, sessions[1..]);
    }
  }

  /** A student with no rows is absent from every session. */
  lemma {:induction false} NoRowsMeansAbsent(s: Sheet, course: string, user: string, sessions: seq<string>)
    requires forall i :: 0 <= i < |sessions| ==> (course, user, sessions[i]) !in s
    ensures CountStatus(s, course, user, sessions, "absent") == |sessions|
    ensures CountStatus(s, course, user, sessions, "present") == 0
    decreases |sessions|
  {
    if |sessions| > 0 {
      NoRowsMeansAbsent(s, course, user, sessions[1..]);
    }
  }

  /** `student_attendance`: the course's instructor or the student themself
      only; the rate is the present share in percent, 0 without sessions. */
  function StudentSummary(s: Sheet, owner: Option<string>, actor: string, studentFound: bool,
                          course: string, user: string, sessions: seq<string>): (r: Result<Summary>)
    ensures owner.None? ==> r == Err(NotFound)
    ensures owner.Some? && owner.value != actor && actor != user ==> r == Err(Forbidden)
    ensures r.Ok? <==> owner.Some? && (owner.value == actor || actor == user) && studentFound
    ensures r.Ok? ==> var m := r.value;
                      && m.total == |sessions|
                      && m.present == CountStatus(s, course, user, sessions, "present")
                      && m.late == CountStatus(s, course, user, sessions, "late")
                      && m.absent == CountStatus(s, course, user, sessions, "absent")
                      && m.present + m.late + m.absent <= m.total
                      && 0.0 <= m.rate <= 100.0
                      && (m.total == 0 ==> m.rate == 0.0)
                      && m.rate == Tally.Percent(m.present, m.total)
  {
    if owner.None? then Err(NotFound)
    else if owner.value != actor && actor != user then Err(Forbidden)
    else if !studentFound then Err(NotFound)
    else
      var present := CountStatus(s, course, user, sessions, "present");
      var late := CountStatus(s, course, user, sessions, "late");
      var absent := CountStatus(s, course, user, sessions, "absent");
      CountsWithinSessions(s, course, user, sessions);
      Ok(Summary(|sessions|, present, late, absent, Tally.Percent(present, |sessions|)))
  }

  /** The summary's counts are the multiplicities of the statuses among the
      per-session records, and when the student's rows hold only the three
      statuses they add up to the number of sessions. */
  lemma SummaryCountsRecords(s: Sheet, owner: Option<string>, actor: string, studentFound: bool,
                             course: string, user: string, sessions: seq<string>)
    requires StudentSummary(s, owner, actor, studentFound, course, user, sessions).Ok?
    ensures var m := StudentSummary(s, owner, actor, studentFound, course, user, sessions).value;
            var recs := multiset(Statuses(s, course, user, sessions));
            m.present == recs["present"] && m.late == recs["late"] && m.absent == recs["absent"]
    ensures (forall i :: 0 <= i < |sessions| ==> StatusOf(s, course, user, sessions[i]) in {"present", "late", "absent"}) ==>
            var m := StudentSummary(s, owner, actor, studentFound, course, user, sessions).value;
            m.present + m.late + m.absent == m.total
  {
    CountIsMultiplicity(s, course, user, sessions, "present");
    CountIsMultiplicity(s, course, user, sessions, "late");
    CountIsMultiplicity(s, course, user, sessions, "absent");
    if forall i :: 0 <= i < |sessions| ==> StatusOf(s, course, user, sessions[i]) in {"present", "late", "absent"} {
      CountsCoverSessions(s, course, user, sessions);
    }
  }

  // ---------------------------------------------------------------------
  // The document-store upsert.

  type Docs = map<Key, Doc>

  /** `create_or_update_attendance` as written: `created_at` is defaulted
      on the incoming data, not on the stored document, and the merge then
      writes it over the stored one. */
  function UpsertAsWritten(docs: Docs, k: Key, data: Doc, now: int): (r: Docs)
    ensures r.Keys == docs.Keys + {k}
    ensures forall k2 :: k2 in docs && k2 != k ==> r[k2] == docs[k2]
    ensures "updated_at" in r[k] && r[k]["updated_at"] == Time(now)
    ensures "created_at" in r[k]
  {
    var written := (if "created_at" in data then data else data["created_at" := Time(now)])["updated_at" := Time(now)];
    docs[k := if k in docs then docs[k] + written else written]
  }

  /** The update resets the creation time: a stored record's `created_at`
      becomes the update time. */
  lemma AsWrittenResetsCreation(docs: Docs, k: Key, data: Doc, now: int)
    requires k in docs && "created_at" in docs[k] && "created_at" !in data
    ensures UpsertAsWritten(docs, k, data, now)[k]["created_at"] == Time(now)
  {
  }

  /** A concrete case: a record created at time 100 and re-marked at 200
      reports being created at 200. */
  lemma ReMarkedRecordLosesCreation()
    ensures var k := ("c1", "u1", "s1");
            var created := UpsertAsWritten(map[], k, map["status" := Str("present")], 100);
            var updated := UpsertAsWritten(created, k, map["status" := Str("late")], 200);
            created[k]["created_at"] == Time(100) && updated[k]["created_at"] == Time(200)
  {
    var k := ("c1", "u1", "s1");
    var created := UpsertAsWritten(map[], k, map["status" := Str("present")], 100);
    assert "created_at" !in map["status" := Str("present")];
    assert "created_at" !in map["status" := Str("late")];
    AsWrittenResetsCreation(created, k, map["status" := Str("late")], 200);
  }

  /** The upsert as intended: the stored creation time is kept, and only a
      new record takes the caller's or the current time. */
  function Upsert(docs: Docs, k: Key, data: Doc, now: int): (r: Docs)
    ensures r.Keys == docs.Keys + {k}
    ensures forall k2 :: k2 in docs && k2 != k ==> r[k2] == docs[k2]
    ensures "updated_at" in r[k] && r[k]["updated_at"] == Time(now)
    ensures forall f :: f in data && f != "created_at" && f != "updated_at" ==> f in r[k] && r[k][f] == data[f]
  {
    var written := (if "created_at" in data then data else data["created_at" := Time(now)])["updated_at" := Time(now)];
    if k in docs && "created_at" in docs[k] then
      docs[k := (docs[k] + written)["created_at" := docs[k]["created_at"]]]
    else if k in docs then docs[k := docs[k] + written]
    else docs[k := written]
  }

  /** A record's creation time survives every later upsert, and re-marking
      never makes a second record. */
  lemma UpsertKeepsCreation(docs: Docs, k: Key, d1: Doc, d2: Doc, t1: int, t2: int)
    ensures var once := Upsert(docs, k, d1, t1);
            var twice := Upsert(once, k, d2, t2);
            && "created_at" in once[k] && "created_at" in twice[k]
            && twice[k]["created_at"] == once[k]["created_at"]
            && twice.Keys == once.Keys
            && (k in docs && "created_at" in docs[k] ==> once[k]["created_at"] == docs[k]["created_at"])
  {
  }
}

=== FILE: auth.dfy ===
/**
 * The account routes: the post-login redirect check (`is_safe_url` over
 * the standard library's URL splitting), the username chosen at
 * registration, password-reset tickets, the profile-image checks, the
 * email-change uniqueness check and the instructor-verification request.
 */
module Auth {
  import opened Wrappers
  import Text
  import Access

  // ---------------------------------------------------------------------
  // URL splitting, as `urllib.parse.urlsplit` does it for the two parts
  // `is_safe_url` reads: the scheme and the network location.

  /** The characters splitting strips from the front of a URL. */
  predicate ControlOrSpace(c: char) {
    c as int <= 32
  }

  /** The characters splitting deletes wherever they occur. */
  predicate Unsafe(c: char) {
    c == '\t' || c == '\r' || c == '\n'
  }

  predicate AsciiLetter(c: char) {
    'a' <= c <= 'z' || 'A' <= c <= 'Z'
  }

  predicate SchemeChar(c: char) {
    AsciiLetter(c) || '0' <= c <= '9' || c == '+' || c == '-' || c == '.'
  }

  function LStrip(s: string): (r: string)
    ensures |r| <= |s| && r == s[|s| - |r|..]
    ensures r == "" || !ControlOrSpace(r[0])
    ensures |s| > 0 && !ControlOrSpace(s[0]) ==> r == s
    ensures forall i :: 0 <= i < |s| - |r| ==> ControlOrSpace(s[i])
    decreases |s|
  {
    if |s| > 0 && ControlOrSpace(s[0]) then
      var r := LStrip(s[1..]);
      assert forall i :: 1 <= i < |s| - |r| ==> s[i] == s[1..][i - 1];
      r
    else s
  }

  function RemoveUnsafe(s: string): (r: string)
    ensures |r| <= |s|
    ensures forall i :: 0 <= i < |r| ==> !Unsafe(r[i])
    decreases |s|
  {
    if |s| == 0 then "" else (if Unsafe(s[0]) then "" else [s[0]]) + RemoveUnsafe(s[1..])
  }

  /** Deleting characters works piecewise. */
  lemma {:induction false} RemoveUnsafeAppend(a: string, b: string)
    ensures RemoveUnsafe(a + b) == RemoveUnsafe(a) + RemoveUnsafe(b)
    decreases |a|
  {
    if |a| == 0 {
      assert a + b == b;
    } else {
      assert (a + b)[1..] == a[1..] + b;
      RemoveUnsafeAppend(a[1..], b);
    }
  }

  /** A string with nothing to delete is kept as it is. */
  lemma {:induction false} RemoveUnsafeKeeps(s: string)
    requires forall i :: 0 <= i < |s| ==> !Unsafe(s[i])
    ensures RemoveUnsafe(s) == s
    decreases |s|
  {
    if |s| > 0 {
      RemoveUnsafeKeeps(s[1..]);
      assert s == [s[0]] + s[1..];
    }
  }

  /** The position of the first character in `stops`, or the length when
      there is none (`str.find` with the not-found case made the end). */
  function FirstOf(s: string, stops: set<char>): (i: nat)
    ensures i <= |s|
    ensures forall j :: 0 <= j < i ==> s[j] !in stops
    ensures i < |s| ==> s[i] in stops
    decreases |s|
  {
    if |s| == 0 || s[0] in stops then 0 else 1 + FirstOf(s[1..], stops)
  }

  /** The two parts of a split URL `is_safe_url` compares. */
  datatype Url = Url(scheme: string, netloc: string)

  /** The clean-up splitting does first: strip control characters and
      spaces from the front, then delete tabs and line breaks. */
  function Sanitize(target: string): string {
    RemoveUnsafe(LStrip(target))
  }

  /** Whether the text before position `i` (the first ':') is a scheme: a
      letter, then letters, digits, '+', '-' or '.'. */
  predicate SchemeBefore(u: string, i: nat) {
    0 < i < |u| && AsciiLetter(u[0]) && forall j :: 0 <= j < i ==> SchemeChar(u[j])
  }

  /** The lower-cased scheme and what follows its ':'; no scheme and the
      whole text when the text before the first ':' is not one. */
  function SplitScheme(u: string): (r: (string, string))
    ensures r.0 == "" || exists i :: SchemeBefore(u, i) && r.1 == u[i + 1..]
  {
    var i := FirstOf(u, {':'});
    if SchemeBefore(u, i) then (Text.Lower(u[..i]), u[i + 1..]) else ("", u)
  }

  /** The network location: after a leading "//", up to the next '/', '?'
      or '#'; empty without the "//". One square bracket without the other
      is the library's ValueError, here `Err`. */
  function SplitNetloc(rest: string): (r: Result<string>)
    ensures r.Ok? ==> forall i :: 0 <= i < |r.value| ==> r.value[i] !in {'/', '?', '#'}
  {
    if |rest| >= 2 && rest[..2] == "//" then
      var d := 2 + FirstOf(rest[2..], {'/', '?', '#'});
      var netloc := rest[2..d];
      if ('[' in netloc) != (']' in netloc) then Err(BadRequest)
      else Ok(netloc)
    else Ok("")
  }

  /** `urlsplit`, as far as the scheme and network location go. */
  function UrlSplit(target: string): (r: Result<Url>)
    ensures r.Ok? ==> forall i :: 0 <= i < |r.value.netloc| ==> r.value.netloc[i] !in {'/', '?', '#'}
  {
    var (scheme, rest) := SplitScheme(Sanitize(target));
    match SplitNetloc(rest)
    case Err(e) => Err(e)
    case Ok(netloc) => Ok(Url(scheme, netloc))
  }

  /** `is_safe_url`: an empty target is unsafe; otherwise it is safe when its
      scheme is empty, http or https and its network location is the
      application's own (`host`, the network location of the host URL). */
  function IsSafeUrl(target: string, host: string): (r: Result<bool>)
    ensures target == "" ==> r == Ok(false)
    ensures r == Ok(true) ==> UrlSplit(target).Ok? && UrlSplit(target).value.netloc == host
                              && UrlSplit(target).value.scheme in {"", "http", "https"}
    ensures target != "" && UrlSplit(target).Ok? && UrlSplit(target).value.netloc != host ==> r == Ok(false)
    ensures r.Err? <==> target != "" && UrlSplit(target).Err?
  {
    if target == "" then Ok(false)
    else
      match UrlSplit(target)
      case Err(e) => Err(e)
      case Ok(u) => Ok(u.scheme in {"", "http", "https"} && u.netloc == host)
  }

  /** Where a successful login goes: the `next` target when it is given and
      safe, the dashboard (None) otherwise. A target the splitter rejects
      raises inside the login handler's `try`, which shows the login page
      with an error (`Err`). */
  function LoginRedirect(next: Option<string>, host: string): (r: Result<Option<string>>)
    ensures r == Ok(None) <==> next.None? || IsSafeUrl(next.value, host) == Ok(false)
    ensures r.Ok? && r.value.Some? ==> next == r.value && IsSafeUrl(next.value, host) == Ok(true)
  {
    if next.None? || next.value == "" then Ok(None)
    else
      match IsSafeUrl(next.value, host)
      case Err(e) => Err(e)
      case Ok(safe) => if safe then Ok(next) else Ok(None)
  }

  /** The first stop in a prefix is the first stop in the whole. */
  lemma FirstOfPrefix(a: string, b: string, stops: set<char>)
    requires FirstOf(a, stops) < |a|
    ensures FirstOf(a + b, stops) == FirstOf(a, stops)
  {
    assert forall j :: 0 <= j < |a| ==> (a + b)[j] == a[j];
  }

  /** When the prefix holds no stop and the rest starts with one (or is
      empty), the first stop is where the prefix ends. */
  lemma FirstOfAfter(a: string, b: string, stops: set<char>)
    requires forall i :: 0 <= i < |a| ==> a[i] !in stops
    requires b == "" || b[0] in stops
    ensures FirstOf(a + b, stops) == |a|
  {
    assert forall j :: 0 <= j < |a| ==> (a + b)[j] == a[j];
    assert |b| > 0 ==> (a + b)[|a|] == b[0];
  }

  /** A prefix free of control characters and spaces comes through the
      clean-up unchanged. */
  lemma SanitizePrefix(p: string, rest: string)
    requires |p| > 0 && forall i :: 0 <= i < |p| ==> !ControlOrSpace(p[i])
    ensures Sanitize(p + rest) == p + RemoveUnsafe(rest)
  {
    assert (p + rest)[0] == p[0];
    assert LStrip(p + rest) == p + rest;
    RemoveUnsafeAppend(p, rest);
    RemoveUnsafeKeeps(p);
  }

  /** A scheme name followed by ':' splits off as the lower-cased name. */
  lemma SchemeSplits(name: string, rest: string)
    requires |name| > 0 && AsciiLetter(name[0]) && forall i :: 0 <= i < |name| ==> SchemeChar(name[i])
    ensures SplitScheme(name + ":" + rest) == (Text.Lower(name), rest)
  {
    var u := name + ":" + rest;
    assert u == name + (":" + rest);
    FirstOfAfter(name, ":" + rest, {':'});
    assert u[..|name|] == name;
    assert u[|name| + 1..] == rest;
    assert SchemeBefore(u, |name|);
  }

  /** A relative path is refused whatever the host: its network location is
      empty and the host's is not. */
  lemma RelativePathIsRefused(path: string, host: string)
    requires host != ""
    requires |path| >= 1 && path[0] == '/' && (|path| == 1 || path[1] != '/')
    requires forall i :: 0 <= i < |path| ==> !Unsafe(path[i])
    ensures IsSafeUrl(path, host) == Ok(false)
  {
    SanitizeKeepsClean(path);
    NoSchemeWithoutLetter(path);
    assert SplitNetloc(path) == Ok("") by {
      assert |path| >= 2 ==> path[..2] != "//";
    }
  }

  /** A text that starts with something splitting does not strip and holds
      nothing it deletes comes through the clean-up unchanged. */
  lemma SanitizeKeepsClean(t: string)
    requires |t| > 0 && !ControlOrSpace(t[0])
    requires forall i :: 0 <= i < |t| ==> !Unsafe(t[i])
    ensures Sanitize(t) == t
  {
    RemoveUnsafeKeeps(t);
  }

  /** A text that does not start with a letter has no scheme. */
  lemma NoSchemeWithoutLetter(u: string)
    requires |u| > 0 && !AsciiLetter(u[0])
    ensures SplitScheme(u) == ("", u)
  {
  }

  /** A `javascript:` target is never accepted, whatever follows. */
  lemma ScriptSchemeIsRefused(rest: string, host: string)
    ensures IsSafeUrl("javascript:" + rest, host) != Ok(true)
  {
    var name := "javascript";
    assert name + ":" + rest == "javascript:" + rest;
    SanitizePrefix(name + ":", rest);
    assert name + ":" + RemoveUnsafe(rest) == (name + ":") + RemoveUnsafe(rest);
    SchemeSplits(name, RemoveUnsafe(rest));
    assert |Text.Lower(name)| == 10;
  }

  /** A link to the application's own host is accepted, whatever path,
      query or fragment follows: here in the scheme-relative form
      `//host/path`, whose first character rules out a scheme. */
  lemma OwnHostIsAccepted(host: string, path: string)
    requires forall i :: 0 <= i < |host| ==> host[i] !in {'/', '?', '#', '[', ']'} && !ControlOrSpace(host[i])
    requires path == "" || path[0] in {'/', '?', '#'}
    requires forall i :: 0 <= i < |path| ==> !ControlOrSpace(path[i])
    ensures IsSafeUrl("//" + host + path, host) == Ok(true)
  {
    var rest := "//" + host + path;
    NetlocRestClean(host, path);
    SanitizeKeepsClean(rest);
    NoSchemeWithoutLetter(rest);
    OwnNetloc(host, path, rest);
  }

  /** A host and path without control characters make a clean `//host` text. */
  lemma NetlocRestClean(host: string, path: string)
    requires forall i :: 0 <= i < |host| ==> !ControlOrSpace(host[i])
    requires forall i :: 0 <= i < |path| ==> !ControlOrSpace(path[i])
    ensures forall i :: 0 <= i < |"//" + host + path| ==> !Unsafe(("//" + host + path)[i])
  {
    var rest := "//" + host + path;
    forall i | 0 <= i < |rest|
      ensures !Unsafe(rest[i])
    {
      if i >= 2 + |host| {
        assert rest[i] == path[i - 2 - |host|];
      } else if i >= 2 {
        assert rest[i] == host[i - 2];
      }
    }
  }

  /** The network location of `//host` followed by a path. */
  lemma OwnNetloc(host: string, path: string, rest: string)
    requires forall i :: 0 <= i < |host| ==> host[i] !in {'/', '?', '#', '[', ']'}
    requires path == "" || path[0] in {'/', '?', '#'}
    requires rest == "//" + host + path
    ensures SplitNetloc(rest) == Ok(host)
  {
    assert rest[..2] == "//";
    assert rest[2..] == host + path;
    FirstOfAfter(host, path, {'/', '?', '#'});
    assert rest[2..2 + |host|] == host;
    assert '[' !in host && ']' !in host;
  }

  // ---------------------------------------------------------------------
  // The username chosen at registration.

  /** The text before the first '@' of the email. */
  function Base(email: string): (r: string)
    ensures '@' !in r
  {
    Text.Split(email, '@')[0]
  }

  /** The k-th name tried: the base, then the base followed by 1, 2, ... */
  function Candidate(base: string, k: nat): string {
    if k == 0 then base else base + Text.NatToString(k)
  }

  lemma CandidateInjective(base: string, j: nat, k: nat)
    requires j != k
    ensures Candidate(base, j) != Candidate(base, k)
  {
    if j > 0 && k > 0 {
      var a := Candidate(base, j);
      var b := Candidate(base, k);
      assert a[|base|..] == Text.NatToString(j);
      assert b[|base|..] == Text.NatToString(k);
      Text.NatToStringInjective(j, k);
    }
  }

  /** The first `n` names tried. */
  function Candidates(base: string, n: nat): set<string> {
    set k | 0 <= k < n :: Candidate(base, k)
  }

  lemma CandidatesGrow(base: string, n: nat)
    requires n > 0
    ensures Candidates(base, n) == Candidates(base, n - 1) + {Candidate(base, n - 1)}
  {
  }

  lemma CandidateIsNew(base: string, n: nat)
    ensures Candidate(base, n) !in Candidates(base, n)
  {
    forall k | 0 <= k < n
      ensures Candidate(base, k) != Candidate(base, n)
    {
      CandidateInjective(base, k, n);
    }
  }

  /** The first `n` candidates are `n` different names. */
  lemma {:induction false} CandidatesCount(base: string, n: nat)
    ensures |Candidates(base, n)| == n
  {
    if n > 0 {
      CandidatesCount(base, n - 1);
      CandidateIsNew(base, n - 1);
      CandidatesGrow(base, n);
    }
  }

  /** `n` taken candidates need at least `n` taken names. */
  lemma Pigeonhole(base: string, taken: set<string>, n: nat)
    requires forall k :: 0 <= k < n ==> Candidate(base, k) in taken
    ensures n <= |taken|
  {
    CandidatesCount(base, n);
    Access.SubsetNoLarger(Candidates(base, n), taken);
  }

  /** `register`'s username: the email's local part, or when that is taken
      the first of base1, base2, ... that is not. The loop ends because the
      taken names are finitely many. */
  method Username(email: string, taken: set<string>) returns (u: string)
    ensures u !in taken
    ensures exists k: nat :: u == Candidate(Base(email), k) && forall j: nat :: j < k ==> Candidate(Base(email), j) in taken
  {
    var base := Base(email);
    var k := 0;
    while Candidate(base, k) in taken
      invariant forall j :: 0 <= j < k ==> Candidate(base, j) in taken
      invariant k <= |taken|
      decreases |taken| - k
    {
      Pigeonhole(base, taken, k + 1);
      k := k + 1;
    }
    u := Candidate(base, k);
    assert forall j: nat :: j < k ==> Candidate(base, j) in taken;
  }

  // ---------------------------------------------------------------------
  // Password-reset tickets, kept in the process's memory.

  /** A ticket lives one hour. */
  const TicketLifetime: int := 3600

  datatype Ticket = Ticket(uid: string, email: string, expires: int)
  type Tickets = map<string, Ticket>

  /** `forgot_password`: for a known email (`user` its uid) a ticket is
      filed under the new random token, expiring an hour from now; the token
      is handed straight back to the requester. An unknown email files
      nothing. */
  function Forgot(t: Tickets, user: Option<string>, email: string, token: string, now: int): (r: Tickets)
    ensures user.None? ==> r == t
    ensures user.Some? ==> r.Keys == t.Keys + {token} && r[token] == Ticket(user.value, email, now + TicketLifetime)
                           && forall k :: k in t && k != token ==> r[k] == t[k]
  {
    if user.None? then t else t[token := Ticket(user.value, email, now + TicketLifetime)]
  }

  datatype ResetOutcome =
    | UnknownToken
    | ExpiredToken(left: Tickets)
    | FormShown
    | UpdateFailed
    | PasswordReset(uid: string, left: Tickets)

  /** `reset_password`: an unknown token is refused; an expired one is
      deleted and refused; a valid form submission (`submitted`) whose
      password update succeeds (`updated`) consumes the ticket. */
  function Reset(t: Tickets, token: string, now: int, submitted: bool, updated: bool): (r: ResetOutcome)
    ensures r == UnknownToken <==> token !in t
    ensures r.ExpiredToken? <==> token in t && now > t[token].expires
    ensures r.ExpiredToken? ==> r.left == t - {token}
    ensures r.PasswordReset? <==> token in t && now <= t[token].expires && submitted && updated
    ensures r.PasswordReset? ==> r.uid == t[token].uid && r.left == t - {token}
  {
    if token !in t then UnknownToken
    else if now > t[token].expires then ExpiredToken(t - {token})
    else if !submitted then FormShown
    else if !updated then UpdateFailed
    else PasswordReset(t[token].uid, t - {token})
  }

  /** A ticket works for exactly an hour after it is issued, and only once:
      the same token afterwards is unknown. Knowing a user's email is
      enough to obtain one. */
  lemma TicketLifecycle(t: Tickets, uid: string, email: string, token: string, issued: int, now: int)
    ensures var filed := Forgot(t, Some(uid), email, token, issued);
            var r := Reset(filed, token, now, true, true);
            (r.PasswordReset? <==> now <= issued + TicketLifetime)
            && (r.PasswordReset? ==> r.uid == uid && Reset(r.left, token, now, true, true) == UnknownToken)
            && (r.ExpiredToken? ==> Reset(r.left, token, now, true, true) == UnknownToken)
  {
  }

  // ---------------------------------------------------------------------
  // Profile images.

  const ImageExtensions: set<string> := {"png", "jpg", "jpeg"}

  /** One mebibyte. */
  const ImageLimit: nat := 1024 * 1024

  /** The lower-cased text after the last '.', empty when there is no dot
      (`rsplit('.', 1)[1].lower()`). */
  function Extension(filename: string): (r: string)
    ensures '.' !in filename ==> r == ""
    ensures '.' !in r
  {
    match Text.LastIndexOf(filename, '.')
    case None => ""
    case Some(d) =>
      var e := Text.Lower(filename[d + 1..]);
      assert forall i :: 0 <= i < |e| ==> e[i] != '.' by {
        forall i | 0 <= i < |e|
          ensures e[i] != '.'
        {
          assert filename[d + 1..][i] != '.';
        }
      }
      e
  }

  datatype ImageOutcome = NoFile | BadType | TooLarge | Accepted(ext: string)

  /** The profile-image checks: no file name, nothing happens; the
      extension must be png, jpg or jpeg in any case; the size must be at
      most 1 MiB; the type is checked first. */
  function CheckImage(filename: string, size: nat): (r: ImageOutcome)
    ensures r == NoFile <==> filename == ""
    ensures r == BadType <==> filename != "" && Extension(filename) !in ImageExtensions
    ensures r == TooLarge <==> filename != "" && Extension(filename) in ImageExtensions && size > ImageLimit
    ensures r.Accepted? ==> r.ext == Extension(filename) && r.ext in ImageExtensions && size <= ImageLimit
  {
    if filename == "" then NoFile
    else if Extension(filename) !in ImageExtensions then BadType
    else if size > ImageLimit then TooLarge
    else Accepted(Extension(filename))
  }

  /** The extension is what follows the last dot, so a name's own dots do
      not matter and the case of the extension does not either. */
  lemma ExtensionIsAfterLastDot(name: string, ext: string)
    requires |ext| > 0 && ext[0] == '.' && '.' !in ext[1..]
    ensures Extension(name + ext) == Text.Lower(ext[1..])
  {
    var s := name + ext;
    assert s[|name|] == '.';
    var d := Text.LastIndexOf(s, '.').value;
    assert forall j :: d < j < |s| ==> s[j] != '.' by {
      forall j | d < j < |s|
        ensures s[j] != '.'
      {
        assert s[j] == s[d + 1..][j - d - 1];
      }
    }
    assert forall j :: |name| < j < |s| ==> s[j] != '.' by {
      forall j | |name| < j < |s|
        ensures s[j] != '.'
      {
        assert s[j] == ext[1..][j - |name| - 1];
      }
    }
    assert d == |name|;
    assert s[|name| + 1..] == ext[1..];
  }

  /** "photo.PNG" passes as png. */
  lemma UpperCaseExtensionPasses()
    ensures CheckImage("photo.PNG", 1000) == Accepted("png")
  {
    ExtensionIsAfterLastDot("photo", ".PNG");
    assert "photo" + ".PNG" == "photo.PNG";
    assert Text.Lower(".PNG"[1..]) == "png";
  }

  /** A name ending in ".exe" is refused whatever comes before, so
      "photo.png.exe" is: only the last extension counts. */
  lemma LastExtensionCounts(name: string, size: nat)
    ensures CheckImage(name + ".exe", size) == BadType
  {
    ExtensionIsAfterLastDot(name, ".exe");
    var e := Text.Lower(".exe"[1..]);
    assert e[0] == 'e';
  }

  // ---------------------------------------------------------------------
  // Account settings.

  /** The account fields these settings write. */
  datatype Account = Account(email: string, phone: string, verified: bool, requestedAt: Option<int>)
  type Accounts = map<string, Account>

  predicate EmailsUnique(a: Accounts) {
    forall x, y :: x in a && y in a && x != y ==> a[x].email != a[y].email
  }

  datatype InfoOutcome = Saved(accounts: Accounts) | EmailTaken | AuthUpdateFailed

  /** The `basic_info` action: a changed email is refused when another user
      already has it, and must also be accepted by the identity provider
      (`authUpdated`); then email and phone are saved. An unchanged email
      skips both checks. */
  function UpdateBasicInfo(a: Accounts, uid: string, email: string, phone: string, authUpdated: bool): (r: InfoOutcome)
    requires uid in a
    ensures r == EmailTaken <==> email != a[uid].email && exists other :: other in a && other != uid && a[other].email == email
    ensures r == AuthUpdateFailed <==> email != a[uid].email && !authUpdated && r != EmailTaken
    ensures r.Saved? ==> r.accounts == a[uid := a[uid].(email := email, phone := phone)]
  {
    if email != a[uid].email && exists other :: other in a && other != uid && a[other].email == email then EmailTaken
    else if email != a[uid].email && !authUpdated then AuthUpdateFailed
    else Saved(a[uid := a[uid].(email := email, phone := phone)])
  }

  /** Saving basic information keeps emails unique. */
  lemma EmailsStayUnique(a: Accounts, uid: string, email: string, phone: string, authUpdated: bool)
    requires uid in a && EmailsUnique(a)
    ensures var r := UpdateBasicInfo(a, uid, email, phone, authUpdated);
            r.Saved? ==> EmailsUnique(r.accounts)
  {
    var r := UpdateBasicInfo(a, uid, email, phone, authUpdated);
    if r.Saved? {
      var b := r.accounts;
      forall x, y | x in b && y in b && x != y
        ensures b[x].email != b[y].email
      {
        if x == uid && email != a[uid].email {
          assert a[y].email != email;
        } else if y == uid && email != a[uid].email {
          assert a[x].email != email;
        }
      }
    }
  }

  /** The `request_verification` action: stamps the request time unless the
      user is already verified. */
  function RequestVerification(a: Accounts, uid: string, now: int): (r: Accounts)
    requires uid in a
    ensures r.Keys == a.Keys
    ensures a[uid].verified ==> r == a
    ensures !a[uid].verified ==> r[uid].requestedAt == Some(now) && r[uid].(requestedAt := a[uid].requestedAt) == a[uid]
    ensures forall k :: k in a && k != uid ==> r[k] == a[k]
  {
    if a[uid].verified then a else a[uid := a[uid].(requestedAt := Some(now))]
  }
}

=== FILE: bookmarks.dfy ===
/**
 * Slide bookmarks, one per (deck, slide): the automatic flag set by the
 * reaction threshold, the manual flag the instructor toggles, and the
 * review memo. Missing document fields read as false/None, as the
 * source's `bookmark.get(...)` does.
 */
module Bookmarks {
  import opened Wrappers

  /** Why a slide was flagged automatically: by head count or by rate
      (percentages as the integer parts the source formats). */
  datatype Reason = ByCount(problem: nat, threshold: int) | ByRate(percent: int, thresholdPercent: int)

  datatype Bookmark = Bookmark(
    isAuto: bool,
    isManual: bool,
    reason: Option<Reason>,
    memo: Option<string>,
    supplementUrl: Option<string>)

  datatype BKey = BKey(deck: string, slide: int)

  type Store = map<BKey, Bookmark>

  /** A bookmark as shown to the room: present and carrying either flag. */
  predicate Shown(b: Option<Bookmark>) {
    b.Some? && (b.value.isAuto || b.value.isManual)
  }

  /** The document a toggle creates when none exists: manual only. */
  const ManualOnly := Bookmark(false, true, None, None, None)

  /** The instructor's bookmark toggle (socket handler and review page alike):
      the manual flag flips, the automatic flag is never touched, and a
      bookmark left with neither flag is deleted instead. The second result is
      the `is_bookmarked` value broadcast to the room. */
  function Toggle(b: Option<Bookmark>): (r: (Option<Bookmark>, bool))
    ensures r.1 == Shown(r.0)
    ensures r.0.None? <==> b.Some? && b.value.isManual && !b.value.isAuto
    ensures r.0.Some? ==> r.0.value.isManual == !(b.Some? && b.value.isManual)
    ensures r.0.Some? ==> r.0.value.isAuto == (b.Some? && b.value.isAuto)
    ensures r.0.Some? && b.Some? ==>
              r.0.value.(isManual := b.value.isManual) == b.value
  {
    match b
    case None => (Some(ManualOnly), true)
    case Some(x) =>
      if x.isAuto && !x.isManual then (Some(x.(isManual := true)), true)
      else if x.isManual && !x.isAuto then (None, false)
      else
        var newManual := !x.isManual;
        (Some(x.(isManual := newManual)), newManual || x.isAuto)
  }

  /** Toggling twice restores an absent bookmark (as absent) and any bookmark
      that carries the automatic flag. */
  lemma ToggleTwice(b: Option<Bookmark>)
    requires b.None? || b.value.isAuto
    ensures Toggle(Toggle(b).0).0 == b
  {
  }

  /** `save_bookmark_memo`: a missing bookmark is created manual with the memo;
      an existing one keeps both flags and its reason. */
  function SaveMemo(b: Option<Bookmark>, memo: string, url: string): (r: Bookmark)
    ensures r.memo == Some(memo) && r.supplementUrl == Some(url)
    ensures b.None? ==> r.isManual && !r.isAuto
    ensures b.Some? ==> r.isAuto == b.value.isAuto && r.isManual == b.value.isManual
                        && r.reason == b.value.reason
  {
    match b
    case None => Bookmark(false, true, None, Some(memo), Some(url))
    case Some(x) => x.(memo := Some(memo), supplementUrl := Some(url))
  }

  /** The bookmark half of `check_and_update_flag`. A flagged slide ends with the
      automatic flag and the new reason (a new bookmark is not manual, an
      existing one keeps its manual flag). An unflagged slide loses the
      automatic flag: an automatic-only bookmark is deleted, one that is also
      manual is kept without reason, and any other is left alone. */
  function ApplyFlag(b: Option<Bookmark>, flagged: bool, reason: Reason): (r: Option<Bookmark>)
    ensures flagged ==> r.Some? && r.value.isAuto && r.value.reason == Some(reason)
    ensures flagged && b.None? ==> !r.value.isManual
    ensures !flagged ==> (r.Some? ==> !r.value.isAuto)
    ensures b.Some? && r.Some? ==>
              && r.value.isManual == b.value.isManual
              && r.value.memo == b.value.memo
              && r.value.supplementUrl == b.value.supplementUrl
    ensures !flagged ==> (r.None? <==> b.None? || (b.value.isAuto && !b.value.isManual))
    ensures !flagged && b.Some? && !b.value.isAuto ==> r == b
    ensures !flagged && b.Some? && b.value.isAuto && b.value.isManual ==> r == Some(b.value.(isAuto := false, reason := None))
  {
    if flagged then
      match b
      case None => Some(Bookmark(true, false, Some(reason), None, None))
      case Some(x) => Some(x.(isAuto := true, reason := Some(reason)))
    else
      match b
      case None => None
      case Some(x) =>
        if x.isAuto && !x.isManual then None
        else if x.isAuto then Some(x.(isAuto := false, reason := None))
        else b
  }

  /** A manual bookmark survives every threshold outcome. */
  lemma {:induction false} ManualSurvivesFlags(b: Bookmark, flags: seq<bool>, reason: Reason)
    requires b.isManual
    ensures RunFlags(Some(b), flags, reason).Some?
    ensures RunFlags(Some(b), flags, reason).value.isManual
    decreases |flags|
  {
    if |flags| > 0 {
      var next := ApplyFlag(Some(b), flags[0], reason);
      ManualSurvivesFlags(next.value, flags[1..], reason);
    }
  }

  /** The bookmark after a series of threshold outcomes. */
  function RunFlags(b: Option<Bookmark>, flags: seq<bool>, reason: Reason): Option<Bookmark>
    decreases |flags|
  {
    if |flags| == 0 then b else RunFlags(ApplyFlag(b, flags[0], reason), flags[1..], reason)
  }

  /** Store-level toggle: only the (deck, slide) entry changes. */
  function ToggleIn(s: Store, k: BKey): (r: (Store, bool))
    ensures forall k' :: k' != k ==> (k' in r.0 <==> k' in s) && (k' in s ==> r.0[k'] == s[k'])
    ensures r.1 == Shown(if k in r.0 then Some(r.0[k]) else None)
  {
    var t := Toggle(if k in s then Some(s[k]) else None);
    match t.0
    case None => (s - {k}, t.1)
    case Some(x) => (s[k := x], t.1)
  }
}

=== FILE: checkpoints.dfy ===
/**
 * Checkpoint management: the next `order` for a new checkpoint, soft
 * deletion, owner-only editing, and the owner-filtered bulk reorder.
 */
module Checkpoints {
  import opened Wrappers

  datatype Checkpoint = Checkpoint(
    courseId: string,
    title: string,
    description: string,
    estimatedMinutes: Option<int>,
    order: int,
    deletedAt: Option<int>)

  /** Checkpoints by id. */
  type Store = map<string, Checkpoint>

  /** Course id to the id of its instructor. */
  type Owners = map<string, string>

  /** The largest order, or 0 when there is none (`max(...) or 0`). */
  function MaxOrZero(orders: seq<int>): (r: int)
    ensures forall i :: 0 <= i < |orders| ==> orders[i] <= r
    ensures |orders| == 0 ==> r == 0
    ensures |orders| > 0 ==> exists i :: 0 <= i < |orders| && orders[i] == r
    decreases |orders|
  {
    if |orders| == 0 then 0
    else if |orders| == 1 then orders[0]
    else
      var m := MaxOrZero(orders[1..]);
      assert forall i :: 1 <= i < |orders| ==> orders[i] == orders[1..][i - 1];
      if orders[0] >= m then orders[0]
      else
        assert exists i :: 1 <= i < |orders| && orders[i] == m by {
          var j :| 0 <= j < |orders[1..]| && orders[1..][j] == m;
          assert orders[j + 1] == m;
        }
        m
  }

  /** The orders of every checkpoint of `course`, soft-deleted ones included. */
  function CourseOrders(cps: seq<Checkpoint>, course: string): (r: seq<int>)
    ensures |r| <= |cps|
    ensures forall i :: 0 <= i < |cps| && cps[i].courseId == course ==> cps[i].order in r
    decreases |cps|
  {
    if |cps| == 0 then []
    else (if cps[0].courseId == course then [cps[0].order] else []) + CourseOrders(cps[1..], course)
  }

  predicate Owns(owners: Owners, course: string, user: string) {
    course in owners && owners[course] == user
  }

  /** `create`: 404 for an unknown course; only the course owner adds a
      checkpoint; it goes after every existing checkpoint of the course,
      deleted ones included. */
  function Create(cps: seq<Checkpoint>, owners: Owners, user: string, course: string,
                  title: string, description: string, minutes: Option<int>): (r: Result<seq<Checkpoint>>)
    ensures !Owns(owners, course, user) <==> r.Err?
    ensures course !in owners ==> r == Err(NotFound)
    ensures course in owners && owners[course] != user ==> r == Err(Forbidden)
    ensures r.Ok? ==> |r.value| == |cps| + 1 && r.value[..|cps|] == cps
    ensures r.Ok? ==> var c := r.value[|cps|];
              && c.courseId == course && c.title == title && c.deletedAt.None?
              && c.description == description && c.estimatedMinutes == minutes
              && (forall i :: 0 <= i < |cps| && cps[i].courseId == course ==> cps[i].order < c.order)
              && ((forall i :: 0 <= i < |cps| ==> cps[i].courseId != course) ==> c.order == 1)
              && ((exists i :: 0 <= i < |cps| && cps[i].courseId == course) ==>
                    exists i :: 0 <= i < |cps| && cps[i].courseId == course && cps[i].order == c.order - 1)
  {
    if course !in owners then Err(NotFound)
    else if owners[course] != user then Err(Forbidden)
    else
      var orders := CourseOrders(cps, course);
      var next := MaxOrZero(orders) + 1;
      var c := Checkpoint(course, title, description, minutes, next, None);
      assert (cps + [c])[..|cps|] == cps;
      assert forall i :: 0 <= i < |cps| && cps[i].courseId == course ==> cps[i].order in orders;
      assert (exists i :: 0 <= i < |cps| && cps[i].courseId == course) ==>
               exists i :: 0 <= i < |cps| && cps[i].courseId == course && cps[i].order == next - 1 by {
        if exists i :: 0 <= i < |cps| && cps[i].courseId == course {
          var i :| 0 <= i < |cps| && cps[i].courseId == course;
          assert cps[i].order in orders;
          var j :| 0 <= j < |orders| && orders[j] == next - 1;
          OrdersComeFromCourse(cps, course, j);
        }
      }
      assert (forall i :: 0 <= i < |cps| ==> cps[i].courseId != course) ==> next == 1 by {
        if forall i :: 0 <= i < |cps| ==> cps[i].courseId != course {
          if |orders| > 0 {
            OrdersComeFromCourse(cps, course, 0);
          }
        }
      }
      Ok(cps + [c])
  }

  lemma {:induction false} OrdersComeFromCourse(cps: seq<Checkpoint>, course: string, j: nat)
    requires j < |CourseOrders(cps, course)|
    ensures exists i :: 0 <= i < |cps| && cps[i].courseId == course && cps[i].order == CourseOrders(cps, course)[j]
    decreases |cps|
  {
    var head := if cps[0].courseId == course then [cps[0].order] else [];
    if j < |head| {
      assert cps[0].order == CourseOrders(cps, course)[j];
    } else {
      assert CourseOrders(cps, course)[j] == CourseOrders(cps[1..], course)[j - |head|];
      OrdersComeFromCourse(cps[1..], course, j - |head|);
      var i :| 0 <= i < |cps[1..]| && cps[1..][i].courseId == course && cps[1..][i].order == CourseOrders(cps[1..], course)[j - |head|];
      assert cps[i + 1] == cps[1..][i];
    }
  }

  /** `delete`: soft deletion by the owner; the checkpoint stays, stamped. */
  function Delete(s: Store, owners: Owners, user: string, id: string, now: int): (r: Result<Store>)
    ensures id !in s ==> r == Err(NotFound)
    ensures id in s && !Owns(owners, s[id].courseId, user) ==> r == Err(Forbidden)
    ensures r.Ok? <==> id in s && Owns(owners, s[id].courseId, user)
    ensures r.Ok? ==> r.value.Keys == s.Keys && r.value[id].deletedAt == Some(now)
                      && r.value[id].(deletedAt := s[id].deletedAt) == s[id]
                      && forall k :: k in s && k != id ==> r.value[k] == s[k]
  {
    if id !in s then Err(NotFound)
    else if !Owns(owners, s[id].courseId, user) then Err(Forbidden)
    else Ok(s[id := s[id].(deletedAt := Some(now))])
  }

  /** `edit`: the owner changes title, description and estimate and nothing else. */
  function Edit(s: Store, owners: Owners, user: string, id: string,
                title: string, description: string, minutes: Option<int>): (r: Result<Store>)
    ensures id !in s ==> r == Err(NotFound)
    ensures id in s && !Owns(owners, s[id].courseId, user) ==> r == Err(Forbidden)
    ensures r.Ok? <==> id in s && Owns(owners, s[id].courseId, user)
    ensures r.Ok? ==> r.value.Keys == s.Keys
                      && r.value[id].title == title && r.value[id].description == description
                      && r.value[id].estimatedMinutes == minutes
                      && r.value[id].order == s[id].order && r.value[id].courseId == s[id].courseId
                      && r.value[id].deletedAt == s[id].deletedAt
                      && forall k :: k in s && k != id ==> r.value[k] == s[k]
  {
    if id !in s then Err(NotFound)
    else if !Owns(owners, s[id].courseId, user) then Err(Forbidden)
    else Ok(s[id := s[id].(title := title, description := description, estimatedMinutes := minutes)])
  }

  datatype OrderItem = OrderItem(id: string, order: int)

  /** The order the last item naming `id` assigns, or `current` when none does. */
  function LastOrder(items: seq<OrderItem>, id: string, current: int): int
    decreases |items|
  {
    if |items| == 0 then current
    else if items[|items| - 1].id == id then items[|items| - 1].order
    else LastOrder(items[..|items| - 1], id, current)
  }

  /** What `reorder` leaves for checkpoint `id`: the caller's own checkpoints take
      the last order given for them; every other checkpoint is untouched. */
  function Reordered(s: Store, owners: Owners, user: string, items: seq<OrderItem>, id: string): Checkpoint
    requires id in s
  {
    if Owns(owners, s[id].courseId, user) then s[id].(order := LastOrder(items, id, s[id].order))
    else s[id]
  }

  /** `reorder`: a payload without a checkpoint list is rejected; otherwise each
      item re-orders its checkpoint when it exists and the caller owns its course. */
  method Reorder(s: Store, owners: Owners, user: string, payload: Option<seq<OrderItem>>) returns (r: Result<Store>)
    ensures payload.None? <==> r.Err?
    ensures r.Err? ==> r.error == BadRequest
    ensures r.Ok? ==> r.value.Keys == s.Keys
    ensures r.Ok? ==> forall id :: id in s ==> r.value[id] == Reordered(s, owners, user, payload.value, id)
  {
    if payload.None? {
      return Err(BadRequest);
    }
    var items := payload.value;
    var cur := s;
    var i := 0;
    while i < |items|
      invariant 0 <= i <= |items|
      invariant cur.Keys == s.Keys
      invariant forall id :: id in s ==> cur[id] == Reordered(s, owners, user, items[..i], id)
    {
      var it := items[i];
      assert items[..i + 1][..i] == items[..i];
      if it.id in cur && Owns(owners, cur[it.id].courseId, user) {
        cur := cur[it.id := cur[it.id].(order := it.order)];
      }
      i := i + 1;
    }
    assert items[..|items|] == items;
    return Ok(cur);
  }

  /** Reorder never touches checkpoints of courses the caller does not own, and
      never changes anything but `order`. */
  lemma ReorderOnlyOwnOrders(s: Store, owners: Owners, user: string, items: seq<OrderItem>, id: string)
    requires id in s
    ensures !Owns(owners, s[id].courseId, user) ==> Reordered(s, owners, user, items, id) == s[id]
    ensures Reordered(s, owners, user, items, id).(order := s[id].order) == s[id]
  {
  }
}

=== FILE: community.dfy ===
/**
 * The community board: study groups with a join request the creator
 * approves or rejects, Q&A posts whose author accepts an answer, the
 * answer order on a question page, view and like counters, and the Q&A
 * resolved/unresolved filter. Document ids the store picks are parameters.
 */
module Community {
  import opened Wrappers

  // ---------------------------------------------------------------------
  // Study groups.

  /** A study group. The counters are None when the document lacks them
      (the handlers read them with a default of 0). */
  datatype Group = Group(creator: string, maxMembers: Option<int>, currentMembers: Option<int>, status: string)

  /** A membership request or membership. */
  datatype Member = Member(group: string, user: string, status: string)

  datatype Board = Board(groups: map<string, Group>, members: map<string, Member>)

  /** What a group handler did. Every refusal redirects and changes nothing. */
  datatype Outcome =
    | NoGroup         // the group does not exist
    | NotCreator      // only the creator approves or rejects
    | AlreadyJoined   // a membership of this user in this group exists
    | Full            // current_members has reached max_members
    | BadMember       // the member id is not a member of this group
    | Changed(board: Board)

  /** The memberships of `user` in `group`. */
  predicate HasMembership(members: map<string, Member>, group: string, user: string) {
    exists id :: id in members && members[id].group == group && members[id].user == user
  }

  /** `create_study_group`: a recruiting group with one member, its creator,
      already approved. */
  function CreateGroup(b: Board, gid: string, mid: string, creator: string, maxMembers: int): (r: Board)
    requires gid !in b.groups && mid !in b.members
    ensures r.groups.Keys == b.groups.Keys + {gid} && r.members.Keys == b.members.Keys + {mid}
    ensures r.groups[gid].creator == creator && r.groups[gid].currentMembers == Some(1)
    ensures r.groups[gid].status == "recruiting" && r.groups[gid].maxMembers == Some(maxMembers)
    ensures r.members[mid] == Member(gid, creator, "approved")
    ensures forall g :: g in b.groups ==> r.groups[g] == b.groups[g]
  {
    Board(b.groups[gid := Group(creator, Some(maxMembers), Some(1), "recruiting")],
          b.members[mid := Member(gid, creator, "approved")])
  }

  /** `join_study_group`: refused when any membership (pending or approved)
      exists or the group is full; otherwise one pending request is added. */
  function Join(b: Board, gid: string, uid: string, mid: string): (r: Outcome)
    requires mid !in b.members
    ensures gid !in b.groups ==> r == NoGroup
    ensures gid in b.groups && HasMembership(b.members, gid, uid) ==> r == AlreadyJoined
    ensures r.Changed? <==> && gid in b.groups && !HasMembership(b.members, gid, uid)
                            && b.groups[gid].currentMembers.GetOr(0) < b.groups[gid].maxMembers.GetOr(0)
    ensures r.Changed? ==> && r.board.groups == b.groups
                           && r.board.members == b.members[mid := Member(gid, uid, "pending")]
  {
    if gid !in b.groups then NoGroup
    else if HasMembership(b.members, gid, uid) then AlreadyJoined
    else
      var g := b.groups[gid];
      if g.currentMembers.GetOr(0) >= g.maxMembers.GetOr(0) then Full
      else Changed(b.(members := b.members[mid := Member(gid, uid, "pending")]))
  }

  /** No user holds two memberships of one group. */
  predicate OneMembershipEach(members: map<string, Member>) {
    forall a, c :: a in members && c in members && a != c ==>
      members[a].group != members[c].group || members[a].user != members[c].user
  }

  /** Joining keeps one membership per user and group, whatever the request. */
  lemma JoinKeepsOneMembershipEach(b: Board, gid: string, uid: string, mid: string)
    requires mid !in b.members && OneMembershipEach(b.members)
    ensures Join(b, gid, uid, mid).Changed? ==> OneMembershipEach(Join(b, gid, uid, mid).board.members)
  {
  }

  /** A new group already holds its creator: the creator cannot join it
      again, another user's request is taken exactly while `max_members`
      exceeds 1 and refused as full otherwise, and approving a taken request
      brings the group to two members. */
  lemma CreateThenJoin(b: Board, gid: string, mid: string, creator: string, maxMembers: int, uid: string, mid2: string)
    requires gid !in b.groups && mid !in b.members && mid2 !in b.members && mid2 != mid
    requires uid != creator && !HasMembership(b.members, gid, uid)
    ensures var c := CreateGroup(b, gid, mid, creator, maxMembers);
            && Join(c, gid, creator, mid2) == AlreadyJoined
            && (Join(c, gid, uid, mid2).Changed? <==> maxMembers > 1)
            && (Join(c, gid, uid, mid2) == Full <==> maxMembers <= 1)
    ensures maxMembers > 1 ==>
              var j := Join(CreateGroup(b, gid, mid, creator, maxMembers), gid, uid, mid2).board;
              var a := Approve(j, gid, creator, mid2);
              a.Changed? && a.board.groups[gid].currentMembers == Some(2) && a.board.members[mid2].status == "approved"
  {
    var c := CreateGroup(b, gid, mid, creator, maxMembers);
    assert c.members[mid].group == gid && c.members[mid].user == creator;
    assert HasMembership(c.members, gid, creator);
    assert !HasMembership(c.members, gid, uid) by {
      forall id | id in c.members && c.members[id].group == gid
        ensures c.members[id].user != uid
      {
        if id != mid {
          assert id in b.members && c.members[id] == b.members[id];
        }
      }
    }
  }

  /** The creator guard and the member lookup shared by approve and reject:
      the member must be one of the group's memberships. */
  function Guard(b: Board, gid: string, actor: string, mid: string): (r: Option<Outcome>)
    ensures r.None? <==> gid in b.groups && b.groups[gid].creator == actor && mid in b.members && b.members[mid].group == gid
    ensures gid !in b.groups ==> r == Some(NoGroup)
    ensures gid in b.groups && b.groups[gid].creator != actor ==> r == Some(NotCreator)
  {
    if gid !in b.groups then Some(NoGroup)
    else if b.groups[gid].creator != actor then Some(NotCreator)
    else if mid !in b.members || b.members[mid].group != gid then Some(BadMember)
    else None
  }

  /** `approve_member`: the membership becomes approved and the member count
      grows by exactly one. Neither the capacity nor the request's current
      status is looked at again. */
  function Approve(b: Board, gid: string, actor: string, mid: string): (r: Outcome)
    ensures r.Changed? <==> Guard(b, gid, actor, mid).None?
    ensures r.Changed? ==> && r.board.members == b.members[mid := b.members[mid].(status := "approved")]
                           && r.board.groups.Keys == b.groups.Keys
                           && r.board.groups[gid].currentMembers == Some(b.groups[gid].currentMembers.GetOr(0) + 1)
                           && r.board.groups[gid].maxMembers == b.groups[gid].maxMembers
                           && forall g :: g in b.groups && g != gid ==> r.board.groups[g] == b.groups[g]
  {
    match Guard(b, gid, actor, mid)
    case Some(refused) => refused
    case None =>
      var g := b.groups[gid];
      Changed(Board(b.groups[gid := g.(currentMembers := Some(g.currentMembers.GetOr(0) + 1))],
                    b.members[mid := b.members[mid].(status := "approved")]))
  }

  /** Approval does not re-check the capacity: a group holding as many
      members as it allows still takes an approval and ends above it. */
  lemma ApproveIgnoresCapacity()
    ensures var b := Board(map["g" := Group("c", Some(2), Some(2), "recruiting")],
                           map["m" := Member("g", "u", "pending")]);
            var r := Approve(b, "g", "c", "m");
            r.Changed? && r.board.groups["g"].currentMembers.GetOr(0) > r.board.groups["g"].maxMembers.GetOr(0)
  {
  }

  /** `reject_member`: the membership is deleted; nothing else changes. */
  function Reject(b: Board, gid: string, actor: string, mid: string): (r: Outcome)
    ensures r.Changed? <==> Guard(b, gid, actor, mid).None?
    ensures r.Changed? ==> r.board.groups == b.groups && r.board.members == b.members - {mid}
  {
    match Guard(b, gid, actor, mid)
    case Some(refused) => refused
    case None => Changed(b.(members := b.members - {mid}))
  }

  /** A rejected user may ask again: after a rejection the user has no
      membership of the group left, so a join is not refused as a repeat. */
  lemma RejectAllowsRejoin(b: Board, gid: string, actor: string, mid: string, newId: string)
    requires OneMembershipEach(b.members)
    requires Reject(b, gid, actor, mid).Changed?
    requires newId !in b.members
    ensures var after := Reject(b, gid, actor, mid).board;
            Join(after, gid, b.members[mid].user, newId) != AlreadyJoined
  {
    var after := Reject(b, gid, actor, mid).board;
    var uid := b.members[mid].user;
    assert !HasMembership(after.members, gid, uid);
  }

  // ---------------------------------------------------------------------
  // Questions and answers.

  /** A question. `resolved` is None when the field is missing. */
  datatype Post = Post(author: string, resolved: Option<bool>, views: Option<int>)

  /** An answer, its flag and like count read with defaults (false, 0). */
  datatype Answer = Answer(post: string, accepted: bool, likes: int)

  datatype Forum = Forum(posts: map<string, Post>, answers: map<string, Answer>)

  /** `accept_answer`: the question's author only, and only an answer to
      this question. The answer is marked accepted and the question
      resolved; other answers are not touched. */
  function AcceptAnswer(f: Forum, pid: string, actor: string, aid: string): (r: Result<Forum>)
    ensures pid !in f.posts ==> r == Err(NotFound)
    ensures pid in f.posts && f.posts[pid].author != actor ==> r == Err(Forbidden)
    ensures r.Ok? <==> pid in f.posts && f.posts[pid].author == actor && aid in f.answers && f.answers[aid].post == pid
    ensures r.Ok? ==> && r.value.answers == f.answers[aid := f.answers[aid].(accepted := true)]
                      && r.value.posts == f.posts[pid := f.posts[pid].(resolved := Some(true))]
  {
    if pid !in f.posts then Err(NotFound)
    else if f.posts[pid].author != actor then Err(Forbidden)
    else if aid !in f.answers then Err(NotFound)
    else if f.answers[aid].post != pid then Err(BadRequest)
    else Ok(Forum(f.posts[pid := f.posts[pid].(resolved := Some(true))],
                  f.answers[aid := f.answers[aid].(accepted := true)]))
  }

  /** An accepted question is resolved, and accepting again changes nothing. */
  lemma AcceptResolves(f: Forum, pid: string, actor: string, aid: string)
    requires AcceptAnswer(f, pid, actor, aid).Ok?
    ensures var g := AcceptAnswer(f, pid, actor, aid).value;
            && Resolved(g.posts[pid]) && g.answers[aid].accepted
            && AcceptAnswer(g, pid, actor, aid) == Ok(g)
  {
    var g := AcceptAnswer(f, pid, actor, aid).value;
    assert g.posts[pid := g.posts[pid].(resolved := Some(true))] == g.posts;
    assert g.answers[aid := g.answers[aid].(accepted := true)] == g.answers;
  }

  /** The answer order's key: accepted answers first, then more likes first. */
  predicate AnswerLe(a: Answer, b: Answer) {
    (a.accepted && !b.accepted) || (a.accepted == b.accepted && a.likes >= b.likes)
  }

  predicate AnswersOrdered(s: seq<Answer>) {
    forall i :: 0 <= i < |s| - 1 ==> AnswerLe(s[i], s[i + 1])
  }

  function InsertAnswer(a: Answer, s: seq<Answer>): (r: seq<Answer>)
    requires AnswersOrdered(s)
    ensures AnswersOrdered(r)
    ensures multiset(r) == multiset(s) + multiset{a}
    ensures |r| == |s| + 1 && (r[0] == a || (|s| > 0 && r[0] == s[0]))
    decreases |s|
  {
    if |s| == 0 || AnswerLe(a, s[0]) then [a] + s
    else
      var rest := InsertAnswer(a, s[1..]);
      assert s == [s[0]] + s[1..];
      [s[0]] + rest
  }

  /** The question page's answer list: the fetched answers, reordered. */
  function OrderAnswers(s: seq<Answer>): (r: seq<Answer>)
    ensures AnswersOrdered(r)
    ensures multiset(r) == multiset(s)
    decreases |s|
  {
    if |s| == 0 then []
    else
      assert s == [s[0]] + s[1..];
      InsertAnswer(s[0], OrderAnswers(s[1..]))
  }

  /** Along the ordered list no unaccepted answer precedes an accepted one,
      and among answers of equal standing likes never increase. */
  lemma {:induction false} AcceptedFirst(s: seq<Answer>, i: nat, j: nat)
    requires AnswersOrdered(s) && i < j < |s|
    ensures s[j].accepted ==> s[i].accepted
    ensures s[i].accepted == s[j].accepted ==> s[i].likes >= s[j].likes
    decreases j - i
  {
    if j > i + 1 {
      AcceptedFirst(s, i, j - 1);
    }
  }

  // ---------------------------------------------------------------------
  // Counters and the Q&A filter.

  /** A detail view (review or question): the stored count, 0 when missing,
      plus one; the page shows the same number. None stands for a missing
      counter only. A stored null would make the source's `+ 1` raise, but
      every writer stores 0 (app/routes/community.py:49-50 and 149), so that
      case does not arise here or in `Like`. */
  function CountView(views: map<string, Option<int>>, id: string): (r: Option<(map<string, Option<int>>, int)>)
    ensures r.None? <==> id !in views
    ensures r.Some? ==> && r.value.1 == views[id].GetOr(0) + 1
                        && r.value.0 == views[id := Some(r.value.1)]
  {
    if id !in views then None
    else
      var n := views[id].GetOr(0) + 1;
      Some((views[id := Some(n)], n))
  }

  /** `like_review`: the same counter step on `likes_count`, 404 for a
      missing review. */
  function Like(likes: map<string, Option<int>>, id: string): (r: Result<(map<string, Option<int>>, int)>)
    ensures r.Err? <==> id !in likes
    ensures r.Err? ==> r.error == NotFound
    ensures r.Ok? ==> r.value.1 == likes[id].GetOr(0) + 1 && r.value.0 == likes[id := Some(r.value.1)]
  {
    match CountView(likes, id)
    case None => Err(NotFound)
    case Some(step) => Ok(step)
  }

  /** Two views count two: each view adds exactly one. */
  lemma ViewsAdd(views: map<string, Option<int>>, id: string)
    requires id in views
    ensures var first := CountView(views, id).value;
            CountView(first.0, id).value.1 == views[id].GetOr(0) + 2
  {
  }

  /** Truthiness of `is_resolved`. */
  predicate Resolved(p: Post) {
    p.resolved == Some(true)
  }

  /** The Q&A list filter: "resolved", "unresolved", or anything else for all. */
  function FilterPosts(posts: seq<Post>, filter: string): (r: seq<Post>)
    ensures filter != "resolved" && filter != "unresolved" ==> r == posts
    ensures filter == "resolved" ==> forall p :: multiset(r)[p] == if Resolved(p) then multiset(posts)[p] else 0
    ensures filter == "unresolved" ==> forall p :: multiset(r)[p] == if Resolved(p) then 0 else multiset(posts)[p]
    decreases |posts|
  {
    if filter != "resolved" && filter != "unresolved" then posts
    else if |posts| == 0 then []
    else
      assert posts == [posts[0]] + posts[1..];
      var keep := if filter == "resolved" then Resolved(posts[0]) else !Resolved(posts[0]);
      (if keep then [posts[0]] else []) + FilterPosts(posts[1..], filter)
  }

  /** The two filters split the fetched posts: together they hold each post
      exactly as often as the full list. */
  lemma FiltersPartition(posts: seq<Post>)
    ensures multiset(FilterPosts(posts, "resolved")) + multiset(FilterPosts(posts, "unresolved")) == multiset(posts)
  {
    var a := FilterPosts(posts, "resolved");
    var c := FilterPosts(posts, "unresolved");
    forall p
      ensures (multiset(a) + multiset(c))[p] == multiset(posts)[p]
    {
    }
  }
}

=== FILE: courses.dfy ===
/**
 * The course routes over the relational store: listing, creation, the
 * instructor and student course pages (and the live-mode pages, which apply
 * the same rule), owner-only edit, delete and invite-code regeneration, and
 * enrolment by invite code.
 */
module Courses {
  import opened Wrappers
  import Text
  import InviteCodes
  import Users
  import Access

  /** The columns of a `Course` row these routes read or write. */
  datatype Course = Course(instructor: string, title: string, description: string, inviteCode: string)

  /** The course table by id and the enrolment table as its (course, user)
      pairs: the unique constraint on the pair makes it a set. */
  datatype Catalog = Catalog(courses: map<nat, Course>, enrolled: set<(nat, string)>)

  /** The table constraints: invite codes are unique, and every enrolment
      names an existing course. */
  predicate Valid(cat: Catalog) {
    (forall a, b :: a in cat.courses && b in cat.courses && a != b ==>
       cat.courses[a].inviteCode != cat.courses[b].inviteCode)
    && (forall p :: p in cat.enrolled ==> p.0 in cat.courses)
  }

  /** The codes in use. */
  function Codes(cat: Catalog): set<string> {
    set id | id in cat.courses :: cat.courses[id].inviteCode
  }

  /** `Course.query.filter_by(invite_code=code).first()`: the unique column
      makes the row, when there is one, the only one. */
  function ByCode(cat: Catalog, code: string): (r: Option<nat>)
    requires Valid(cat)
    ensures r.Some? <==> code in Codes(cat)
    ensures r.Some? ==> r.value in cat.courses && cat.courses[r.value].inviteCode == code
  {
    if code in Codes(cat) then
      var id :| id in cat.courses && cat.courses[id].inviteCode == code;
      Some(id)
    else None
  }

  /** A course's own code finds that course and no other. */
  lemma ByCodeFindsTheRow(cat: Catalog, id: nat)
    requires Valid(cat) && id in cat.courses
    ensures ByCode(cat, cat.courses[id].inviteCode) == Some(id)
  {
  }

  /** `list_courses`: an instructor sees the courses they teach, anyone else
      the courses they are enrolled in. */
  function Listing(cat: Catalog, role: string, uid: string): (r: set<nat>)
    ensures Users.InstructorRole(role) ==>
              forall id :: id in r <==> id in cat.courses && cat.courses[id].instructor == uid
    ensures !Users.InstructorRole(role) ==>
              forall id :: id in r <==> (id, uid) in cat.enrolled
  {
    if Users.InstructorRole(role) then set id | id in cat.courses && cat.courses[id].instructor == uid
    else set p | p in cat.enrolled && p.1 == uid :: p.0
  }

  /** `create`: only instructors; the new row carries the creator as its
      instructor and a code from `generate_invite_code`, which is
      well-formed and unused. `id` is the row id the database assigns. */
  function Create(cat: Catalog, role: string, uid: string, id: nat, title: string, description: string, code: string): (r: Result<Catalog>)
    requires Valid(cat) && id !in cat.courses
    requires InviteCodes.IsCode(code) && code !in Codes(cat)
    ensures r.Err? <==> !Users.InstructorRole(role)
    ensures r.Err? ==> r.error == Forbidden
    ensures r.Ok? ==> Valid(r.value) && r.value.enrolled == cat.enrolled
                      && r.value.courses.Keys == cat.courses.Keys + {id}
                      && r.value.courses[id] == Course(uid, title, description, code)
                      && forall k :: k in cat.courses ==> r.value.courses[k] == cat.courses[k]
  {
    if !Users.InstructorRole(role) then Err(Forbidden)
    else Ok(cat.(courses := cat.courses[id := Course(uid, title, description, code)]))
  }

  // ---------------------------------------------------------------------
  // The course pages.

  /** What `view` and `live_mode` render. */
  datatype Page = Missing | Denied | InstructorPage | StudentPage

  /** `view` (and `live_mode`, which checks the same way): an unknown course
      is 404; an instructor-role user gets the instructor page only for a
      course they teach, anyone else the student page only when enrolled. */
  function View(cat: Catalog, role: string, uid: string, id: nat): (r: Page)
    ensures r == Missing <==> id !in cat.courses
    ensures r == InstructorPage <==> id in cat.courses && Users.InstructorRole(role) && cat.courses[id].instructor == uid
    ensures r == StudentPage <==> id in cat.courses && !Users.InstructorRole(role) && (id, uid) in cat.enrolled
  {
    if id !in cat.courses then Missing
    else if Users.InstructorRole(role) then
      if cat.courses[id].instructor == uid then InstructorPage else Denied
    else if (id, uid) in cat.enrolled then StudentPage else Denied
  }

  /** Everyone the course pages admit, the forum admits too; the forum also
      admits an enrolled instructor-role user who does not teach the course,
      whom the course pages turn away. */
  lemma ViewAdmitsLessThanForum(cat: Catalog, role: string, uid: string, id: nat)
    requires id in cat.courses
    ensures View(cat, role, uid, id) != Denied ==>
              Access.ForumAccess(role, uid, Some(cat.courses[id].instructor), (id, uid) in cat.enrolled)
    ensures Users.InstructorRole(role) && cat.courses[id].instructor != uid && (id, uid) in cat.enrolled ==>
              View(cat, role, uid, id) == Denied
              && Access.ForumAccess(role, uid, Some(cat.courses[id].instructor), true)
  {
  }

  // ---------------------------------------------------------------------
  // Owner-only changes.

  /** The owner of a course, None when there is no such course. */
  function OwnerOf(cat: Catalog, id: nat): Option<string> {
    if id in cat.courses then Some(cat.courses[id].instructor) else None
  }

  /** `edit`: the course's instructor changes its title and description;
      nothing else moves. */
  function Edit(cat: Catalog, uid: string, id: nat, title: string, description: string): (r: Result<Catalog>)
    requires Valid(cat)
    ensures r.Err? <==> OwnerOf(cat, id) != Some(uid)
    ensures r.Err? ==> Some(r.error) == Access.OwnerGuard(OwnerOf(cat, id), uid)
    ensures r.Ok? ==> Valid(r.value) && r.value.enrolled == cat.enrolled
                      && r.value.courses.Keys == cat.courses.Keys
                      && r.value.courses[id] == cat.courses[id].(title := title, description := description)
                      && forall k :: k in cat.courses && k != id ==> r.value.courses[k] == cat.courses[k]
  {
    match Access.OwnerGuard(OwnerOf(cat, id), uid)
    case Some(e) => Err(e)
    case None => Ok(cat.(courses := cat.courses[id := cat.courses[id].(title := title, description := description)]))
  }

  /** `delete`: the course's instructor removes the row, and the cascade
      removes its enrolments with it. */
  function Delete(cat: Catalog, uid: string, id: nat): (r: Result<Catalog>)
    requires Valid(cat)
    ensures r.Err? <==> OwnerOf(cat, id) != Some(uid)
    ensures r.Err? ==> Some(r.error) == Access.OwnerGuard(OwnerOf(cat, id), uid)
    ensures r.Ok? ==> Valid(r.value) && r.value.courses.Keys == cat.courses.Keys - {id}
                      && (forall k :: k in r.value.courses ==> r.value.courses[k] == cat.courses[k])
                      && forall p :: p in r.value.enrolled <==> p in cat.enrolled && p.0 != id
  {
    match Access.OwnerGuard(OwnerOf(cat, id), uid)
    case Some(e) => Err(e)
    case None => Ok(Catalog(cat.courses - {id}, set p | p in cat.enrolled && p.0 != id))
  }

  /** `regenerate_code`: the course's instructor gets a new code from
      `generate_invite_code`, which is well-formed and unused; the old code
      stops working. */
  function RegenerateCode(cat: Catalog, uid: string, id: nat, code: string): (r: Result<Catalog>)
    requires Valid(cat)
    requires InviteCodes.IsCode(code) && code !in Codes(cat)
    ensures r.Err? <==> OwnerOf(cat, id) != Some(uid)
    ensures r.Err? ==> Some(r.error) == Access.OwnerGuard(OwnerOf(cat, id), uid)
    ensures r.Ok? ==> Valid(r.value) && r.value.enrolled == cat.enrolled
                      && r.value.courses.Keys == cat.courses.Keys
                      && ByCode(r.value, code) == Some(id)
                      && ByCode(r.value, cat.courses[id].inviteCode).None?
                      && forall k :: k in cat.courses && k != id ==> r.value.courses[k] == cat.courses[k]
  {
    match Access.OwnerGuard(OwnerOf(cat, id), uid)
    case Some(e) => Err(e)
    case None =>
      var r := cat.(courses := cat.courses[id := cat.courses[id].(inviteCode := code)]);
      assert cat.courses[id].inviteCode !in Codes(r);
      ByCodeFindsTheRow(r, id);
      Ok(r)
  }

  /** A refused change leaves the catalog as it was, and an accepted one was
      asked for by the course's instructor. */
  lemma OwnerOnlyChanges(cat: Catalog, uid: string, id: nat, title: string, description: string)
    requires Valid(cat)
    ensures Edit(cat, uid, id, title, description).Ok? || Delete(cat, uid, id).Ok? ==>
              id in cat.courses && cat.courses[id].instructor == uid
    ensures id in cat.courses && cat.courses[id].instructor != uid ==>
              Edit(cat, uid, id, title, description) == Err(Forbidden) && Delete(cat, uid, id) == Err(Forbidden)
  {
  }

  /** After a delete the course pages answer 404 and nobody lists it. */
  lemma DeletedCourseIsGone(cat: Catalog, owner: string, id: nat, role: string, uid: string)
    requires Valid(cat) && id in cat.courses && cat.courses[id].instructor == owner
    ensures Delete(cat, owner, id).Ok?
    ensures View(Delete(cat, owner, id).value, role, uid, id) == Missing
    ensures id !in Listing(Delete(cat, owner, id).value, role, uid)
  {
  }

  // ---------------------------------------------------------------------
  // Enrolment by invite code.

  datatype EnrollOutcome =
    | InstructorRefused
    | InvalidCode
    | AlreadyEnrolled(course: nat)
    | Enrolled(course: nat, cat: Catalog)

  /** `enroll`: instructors are turned away; the typed code is upper-cased
      (not stripped) and looked up; an unknown code and an existing
      enrolment create nothing; otherwise the pair is added. */
  function Enroll(cat: Catalog, role: string, uid: string, typed: string): (r: EnrollOutcome)
    requires Valid(cat)
    ensures r == InstructorRefused <==> Users.InstructorRole(role)
    ensures r == InvalidCode <==> !Users.InstructorRole(role) && Text.Upper(typed) !in Codes(cat)
    ensures r.AlreadyEnrolled? || r.Enrolled? ==>
              r.course in cat.courses && cat.courses[r.course].inviteCode == Text.Upper(typed)
    ensures r.AlreadyEnrolled? <==> !Users.InstructorRole(role) && Text.Upper(typed) in Codes(cat)
                                    && (ByCode(cat, Text.Upper(typed)).value, uid) in cat.enrolled
    ensures r.Enrolled? ==> (r.course, uid) !in cat.enrolled && Valid(r.cat)
                            && r.cat.courses == cat.courses && r.cat.enrolled == cat.enrolled + {(r.course, uid)}
  {
    if Users.InstructorRole(role) then InstructorRefused
    else
      match ByCode(cat, Text.Upper(typed))
      case None => InvalidCode
      case Some(id) =>
        if (id, uid) in cat.enrolled then AlreadyEnrolled(id)
        else Enrolled(id, cat.(enrolled := cat.enrolled + {(id, uid)}))
  }

  /** Enrolling with the same code again adds nothing: the second attempt
      reports the existing enrolment. */
  lemma EnrollTwiceIsOnce(cat: Catalog, role: string, uid: string, typed: string)
    requires Valid(cat)
    requires Enroll(cat, role, uid, typed).Enrolled?
    ensures var first := Enroll(cat, role, uid, typed);
            Enroll(first.cat, role, uid, typed) == AlreadyEnrolled(first.course)
  {
    var first := Enroll(cat, role, uid, typed);
    assert Codes(first.cat) == Codes(cat);
  }

  /** A code typed in lower case finds its course. */
  lemma LowerCaseCodeEnrolls(cat: Catalog, role: string, uid: string, id: nat)
    requires Valid(cat) && id in cat.courses && !Users.InstructorRole(role)
    requires InviteCodes.IsCode(cat.courses[id].inviteCode)
    ensures var o := Enroll(cat, role, uid, Text.Lower(cat.courses[id].inviteCode));
            (o.AlreadyEnrolled? || o.Enrolled?) && o.course == id
  {
    var code := cat.courses[id].inviteCode;
    var typed := Text.Lower(code);
    assert Text.Upper(typed) == code by {
      assert forall i :: 0 <= i < |code| ==> Text.Upper(typed)[i] == code[i];
    }
    ByCodeFindsTheRow(cat, id);
  }

  /** A code with a trailing space finds no course when every stored code is
      well-formed: unlike the subject form, this lookup does not strip. */
  lemma SpacedCodeIsInvalid(cat: Catalog, role: string, uid: string, code: string)
    requires Valid(cat) && !Users.InstructorRole(role)
    requires forall k :: k in cat.courses ==> InviteCodes.IsCode(cat.courses[k].inviteCode)
    ensures Enroll(cat, role, uid, code + " ") == InvalidCode
  {
    var spaced := Text.Upper(code + " ");
    assert spaced[|spaced| - 1] == ' ';
    assert !InviteCodes.IsCode(spaced);
  }
}

=== FILE: enrollments.dfy ===
/**
 * The enrolment stores. Course enrolments and subject enrolments are both
 * kept under a composite document id built from the two ids they join, so a
 * create is a `set` on that key: an upsert, never a second document.
 * Subject members are looked up by (subject, user) before any create, so
 * they too are modelled as one role per pair (`Access.Members`).
 */
module Enrollments {
  import opened Wrappers

  // ---------------------------------------------------------------------
  // Course enrolments.

  /** (course id, user id) to the enrolment's creation time. */
  type CourseEnrollments = map<(string, string), int>

  /** `is_enrolled(user_id, course_id)`: the composite document exists. */
  predicate IsEnrolled(e: CourseEnrollments, user: string, course: string) {
    (course, user) in e
  }

  /** `create_enrollment`: writes the document under the composite key. */
  function Enroll(e: CourseEnrollments, course: string, user: string, now: int): (r: CourseEnrollments)
    ensures IsEnrolled(r, user, course) && r[(course, user)] == now
    ensures r.Keys == e.Keys + {(course, user)}
    ensures forall k :: k in e && k != (course, user) ==> r[k] == e[k]
  {
    e[(course, user) := now]
  }

  /** `delete_enrollment`. */
  function Unenroll(e: CourseEnrollments, course: string, user: string): (r: CourseEnrollments)
    ensures !IsEnrolled(r, user, course)
    ensures r.Keys == e.Keys - {(course, user)}
    ensures forall k :: k in r ==> r[k] == e[k]
  {
    e - {(course, user)}
  }

  /** Create is an upsert: a second create replaces the first and adds a
      document only when the pair had none. */
  lemma EnrollIsUpsert(e: CourseEnrollments, course: string, user: string, t1: int, t2: int)
    ensures Enroll(Enroll(e, course, user, t1), course, user, t2) == Enroll(e, course, user, t2)
    ensures |Enroll(e, course, user, t1).Keys| == if IsEnrolled(e, user, course) then |e.Keys| else |e.Keys| + 1
  {
    AddOneCount(e.Keys, (course, user));
  }

  /** Adding an element grows a set by one exactly when it was not there. */
  lemma AddOneCount<T>(s: set<T>, x: T)
    ensures |s + {x}| == if x in s then |s| else |s| + 1
  {
    if x in s {
      assert s + {x} == s;
    }
  }

  /** Enrolling one pair leaves every other pair as it was, and a delete
      undoes any create of its pair. */
  lemma EnrollTouchesOnePair(e: CourseEnrollments, course: string, user: string, t: int)
    ensures forall c, u :: IsEnrolled(Enroll(e, course, user, t), u, c) <==> (c, u) == (course, user) || IsEnrolled(e, u, c)
    ensures Unenroll(Enroll(e, course, user, t), course, user) == Unenroll(e, course, user)
  {
  }

  // ---------------------------------------------------------------------
  // The courses of a subject, as the enrolment handlers read them.

  /** A course document as the subject handlers use it. `orderNumber` and
      `weekNumber` are None when the field is missing or null. */
  datatype CourseRow = CourseRow(
    id: string,
    deleted: bool,                // a truthy `deleted_at`
    visibility: Option<string>,
    orderNumber: Option<int>,
    weekNumber: Option<int>,
    createdAt: string)

  /** The courses a subject enrolment also enrols in: not deleted and not private. */
  predicate Eligible(c: CourseRow) {
    !c.deleted && c.visibility != Some("private")
  }

  /** The enrolments a subject enrolment of `user` should leave in place:
      one per eligible course. */
  function Targets(courses: seq<CourseRow>, user: string): (t: set<(string, string)>)
    decreases |courses|
  {
    if |courses| == 0 then {}
    else (if Eligible(courses[0]) then {(courses[0].id, user)} else {}) + Targets(courses[1..], user)
  }

  /** A pair is a target exactly when it joins the user to an eligible course. */
  lemma {:induction false} TargetsAreEligibleCourses(courses: seq<CourseRow>, user: string, k: (string, string))
    ensures k in Targets(courses, user) <==> k.1 == user && exists i :: 0 <= i < |courses| && Eligible(courses[i]) && courses[i].id == k.0
    decreases |courses|
  {
    if |courses| > 0 {
      TargetsAreEligibleCourses(courses[1..], user, k);
      if k in Targets(courses[1..], user) {
        var i :| 0 <= i < |courses[1..]| && Eligible(courses[1..][i]) && courses[1..][i].id == k.0;
        assert courses[i + 1] == courses[1..][i];
      }
      if k.1 == user && exists i :: 0 <= i < |courses| && Eligible(courses[i]) && courses[i].id == k.0 {
        var i :| 0 <= i < |courses| && Eligible(courses[i]) && courses[i].id == k.0;
        if i > 0 {
          assert courses[1..][i - 1] == courses[i];
        }
      }
    }
  }

  /** The loop shared by every subject-enrolment path: each eligible course
      the user is not yet enrolled in gets an enrolment, and the second
      component counts the enrolments created. */
  function AutoEnroll(e: CourseEnrollments, user: string, courses: seq<CourseRow>, now: int): (r: (CourseEnrollments, nat))
    ensures r.0.Keys == e.Keys + Targets(courses, user)
    ensures forall k :: k in e ==> r.0[k] == e[k]
    ensures forall k :: k in r.0 && k !in e ==> r.0[k] == now
    decreases |courses|
  {
    if |courses| == 0 then (e, 0)
    else
      var c := courses[0];
      if Eligible(c) && !IsEnrolled(e, user, c.id) then
        var rest := AutoEnroll(Enroll(e, c.id, user, now), user, courses[1..], now);
        (rest.0, rest.1 + 1)
      else
        AutoEnroll(e, user, courses[1..], now)
  }

  /** One step of the enrolment loop, as far as its count goes. */
  lemma AutoEnrollStep(e: CourseEnrollments, user: string, courses: seq<CourseRow>, now: int)
    requires |courses| > 0
    ensures var c := courses[0];
            AutoEnroll(e, user, courses, now).1
            == if Eligible(c) && !IsEnrolled(e, user, c.id)
               then AutoEnroll(Enroll(e, c.id, user, now), user, courses[1..], now).1 + 1
               else AutoEnroll(e, user, courses[1..], now).1
  {
  }

  /** The pairs a created enrolment leaves to do: the rest of the targets
      less those now enrolled. */
  lemma CreatedStep(e: CourseEnrollments, user: string, courses: seq<CourseRow>, now: int)
    requires |courses| > 0 && Eligible(courses[0]) && !IsEnrolled(e, user, courses[0].id)
    ensures |Targets(courses, user) - e.Keys|
            == |Targets(courses[1..], user) - Enroll(e, courses[0].id, user, now).Keys| + 1
  {
    var t := (courses[0].id, user);
    assert Targets(courses, user) == {t} + Targets(courses[1..], user);
    CountOneMore(Targets(courses, user), Targets(courses[1..], user), e.Keys, t);
  }

  /** A course skipped by the loop leaves the same pairs to do. */
  lemma SkippedStep(e: CourseEnrollments, user: string, courses: seq<CourseRow>)
    requires |courses| > 0 && !(Eligible(courses[0]) && !IsEnrolled(e, user, courses[0].id))
    ensures Targets(courses, user) - e.Keys == Targets(courses[1..], user) - e.Keys
  {
  }

  /** The count the loop reports is the number of enrolments it created. */
  lemma {:induction false} AutoEnrollCount(e: CourseEnrollments, user: string, courses: seq<CourseRow>, now: int)
    ensures AutoEnroll(e, user, courses, now).1 == |Targets(courses, user) - e.Keys|
    decreases |courses|
  {
    if |courses| > 0 {
      var c := courses[0];
      AutoEnrollStep(e, user, courses, now);
      if Eligible(c) && !IsEnrolled(e, user, c.id) {
        AutoEnrollCount(Enroll(e, c.id, user, now), user, courses[1..], now);
        CreatedStep(e, user, courses, now);
      } else {
        AutoEnrollCount(e, user, courses[1..], now);
        SkippedStep(e, user, courses);
      }
    }
  }

  /** The set step of `AutoEnrollCount`, kept apart from the recursion. */
  lemma CountOneMore<T>(all: set<T>, tail: set<T>, done: set<T>, t: T)
    requires all == {t} + tail && t !in done
    ensures |all - done| == |tail - (done + {t})| + 1
  {
    assert all - done == (tail - (done + {t})) + {t};
  }

  /** Running the enrolment loop again creates nothing and reports zero. */
  lemma AutoEnrollIdempotent(e: CourseEnrollments, user: string, courses: seq<CourseRow>, t1: int, t2: int)
    ensures var first := AutoEnroll(e, user, courses, t1);
            AutoEnroll(first.0, user, courses, t2) == (first.0, 0)
  {
    var first := AutoEnroll(e, user, courses, t1);
    var second := AutoEnroll(first.0, user, courses, t2);
    assert second.0.Keys == first.0.Keys;
    AutoEnrollCount(first.0, user, courses, t2);
    assert Targets(courses, user) - first.0.Keys == {};
    assert second.0 == first.0;
  }

  // ---------------------------------------------------------------------
  // Subject enrolments.

  /** A subject enrolment document. `role` is None when the document has no
      `role` field (a self-enrolment writes none). */
  datatype SubjectEnrollment = SubjectEnrollment(
    status: string,
    role: Option<string>,
    createdAt: int,
    approvedAt: Option<int>,
    rejectedAt: Option<int>,
    updatedAt: Option<int>)

  /** (subject id, user id) to the enrolment. */
  type SubjectEnrollments = map<(string, string), SubjectEnrollment>

  /** The document `create_subject_enrollment` writes: it replaces any
      earlier one under the same key. */
  function Created(status: string, role: Option<string>, now: int): (r: SubjectEnrollment)
    ensures r.status == status && r.role == role && r.createdAt == now
    ensures r.approvedAt.None? && r.rejectedAt.None? && r.updatedAt.None?
  {
    SubjectEnrollment(status, role, now, None, None, None)
  }

  predicate Pending(s: SubjectEnrollments, subject: string, user: string) {
    (subject, user) in s && s[(subject, user)].status == "pending"
  }
}

=== FILE: forum.dfy ===
/**
 * The course forum over the relational store: posting and commenting need
 * course access and non-blank text, and a post or comment may be deleted by
 * its author or by the course's instructor.
 */
module Forum {
  import opened Wrappers
  import Text
  import Access
  import Courses

  datatype Post = Post(course: nat, author: string, title: string, content: string)
  datatype Comment = Comment(post: nat, author: string, content: string)

  /** The post and comment tables by id. */
  datatype Board = Board(posts: map<nat, Post>, comments: map<nat, Comment>)

  /** The foreign key of a comment: its post exists. */
  predicate Valid(b: Board) {
    forall c :: c in b.comments ==> b.comments[c].post in b.posts
  }

  /** `user_has_course_access` for a course id: a missing course admits no one. */
  predicate HasAccess(cat: Courses.Catalog, role: string, uid: string, course: nat) {
    Access.ForumAccess(role, uid, Courses.OwnerOf(cat, course), (course, uid) in cat.enrolled)
  }

  /** `create_post`: 404 for an unknown course, 403 without access, 400 when
      the stripped title or content is empty; otherwise the stripped texts
      are stored under the new id with the poster as author. */
  function CreatePost(cat: Courses.Catalog, b: Board, role: string, uid: string, course: nat,
                      title: Option<string>, content: Option<string>, id: nat): (r: Result<Board>)
    requires id !in b.posts
    ensures course !in cat.courses ==> r == Err(NotFound)
    ensures course in cat.courses && !HasAccess(cat, role, uid, course) ==> r == Err(Forbidden)
    ensures r.Ok? <==> course in cat.courses && HasAccess(cat, role, uid, course)
                       && Text.Field(title).Some? && Text.Field(content).Some?
    ensures r.Ok? ==> r.value.comments == b.comments
                      && r.value.posts == b.posts[id := Post(course, uid, Text.Field(title).value, Text.Field(content).value)]
  {
    var t := Text.Field(title);
    var c := Text.Field(content);
    if course !in cat.courses then Err(NotFound)
    else if !HasAccess(cat, role, uid, course) then Err(Forbidden)
    else if t.None? || c.None? then Err(BadRequest)
    else Ok(b.(posts := b.posts[id := Post(course, uid, t.value, c.value)]))
  }

  /** `add_comment`: 404 for an unknown post, 403 without access to the
      post's course, 400 for a blank comment; otherwise the stripped text is
      stored under the new id. */
  function AddComment(cat: Courses.Catalog, b: Board, role: string, uid: string, post: nat,
                      content: Option<string>, id: nat): (r: Result<Board>)
    requires id !in b.comments
    ensures post !in b.posts ==> r == Err(NotFound)
    ensures r.Ok? <==> post in b.posts && HasAccess(cat, role, uid, b.posts[post].course)
                       && Text.Field(content).Some?
    ensures r.Ok? ==> r.value.posts == b.posts
                      && r.value.comments == b.comments[id := Comment(post, uid, Text.Field(content).value)]
  {
    var c := Text.Field(content);
    if post !in b.posts then Err(NotFound)
    else if !HasAccess(cat, role, uid, b.posts[post].course) then Err(Forbidden)
    else if c.None? then Err(BadRequest)
    else Ok(b.(comments := b.comments[id := Comment(post, uid, c.value)]))
  }

  /** Whether `uid` may delete something written by `author` in `course`:
      the author, or the course's instructor. Neither the role nor current
      access is consulted. */
  predicate MayDelete(cat: Courses.Catalog, uid: string, author: string, course: nat) {
    author == uid || Courses.OwnerOf(cat, course) == Some(uid)
  }

  /** `delete_post`: the post goes and, by the cascade, its comments. */
  function DeletePost(cat: Courses.Catalog, b: Board, uid: string, post: nat): (r: Result<Board>)
    requires Valid(b)
    ensures post !in b.posts ==> r == Err(NotFound)
    ensures r.Ok? <==> post in b.posts && MayDelete(cat, uid, b.posts[post].author, b.posts[post].course)
    ensures r.Ok? ==> Valid(r.value) && r.value.posts == b.posts - {post}
                      && forall c :: c in r.value.comments <==> c in b.comments && b.comments[c].post != post
  {
    if post !in b.posts then Err(NotFound)
    else if !MayDelete(cat, uid, b.posts[post].author, b.posts[post].course) then Err(Forbidden)
    else
      Ok(Board(b.posts - {post}, map c | c in b.comments && b.comments[c].post != post :: b.comments[c]))
  }

  /** `delete_comment`. */
  function DeleteComment(cat: Courses.Catalog, b: Board, uid: string, comment: nat): (r: Result<Board>)
    requires Valid(b)
    ensures comment !in b.comments ==> r == Err(NotFound)
    ensures r.Ok? <==> comment in b.comments
                       && MayDelete(cat, uid, b.comments[comment].author, b.posts[b.comments[comment].post].course)
    ensures r.Ok? ==> Valid(r.value) && r.value.posts == b.posts
                      && r.value.comments == b.comments - {comment}
  {
    if comment !in b.comments then Err(NotFound)
    else
      var c := b.comments[comment];
      if !MayDelete(cat, uid, c.author, b.posts[c.post].course) then Err(Forbidden)
      else Ok(b.(comments := b.comments - {comment}))
  }

  /** Whatever a post or comment holds is non-blank and carries no
      surrounding whitespace. */
  lemma StoredTextIsClean(cat: Courses.Catalog, b: Board, role: string, uid: string, course: nat, post: nat,
                          title: Option<string>, content: Option<string>, id: nat)
    requires id !in b.posts && id !in b.comments
    ensures var r := CreatePost(cat, b, role, uid, course, title, content, id);
            r.Ok? ==> r.value.posts[id].title != "" && Text.Trimmed(r.value.posts[id].title)
                      && r.value.posts[id].content != "" && Text.Trimmed(r.value.posts[id].content)
    ensures var r := AddComment(cat, b, role, uid, post, content, id);
            r.Ok? ==> r.value.comments[id].content != "" && Text.Trimmed(r.value.comments[id].content)
  {
    Text.StripEmptyIffBlank(title.GetOr(""));
    Text.StripEmptyIffBlank(content.GetOr(""));
  }

  /** A comment its author deletes again leaves the board as it was. */
  lemma CommentThenDeleteIsNoOp(cat: Courses.Catalog, b: Board, role: string, uid: string, post: nat,
                                content: Option<string>, id: nat)
    requires Valid(b) && id !in b.comments
    requires AddComment(cat, b, role, uid, post, content, id).Ok?
    ensures var b2 := AddComment(cat, b, role, uid, post, content, id).value;
            Valid(b2) && DeleteComment(cat, b2, uid, id) == Ok(b)
  {
    var b2 := AddComment(cat, b, role, uid, post, content, id).value;
    assert b2.comments - {id} == b.comments;
  }

  /** Deleting needs no current access: an author who has since been
      unenrolled may still delete their post, while anyone who is neither
      the author nor the instructor may not, whatever their access. */
  lemma DeleteIgnoresAccess(cat: Courses.Catalog, b: Board, role: string, uid: string, post: nat)
    requires Valid(b) && post in b.posts
    ensures b.posts[post].author == uid ==> DeletePost(cat, b, uid, post).Ok?
    ensures b.posts[post].author != uid && Courses.OwnerOf(cat, b.posts[post].course) != Some(uid) ==>
              DeletePost(cat, b, uid, post) == Err(Forbidden)
  {
  }
}

=== FILE: guide.dfy ===
/**
 * The site guide board over the relational store: six categories, four of
 * them open only to admins; pinning and marking a question answered are
 * admin privileges; authors and admins may edit and delete.
 */
module Guide {
  import opened Wrappers
  import Text

  /** The categories and whether each is admin-only. */
  const AdminOnly: map<string, bool> := map[
    "notice" := true, "faq" := true, "qna" := false,
    "resources" := true, "updates" := true, "suggestions" := false]

  /** The guide's own admin test: the role string is exactly "admin". */
  predicate IsAdmin(role: string) {
    role == "admin"
  }

  /** `index`: the requested category, `notice` when none is given or it is unknown. */
  function IndexCategory(requested: Option<string>): (r: string)
    ensures r in AdminOnly
    ensures requested.Some? && requested.value in AdminOnly ==> r == requested.value
    ensures requested.None? || requested.value !in AdminOnly ==> r == "notice"
  {
    var c := requested.GetOr("notice");
    if c in AdminOnly then c else "notice"
  }

  datatype GuidePost = GuidePost(category: string, title: string, content: string, author: string,
                                 pinned: bool, answered: bool, views: nat)
  datatype GuideComment = GuideComment(post: nat, author: string, content: string, adminReply: bool)

  /** The post and comment tables by id. */
  datatype Board = Board(posts: map<nat, GuidePost>, comments: map<nat, GuideComment>)

  /** The foreign key of a comment: its post exists. */
  predicate Valid(b: Board) {
    forall c :: c in b.comments ==> b.comments[c].post in b.posts
  }

  /** The form's pin box, which only an admin's tick sets. */
  function Pin(box: Option<string>, role: string): (r: bool)
    ensures r <==> box == Some("on") && IsAdmin(role)
  {
    box == Some("on") && IsAdmin(role)
  }

  /** `create_post`: the category defaults to `qna`; an unknown one is
      refused, an admin-only one needs an admin, a blank title or content
      is refused; the stored texts are stripped. */
  function CreatePost(b: Board, role: string, uid: string, category: Option<string>,
                      title: Option<string>, content: Option<string>, box: Option<string>, id: nat): (r: Result<Board>)
    requires id !in b.posts
    ensures category.GetOr("qna") !in AdminOnly ==> r == Err(BadRequest)
    ensures category.GetOr("qna") in AdminOnly && AdminOnly[category.GetOr("qna")] && !IsAdmin(role) ==> r == Err(Forbidden)
    ensures r.Ok? <==> category.GetOr("qna") in AdminOnly && (!AdminOnly[category.GetOr("qna")] || IsAdmin(role))
                       && Text.Field(title).Some? && Text.Field(content).Some?
    ensures r.Ok? ==> r.value.comments == b.comments
                      && r.value.posts == b.posts[id := GuidePost(category.GetOr("qna"), Text.Field(title).value,
                                                        Text.Field(content).value, uid, Pin(box, role), false, 0)]
  {
    var cat := category.GetOr("qna");
    var t := Text.Field(title);
    var c := Text.Field(content);
    if cat !in AdminOnly then Err(BadRequest)
    else if AdminOnly[cat] && !IsAdmin(role) then Err(Forbidden)
    else if t.None? || c.None? then Err(BadRequest)
    else Ok(b.(posts := b.posts[id := GuidePost(cat, t.value, c.value, uid, Pin(box, role), false, 0)]))
  }

  /** `view_post`: one more view. */
  function ViewPost(b: Board, id: nat): (r: Result<Board>)
    ensures r.Err? <==> id !in b.posts
    ensures r.Ok? ==> r.value.comments == b.comments && id in r.value.posts && r.value.posts == b.posts[id := r.value.posts[id]]
                      && r.value.posts[id].views == b.posts[id].views + 1
                      && r.value.posts[id].(views := b.posts[id].views) == b.posts[id]
  {
    if id !in b.posts then Err(NotFound)
    else Ok(b.(posts := b.posts[id := b.posts[id].(views := b.posts[id].views + 1)]))
  }

  /** The author-or-admin rule of editing and deleting. */
  predicate MayChange(role: string, uid: string, author: string) {
    author == uid || IsAdmin(role)
  }

  /** `edit_post`: the author or an admin replaces the stripped title and
      content, and the pin is set anew from the form (so a non-admin's
      edit unpins). */
  function EditPost(b: Board, role: string, uid: string, id: nat,
                    title: Option<string>, content: Option<string>, box: Option<string>): (r: Result<Board>)
    ensures id !in b.posts ==> r == Err(NotFound)
    ensures r.Ok? <==> id in b.posts && MayChange(role, uid, b.posts[id].author)
                       && Text.Field(title).Some? && Text.Field(content).Some?
    ensures r.Ok? ==> id in b.posts && r.value.comments == b.comments
                      && r.value.posts == b.posts[id := b.posts[id].(title := Text.Field(title).value,
                                                                     content := Text.Field(content).value,
                                                                     pinned := Pin(box, role))]
  {
    var t := Text.Field(title);
    var c := Text.Field(content);
    if id !in b.posts then Err(NotFound)
    else if !MayChange(role, uid, b.posts[id].author) then Err(Forbidden)
    else if t.None? || c.None? then Err(BadRequest)
    else Ok(b.(posts := b.posts[id := b.posts[id].(title := t.value, content := c.value, pinned := Pin(box, role))]))
  }

  /** `delete_post`: the post goes and, by the cascade, its comments. */
  function DeletePost(b: Board, role: string, uid: string, id: nat): (r: Result<Board>)
    requires Valid(b)
    ensures id !in b.posts ==> r == Err(NotFound)
    ensures r.Ok? <==> id in b.posts && MayChange(role, uid, b.posts[id].author)
    ensures r.Ok? ==> Valid(r.value) && r.value.posts == b.posts - {id}
                      && forall c :: c in r.value.comments <==> c in b.comments && b.comments[c].post != id
  {
    if id !in b.posts then Err(NotFound)
    else if !MayChange(role, uid, b.posts[id].author) then Err(Forbidden)
    else Ok(Board(b.posts - {id}, map c | c in b.comments && b.comments[c].post != id :: b.comments[c]))
  }

  /** `add_comment`: anyone may comment; a blank comment is refused; the
      comment records whether an admin wrote it, and an admin's comment on
      a `qna` post marks the post answered. */
  function AddComment(b: Board, role: string, uid: string, post: nat, content: Option<string>, id: nat): (r: Result<Board>)
    requires id !in b.comments
    ensures post !in b.posts ==> r == Err(NotFound)
    ensures r.Ok? <==> post in b.posts && Text.Field(content).Some?
    ensures r.Ok? ==> post in b.posts
                      && r.value.comments == b.comments[id := GuideComment(post, uid, Text.Field(content).value, IsAdmin(role))]
                      && r.value.posts == b.posts[post := b.posts[post].(answered := b.posts[post].answered
                                                                           || (b.posts[post].category == "qna" && IsAdmin(role)))]
  {
    var c := Text.Field(content);
    if post !in b.posts then Err(NotFound)
    else if c.None? then Err(BadRequest)
    else
      var p := b.posts[post];
      Ok(Board(b.posts[post := p.(answered := p.answered || (p.category == "qna" && IsAdmin(role)))],
               b.comments[id := GuideComment(post, uid, c.value, IsAdmin(role))]))
  }

  /** `delete_comment`. */
  function DeleteComment(b: Board, role: string, uid: string, id: nat): (r: Result<Board>)
    requires Valid(b)
    ensures id !in b.comments ==> r == Err(NotFound)
    ensures r.Ok? <==> id in b.comments && MayChange(role, uid, b.comments[id].author)
    ensures r.Ok? ==> Valid(r.value) && r.value.posts == b.posts && r.value.comments == b.comments - {id}
  {
    if id !in b.comments then Err(NotFound)
    else if !MayChange(role, uid, b.comments[id].author) then Err(Forbidden)
    else Ok(b.(comments := b.comments - {id}))
  }

  /** `toggle_answered`: the admin check comes before the lookup, so a
      non-admin gets 403 even for a missing post. */
  function ToggleAnswered(b: Board, role: string, id: nat): (r: Result<Board>)
    ensures !IsAdmin(role) ==> r == Err(Forbidden)
    ensures IsAdmin(role) && id !in b.posts ==> r == Err(NotFound)
    ensures r.Ok? ==> r.value.comments == b.comments && id in r.value.posts && r.value.posts == b.posts[id := r.value.posts[id]]
                      && r.value.posts[id].answered == !b.posts[id].answered
                      && r.value.posts[id].(answered := b.posts[id].answered) == b.posts[id]
  {
    if !IsAdmin(role) then Err(Forbidden)
    else if id !in b.posts then Err(NotFound)
    else Ok(b.(posts := b.posts[id := b.posts[id].(answered := !b.posts[id].answered)]))
  }

  /** Toggling twice restores the board. */
  lemma ToggleTwiceRestores(b: Board, role: string, id: nat)
    requires IsAdmin(role) && id in b.posts
    ensures ToggleAnswered(ToggleAnswered(b, role, id).value, role, id) == Ok(b)
  {
    var once := ToggleAnswered(b, role, id).value;
    assert once.posts[id := once.posts[id].(answered := !once.posts[id].answered)] == b.posts;
  }

  /** Only an admin pins and only an admin's comment answers: a pinned post
      after a create or an edit, or a post newly answered by a comment, was
      the work of an admin. */
  lemma AdminPrivileges(b: Board, role: string, uid: string, id: nat, post: nat, category: Option<string>,
                        title: Option<string>, content: Option<string>, box: Option<string>)
    requires id !in b.posts && id !in b.comments
    ensures var r := CreatePost(b, role, uid, category, title, content, box, id);
            r.Ok? && r.value.posts[id].pinned ==> IsAdmin(role)
    ensures var r := EditPost(b, role, uid, post, title, content, box);
            r.Ok? && r.value.posts[post].pinned ==> IsAdmin(role)
    ensures var r := AddComment(b, role, uid, post, content, id);
            r.Ok? && r.value.posts[post].answered && !b.posts[post].answered ==>
              IsAdmin(role) && b.posts[post].category == "qna"
  {
  }

  /** None of the roles the user records carry ("student", "instructor",
      "org_admin", "system_admin") passes the guide's admin test, so holders
      of those roles cannot post in an admin-only category, pin, or toggle
      the answered flag. */
  lemma UserRolesAreNotGuideAdmins(b: Board, role: string, uid: string, title: Option<string>,
                                   content: Option<string>, box: Option<string>, id: nat)
    requires role in {"student", "instructor", "org_admin", "system_admin"}
    requires id !in b.posts
    ensures !IsAdmin(role)
    ensures CreatePost(b, role, uid, Some("notice"), title, content, box, id) == Err(Forbidden)
    ensures ToggleAnswered(b, role, id) == Err(Forbidden)
  {
    assert !IsAdmin(role);
    assert Some("notice").GetOr("qna") == "notice";
    assert "notice" in AdminOnly && AdminOnly["notice"];
  }
}

=== FILE: invite_codes.dfy ===
/**
 * Invite codes: eight characters drawn from A-Z and 0-9, redrawn until the
 * code is not already used in the collection, and upper-cased (the subject
 * form also strips it) before lookup. The random source is a parameter: a
 * sequence of draws, each the eight alphabet positions one attempt picks.
 */
module InviteCodes {
  import opened Wrappers
  import Text

  const CodeLength: nat := 8

  /** One random choice: a position in `ascii_uppercase + digits`. */
  type Pick = i: nat | i < 36

  /** The character at a position of `ascii_uppercase + digits`. */
  function Letter(p: Pick): (c: char)
    ensures AlphabetChar(c)
  {
    if p < 26 then ('A' as int + p) as char else ('0' as int + p - 26) as char
  }

  predicate AlphabetChar(c: char) {
    'A' <= c <= 'Z' || '0' <= c <= '9'
  }

  /** Every character is reached by exactly one position. */
  lemma LetterIsBijective(p: Pick, q: Pick, c: char)
    ensures Letter(p) == Letter(q) ==> p == q
    ensures AlphabetChar(c) ==> exists r: Pick :: Letter(r) == c
  {
    if AlphabetChar(c) {
      var r: Pick := if 'A' <= c <= 'Z' then c as int - 'A' as int else c as int - '0' as int + 26;
      assert Letter(r) == c;
    }
  }

  predicate IsCode(s: string) {
    |s| == CodeLength && forall i :: 0 <= i < |s| ==> AlphabetChar(s[i])
  }

  /** The code one attempt spells. */
  function Spell(draw: seq<Pick>): (s: string)
    ensures |s| == |draw|
    ensures forall i :: 0 <= i < |draw| ==> s[i] == Letter(draw[i])
  {
    seq(|draw|, i requires 0 <= i < |draw| => Letter(draw[i]))
  }

  /** The first attempt whose code is unused, if any draw gives one. */
  function FirstFree(used: set<string>, draws: seq<seq<Pick>>): (k: Option<nat>)
    ensures k.Some? ==> k.value < |draws| && Spell(draws[k.value]) !in used
                        && forall j :: 0 <= j < k.value ==> Spell(draws[j]) in used
    ensures k.None? ==> forall j :: 0 <= j < |draws| ==> Spell(draws[j]) in used
    decreases |draws|
  {
    if |draws| == 0 then None
    else if Spell(draws[0]) !in used then Some(0)
    else
      match FirstFree(used, draws[1..])
      case None => None
      case Some(k) => Some(k + 1)
  }

  /** `generate_invite_code`: the loop over attempts. It gives the first
      unused code; the model's draws are finite, so when every one of them is
      taken it gives None where the source would keep drawing. */
  method Generate(used: set<string>, draws: seq<seq<Pick>>) returns (code: Option<string>)
    requires forall i :: 0 <= i < |draws| ==> |draws[i]| == CodeLength
    ensures code.Some? ==> IsCode(code.value) && code.value !in used
    ensures code == (match FirstFree(used, draws)
                     case None => None
                     case Some(k) => Some(Spell(draws[k])))
  {
    var i := 0;
    while i < |draws|
      invariant 0 <= i <= |draws|
      invariant forall j :: 0 <= j < i ==> Spell(draws[j]) in used
    {
      var candidate := Spell(draws[i]);
      if candidate !in used {
        FirstFreeSkips(used, draws, i);
        return Some(candidate);
      }
      i := i + 1;
    }
    FirstFreeSkips(used, draws, i);
    return None;
  }

  /** When the first `i` attempts are all taken, the first free attempt is
      at `i` or later, and exactly `i` when that one is free. */
  lemma {:induction false} FirstFreeSkips(used: set<string>, draws: seq<seq<Pick>>, i: nat)
    requires i <= |draws|
    requires forall j :: 0 <= j < i ==> Spell(draws[j]) in used
    ensures i < |draws| && Spell(draws[i]) !in used ==> FirstFree(used, draws) == Some(i)
    ensures i == |draws| ==> FirstFree(used, draws) == None
  {
    var k := FirstFree(used, draws);
    if k.Some? {
      assert k.value >= i;
    }
  }

  /** What the subject form looks a typed code up by: stripped and upper-cased. */
  function Normalize(typed: string): (r: string)
    ensures |r| <= |typed|
    ensures forall i :: 0 <= i < |r| ==> !('a' <= r[i] <= 'z')
    ensures r == Text.Upper(Text.Strip(typed))
  {
    var t := Text.Strip(typed);
    var r := Text.Upper(t);
    assert forall i :: 0 <= i < |r| ==> r[i] == Text.UpperChar(t[i]);
    r
  }

  /** A generated code is already in normal form. */
  lemma GeneratedCodeIsNormal(code: string)
    requires IsCode(code)
    ensures Normalize(code) == code && code != ""
  {
    assert Text.Trimmed(code);
    assert Text.Upper(code) == code;
  }

  /** A generated code typed in lower case normalises to the code. */
  lemma LowerCaseCodeIsFound(code: string)
    requires IsCode(code)
    ensures Normalize(Text.Lower(code)) == code
  {
    var low := Text.Lower(code);
    assert Text.Trimmed(low);
    assert Text.Upper(low) == code;
  }

  /** Normalising twice is normalising once. */
  lemma NormalizeIdempotent(typed: string)
    ensures Normalize(Normalize(typed)) == Normalize(typed)
  {
    var s := Text.Strip(typed);
    var n := Normalize(typed);
    assert Text.Trimmed(n) by {
      if |n| > 0 {
        assert n[0] == Text.UpperChar(s[0]) && n[|n| - 1] == Text.UpperChar(s[|s| - 1]);
      }
    }
    Text.CaseFolding(s);
  }
}

=== FILE: live_room.dfy ===
/**
 * The live-classroom socket handlers that guard state: course access for a
 * socket user, chat edit and delete, and the in-memory screen-share table
 * (deck id to the presenting instructor).
 */
module LiveRoom {
  import opened Wrappers
  import Text

  /** The socket layer's course check: the instructor who owns the course
      (by the exact role "instructor"), or any enrolled user. */
  predicate CourseAccess(courseFound: bool, role: string, uid: string, owner: string, enrolled: bool) {
    courseFound && ((role == "instructor" && owner == uid) || enrolled)
  }

  // ---------------------------------------------------------------------
  // Chat.

  datatype ChatMsg = ChatMsg(courseId: string, author: string, text: string)

  type Chats = map<string, ChatMsg>

  datatype Course = Course(instructor: string)

  datatype ChatReply = Ignored | InvalidCourse | PermissionDenied | Changed(chats: Chats)

  /** Who may change a message: its author, or the course's owning instructor. */
  predicate MayModerate(m: ChatMsg, role: string, uid: string, c: Course) {
    m.author == uid || (role == "instructor" && c.instructor == uid)
  }

  /** The guards shared by edit and delete, in order: unknown message ignored,
      a course id that does not match the message's is reported, an unknown
      course or a user without access is ignored, and a user who may not
      moderate is refused. */
  function Guard(chats: Chats, courses: map<string, Course>, role: string, uid: string,
                 enrolled: set<(string, string)>, requestCourse: Option<string>, id: string): (r: Option<ChatReply>)
    ensures r.None? <==>
              && id in chats && requestCourse == Some(chats[id].courseId)
              && chats[id].courseId in courses
              && CourseAccess(true, role, uid, courses[chats[id].courseId].instructor, (uid, chats[id].courseId) in enrolled)
              && MayModerate(chats[id], role, uid, courses[chats[id].courseId])
    ensures r.Some? ==> r.value != Changed(chats) && !r.value.Changed?
  {
    if id !in chats then Some(Ignored)
    else
      var m := chats[id];
      if requestCourse != Some(m.courseId) then Some(InvalidCourse)
      else if m.courseId !in courses then Some(Ignored)
      else if !CourseAccess(true, role, uid, courses[m.courseId].instructor, (uid, m.courseId) in enrolled) then Some(Ignored)
      else if !MayModerate(m, role, uid, courses[m.courseId]) then Some(PermissionDenied)
      else None
  }

  /** `edit_chat_message`: a missing id or a blank new text is ignored; after the
      guards, only that message's text changes, to the stripped new text. */
  function EditMessage(chats: Chats, courses: map<string, Course>, role: string, uid: string,
                       enrolled: set<(string, string)>, requestCourse: Option<string>,
                       id: Option<string>, newText: Option<string>): (r: ChatReply)
    ensures r.Changed? <==>
              && id.Some? && id.value != "" && Text.Field(newText).Some?
              && Guard(chats, courses, role, uid, enrolled, requestCourse, id.value).None?
    ensures r.Changed? ==>
              && id.value in chats
              && r.chats == chats[id.value := chats[id.value].(text := Text.Field(newText).value)]
  {
    var t := Text.Field(newText);
    if id.None? || id.value == "" || t.None? then Ignored
    else match Guard(chats, courses, role, uid, enrolled, requestCourse, id.value)
      case Some(reply) => reply
      case None => Changed(chats[id.value := chats[id.value].(text := t.value)])
  }

  /** `delete_chat_message`: after the same guards, only that message goes. */
  function DeleteMessage(chats: Chats, courses: map<string, Course>, role: string, uid: string,
                         enrolled: set<(string, string)>, requestCourse: Option<string>, id: Option<string>): (r: ChatReply)
    ensures r.Changed? <==> id.Some? && id.value != "" && Guard(chats, courses, role, uid, enrolled, requestCourse, id.value).None?
    ensures r.Changed? ==> id.value in chats && r.chats == chats - {id.value}
  {
    if id.None? || id.value == "" then Ignored
    else match Guard(chats, courses, role, uid, enrolled, requestCourse, id.value)
      case Some(reply) => reply
      case None => Changed(chats - {id.value})
  }

  /** A user who neither wrote a message nor owns its course as instructor can
      neither edit nor delete it, whatever else holds. */
  lemma StrangersCannotModerate(chats: Chats, courses: map<string, Course>, role: string, uid: string,
                                enrolled: set<(string, string)>, requestCourse: Option<string>,
                                id: string, newText: Option<string>)
    requires id in chats && chats[id].author != uid
    requires chats[id].courseId in courses ==> !(role == "instructor" && courses[chats[id].courseId].instructor == uid)
    ensures !EditMessage(chats, courses, role, uid, enrolled, requestCourse, Some(id), newText).Changed?
    ensures !DeleteMessage(chats, courses, role, uid, enrolled, requestCourse, Some(id)).Changed?
  {
  }

  // ---------------------------------------------------------------------
  // Screen sharing.

  /** Active shares: deck id to the uid of the instructor presenting it. */
  type Shares = map<string, string>

  /** `start_screen_share`: the owning instructor becomes the presenter. */
  function StartShare(s: Shares, role: string, uid: string, deckFound: bool, ownsCourse: bool, deck: string): (r: Shares)
    ensures role == "instructor" && deckFound && ownsCourse ==> r == s[deck := uid]
    ensures !(role == "instructor" && deckFound && ownsCourse) ==> r == s
  {
    if role != "instructor" || !deckFound || !ownsCourse then s else s[deck := uid]
  }

  /** `stop_screen_share`: the owning instructor ends the deck's share. */
  function StopShare(s: Shares, role: string, deckFound: bool, ownsCourse: bool, deck: string): (r: Shares)
    ensures role == "instructor" && deckFound && ownsCourse ==> deck !in r && r == s - {deck}
    ensures !(role == "instructor" && deckFound && ownsCourse) ==> r == s
  {
    if role != "instructor" || !deckFound || !ownsCourse then s else s - {deck}
  }

  /** `screen_share_frame`: a frame is relayed only from the instructor who is
      presenting that deck, and only when both deck id and frame are non-empty. */
  predicate Relays(s: Shares, role: string, uid: string, deck: string, frame: string) {
    role == "instructor" && deck != "" && frame != "" && deck in s && s[deck] == uid
  }

  /** The `screen_share_active` value sent to a joining viewer. */
  predicate ShareActive(s: Shares, deck: string) {
    deck in s
  }

  /** `disconnect`: every share presented by the leaving user ends, and the
      decks whose shares ended are reported. */
  function Disconnect(s: Shares, uid: string): (r: (Shares, set<string>))
    ensures r.1 == set d | d in s && s[d] == uid
    ensures r.0.Keys == s.Keys - r.1
    ensures forall d :: d in r.0 ==> r.0[d] == s[d] && r.0[d] != uid
  {
    (map d | d in s && s[d] != uid :: s[d], set d | d in s && s[d] == uid)
  }

  /** After a presenter disconnects none of their frames is relayed, and a share
      started by another instructor is unaffected. */
  lemma NoFramesAfterDisconnect(s: Shares, uid: string, role: string, deck: string, frame: string)
    ensures !Relays(Disconnect(s, uid).0, role, uid, deck, frame)
    ensures deck in s && s[deck] != uid ==> ShareActive(Disconnect(s, uid).0, deck)
  {
  }

  /** A share started and then stopped by its owner leaves no trace of the deck. */
  lemma StartThenStop(s: Shares, uid: string, deck: string)
    requires deck !in s
    ensures StopShare(StartShare(s, "instructor", uid, true, true, deck), "instructor", true, true, deck) == s
  {
    assert s[deck := uid] - {deck} == s;
  }
}

=== FILE: notifications.dfy ===
/**
 * Notifications: creation with defaults, marking one read, counting the
 * unread ones, and marking all of a user's unread notifications read in
 * write batches of at most 500 (the document store's batch limit).
 */
module Notifications {
  import opened Wrappers

  /** The Firestore batch write limit. */
  const BatchLimit: nat := 500

  datatype Notification = Notification(user: string, isRead: bool, readAt: Option<int>, createdAt: int)

  /** Notification id to notification. */
  type Store = map<string, Notification>

  /** `create_notification`: `created_at` defaults to now and `is_read` to
      false. The id is the one the store picks, which is new. */
  function Create(s: Store, id: string, user: string, isRead: Option<bool>, createdAt: Option<int>, now: int): (r: Store)
    requires id !in s
    ensures r.Keys == s.Keys + {id} && |r.Keys| == |s.Keys| + 1
    ensures forall k :: k in s ==> r[k] == s[k]
    ensures r[id].user == user && r[id].readAt.None?
    ensures isRead.None? ==> !r[id].isRead
    ensures createdAt.None? ==> r[id].createdAt == now
    ensures isRead.Some? ==> r[id].isRead == isRead.value
    ensures createdAt.Some? ==> r[id].createdAt == createdAt.value
  {
    s[id := Notification(user, isRead.GetOr(false), None, createdAt.GetOr(now))]
  }

  /** The state a read mark leaves a notification in. */
  function Read(n: Notification, now: int): (r: Notification)
    ensures r.isRead && r.readAt == Some(now)
    ensures r.user == n.user && r.createdAt == n.createdAt
  {
    n.(isRead := true, readAt := Some(now))
  }

  /** `mark_notification_read`: an update, which fails on a missing document. */
  function MarkRead(s: Store, id: string, now: int): (r: Result<Store>)
    ensures r.Err? <==> id !in s
    ensures r.Ok? ==> r.value.Keys == s.Keys && r.value[id] == Read(s[id], now)
                      && forall k :: k in s && k != id ==> r.value[k] == s[k]
  {
    if id !in s then Err(NotFound) else Ok(s[id := Read(s[id], now)])
  }

  /** The notifications the `user_id == u and is_read == False` query returns. */
  function Unread(s: Store, user: string): set<string> {
    set id | id in s && s[id].user == user && !s[id].isRead
  }

  /** `count_unread`. */
  function CountUnread(s: Store, user: string): nat {
    |Unread(s, user)|
  }

  /** A new notification adds one to its user's unread count when it is
      created unread. */
  lemma CreateCountsUnread(s: Store, id: string, user: string, isRead: Option<bool>, createdAt: Option<int>, now: int)
    requires id !in s
    ensures CountUnread(Create(s, id, user, isRead, createdAt, now), user)
            == CountUnread(s, user) + (if isRead.GetOr(false) then 0 else 1)
  {
    var r := Create(s, id, user, isRead, createdAt, now);
    if isRead.GetOr(false) {
      assert Unread(r, user) == Unread(s, user);
    } else {
      assert Unread(r, user) == Unread(s, user) + {id};
    }
  }

  /** A new notification leaves every other user's unread count as it was. */
  lemma CreateKeepsOthers(s: Store, id: string, user: string, isRead: Option<bool>, createdAt: Option<int>, now: int, other: string)
    requires id !in s && other != user
    ensures CountUnread(Create(s, id, user, isRead, createdAt, now), other) == CountUnread(s, other)
  {
    assert Unread(Create(s, id, user, isRead, createdAt, now), other) == Unread(s, other);
  }

  /** The ids of the batches in commit order, joined. */
  function Flatten(commits: seq<seq<string>>): seq<string>
    decreases |commits|
  {
    if |commits| == 0 then [] else Flatten(commits[..|commits| - 1]) + commits[|commits| - 1]
  }

  /** The loop of `mark_all_read` as far as batching goes: one write per
      streamed id, a commit after every 500th write and one for a partial
      last batch. The batches cover the stream in order, none is empty, none
      holds more than 500 writes, and only the last holds fewer. */
  method Batches(stream: seq<string>) returns (commits: seq<seq<string>>)
    ensures Flatten(commits) == stream
    ensures forall c :: 0 <= c < |commits| ==> 0 < |commits[c]| <= BatchLimit
    ensures forall c :: 0 <= c < |commits| - 1 ==> |commits[c]| == BatchLimit
    ensures |commits| == (|stream| + BatchLimit - 1) / BatchLimit
  {
    commits := [];
    var batch: seq<string> := [];
    var count := 0;
    while count < |stream|
      invariant 0 <= count <= |stream|
      invariant Flatten(commits) + batch == stream[..count]
      invariant |batch| == count % BatchLimit
      invariant |commits| == count / BatchLimit
      invariant forall c :: 0 <= c < |commits| ==> |commits[c]| == BatchLimit
    {
      var id := stream[count];
      CountStep(count);
      batch := batch + [id];
      count := count + 1;
      assert stream[..count] == stream[..count - 1] + [id];
      if count % BatchLimit == 0 {
        FlattenSnoc(commits, batch);
        CommitFull(commits, batch);
        commits := commits + [batch];
        batch := [];
      }
    }
    assert stream[..count] == stream;
    BatchCount(count);
    if count % BatchLimit != 0 {
      FlattenSnoc(commits, batch);
      commits := commits + [batch];
    }
  }

  lemma CommitFull(commits: seq<seq<string>>, batch: seq<string>)
    requires forall c :: 0 <= c < |commits| ==> |commits[c]| == BatchLimit
    requires |batch| == BatchLimit
    ensures forall c :: 0 <= c < |commits + [batch]| ==> |(commits + [batch])[c]| == BatchLimit
  {
  }

  /** The store once every batch is committed, in order: a batch's updates
      reach the store when it is committed. */
  function Commit(s: Store, commits: seq<seq<string>>, now: int): (r: Store)
    ensures r == ReadAll(s, Flatten(commits), now)
    decreases |commits|
  {
    if |commits| == 0 then s
    else
      var front := commits[..|commits| - 1];
      var batch := commits[|commits| - 1];
      ReadAllConcat(s, Flatten(front), batch, now);
      ReadAll(Commit(s, front, now), batch, now)
  }

  /** `mark_all_read`. `stream` is the order the query yields the user's
      unread notifications in. Every unread notification of the user ends
      read at `now` and nothing else changes. */
  method MarkAllRead(s: Store, user: string, stream: seq<string>, now: int) returns (r: Store, commits: seq<seq<string>>)
    requires forall id :: id in Unread(s, user) <==> id in stream
    requires forall i, j :: 0 <= i < j < |stream| ==> stream[i] != stream[j]
    ensures r.Keys == s.Keys
    ensures forall id :: id in s ==> r[id] == if id in Unread(s, user) then Read(s[id], now) else s[id]
    ensures Flatten(commits) == stream
    ensures forall c :: 0 <= c < |commits| ==> 0 < |commits[c]| <= BatchLimit
    ensures |commits| == (|stream| + BatchLimit - 1) / BatchLimit
  {
    commits := Batches(stream);
    r := Commit(s, commits, now);
    assert forall i :: 0 <= i < |stream| ==> stream[i] in Unread(s, user);
    ReadAllMarks(s, stream, now);
  }

  /** The store after the updates of `ids`, in order (an id with no
      document is skipped: the query only yields existing ones). */
  function ReadAll(s: Store, ids: seq<string>, now: int): (r: Store)
    ensures r.Keys == s.Keys
    decreases |ids|
  {
    if |ids| == 0 then s
    else
      var r := ReadAll(s, ids[..|ids| - 1], now);
      var id := ids[|ids| - 1];
      if id in r then r[id := Read(r[id], now)] else r
  }

  /** Applying two runs of updates is applying their concatenation. */
  lemma {:induction false} ReadAllConcat(s: Store, a: seq<string>, b: seq<string>, now: int)
    ensures ReadAll(ReadAll(s, a, now), b, now) == ReadAll(s, a + b, now)
    decreases |b|
  {
    if |b| == 0 {
      assert a + b == a;
    } else {
      ReadAllConcat(s, a, b[..|b| - 1], now);
      assert (a + b)[..|a + b| - 1] == a + b[..|b| - 1];
    }
  }

  /** The updates of distinct existing ids read each of them once and touch
      nothing else. */
  lemma {:induction false} ReadAllMarks(s: Store, ids: seq<string>, now: int)
    requires forall i :: 0 <= i < |ids| ==> ids[i] in s
    requires forall i, j :: 0 <= i < j < |ids| ==> ids[i] != ids[j]
    ensures forall id :: id in s ==> ReadAll(s, ids, now)[id] == if id in ids then Read(s[id], now) else s[id]
    decreases |ids|
  {
    if |ids| > 0 {
      var front := ids[..|ids| - 1];
      ReadAllMarks(s, front, now);
      assert forall id :: id in ids <==> id in front || id == ids[|ids| - 1];
      assert ids[|ids| - 1] !in front;
    }
  }

  /** How the write count's remainder and quotient move by one write. */
  lemma CountStep(count: nat)
    ensures (count + 1) % BatchLimit == if count % BatchLimit == BatchLimit - 1 then 0 else count % BatchLimit + 1
    ensures (count + 1) / BatchLimit == if count % BatchLimit == BatchLimit - 1 then count / BatchLimit + 1 else count / BatchLimit
  {
  }

  /** The number of batches: full ones, plus one for a remainder. */
  lemma BatchCount(count: nat)
    ensures (count + BatchLimit - 1) / BatchLimit == count / BatchLimit + (if count % BatchLimit == 0 then 0 else 1)
  {
  }

  lemma FlattenSnoc(commits: seq<seq<string>>, batch: seq<string>)
    ensures Flatten(commits + [batch]) == Flatten(commits) + batch
  {
    assert (commits + [batch])[..|commits|] == commits;
  }

  /** After marking all read the user has no unread notification, and no
      other user's count moves. */
  lemma MarkAllReadClears(s: Store, user: string, r: Store, now: int)
    requires r.Keys == s.Keys
    requires forall id :: id in s ==> r[id] == if id in Unread(s, user) then Read(s[id], now) else s[id]
    ensures CountUnread(r, user) == 0
    ensures forall other :: other != user ==> Unread(r, other) == Unread(s, other)
  {
    assert Unread(r, user) == {};
  }
}

=== FILE: progress_docs.dfy ===
/**
 * Progress records as stored documents: the typed record of the progress
 * timer written with `Progress.to_dict` and read back with `from_dict`, and
 * `count_completed_progress`, the batched query that counts finished records
 * per checkpoint.
 */
module ProgressDocs {
  import opened Wrappers
  import opened Records
  import RecordSchemas
  import ProgressTimer

  function OptInt(o: Option<int>): Value {
    match o
    case None => Null
    case Some(n) => Int(n)
  }

  function OptStr(o: Option<string>): Value {
    match o
    case None => Null
    case Some(s) => Str(s)
  }

  /** The nine attributes a progress document carries. */
  predicate HasProgressFields(r: Record) {
    && "user_id" in r && "checkpoint_id" in r && "mode" in r
    && "started_at" in r && "completed_at" in r && "duration_seconds" in r
    && "paused_at" in r && "accumulated_seconds" in r && "is_paused" in r
  }

  /** The nine attributes `Progress.to_dict` writes, from the store key and record. */
  function Encode(k: ProgressTimer.Key, p: ProgressTimer.Progress): (r: Record)
    ensures HasProgressFields(r)
    ensures r["user_id"] == Str(k.user) && r["checkpoint_id"] == Str(k.checkpoint)
    ensures r["mode"] == OptStr(k.mode) && r["duration_seconds"] == OptInt(p.duration)
    ensures r["started_at"] == FromOption(p.startedAt) && r["completed_at"] == FromOption(p.completedAt)
    ensures r["paused_at"] == FromOption(p.pausedAt)
    ensures r["is_paused"] == Bool(p.isPaused) && r["accumulated_seconds"] == Int(p.accumulated)
  {
    map[
      "user_id" := Str(k.user),
      "checkpoint_id" := Str(k.checkpoint),
      "mode" := OptStr(k.mode),
      "started_at" := FromOption(p.startedAt),
      "completed_at" := FromOption(p.completedAt),
      "duration_seconds" := OptInt(p.duration),
      "paused_at" := FromOption(p.pausedAt),
      "accumulated_seconds" := Int(p.accumulated),
      "is_paused" := Bool(p.isPaused)
    ]
  }

  function AsTime(v: Value): Option<Option<int>> {
    match v
    case Null => Some(None)
    case Time(t) => Some(Some(t))
    case _ => None
  }

  function AsOptInt(v: Value): Option<Option<int>> {
    match v
    case Null => Some(None)
    case Int(n) => Some(Some(n))
    case _ => None
  }

  function AsOptStr(v: Value): Option<Option<string>> {
    match v
    case Null => Some(None)
    case Str(s) => Some(Some(s))
    case _ => None
  }

  /** A record read by `from_dict`, as the typed key and timer record, or None
      when some attribute has a type the timer does not use. */
  function Decode(r: Record): (o: Option<(ProgressTimer.Key, ProgressTimer.Progress)>)
    requires HasProgressFields(r)
    ensures o.Some? ==> r["user_id"] == Str(o.value.0.user) && r["checkpoint_id"] == Str(o.value.0.checkpoint)
    ensures o.Some? ==> (r["completed_at"].Null? <==> o.value.1.completedAt.None?)
  {
    var mode := AsOptStr(r["mode"]);
    var started := AsTime(r["started_at"]);
    var completed := AsTime(r["completed_at"]);
    var paused := AsTime(r["paused_at"]);
    var duration := AsOptInt(r["duration_seconds"]);
    if r["user_id"].Str? && r["checkpoint_id"].Str? && mode.Some? && started.Some? && completed.Some?
       && paused.Some? && duration.Some? && r["accumulated_seconds"].Int? && r["is_paused"].Bool?
    then
      Some((ProgressTimer.Key(r["user_id"].s, r["checkpoint_id"].s, mode.value),
            ProgressTimer.Progress(started.value, paused.value, r["is_paused"].b,
                                   r["accumulated_seconds"].i, completed.value, duration.value)))
    else None
  }

  /** The progress schema has no field that `to_dict` fills in. */
  lemma NoFilledFields()
    ensures forall key :: key in RecordSchemas.ProgressSchema ==>
              RecordSchemas.ProgressSchema[key].Plain? || RecordSchemas.ProgressSchema[key].Moment?
  {
  }

  lemma EncodeConforms(k: ProgressTimer.Key, p: ProgressTimer.Progress)
    ensures Conforms(RecordSchemas.ProgressSchema, Encode(k, p))
  {
    var e := Encode(k, p);
    NoFilledFields();
    forall key | key in RecordSchemas.ProgressSchema
      ensures Fits(RecordSchemas.ProgressSchema[key], e[key])
    {
      if RecordSchemas.ProgressSchema[key].Moment? {
        assert key in {"started_at", "completed_at", "paused_at"};
      }
    }
  }

  /** Decoding is the inverse of encoding. */
  lemma DecodeEncode(k: ProgressTimer.Key, p: ProgressTimer.Progress)
    ensures Decode(Encode(k, p)) == Some((k, p))
  {
    var e := Encode(k, p);
    assert AsOptStr(e["mode"]) == Some(k.mode);
    assert AsTime(e["started_at"]) == Some(p.startedAt);
    assert AsTime(e["completed_at"]) == Some(p.completedAt);
    assert AsTime(e["paused_at"]) == Some(p.pausedAt);
    assert AsOptInt(e["duration_seconds"]) == Some(p.duration);
  }

  /** `to_dict` writes a progress record as it is. */
  lemma WriteKeepsRecord(k: ProgressTimer.Key, p: ProgressTimer.Progress, now: int)
    ensures ToDict(RecordSchemas.ProgressSchema, Encode(k, p), now) == Encode(k, p)
  {
    EncodeConforms(k, p);
    NoFilledFields();
    WriteKeepsUnfilled(RecordSchemas.ProgressSchema, Encode(k, p), now);
  }

  /** Every timer record survives a write and a read: a progress record has no
      field that `to_dict` fills in. */
  lemma DocRoundTrip(k: ProgressTimer.Key, p: ProgressTimer.Progress, now: int,
                     iso: string -> Option<int>, json: string -> Option<Value>)
    ensures Decode(FromDict(RecordSchemas.ProgressSchema, ToDict(RecordSchemas.ProgressSchema, Encode(k, p), now), iso, json))
            == Some((k, p))
  {
    EncodeConforms(k, p);
    RoundTrip(RecordSchemas.ProgressSchema, Encode(k, p), now, iso, json);
    DecodeEncode(k, p);
  }

  /** A progress record read from an empty document. */
  lemma ProgressDefaults(iso: string -> Option<int>, json: string -> Option<Value>)
    ensures var r := FromDict(RecordSchemas.ProgressSchema, map[], iso, json);
            r["mode"] == Str("self_paced") && r["accumulated_seconds"] == Int(0) && r["is_paused"] == Bool(false)
            && r["started_at"] == Null && r["completed_at"] == Null && Decode(r).None?
  {
    EmptyDocumentGivesDefaults(RecordSchemas.ProgressSchema, iso, json);
  }

  /** A slide deck read from an empty document. */
  lemma DeckDefaults(iso: string -> Option<int>, json: string -> Option<Value>)
    ensures var r := FromDict(RecordSchemas.SlideDeckSchema, map[], iso, json);
            r["conversion_status"] == Str("pending") && r["flag_threshold_count"] == Int(5)
            && r["flag_threshold_rate"] == Real(0.25) && r["slide_count"] == Int(0) && r["current_slide_index"] == Int(0)
  {
    EmptyDocumentGivesDefaults(RecordSchemas.SlideDeckSchema, iso, json);
  }

  // ---------------------------------------------------------------------
  // `count_completed_progress`.

  /** The attributes a progress document can carry: the nine record fields,
      the creation and update stamps the store adds, and the course id the
      live completion handler adds. */
  predicate ProgressDocument(d: Doc) {
    forall f :: f in d ==> f in RecordSchemas.ProgressSchema || f in {"created_at", "updated_at", "course_id"}
  }

  /** `d` carries every attribute of `e` with the same value. */
  predicate Extends(d: Doc, e: Record) {
    forall f :: f in e ==> f in d && d[f] == e[f]
  }

  /** The progress collection holds, for each stored record, a document that
      agrees with the record on every record field. */
  predicate Written(docs: map<ProgressTimer.Key, Doc>, s: ProgressTimer.Store) {
    && docs.Keys == s.Keys
    && forall k :: k in docs ==> ProgressDocument(docs[k]) && Extends(docs[k], Encode(k, s[k]))
  }

  lemma SchemaFields()
    ensures "checkpoint_id" in RecordSchemas.ProgressSchema && "mode" in RecordSchemas.ProgressSchema
    ensures "completed_at" in RecordSchemas.ProgressSchema
    ensures "completed" !in RecordSchemas.ProgressSchema && "completed" !in {"created_at", "updated_at", "course_id"}
  {
  }

  /** Which field the query treats as "finished". */
  datatype Criterion =
    | CompletedFlag   // `completed == True`, as the query is written
    | CompletedAt     // a non-null `completed_at`, the field every writer sets

  predicate Finished(d: Doc, c: Criterion) {
    match c
    case CompletedFlag => "completed" in d && d["completed"] == Bool(true)
    case CompletedAt => "completed_at" in d && d["completed_at"] != Null
  }

  /** One document the query returns for checkpoint `cid`. */
  predicate Matches(d: Doc, cid: string, mode: Option<string>, c: Criterion) {
    && "checkpoint_id" in d && d["checkpoint_id"] == Str(cid)
    && Finished(d, c)
    && (mode.Some? ==> "mode" in d && d["mode"] == Str(mode.value))
  }

  function Matching(docs: map<ProgressTimer.Key, Doc>, cid: string, mode: Option<string>, c: Criterion): set<ProgressTimer.Key> {
    set k | k in docs && Matches(docs[k], cid, mode, c)
  }

  const BatchSize := 30

  function Min(a: int, b: int): int { if a <= b then a else b }

  /** `hits` once for every batch of 30 consecutive ids that contains `cid`. */
  function BatchTotal(ids: seq<string>, cid: string, hits: nat): nat
    decreases |ids|
  {
    if |ids| == 0 then 0
    else
      var n := Min(BatchSize, |ids|);
      (if cid in ids[..n] then hits else 0) + BatchTotal(ids[n..], cid, hits)
  }

  predicate Distinct(ids: seq<string>) {
    forall i, j :: 0 <= i < j < |ids| ==> ids[i] != ids[j]
  }

  /** Batches of 30 cover every id, and cover each id of a duplicate-free list
      exactly once. */
  lemma {:induction false} BatchesCoverOnce(ids: seq<string>, cid: string, hits: nat)
    ensures cid !in ids ==> BatchTotal(ids, cid, hits) == 0
    ensures cid in ids ==> BatchTotal(ids, cid, hits) >= hits
    ensures Distinct(ids) && cid in ids ==> BatchTotal(ids, cid, hits) == hits
    decreases |ids|
  {
    if |ids| > 0 {
      var n := Min(BatchSize, |ids|);
      assert ids == ids[..n] + ids[n..];
      BatchesCoverOnce(ids[n..], cid, hits);
      if Distinct(ids) {
        assert Distinct(ids[n..]) by {
          forall i, j | 0 <= i < j < |ids[n..]| ensures ids[n..][i] != ids[n..][j] {
            assert ids[n..][i] == ids[n + i] && ids[n..][j] == ids[n + j];
          }
        }
        if cid in ids[..n] {
          var i :| 0 <= i < n && ids[..n][i] == cid;
          forall j | 0 <= j < |ids[n..]| ensures ids[n..][j] != cid {
            assert ids[n..][j] == ids[n + j];
          }
        }
      }
    }
  }

  function Hits(docs: map<ProgressTimer.Key, Doc>, cid: string, mode: Option<string>, c: Criterion): nat {
    |Matching(docs, cid, mode, c)|
  }

  lemma BatchStep(ids: seq<string>, i: nat, cid: string, hits: nat)
    requires i < |ids|
    ensures var n := Min(BatchSize, |ids| - i);
            BatchTotal(ids[i..], cid, hits) == (if cid in ids[i..i + n] then hits else 0) + BatchTotal(ids[i + n..], cid, hits)
  {
    var n := Min(BatchSize, |ids| - i);
    assert ids[i..][..n] == ids[i..i + n];
    assert ids[i..][n..] == ids[i + n..];
  }

  /** After the batches before position `i`, each id's count holds what those
      batches contributed. */
  ghost predicate Partial(counts: map<string, nat>, ids: seq<string>, i: nat, hits: map<string, nat>)
    requires i <= |ids|
  {
    && counts.Keys <= hits.Keys
    && forall cid :: cid in counts ==>
         counts[cid] + BatchTotal(ids[i..], cid, hits[cid]) == BatchTotal(ids, cid, hits[cid])
  }

  /** One batch's query: every id in the batch gains the documents matching it. */
  function AddBatch(counts: map<string, nat>, batch: seq<string>, hits: map<string, nat>): (r: map<string, nat>)
    requires counts.Keys <= hits.Keys
    ensures r.Keys == counts.Keys
  {
    map cid | cid in counts :: counts[cid] + (if cid in batch then hits[cid] else 0)
  }

  /** One id's count after the batch at position `i`. */
  lemma AddBatchAt(counts: map<string, nat>, ids: seq<string>, i: nat, hits: map<string, nat>, cid: string)
    requires i < |ids| && Partial(counts, ids, i, hits) && cid in counts
    ensures var n := Min(BatchSize, |ids| - i);
            AddBatch(counts, ids[i..i + n], hits)[cid] + BatchTotal(ids[i + n..], cid, hits[cid]) == BatchTotal(ids, cid, hits[cid])
  {
    var n := Min(BatchSize, |ids| - i);
    var h := hits[cid];
    assert counts[cid] + BatchTotal(ids[i..], cid, h) == BatchTotal(ids, cid, h);
    assert AddBatch(counts, ids[i..i + n], hits)[cid] == counts[cid] + (if cid in ids[i..i + n] then h else 0);
    BatchStep(ids, i, cid, h);
  }

  lemma AddBatchStep(counts: map<string, nat>, ids: seq<string>, i: nat, hits: map<string, nat>)
    requires i < |ids| && Partial(counts, ids, i, hits)
    ensures var n := Min(BatchSize, |ids| - i);
            Partial(AddBatch(counts, ids[i..i + n], hits), ids, i + n, hits)
  {
    var n := Min(BatchSize, |ids| - i);
    var next := AddBatch(counts, ids[i..i + n], hits);
    assert next.Keys <= hits.Keys;
    forall cid | cid in next
      ensures next[cid] + BatchTotal(ids[i + n..], cid, hits[cid]) == BatchTotal(ids, cid, hits[cid])
    {
      AddBatchAt(counts, ids, i, hits, cid);
    }
  }

  /** The batching loop of `count_completed_progress`, given how many
      documents each id's query matches: every id gets a count, and each batch
      of 30 ids adds, for each id in it, its matches. */
  method CountBatches(ids: seq<string>, hits: map<string, nat>) returns (counts: map<string, nat>)
    requires forall x :: x in ids ==> x in hits
    ensures forall x :: x in counts <==> x in ids
    ensures |ids| == 0 ==> counts == map[]
    ensures forall cid :: cid in counts ==> counts[cid] == BatchTotal(ids, cid, hits[cid])
  {
    counts := map cid | cid in ids :: 0;
    if |ids| == 0 {
      return;
    }
    var i := 0;
    while i < |ids|
      invariant 0 <= i <= |ids|
      invariant forall x :: x in counts <==> x in ids
      invariant Partial(counts, ids, i, hits)
      decreases |ids| - i
    {
      var n := Min(BatchSize, |ids| - i);
      AddBatchStep(counts, ids, i, hits);
      counts := AddBatch(counts, ids[i..i + n], hits);
      i := i + n;
    }
    assert ids[|ids|..] == [];
  }

  /** `count_completed_progress`: each id's count is what its batches' queries
      return for it. */
  method CountCompleted(docs: map<ProgressTimer.Key, Doc>, ids: seq<string>, mode: Option<string>, c: Criterion)
    returns (counts: map<string, nat>)
    ensures forall x :: x in counts <==> x in ids
    ensures |ids| == 0 ==> counts == map[]
    ensures forall cid :: cid in counts ==> counts[cid] == BatchTotal(ids, cid, Hits(docs, cid, mode, c))
  {
    var hits := map cid | cid in ids :: Hits(docs, cid, mode, c);
    counts := CountBatches(ids, hits);
  }

  /** With distinct ids, which is how the live handlers call it, each count is
      exactly the number of matching documents. */
  lemma CountsOfDistinctIds(docs: map<ProgressTimer.Key, Doc>, ids: seq<string>, mode: Option<string>, c: Criterion,
                            counts: map<string, nat>)
    requires Distinct(ids)
    requires forall x :: x in counts <==> x in ids
    requires forall cid :: cid in counts ==> counts[cid] == BatchTotal(ids, cid, Hits(docs, cid, mode, c))
    ensures forall cid :: cid in counts ==> counts[cid] == |Matching(docs, cid, mode, c)|
  {
    forall cid | cid in counts
      ensures counts[cid] == |Matching(docs, cid, mode, c)|
    {
      BatchesCoverOnce(ids, cid, Hits(docs, cid, mode, c));
    }
  }

  /** As written, the query asks for `completed == True`, a field no progress
      document carries: every count is 0, whatever has been completed. */
  lemma AsWrittenCountsNothing(docs: map<ProgressTimer.Key, Doc>, s: ProgressTimer.Store, cid: string, mode: Option<string>)
    requires Written(docs, s)
    ensures Matching(docs, cid, mode, CompletedFlag) == {}
  {
    SchemaFields();
  }

  /** What a stored document says about the fields the query reads. */
  lemma StoredFields(d: Doc, k: ProgressTimer.Key, p: ProgressTimer.Progress)
    requires Extends(d, Encode(k, p))
    ensures "checkpoint_id" in d && d["checkpoint_id"] == Str(k.checkpoint)
    ensures "completed_at" in d && d["completed_at"] == FromOption(p.completedAt)
    ensures "mode" in d && d["mode"] == OptStr(k.mode)
  {
    SchemaFields();
  }

  lemma MatchesStored(d: Doc, k: ProgressTimer.Key, p: ProgressTimer.Progress, cid: string, mode: Option<string>)
    requires Extends(d, Encode(k, p))
    ensures Matches(d, cid, mode, CompletedAt) <==> k.checkpoint == cid && p.completedAt.Some? && (mode.Some? ==> k.mode == mode)
  {
    StoredFields(d, k, p);
  }

  /** Counting a non-null `completed_at` counts exactly the stored records of
      that checkpoint (and mode, when one is given) that are completed. */
  lemma CorrectedCountsCompletions(docs: map<ProgressTimer.Key, Doc>, s: ProgressTimer.Store, cid: string, mode: Option<string>)
    requires Written(docs, s)
    ensures Matching(docs, cid, mode, CompletedAt)
            == set k | k in s && k.checkpoint == cid && s[k].completedAt.Some? && (mode.Some? ==> k.mode == mode)
  {
    forall k | k in s
      ensures Matches(docs[k], cid, mode, CompletedAt)
              <==> k.checkpoint == cid && s[k].completedAt.Some? && (mode.Some? ==> k.mode == mode)
    {
      MatchesStored(docs[k], k, s[k], cid, mode);
    }
  }

  /** One completed self-paced record: counted once when finished means a
      non-null `completed_at`, never as the query is written. */
  lemma CompletedRecordIsMissed()
    ensures var k := ProgressTimer.Key("u", "c", Some("self_paced"));
            var p := ProgressTimer.Progress(Some(0), None, false, 60, Some(60), Some(60));
            var docs := map[k := Encode(k, p)];
            && Written(docs, map[k := p])
            && |Matching(docs, "c", None, CompletedFlag)| == 0
            && |Matching(docs, "c", None, CompletedAt)| == 1
  {
    var k := ProgressTimer.Key("u", "c", Some("self_paced"));
    var p := ProgressTimer.Progress(Some(0), None, false, 60, Some(60), Some(60));
    var docs := map[k := Encode(k, p)];
    var s := map[k := p];
    assert ProgressDocument(Encode(k, p));
    assert Extends(docs[k], Encode(k, s[k]));
    assert Written(docs, s);
    var none: Option<string> := None;
    AsWrittenCountsNothing(docs, s, "c", none);
    CorrectedCountsCompletions(docs, s, "c", none);
    assert (set k' | k' in s && k'.checkpoint == "c" && s[k'].completedAt.Some? && (none.Some? ==> k'.mode == none)) == {k};
  }
}

=== FILE: progress_timer.dfy ===
/**
 * The per-(user, checkpoint, mode) progress timer: the seven route
 * transitions on one Progress record, the elapsed-time reading of the
 * same record, and the keyed store the routes act on.
 *
 * Time is whole seconds supplied by the caller, so the source's
 * `int((now - started_at).total_seconds())` is the plain difference.
 */
module ProgressTimer {
  import opened Wrappers

  type Time = int

  /** One progress record (the timer fields of the `progress` document). */
  datatype Progress = Progress(
    startedAt: Option<Time>,
    pausedAt: Option<Time>,
    isPaused: bool,
    accumulated: int,
    completedAt: Option<Time>,
    duration: Option<int>)

  /** A record whose clock is currently running. */
  predicate Running(p: Progress) {
    p.startedAt.Some? && !p.isPaused && p.completedAt.None?
  }

  /** The shape every transition keeps: a pause timestamp exactly while paused,
      and a paused record is always started and never completed. */
  predicate Valid(p: Progress) {
    && (p.isPaused <==> p.pausedAt.Some?)
    && (p.isPaused ==> p.startedAt.Some? && p.completedAt.None?)
  }

  /** `Valid` plus the clock facts that hold at instant `now` on a monotone clock. */
  predicate ValidAt(p: Progress, now: Time) {
    && Valid(p)
    && p.accumulated >= 0
    && (p.startedAt.Some? ==> p.startedAt.value <= now)
    && (p.duration.Some? ==> p.duration.value >= 0)
  }

  /** The record `start` creates when none exists. */
  function Fresh(now: Time): (r: Progress)
    ensures Running(r) && Valid(r) && r.accumulated == 0
  {
    Progress(Some(now), None, false, 0, None, None)
  }

  /** The record `reset` leaves behind. */
  const Cleared := Progress(None, None, false, 0, None, None)

  /** `get_elapsed_seconds`: the stored total, plus the running interval while the
      clock runs; a completed record reports its duration, or the stored total when
      the duration is missing or zero (Python's `duration_seconds or accumulated`). */
  function Elapsed(p: Progress, now: Time): (r: int)
    ensures p.completedAt.None? && !Running(p) ==> r == p.accumulated
    ensures Running(p) ==> r - p.accumulated == now - p.startedAt.value
    ensures p.completedAt.Some? && (p.duration.None? || p.duration == Some(0)) ==> r == p.accumulated
    ensures p.completedAt.Some? && p.duration.Some? && p.duration.value != 0 ==> r == p.duration.value
  {
    if p.completedAt.Some? then
      (if p.duration.Some? && p.duration.value != 0 then p.duration.value else p.accumulated)
    else if p.startedAt.None? then p.accumulated
    else if p.isPaused then p.accumulated
    else p.accumulated + (now - p.startedAt.value)
  }

  /** `calculate_duration`: when both ends are stamped, the duration is their distance. */
  function CalculateDuration(p: Progress): (r: Progress)
    ensures p.startedAt.Some? && p.completedAt.Some? ==>
              r.duration == Some(p.completedAt.value - p.startedAt.value)
    ensures !(p.startedAt.Some? && p.completedAt.Some?) ==> r == p
    ensures r.(duration := p.duration) == p
  {
    if p.startedAt.Some? && p.completedAt.Some? then
      p.(duration := Some(p.completedAt.value - p.startedAt.value))
    else p
  }

  /** `start`: create a running record, restart a stopped or completed one,
      and leave a paused or running one alone. */
  function Start(p: Option<Progress>, now: Time): (r: Progress)
    ensures r.startedAt.Some?
    ensures p.None? ==> r == Fresh(now)
    ensures p.Some? && p.value.startedAt.Some? && (p.value.isPaused || p.value.completedAt.None?) ==>
              r == p.value
    ensures p.Some? && p.value.completedAt.Some? && !(p.value.startedAt.Some? && p.value.isPaused) ==>
              Running(r) && r.accumulated == 0 && r.duration.None? && r.startedAt == Some(now)
    ensures p.Some? && p.value.startedAt.None? && p.value.completedAt.None? ==>
              r == p.value.(startedAt := Some(now), isPaused := false)
  {
    match p
    case None => Fresh(now)
    case Some(q) =>
      if q.startedAt.None? then
        if q.completedAt.Some? then
          q.(startedAt := Some(now), isPaused := false, completedAt := None, accumulated := 0, duration := None)
        else
          q.(startedAt := Some(now), isPaused := false)
      else if q.isPaused then q
      else if q.completedAt.Some? then
        q.(startedAt := Some(now), completedAt := None, accumulated := 0, duration := None, isPaused := false)
      else q
  }

  /** `complete`: stamp completion, fold a running interval into the total and use
      the total as the duration; with no record, one is created with duration 0. */
  function Complete(p: Option<Progress>, now: Time): (r: Progress)
    ensures r.completedAt == Some(now) && !r.isPaused && r.pausedAt.None?
    ensures r.duration == Some(r.accumulated)
    ensures p.None? ==> r.startedAt == Some(now) && r.accumulated == 0
    ensures p.Some? ==> r.startedAt.None?
    ensures p.Some? ==> r.accumulated == p.value.accumulated
                                         + (if !p.value.isPaused && p.value.startedAt.Some? then now - p.value.startedAt.value else 0)
    ensures p.Some? && p.value.completedAt.None? ==> r.accumulated == Elapsed(p.value, now)
    ensures p.Some? && !Running(p.value) && p.value.completedAt.None? ==> r.accumulated == p.value.accumulated
  {
    match p
    case None => Progress(Some(now), None, false, 0, Some(now), Some(0))
    case Some(q) =>
      var acc := if !q.isPaused && q.startedAt.Some? then q.accumulated + (now - q.startedAt.value) else q.accumulated;
      q.(completedAt := Some(now), duration := Some(acc), accumulated := acc,
         isPaused := false, pausedAt := None, startedAt := None)
  }

  /** The `checkpoint_completed` socket event. It is ignored (None) for an
      unknown checkpoint, a user without course access, and an instructor.
      With no record, one is created started and completed now with duration
      0. Otherwise completion is stamped and, when a start is stored, the
      duration becomes the seconds since that start minus the stored
      `paused_duration`, a field no route writes, so nothing is subtracted.
      The stored total and the pause state are not consulted, and no other
      field changes. */
  function SocketComplete(p: Option<Progress>, found: bool, allowed: bool, isInstructor: bool, now: Time): (r: Option<Progress>)
    ensures r.None? <==> !found || !allowed || isInstructor
    ensures r.Some? ==> r.value.completedAt == Some(now)
    ensures r.Some? && p.None? ==> r.value == Progress(Some(now), None, false, 0, Some(now), Some(0))
    ensures r.Some? && p.Some? && p.value.startedAt.Some? ==> r.value.duration == Some(now - p.value.startedAt.value)
    ensures r.Some? && p.Some? && p.value.startedAt.None? ==> r.value.duration == p.value.duration
    ensures r.Some? && p.Some? ==> r.value.(completedAt := p.value.completedAt, duration := p.value.duration) == p.value
  {
    if !found || !allowed || isInstructor then None
    else match p
      case None => Some(Progress(Some(now), None, false, 0, Some(now), Some(0)))
      case Some(q) =>
        var pausedDuration := 0;
        if q.startedAt.Some? then Some(q.(completedAt := Some(now), duration := Some(now - q.startedAt.value - pausedDuration)))
        else Some(q.(completedAt := Some(now)))
  }

  /** The socket event and the `complete` route agree on a record that has
      run without a break since it was created, and on a missing record. */
  lemma SocketAgreesOnUninterruptedRun(t0: Time, now: Time)
    ensures SocketComplete(None, true, true, false, now) == Some(Complete(None, now))
    ensures SocketComplete(Some(Fresh(t0)), true, true, false, now).value.duration == Complete(Some(Fresh(t0)), now).duration
  {
  }

  /** After a pause and a resume they disagree: the socket event counts only
      the time since the resume. A record started at 0, paused at 10,
      resumed at 100 and completed at 110 ran for 20 seconds; the socket
      event records 10. */
  lemma SocketDropsTimeBeforeResume()
    ensures var resumed := Resume(Some(Pause(Some(Fresh(0)), 10).value), 100).value;
            && Complete(Some(resumed), 110).duration == Some(20)
            && SocketComplete(Some(resumed), true, true, false, 110).value.duration == Some(10)
  {
  }

  /** `uncomplete`: only a completed record is reopened; the total is kept. */
  function Uncomplete(p: Option<Progress>): (r: Result<Progress>)
    ensures r.Ok? <==> p.Some? && p.value.completedAt.Some?
    ensures r.Err? ==> r.error == BadRequest
    ensures r.Ok? ==> r.value.completedAt.None? && r.value.duration.None?
    ensures r.Ok? ==> r.value.(completedAt := p.value.completedAt, duration := p.value.duration) == p.value
  {
    if p.Some? && p.value.completedAt.Some? then
      Ok(p.value.(completedAt := None, duration := None))
    else Err(BadRequest)
  }

  /** `pause`: only a running record pauses; its interval joins the total. */
  function Pause(p: Option<Progress>, now: Time): (r: Result<Progress>)
    ensures r.Ok? <==> p.Some? && Running(p.value)
    ensures r.Err? ==> r.error == BadRequest
    ensures r.Ok? ==> r.value.isPaused && r.value.pausedAt == Some(now)
    ensures r.Ok? ==> r.value.accumulated == p.value.accumulated + (now - p.value.startedAt.value)
    ensures r.Ok? ==> r.value.startedAt == p.value.startedAt && r.value.completedAt.None?
                      && r.value.duration == p.value.duration
  {
    if p.Some? && Running(p.value) then
      var q := p.value;
      Ok(q.(accumulated := q.accumulated + (now - q.startedAt.value), pausedAt := Some(now), isPaused := true))
    else Err(BadRequest)
  }

  /** `resume`: only a paused, uncompleted record resumes; the clock restarts now. */
  function Resume(p: Option<Progress>, now: Time): (r: Result<Progress>)
    ensures r.Ok? <==> p.Some? && p.value.isPaused && p.value.completedAt.None?
    ensures r.Err? ==> r.error == BadRequest
    ensures r.Ok? ==> r.value.startedAt == Some(now) && r.value.pausedAt.None? && !r.value.isPaused
    ensures r.Ok? ==> r.value.accumulated == p.value.accumulated && r.value.completedAt.None?
                      && r.value.duration == p.value.duration
  {
    if p.Some? && p.value.isPaused && p.value.completedAt.None? then
      Ok(p.value.(startedAt := Some(now), pausedAt := None, isPaused := false))
    else Err(BadRequest)
  }

  /** `stop`: a started, uncompleted record stops; a running interval joins the
      total, which also becomes the duration. */
  function Stop(p: Option<Progress>, now: Time): (r: Result<Progress>)
    ensures r.Ok? <==> p.Some? && p.value.startedAt.Some? && p.value.completedAt.None?
    ensures r.Err? ==> r.error == BadRequest
    ensures r.Ok? ==> r.value.startedAt.None? && r.value.pausedAt.None? && !r.value.isPaused
                      && r.value.completedAt.None?
    ensures r.Ok? ==> r.value.duration == Some(r.value.accumulated)
    ensures r.Ok? && p.value.isPaused ==> r.value.accumulated == p.value.accumulated
    ensures r.Ok? && !p.value.isPaused ==>
              r.value.accumulated == p.value.accumulated + (now - p.value.startedAt.value)
  {
    if p.Some? && p.value.startedAt.Some? && p.value.completedAt.None? then
      var q := p.value;
      var acc := if !q.isPaused then q.accumulated + (now - q.startedAt.value) else q.accumulated;
      Ok(q.(accumulated := acc, duration := Some(acc), startedAt := None, pausedAt := None, isPaused := false))
    else Err(BadRequest)
  }

  /** `reset`: an existing record is cleared; a missing one stays missing. */
  function Reset(p: Option<Progress>): (r: Option<Progress>)
    ensures p.None? <==> r.None?
    ensures r.Some? ==> r.value.accumulated == 0 && !r.value.isPaused && Elapsed(r.value, 0) == 0
    ensures r.Some? ==> r.value.startedAt.None? && r.value.pausedAt.None?
                        && r.value.completedAt.None? && r.value.duration.None?
  {
    if p.Some? then Some(Cleared) else None
  }

  // ---------------------------------------------------------------------
  // Single-record replay of route calls.

  datatype Action = StartA | CompleteA | UncompleteA | PauseA | ResumeA | StopA | ResetA

  datatype Event = Event(action: Action, at: Time)

  /** The record after one route call; a rejected call leaves it unchanged. */
  function Step(p: Option<Progress>, e: Event): (r: Option<Progress>)
    ensures e.action != ResetA ==> p.Some? ==> r.Some?
    ensures e.action == ResetA ==> r == Reset(p)
    ensures e.action in {StartA, CompleteA} ==> r.Some?
  {
    match e.action
    case StartA => Some(Start(p, e.at))
    case CompleteA => Some(Complete(p, e.at))
    case UncompleteA => (match Uncomplete(p) case Ok(q) => Some(q) case Err(_) => p)
    case PauseA => (match Pause(p, e.at) case Ok(q) => Some(q) case Err(_) => p)
    case ResumeA => (match Resume(p, e.at) case Ok(q) => Some(q) case Err(_) => p)
    case StopA => (match Stop(p, e.at) case Ok(q) => Some(q) case Err(_) => p)
    case ResetA => Reset(p)
  }

  function Replay(p: Option<Progress>, evs: seq<Event>): Option<Progress>
    decreases |evs|
  {
    if |evs| == 0 then p else Replay(Step(p, evs[0]), evs[1..])
  }

  /** Event times never go backwards and start no earlier than `now`. */
  predicate Chronological(evs: seq<Event>, now: Time) {
    && (|evs| > 0 ==> now <= evs[0].at)
    && (forall i :: 0 < i < |evs| ==> evs[i - 1].at <= evs[i].at)
  }

  /** One step at a later instant keeps the record well formed. */
  lemma StepKeepsValid(p: Option<Progress>, e: Event, now: Time)
    requires p.Some? ==> ValidAt(p.value, now)
    requires now <= e.at
    ensures Step(p, e).Some? ==> ValidAt(Step(p, e).value, e.at)
  {
  }

  /** Any chronological sequence of route calls keeps the record well formed:
      in particular the accumulated total never becomes negative. */
  lemma {:induction false} ReplayKeepsValid(p: Option<Progress>, evs: seq<Event>, now: Time)
    requires p.Some? ==> ValidAt(p.value, now)
    requires Chronological(evs, now)
    ensures Replay(p, evs).Some? ==> ValidAt(Replay(p, evs).value, if |evs| == 0 then now else evs[|evs| - 1].at)
    ensures Replay(p, evs).Some? ==> Replay(p, evs).value.accumulated >= 0
    decreases |evs|
  {
    if |evs| > 0 {
      StepKeepsValid(p, evs[0], now);
      var rest := evs[1..];
      assert Chronological(rest, evs[0].at) by {
        if |rest| > 0 {
          assert rest[0] == evs[1];
        }
        forall i | 0 < i < |rest|
          ensures rest[i - 1].at <= rest[i].at
        {
          assert rest[i - 1] == evs[i] && rest[i] == evs[i + 1];
        }
      }
      ReplayKeepsValid(Step(p, evs[0]), rest, evs[0].at);
      if |rest| > 0 {
        assert rest[|rest| - 1] == evs[|evs| - 1];
      }
    }
  }

  /** Pause, resume, stop, and completing an uncompleted record never change the
      elapsed time observed at the instant of the call. */
  lemma TransitionsKeepElapsed(p: Progress, now: Time)
    requires Valid(p)
    ensures Pause(Some(p), now).Ok? ==> Elapsed(Pause(Some(p), now).value, now) == Elapsed(p, now)
    ensures Resume(Some(p), now).Ok? ==> Elapsed(Resume(Some(p), now).value, now) == Elapsed(p, now)
    ensures Stop(Some(p), now).Ok? ==> Elapsed(Stop(Some(p), now).value, now) == Elapsed(p, now)
    ensures p.completedAt.None? && Complete(Some(p), now).accumulated != 0 ==>
              Elapsed(Complete(Some(p), now), now) == Elapsed(p, now)
  {
  }

  /** Elapsed time never decreases while nothing is called. */
  lemma ElapsedMonotone(p: Progress, t1: Time, t2: Time)
    requires t1 <= t2
    ensures Elapsed(p, t1) <= Elapsed(p, t2)
    ensures !Running(p) ==> Elapsed(p, t1) == Elapsed(p, t2)
  {
  }

  /** `reset` is idempotent. */
  lemma ResetIdempotent(p: Option<Progress>)
    ensures Reset(Reset(p)) == Reset(p)
  {
  }

  /** Completing then uncompleting an uncompleted record gives back its total. */
  lemma CompleteThenUncompleteKeepsTotal(p: Progress, now: Time)
    requires p.completedAt.None?
    ensures Uncomplete(Some(Complete(Some(p), now))).Ok?
    ensures Uncomplete(Some(Complete(Some(p), now))).value.accumulated == Elapsed(p, now)
  {
  }

  /** A start at t0 followed by completion at t1 records the same duration as
      `calculate_duration` computes from the two stamps. */
  lemma UninterruptedRunAgreesWithCalculateDuration(t0: Time, t1: Time)
    ensures Complete(Some(Start(None, t0)), t1).duration
         == CalculateDuration(Start(None, t0).(completedAt := Some(t1))).duration
  {
  }

  // ---------------------------------------------------------------------
  // Additivity over any number of pause/resume pairs.

  /** Pause at ms[0], resume at ms[1], pause at ms[2], ... (pairs). */
  function PauseResumePairs(ms: seq<Time>): (evs: seq<Event>)
    requires |ms| % 2 == 0
    ensures |evs| == |ms|
    decreases |ms|
  {
    if |ms| == 0 then []
    else [Event(PauseA, ms[0]), Event(ResumeA, ms[1])] + PauseResumePairs(ms[2..])
  }

  /** A session: start at ts[0], then pause/resume pairs, then stop at the last time. */
  function SessionEvents(ts: seq<Time>): (evs: seq<Event>)
    requires |ts| >= 2 && |ts| % 2 == 0
  {
    [Event(StartA, ts[0])] + PauseResumePairs(ts[1..|ts| - 1]) + [Event(StopA, ts[|ts| - 1])]
  }

  /** (ts[1] - ts[0]) + (ts[3] - ts[2]) + ...: the total of the running intervals. */
  function RunningTotal(ts: seq<Time>): int
    requires |ts| % 2 == 0
    decreases |ts|
  {
    if |ts| == 0 then 0 else (ts[1] - ts[0]) + RunningTotal(ts[2..])
  }

  lemma {:induction false} ReplayAppend(p: Option<Progress>, a: seq<Event>, b: seq<Event>)
    ensures Replay(p, a + b) == Replay(Replay(p, a), b)
    decreases |a|
  {
    if |a| == 0 {
      assert a + b == b;
    } else {
      assert (a + b)[0] == a[0];
      assert (a + b)[1..] == a[1..] + b;
      ReplayAppend(Step(p, a[0]), a[1..], b);
    }
  }

  /** From a record running since s, the pairs then a stop at e accumulate every
      running interval: (ms[0] - s) + (ms[2] - ms[1]) + ... + (e - last resume). */
  lemma {:induction false} PairsThenStop(p: Progress, ms: seq<Time>, e: Time)
    requires Running(p) && Valid(p)
    requires |ms| % 2 == 0
    ensures Replay(Some(p), PauseResumePairs(ms) + [Event(StopA, e)]).Some?
    ensures Replay(Some(p), PauseResumePairs(ms) + [Event(StopA, e)]).value.accumulated
         == p.accumulated + RunningTotal([p.startedAt.value] + ms + [e])
    ensures Replay(Some(p), PauseResumePairs(ms) + [Event(StopA, e)]).value.duration
         == Some(Replay(Some(p), PauseResumePairs(ms) + [Event(StopA, e)]).value.accumulated)
    ensures !Running(Replay(Some(p), PauseResumePairs(ms) + [Event(StopA, e)]).value)
    decreases |ms|
  {
    var s := p.startedAt.value;
    if |ms| == 0 {
      assert PauseResumePairs(ms) + [Event(StopA, e)] == [Event(StopA, e)];
      assert [s] + ms + [e] == [s, e];
      assert RunningTotal([s, e]) == e - s + RunningTotal([]);
    } else {
      var p1 := Pause(Some(p), ms[0]).value;
      var p2 := Resume(Some(p1), ms[1]).value;
      var tail := PauseResumePairs(ms[2..]) + [Event(StopA, e)];
      calc {
        Replay(Some(p), PauseResumePairs(ms) + [Event(StopA, e)]);
        { assert PauseResumePairs(ms) + [Event(StopA, e)] == [Event(PauseA, ms[0]), Event(ResumeA, ms[1])] + tail;
          ReplayAppend(Some(p), [Event(PauseA, ms[0]), Event(ResumeA, ms[1])], tail); }
        Replay(Replay(Some(p), [Event(PauseA, ms[0]), Event(ResumeA, ms[1])]), tail);
        { var two := [Event(PauseA, ms[0]), Event(ResumeA, ms[1])];
          assert two[1..] == [Event(ResumeA, ms[1])];
          assert Step(Some(p), two[0]) == Some(p1);
          assert Step(Some(p1), Event(ResumeA, ms[1])) == Some(p2);
          assert Replay(Some(p1), [Event(ResumeA, ms[1])]) == Replay(Some(p2), []);
          assert Replay(Some(p), two) == Some(p2); }
        Replay(Some(p2), tail);
      }
      PairsThenStop(p2, ms[2..], e);
      var full := [s] + ms + [e];
      assert full[0] == s && full[1] == ms[0];
      assert full[2..] == [ms[1]] + ms[2..] + [e];
      assert RunningTotal(full) == (ms[0] - s) + RunningTotal(full[2..]);
    }
  }

  /** Additivity: start at ts[0], any number of pause/resume pairs, stop at the
      last time; the total and the duration are the sum of the running intervals. */
  lemma {:induction false} SessionAdditivity(ts: seq<Time>)
    requires |ts| >= 2 && |ts| % 2 == 0
    ensures Replay(None, SessionEvents(ts)).Some?
    ensures Replay(None, SessionEvents(ts)).value.accumulated == RunningTotal(ts)
    ensures Replay(None, SessionEvents(ts)).value.duration == Some(RunningTotal(ts))
    ensures !Running(Replay(None, SessionEvents(ts)).value)
  {
    var ms := ts[1..|ts| - 1];
    var e := ts[|ts| - 1];
    var rest := PauseResumePairs(ms) + [Event(StopA, e)];
    assert SessionEvents(ts) == [Event(StartA, ts[0])] + rest;
    ReplayAppend(None, [Event(StartA, ts[0])], rest);
    assert Replay(None, [Event(StartA, ts[0])]) == Some(Fresh(ts[0]));
    PairsThenStop(Fresh(ts[0]), ms, e);
    assert [ts[0]] + ms + [e] == ts;
  }

  // ---------------------------------------------------------------------
  // The keyed store and the route guard.

  /** The `mode` member of the JSON body: missing, `null`, or a string. */
  datatype ModeField = Missing | Null | Given(s: string)

  /** `data.get('mode', 'self_paced')`. */
  function ModeOf(f: ModeField): (m: Option<string>)
    ensures f.Missing? ==> m == Some("self_paced")
    ensures f.Null? <==> m.None?
  {
    match f
    case Missing => Some("self_paced")
    case Null => None
    case Given(s) => Some(s)
  }

  /** Progress records are unique per (user, checkpoint, mode). */
  datatype Key = Key(user: string, checkpoint: string, mode: Option<string>)

  type Store = map<Key, Progress>

  /** What the caller is allowed to see: the checkpoint exists; the caller is
      enrolled in its course or is its instructor. */
  datatype Access = Access(checkpointFound: bool, enrolled: bool, ownsCourse: bool)

  datatype Status = Started | Completed | Uncompleted | Paused | Resumed | Stopped | WasReset | NoProgress

  datatype Reply = Reply(store: Store, status: Status)

  /** One progress route: the guard (404, then 403), then the transition on the
      record stored under (user, checkpoint, mode). */
  function Route(s: Store, acc: Access, user: string, checkpoint: string, mode: ModeField, e: Event): (r: Result<Reply>)
    ensures !acc.checkpointFound ==> r == Err(NotFound)
    ensures acc.checkpointFound && !acc.enrolled && !acc.ownsCourse ==> r == Err(Forbidden)
    ensures r.Ok? ==> var k := Key(user, checkpoint, ModeOf(mode));
              && (forall k' :: k' != k ==> (k' in r.value.store <==> k' in s))
              && (forall k' :: k' != k && k' in s ==> r.value.store[k'] == s[k'])
              && (k in r.value.store ==> Some(r.value.store[k]) == Step(if k in s then Some(s[k]) else None, e))
              && (k !in r.value.store ==> k !in s)
    ensures r.Ok? && e.action == ResetA ==> (r.value.status == NoProgress <==> Key(user, checkpoint, ModeOf(mode)) !in s)
    ensures r.Err? && acc.checkpointFound && (acc.enrolled || acc.ownsCourse) ==>
              r.error == BadRequest && e.action in {UncompleteA, PauseA, ResumeA, StopA}
  {
    if !acc.checkpointFound then Err(NotFound)
    else if !acc.enrolled && !acc.ownsCourse then Err(Forbidden)
    else
      var k := Key(user, checkpoint, ModeOf(mode));
      var p := if k in s then Some(s[k]) else None;
      match e.action
      case StartA => Ok(Reply(s[k := Start(p, e.at)], Started))
      case CompleteA => Ok(Reply(s[k := Complete(p, e.at)], Completed))
      case UncompleteA =>
        (match Uncomplete(p) case Ok(q) => Ok(Reply(s[k := q], Uncompleted)) case Err(err) => Err(err))
      case PauseA =>
        (match Pause(p, e.at) case Ok(q) => Ok(Reply(s[k := q], Paused)) case Err(err) => Err(err))
      case ResumeA =>
        (match Resume(p, e.at) case Ok(q) => Ok(Reply(s[k := q], Resumed)) case Err(err) => Err(err))
      case StopA =>
        (match Stop(p, e.at) case Ok(q) => Ok(Reply(s[k := q], Stopped)) case Err(err) => Err(err))
      case ResetA =>
        if k in s then Ok(Reply(s[k := Cleared], WasReset)) else Ok(Reply(s, NoProgress))
  }
}

=== FILE: record_schemas.dfy ===
/**
 * The field patterns of every record class of the document store, one
 * schema per class, in the order the classes are declared in
 * app/firestore_models.py (the line of each class is given with it).
 */
module RecordSchemas {
  import opened Records

  // app/firestore_models.py:53-82
  const OrganizationSchema: Schema := map[
    "name" := Plain(Str("")),
    "description" := Plain(Null),
    "logo" := Plain(Null),
    "is_active" := Plain(Bool(true)),
    "created_at" := Stamp,
    "updated_at" := Stamp
  ]

  // app/firestore_models.py:90-214
  const UserSchema: Schema := map[
    "uid" := Plain(Null),
    "username" := Plain(Str("")),
    "email" := Plain(Str("")),
    "role" := Plain(Str("student")),
    "organization_id" := Plain(Null),
    "profile_image" := Plain(Null),
    "nickname" := Plain(Null),
    "full_name" := Plain(Null),
    "profile_url" := Plain(Null),
    "bio" := Plain(Null),
    "phone" := Plain(Null),
    "organization_name" := Plain(Null),
    "position" := Plain(Null),
    "job_title" := Plain(Null),
    "instructor_verified" := Plain(Bool(false)),
    "verification_requested_at" := Moment,
    "created_at" := Stamp,
    "updated_at" := Stamp
  ]

  // app/firestore_models.py:222-264
  const SubjectSchema: Schema := map[
    "title" := Plain(Str("")),
    "description" := Plain(Null),
    "instructor_id" := Plain(Null),
    "organization_id" := Plain(Null),
    "invite_code" := Plain(Str("")),
    "is_visible" := Plain(Bool(true)),
    "deleted_at" := Moment,
    "created_at" := Stamp,
    "updated_at" := Stamp,
    "instructor_name" := Plain(Null)
  ]

  // app/firestore_models.py:272-394
  const CourseSchema: Schema := map[
    "subject_id" := Plain(Null),
    "title" := Plain(Str("")),
    "description" := Plain(Null),
    "week_number" := Plain(Null),
    "session_number" := Plain(Null),
    "order_number" := Plain(Null),
    "instructor_id" := Plain(Null),
    "invite_code" := Plain(Str("")),
    "deleted_at" := Moment,
    "session_type" := Plain(Str("live_session")),
    "start_date" := Moment,
    "end_date" := Moment,
    "attendance_start" := Moment,
    "attendance_end" := Moment,
    "late_allowed" := Plain(Bool(false)),
    "late_end" := Moment,
    "visibility" := Plain(Str("public")),
    "prerequisite_course_id" := Plain(Null),
    "video_url" := Plain(Null),
    "video_file_path" := Plain(Null),
    "video_file_name" := Plain(Null),
    "material_file_path" := Plain(Null),
    "material_file_name" := Plain(Null),
    "material_file_type" := Plain(Null),
    "assignment_description" := Plain(Null),
    "assignment_due_date" := Moment,
    "quiz_time_limit" := Plain(Null),
    "quiz_pass_score" := Plain(Null),
    "min_completion_time" := Plain(Null),
    "preparation_status" := Plain(Str("not_ready")),
    "created_at" := Stamp,
    "updated_at" := Stamp
  ]

  // app/firestore_models.py:402-425
  const EnrollmentSchema: Schema := map[
    "course_id" := Plain(Null),
    "user_id" := Plain(Null),
    "enrolled_at" := Stamp,
    "status" := Plain(Str("approved"))
  ]

  // app/firestore_models.py:433-468
  const CheckpointSchema: Schema := map[
    "course_id" := Plain(Null),
    "title" := Plain(Str("")),
    "description" := Plain(Null),
    "order" := Plain(Int(0)),
    "estimated_minutes" := Plain(Null),
    "created_at" := Stamp,
    "updated_at" := Stamp,
    "deleted_at" := Moment
  ]

  // app/firestore_models.py:476-514
  const ProgressSchema: Schema := map[
    "user_id" := Plain(Null),
    "checkpoint_id" := Plain(Null),
    "mode" := Plain(Str("self_paced")),
    "started_at" := Moment,
    "completed_at" := Moment,
    "duration_seconds" := Plain(Null),
    "paused_at" := Moment,
    "accumulated_seconds" := Plain(Int(0)),
    "is_paused" := Plain(Bool(false))
  ]

  // app/firestore_models.py:522-557
  const ActiveSessionSchema: Schema := map[
    "course_id" := Plain(Null),
    "mode" := Plain(Str("live")),
    "session_type" := Plain(Str("immediate")),
    "live_status" := Plain(Str("preparing")),
    "scheduled_at" := Moment,
    "started_at" := Stamp,
    "ended_at" := Moment,
    "current_checkpoint_id" := Plain(Null)
  ]

  // app/firestore_models.py:565-591
  const UnderstandingStatusSchema: Schema := map[
    "user_id" := Plain(Null),
    "checkpoint_id" := Plain(Null),
    "session_id" := Plain(Null),
    "status" := Plain(Str("")),
    "created_at" := Stamp
  ]

  // app/firestore_models.py:599-625
  const ChatMessageSchema: Schema := map[
    "course_id" := Plain(Null),
    "user_id" := Plain(Null),
    "user_name" := Plain(Null),
    "message" := Plain(Str("")),
    "created_at" := Stamp
  ]

  // app/firestore_models.py:633-665
  const ForumPostSchema: Schema := map[
    "course_id" := Plain(Null),
    "user_id" := Plain(Null),
    "user_name" := Plain(Null),
    "title" := Plain(Str("")),
    "content" := Plain(Str("")),
    "created_at" := Stamp,
    "updated_at" := Stamp
  ]

  // app/firestore_models.py:673-699
  const ForumCommentSchema: Schema := map[
    "post_id" := Plain(Null),
    "user_id" := Plain(Null),
    "user_name" := Plain(Null),
    "content" := Plain(Str("")),
    "created_at" := Stamp
  ]

  // app/firestore_models.py:707-742
  const LiveSessionPostSchema: Schema := map[
    "session_id" := Plain(Null),
    "user_id" := Plain(Null),
    "user_name" := Plain(Null),
    "title" := Plain(Str("")),
    "content" := Plain(Str("")),
    "pinned" := Plain(Bool(false)),
    "created_at" := Stamp,
    "updated_at" := Stamp
  ]

  // app/firestore_models.py:750-776
  const LiveSessionCommentSchema: Schema := map[
    "post_id" := Plain(Null),
    "user_id" := Plain(Null),
    "user_name" := Plain(Null),
    "content" := Plain(Str("")),
    "created_at" := Stamp
  ]

  // app/firestore_models.py:784-816
  const AttendanceSchema: Schema := map[
    "course_id" := Plain(Null),
    "user_id" := Plain(Null),
    "session_id" := Plain(Null),
    "status" := Plain(Str("present")),
    "checked_at" := Stamp,
    "checked_by_id" := Plain(Null),
    "notes" := Plain(Null)
  ]

  // app/firestore_models.py:824-868
  const LearningReviewSchema: Schema := map[
    "user_id" := Plain(Null),
    "user_name" := Plain(Null),
    "course_id" := Plain(Null),
    "subject_id" := Plain(Null),
    "title" := Plain(Str("")),
    "content" := Plain(Str("")),
    "rating" := Plain(Int(5)),
    "likes_count" := Plain(Int(0)),
    "views_count" := Plain(Int(0)),
    "created_at" := Stamp,
    "updated_at" := Stamp
  ]

  // app/firestore_models.py:876-902
  const ReviewCommentSchema: Schema := map[
    "review_id" := Plain(Null),
    "user_id" := Plain(Null),
    "user_name" := Plain(Null),
    "content" := Plain(Str("")),
    "created_at" := Stamp
  ]

  // app/firestore_models.py:910-951
  const QnAPostSchema: Schema := map[
    "user_id" := Plain(Null),
    "user_name" := Plain(Null),
    "course_id" := Plain(Null),
    "subject_id" := Plain(Null),
    "title" := Plain(Str("")),
    "content" := Plain(Str("")),
    "is_resolved" := Plain(Bool(false)),
    "views_count" := Plain(Int(0)),
    "created_at" := Stamp,
    "updated_at" := Stamp
  ]

  // app/firestore_models.py:959-994
  const QnAAnswerSchema: Schema := map[
    "post_id" := Plain(Null),
    "user_id" := Plain(Null),
    "user_name" := Plain(Null),
    "content" := Plain(Str("")),
    "is_accepted" := Plain(Bool(false)),
    "likes_count" := Plain(Int(0)),
    "created_at" := Stamp,
    "updated_at" := Stamp
  ]

  // app/firestore_models.py:1002-1056
  const StudyGroupSchema: Schema := map[
    "creator_id" := Plain(Null),
    "creator_name" := Plain(Null),
    "title" := Plain(Str("")),
    "description" := Plain(Str("")),
    "category" := Plain(Str("general")),
    "max_members" := Plain(Int(10)),
    "current_members" := Plain(Int(1)),
    "status" := Plain(Str("recruiting")),
    "meeting_type" := Plain(Str("online")),
    "meeting_schedule" := Plain(Null),
    "tags" := Collection(List([]), CommaSeparated),
    "created_at" := Stamp,
    "updated_at" := Stamp
  ]

  // app/firestore_models.py:1064-1087
  const StudyGroupMemberSchema: Schema := map[
    "group_id" := Plain(Null),
    "user_id" := Plain(Null),
    "status" := Plain(Str("pending")),
    "joined_at" := Stamp
  ]

  // app/firestore_models.py:1095-1127
  const SubjectEnrollmentSchema: Schema := map[
    "subject_id" := Plain(Null),
    "user_id" := Plain(Null),
    "status" := Plain(Str("pending")),
    "role" := Plain(Str("student")),
    "enrolled_at" := Stamp,
    "approved_at" := Moment,
    "rejected_at" := Moment
  ]

  // app/firestore_models.py:1135-1167
  const SubjectMemberSchema: Schema := map[
    "subject_id" := Plain(Null),
    "user_id" := Plain(Null),
    "role" := Plain(Str("student")),
    "created_at" := Stamp
  ]

  // app/firestore_models.py:1175-1216
  const GuidePostSchema: Schema := map[
    "category" := Plain(Str("")),
    "title" := Plain(Str("")),
    "content" := Plain(Str("")),
    "author_id" := Plain(Null),
    "author_name" := Plain(Null),
    "is_pinned" := Plain(Bool(false)),
    "is_answered" := Plain(Bool(false)),
    "view_count" := Plain(Int(0)),
    "created_at" := Stamp,
    "updated_at" := Stamp
  ]

  // app/firestore_models.py:1224-1253
  const GuideCommentSchema: Schema := map[
    "post_id" := Plain(Null),
    "author_id" := Plain(Null),
    "author_name" := Plain(Null),
    "content" := Plain(Str("")),
    "is_admin_reply" := Plain(Bool(false)),
    "created_at" := Stamp
  ]

  // app/firestore_models.py:1261-1293
  const GuideAttachmentSchema: Schema := map[
    "post_id" := Plain(Null),
    "filename" := Plain(Str("")),
    "original_filename" := Plain(Str("")),
    "file_size" := Plain(Null),
    "file_type" := Plain(Null),
    "storage_path" := Plain(Null),
    "created_at" := Stamp
  ]

  // app/firestore_models.py:1301-1344
  const QuizQuestionSchema: Schema := map[
    "course_id" := Plain(Null),
    "question_text" := Plain(Str("")),
    "question_type" := Plain(Str("multiple_choice")),
    "options" := Collection(List([]), Json),
    "correct_answer" := Plain(Null),
    "points" := Plain(Int(1)),
    "order" := Plain(Int(0)),
    "created_at" := Stamp
  ]

  // app/firestore_models.py:1352-1392
  const QuizAttemptSchema: Schema := map[
    "course_id" := Plain(Null),
    "user_id" := Plain(Null),
    "score" := Plain(Int(0)),
    "max_score" := Plain(Int(0)),
    "started_at" := Stamp,
    "completed_at" := Moment,
    "answers" := Collection(Obj(map[]), Json)
  ]

  // app/firestore_models.py:1400-1441
  const AssignmentSubmissionSchema: Schema := map[
    "course_id" := Plain(Null),
    "user_id" := Plain(Null),
    "content" := Plain(Null),
    "storage_path" := Plain(Null),
    "file_name" := Plain(Null),
    "submitted_at" := Stamp,
    "score" := Plain(Null),
    "feedback" := Plain(Null),
    "graded_at" := Moment,
    "graded_by" := Plain(Null)
  ]

  // app/firestore_models.py:1449-1487
  const VideoWatchLogSchema: Schema := map[
    "course_id" := Plain(Null),
    "user_id" := Plain(Null),
    "watched_seconds" := Plain(Int(0)),
    "total_duration" := Plain(Null),
    "watch_percentage" := Plain(Real(0.0)),
    "last_position" := Plain(Int(0)),
    "play_count" := Plain(Int(0)),
    "created_at" := Stamp,
    "updated_at" := Stamp
  ]

  // app/firestore_models.py:1495-1524
  const SessionCompletionSchema: Schema := map[
    "course_id" := Plain(Null),
    "user_id" := Plain(Null),
    "completed_at" := Stamp,
    "completion_type" := Plain(Str("manual")),
    "time_spent_seconds" := Plain(Int(0)),
    "notes" := Plain(Null)
  ]

  // app/firestore_models.py:1532-1561
  const PageTimeLogSchema: Schema := map[
    "course_id" := Plain(Null),
    "user_id" := Plain(Null),
    "total_seconds" := Plain(Int(0)),
    "last_active_at" := Stamp,
    "created_at" := Stamp,
    "updated_at" := Stamp
  ]

  // app/firestore_models.py:1569-1616
  const SlideDeckSchema: Schema := map[
    "course_id" := Plain(Null),
    "session_id" := Plain(Null),
    "file_name" := Plain(Str("")),
    "slide_count" := Plain(Int(0)),
    "current_slide_index" := Plain(Int(0)),
    "conversion_status" := Plain(Str("pending")),
    "conversion_error" := Plain(Null),
    "slides_dir" := Plain(Null),
    "estimated_duration_minutes" := Plain(Null),
    "flag_threshold_count" := Plain(Int(5)),
    "flag_threshold_rate" := Plain(Real(0.25)),
    "created_at" := Stamp
  ]

  // app/firestore_models.py:1624-1650
  const SlideReactionSchema: Schema := map[
    "deck_id" := Plain(Null),
    "user_id" := Plain(Null),
    "slide_index" := Plain(Int(0)),
    "reaction" := Plain(Str("none")),
    "updated_at" := Stamp
  ]

  // app/firestore_models.py:1658-1696
  const SlideBookmarkSchema: Schema := map[
    "deck_id" := Plain(Null),
    "slide_index" := Plain(Int(0)),
    "is_auto" := Plain(Bool(false)),
    "is_manual" := Plain(Bool(false)),
    "reason" := Plain(Null),
    "memo" := Plain(Null),
    "supplement_url" := Plain(Null),
    "created_at" := Stamp,
    "updated_at" := Stamp
  ]

  // app/firestore_models.py:1704-1736
  const NotificationSchema: Schema := map[
    "user_id" := Plain(Null),
    "type" := Plain(Str("")),
    "title" := Plain(Str("")),
    "message" := Plain(Null),
    "data" := Collection(Obj(map[]), Verbatim),
    "is_read" := Plain(Bool(false)),
    "created_at" := Stamp
  ]
}

=== FILE: records.dfy ===
/**
 * Document serialisation. Every stored record class converts to a
 * document with `to_dict` and back with `from_dict`, following one of a few
 * per-field patterns; a schema names the pattern of each field, so the
 * conversions and their round trip are stated once for all record classes.
 *
 * A record here is the dataclass without its `id` (the document id travels
 * separately), as a map from attribute name to value.
 */
module Records {
  import opened Wrappers
  import Text

  /** Values a document field can hold. Datetimes are integer seconds. */
  datatype Value =
    | Null
    | Bool(b: bool)
    | Int(i: int)
    | Real(r: real)
    | Str(s: string)
    | Time(t: int)
    | List(items: seq<Value>)
    | Obj(fields: map<string, Value>)

  type Doc = map<string, Value>

  /** Python truthiness. */
  predicate Truthy(v: Value) {
    match v
    case Null => false
    case Bool(b) => b
    case Int(i) => i != 0
    case Real(r) => r != 0.0
    case Str(s) => s != ""
    case Time(_) => true
    case List(items) => |items| > 0
    case Obj(fields) => |fields| > 0
  }

  /** `data.get(key, default)`: a key stored with a null value reads as null. */
  function Get(d: Doc, key: string, default: Value): (v: Value)
    ensures key in d ==> v == d[key]
    ensures key !in d ==> v == default
  {
    if key in d then d[key] else default
  }

  /** `value.replace("Z", "+00:00")`. */
  function ReplaceZ(s: string): (r: string)
    ensures 'Z' !in r
    ensures 'Z' !in s ==> r == s
    ensures s == "Z" ==> r == "+00:00"
    decreases |s|
  {
    if |s| == 0 then ""
    else (if s[0] == 'Z' then "+00:00" else [s[0]]) + ReplaceZ(s[1..])
  }

  /** The replacement works piecewise; with the one-character cases above,
      every `Z` becomes `+00:00` and every other character stays in place. */
  lemma {:induction false} ReplaceZAppend(a: string, b: string)
    ensures ReplaceZ(a + b) == ReplaceZ(a) + ReplaceZ(b)
    decreases |a|
  {
    if |a| == 0 {
      assert a + b == b;
    } else {
      assert (a + b)[1..] == a[1..] + b;
      ReplaceZAppend(a[1..], b);
    }
  }

  /** `_parse_datetime`. `iso` stands for `datetime.fromisoformat`, which this
      model does not define: it is None where that call raises. */
  function ParseDatetime(v: Value, iso: string -> Option<int>): (r: Option<int>)
    ensures v.Null? ==> r.None?
    ensures v.Time? ==> r == Some(v.t)
    ensures v.Str? ==> r == iso(ReplaceZ(v.s))
    ensures !(v.Null? || v.Time? || v.Str?) ==> r.None?
  {
    match v
    case Time(t) => Some(t)
    case Str(s) => iso(ReplaceZ(s))
    case _ => None
  }

  function FromOption(o: Option<int>): Value {
    match o
    case None => Null
    case Some(t) => Time(t)
  }

  /** How a collection field stored in an older format is read back. */
  datatype Legacy =
    | Verbatim          // read as stored
    | CommaSeparated    // a string is split on commas, pieces stripped, empties dropped
    | Json              // a string is decoded as JSON, falling back to the empty value

  /** The per-field patterns of `to_dict`/`from_dict`. */
  datatype FieldKind =
    | Plain(default: Value)                     // written as is; read with `data.get(key, default)`
    | Moment                                    // written as is; read with `_parse_datetime`
    | Stamp                                     // written `or now`; read with `_parse_datetime`
    | Collection(empty: Value, legacy: Legacy)  // written `or []` / `or {}`; read per `legacy`

  type Schema = map<string, FieldKind>
  type Record = map<string, Value>

  /** A tag as the comma-separated reader keeps it: a non-blank stripped string. */
  predicate CleanTag(v: Value) {
    v.Str? && v.s != "" && Text.Trimmed(v.s)
  }

  /** `[t.strip() for t in parts if t.strip()]`. */
  function CommaTags(parts: seq<string>): (r: seq<Value>)
    ensures |r| <= |parts|
    ensures forall i :: 0 <= i < |r| ==> CleanTag(r[i])
    ensures |parts| == 1 && Text.Strip(parts[0]) == "" ==> r == []
    ensures |parts| == 1 && Text.Strip(parts[0]) != "" ==> r == [Str(Text.Strip(parts[0]))]
    decreases |parts|
  {
    if |parts| == 0 then []
    else
      var t := Text.Strip(parts[0]);
      var rest := CommaTags(parts[1..]);
      if t == "" then rest
      else
        assert CleanTag(Str(t));
        [Str(t)] + rest
  }

  /** The kept tags of a list of pieces are those of its parts, in order;
      with the one-piece cases, they are the stripped non-blank pieces. */
  lemma {:induction false} CommaTagsAppend(a: seq<string>, b: seq<string>)
    ensures CommaTags(a + b) == CommaTags(a) + CommaTags(b)
    decreases |a|
  {
    if |a| == 0 {
      assert a + b == b;
    } else {
      assert (a + b)[1..] == a[1..] + b;
      CommaTagsAppend(a[1..], b);
    }
  }

  /** A tag string stored in the older comma-separated format. */
  function ParseTags(s: string): (r: Value)
    ensures r.List? && forall i :: 0 <= i < |r.items| ==> CleanTag(r.items[i])
    ensures r.items == CommaTags(Text.Split(s, ','))
  {
    List(CommaTags(Text.Split(s, ',')))
  }

  /** Tags written joined by commas read back as those tags, stripped, with
      the blank ones dropped. */
  lemma ParseTagsOfJoin(pieces: seq<string>)
    requires |pieces| >= 1 && forall i :: 0 <= i < |pieces| ==> ',' !in pieces[i]
    ensures ParseTags(Text.Join(pieces, ',')) == List(CommaTags(pieces))
  {
    Text.SplitOfJoin(pieces, ',');
  }

  /** What `to_dict` writes for one field. */
  function Emit(k: FieldKind, v: Value, now: int): Value {
    match k
    case Stamp => if Truthy(v) then v else Time(now)
    case Collection(empty, _) => if Truthy(v) then v else empty
    case _ => v
  }

  /** What `from_dict` reads for one field. */
  function Read(k: FieldKind, d: Doc, key: string, iso: string -> Option<int>, json: string -> Option<Value>): Value {
    match k
    case Plain(default) => Get(d, key, default)
    case Moment => FromOption(ParseDatetime(Get(d, key, Null), iso))
    case Stamp => FromOption(ParseDatetime(Get(d, key, Null), iso))
    case Collection(empty, legacy) =>
      var x := Get(d, key, Null);
      if x.Str? && legacy == CommaSeparated then ParseTags(x.s)
      else if x.Str? && legacy == Json then json(x.s).GetOr(empty)
      else x
  }

  /** `record.to_dict()`. */
  function ToDict(schema: Schema, r: Record, now: int): (d: Doc)
    requires r.Keys == schema.Keys
    ensures d.Keys == schema.Keys
    ensures forall key :: key in schema && schema[key] == Stamp ==> Truthy(d[key]) && (r[key].Null? ==> d[key] == Time(now))
    ensures forall key :: key in schema && schema[key].Collection? && !Truthy(r[key]) ==> d[key] == schema[key].empty
  {
    map key | key in schema :: Emit(schema[key], r[key], now)
  }

  /** `Class.from_dict(data)`. */
  function FromDict(schema: Schema, d: Doc, iso: string -> Option<int>, json: string -> Option<Value>): (r: Record)
    ensures r.Keys == schema.Keys
  {
    map key | key in schema :: Read(schema[key], d, key, iso, json)
  }

  /** The values a field may hold for `from_dict(to_dict(r))` to give `r` back:
      datetimes are present or absent datetimes (and a stamped one is present),
      and a collection is either non-empty or already the empty value written
      for it (never null, which `to_dict` replaces). */
  predicate Fits(k: FieldKind, v: Value) {
    match k
    case Plain(_) => true
    case Moment => v.Null? || v.Time?
    case Stamp => v.Time?
    case Collection(empty, legacy) =>
      (Truthy(v) || v == empty) && (legacy != Verbatim ==> !v.Str?)
  }

  predicate Conforms(schema: Schema, r: Record) {
    r.Keys == schema.Keys && forall key :: key in schema ==> Fits(schema[key], r[key])
  }

  /** A schema with no stamped or collection field writes every record as it is. */
  lemma WriteKeepsUnfilled(schema: Schema, r: Record, now: int)
    requires r.Keys == schema.Keys
    requires forall key :: key in schema ==> schema[key].Plain? || schema[key].Moment?
    ensures ToDict(schema, r, now) == r
  {
    var d := ToDict(schema, r, now);
    forall key | key in schema ensures d[key] == r[key] {
      assert d[key] == Emit(schema[key], r[key], now);
    }
  }

  /** Reading back what was written gives the record again. */
  lemma RoundTrip(schema: Schema, r: Record, now: int, iso: string -> Option<int>, json: string -> Option<Value>)
    requires Conforms(schema, r)
    ensures FromDict(schema, ToDict(schema, r, now), iso, json) == r
  {
    var d := ToDict(schema, r, now);
    var back := FromDict(schema, d, iso, json);
    forall key | key in schema
      ensures back[key] == r[key]
    {
      match schema[key]
      case Plain(_) =>
      case Moment =>
      case Stamp =>
      case Collection(empty, legacy) =>
        if Truthy(r[key]) {
          assert d[key] == r[key];
        }
    }
  }

  /** Writing is idempotent through a read: a written document is a fixed point. */
  lemma WrittenDocumentsAreStable(schema: Schema, r: Record, now: int, iso: string -> Option<int>, json: string -> Option<Value>)
    requires r.Keys == schema.Keys
    requires forall key :: key in schema && schema[key].Collection? ==>
               !schema[key].empty.Str? && (schema[key].legacy != Verbatim ==> !r[key].Str?)
    requires forall key :: key in schema && (schema[key] == Moment || schema[key] == Stamp) ==> r[key].Null? || r[key].Time?
    ensures var d := ToDict(schema, r, now);
            ToDict(schema, FromDict(schema, d, iso, json), now) == d
  {
    var d := ToDict(schema, r, now);
    var back := FromDict(schema, d, iso, json);
    forall key | key in schema
      ensures Emit(schema[key], back[key], now) == d[key]
    {
      match schema[key]
      case Plain(_) =>
      case Moment =>
      case Stamp =>
      case Collection(empty, legacy) =>
    }
  }

  /** `from_dict({})`: every plain field takes its default, every datetime and
      collection is null. */
  lemma EmptyDocumentGivesDefaults(schema: Schema, iso: string -> Option<int>, json: string -> Option<Value>)
    ensures var r := FromDict(schema, map[], iso, json);
            forall key :: key in schema ==>
              r[key] == (if schema[key].Plain? then schema[key].default else Null)
  {
  }
}

=== FILE: sessions.dfy ===
/**
 * Course sessions: the video id in a YouTube link, the watch log, the quiz
 * (start, submit, pass rule and result comment), manual completion and the
 * page-time log that completes video sessions automatically.
 */
module Sessions {
  import opened Wrappers
  import Text

  // ---------------------------------------------------------------------
  // YouTube links.

  predicate IdChar(c: char) {
    ('a' <= c <= 'z') || ('A' <= c <= 'Z') || ('0' <= c <= '9') || c == '_' || c == '-'
  }

  predicate AllIdChars(s: string) {
    forall i :: 0 <= i < |s| ==> IdChar(s[i])
  }

  const IdLength := 11

  /** The link forms of the first pattern, in alternation order, and of the second. */
  const LinkForms: seq<string> := ["youtube.com/watch?v=", "youtu.be/", "youtube.com/embed/"]
  const ShortsForms: seq<string> := ["youtube.com/shorts/"]

  /** `form` occurs at `i` and is followed by eleven id characters. */
  predicate MatchAt(url: string, i: nat, form: string) {
    && i + |form| + IdLength <= |url|
    && url[i..i + |form|] == form
    && AllIdChars(url[i + |form|..i + |form| + IdLength])
  }

  /** The first form, in alternation order, that matches at `i`. */
  function FormAt(url: string, i: nat, forms: seq<string>): (r: Option<string>)
    ensures r.Some? ==> r.value in forms && MatchAt(url, i, r.value)
    ensures r.None? ==> forall f :: f in forms ==> !MatchAt(url, i, f)
    decreases |forms|
  {
    if |forms| == 0 then None
    else if MatchAt(url, i, forms[0]) then Some(forms[0])
    else FormAt(url, i, forms[1..])
  }

  /** `re.search`: the id of the leftmost match at or after `i`. */
  function SearchFrom(url: string, forms: seq<string>, i: nat): (r: Option<string>)
    ensures r.Some? ==> |r.value| == IdLength && AllIdChars(r.value)
    decreases |url| - i
  {
    if i > |url| then None
    else match FormAt(url, i, forms)
      case Some(f) => Some(url[i + |f|..i + |f| + IdLength])
      case None => SearchFrom(url, forms, i + 1)
  }

  /** `get_youtube_video_id`: None for a missing or empty link or one that
      matches neither pattern; the first pattern is tried first. */
  function VideoId(url: Option<string>): (r: Option<string>)
    ensures url.None? || url == Some("") ==> r.None?
    ensures r.Some? ==> |r.value| == IdLength && AllIdChars(r.value)
  {
    if url.None? || url.value == "" then None
    else match SearchFrom(url.value, LinkForms, 0)
      case Some(id) => Some(id)
      case None => SearchFrom(url.value, ShortsForms, 0)
  }

  /** The id of a short link comes back out. */
  lemma ShortLinkRoundTrip(id: string)
    requires |id| == IdLength && AllIdChars(id)
    ensures VideoId(Some("youtu.be/" + id)) == Some(id)
  {
    var url := "youtu.be/" + id;
    assert url[0..9] == "youtu.be/";
    assert url[9..20] == id;
    assert url[5] == '.';
    assert !MatchAt(url, 0, LinkForms[0]) by {
      if |url| >= 20 {
        assert url[0..20][5] == '.';
      }
    }
    assert MatchAt(url, 0, LinkForms[1]);
    assert FormAt(url, 0, LinkForms) == Some("youtu.be/");
  }

  // ---------------------------------------------------------------------
  // Watch log. Percentages are exact reals here.

  datatype WatchLog = WatchLog(watched: int, total: int, lastPosition: int, playCount: int, percent: real)

  /** What the player reports: seconds watched, video length, position, and
      whether this is a new play. */
  datatype WatchReport = WatchReport(watched: int, total: int, position: int, newPlay: bool)

  const EmptyLog := WatchLog(0, 0, 0, 0, 0.0)

  /** `log_video_watch`: the larger of stored and reported seconds, one more
      play for a new play, and a percentage capped at 100 that is recomputed
      only when the length is positive. */
  function LogWatch(stored: Option<WatchLog>, rep: WatchReport): (r: WatchLog)
    ensures var prev := stored.GetOr(EmptyLog);
            && r.watched >= prev.watched && r.watched >= rep.watched
            && (r.watched == prev.watched || r.watched == rep.watched)
            && r.playCount == prev.playCount + (if rep.newPlay then 1 else 0)
            && (rep.total <= 0 ==> r.percent == prev.percent)
            && (rep.total > 0 ==> r.percent <= 100.0 && (r.watched >= 0 ==> r.percent >= 0.0))
            && (rep.total > 0 && r.percent < 100.0 ==> r.percent * rep.total as real == 100.0 * r.watched as real)
            && (rep.total > 0 ==> (r.percent < 100.0 <==> r.watched < rep.total))
    ensures r.total == rep.total && r.lastPosition == rep.position
  {
    var prev := stored.GetOr(EmptyLog);
    var w := if prev.watched >= rep.watched then prev.watched else rep.watched;
    var pct := if rep.total > 0 then Min100(w as real / rep.total as real * 100.0) else prev.percent;
    PercentOfPositive(w, rep.total);
    WatchLog(w, rep.total, rep.position, prev.playCount + (if rep.newPlay then 1 else 0), pct)
  }

  function Min100(x: real): real {
    if x <= 100.0 then x else 100.0
  }

  lemma PercentOfPositive(w: int, t: int)
    ensures t > 0 ==> (w as real / t as real * 100.0) * t as real == 100.0 * w as real
    ensures t > 0 && w >= 0 ==> w as real / t as real * 100.0 >= 0.0
    ensures t > 0 ==> (w as real / t as real * 100.0 < 100.0 <==> w < t)
  {
    if t > 0 {
      var x := w as real / t as real;
      assert x * t as real == w as real;
      if x < 1.0 {
        assert x * t as real < t as real;
      } else {
        assert x * t as real >= t as real;
      }
    }
  }

  function ReplayWatch(log: WatchLog, reps: seq<WatchReport>): WatchLog
    decreases |reps|
  {
    if |reps| == 0 then log else ReplayWatch(LogWatch(Some(log), reps[0]), reps[1..])
  }

  /** Over any run of reports the stored seconds are the largest seen: never
      below the start or any report, and always one of them. */
  lemma {:induction false} WatchedIsRunningMax(log: WatchLog, reps: seq<WatchReport>)
    ensures var r := ReplayWatch(log, reps);
            && r.watched >= log.watched
            && (forall i :: 0 <= i < |reps| ==> r.watched >= reps[i].watched)
            && (r.watched == log.watched || exists i :: 0 <= i < |reps| && r.watched == reps[i].watched)
    decreases |reps|
  {
    if |reps| > 0 {
      var next := LogWatch(Some(log), reps[0]);
      WatchedIsRunningMax(next, reps[1..]);
      var r := ReplayWatch(log, reps);
      assert r == ReplayWatch(next, reps[1..]);
      forall i | 0 <= i < |reps| ensures r.watched >= reps[i].watched {
        if i > 0 {
          assert reps[i] == reps[1..][i - 1];
        }
      }
      if r.watched != log.watched {
        if r.watched == next.watched {
          assert r.watched == reps[0].watched;
        } else {
          var j :| 0 <= j < |reps[1..]| && r.watched == reps[1..][j].watched;
          assert reps[j + 1] == reps[1..][j];
        }
      }
    }
  }

  // ---------------------------------------------------------------------
  // Quizzes.

  datatype Question = Question(id: string, correctAnswer: string, points: int)

  /** `answer.strip().lower() == correct.strip().lower()`, a missing answer being ''. */
  predicate Correct(q: Question, answers: map<string, string>) {
    var given := if q.id in answers then answers[q.id] else "";
    Text.Lower(Text.Strip(given)) == Text.Lower(Text.Strip(q.correctAnswer))
  }

  /** The points of every question. */
  function MaxScore(qs: seq<Question>): int
    decreases |qs|
  {
    if |qs| == 0 then 0 else qs[0].points + MaxScore(qs[1..])
  }

  /** Which questions the submission answers correctly, in order. */
  function Marks(qs: seq<Question>, answers: map<string, string>): (m: seq<bool>)
    ensures |m| == |qs|
  {
    seq(|qs|, i requires 0 <= i < |qs| => Correct(qs[i], answers))
  }

  /** The points of the questions marked correct. */
  function Earned(qs: seq<Question>, marks: seq<bool>): int
    requires |marks| == |qs|
    decreases |qs|
  {
    if |qs| == 0 then 0
    else (if marks[0] then qs[0].points else 0) + Earned(qs[1..], marks[1..])
  }

  /** The points of the questions answered correctly. */
  function Score(qs: seq<Question>, answers: map<string, string>): int {
    Earned(qs, Marks(qs, answers))
  }

  /** The number of marks set. */
  function Hits(marks: seq<bool>): (n: nat)
    ensures n <= |marks|
    decreases |marks|
  {
    if |marks| == 0 then 0 else (if marks[0] then 1 else 0) + Hits(marks[1..])
  }

  function CorrectCount(qs: seq<Question>, answers: map<string, string>): (n: nat)
    ensures n <= |qs|
  {
    Hits(Marks(qs, answers))
  }

  /** With non-negative points the score lies between 0 and the maximum, and
      reaches the maximum when every answer is correct. */
  lemma ScoreBounds(qs: seq<Question>, answers: map<string, string>)
    requires forall i :: 0 <= i < |qs| ==> qs[i].points >= 0
    ensures 0 <= Score(qs, answers) <= MaxScore(qs)
    ensures (forall i :: 0 <= i < |qs| ==> Correct(qs[i], answers)) ==> Score(qs, answers) == MaxScore(qs)
  {
    var marks := Marks(qs, answers);
    EarnedBounds(qs, marks);
    if forall i :: 0 <= i < |qs| ==> Correct(qs[i], answers) {
      forall i | 0 <= i < |marks|
        ensures marks[i]
      {
        assert marks[i] == Correct(qs[i], answers);
      }
    }
  }

  /** The marked points lie between 0 and the total, and are the total when
      every mark is set. */
  lemma {:induction false} EarnedBounds(qs: seq<Question>, marks: seq<bool>)
    requires |marks| == |qs|
    requires forall i :: 0 <= i < |qs| ==> qs[i].points >= 0
    ensures 0 <= Earned(qs, marks) <= MaxScore(qs)
    ensures (forall i :: 0 <= i < |marks| ==> marks[i]) ==> Earned(qs, marks) == MaxScore(qs)
    decreases |qs|
  {
    if |qs| > 0 {
      var tail := qs[1..];
      assert forall i :: 0 <= i < |tail| ==> tail[i] == qs[i + 1];
      assert forall i :: 0 <= i < |marks[1..]| ==> marks[1..][i] == marks[i + 1];
      EarnedBounds(tail, marks[1..]);
    }
  }

  /** The pass rule: the course's pass score when it has a non-zero one, else
      60% of the attempt's maximum (`score >= max_score * 0.6`). */
  predicate Passed(score: int, maxScore: int, passScore: Option<int>) {
    if passScore.Some? && passScore.value != 0 then score >= passScore.value
    else 5 * score >= 3 * maxScore
  }

  /** The integer form of the 60% rule is the real-number one. */
  lemma SixtyPercent(score: int, maxScore: int)
    ensures 5 * score >= 3 * maxScore <==> score as real >= maxScore as real * 0.6
  {
  }

  /** A stored quiz attempt. `completed` is the document's `completed`
      field, which no route writes. */
  datatype Attempt = Attempt(course: string, user: string, maxScore: int,
                             completedAt: Option<int>, score: Option<int>, answers: map<string, string>,
                             completed: Option<bool>)

  /** Every stored attempt lacks the `completed` field, as every attempt the
      routes write does. */
  predicate WrittenByRoutes(attempts: seq<Attempt>) {
    forall i :: 0 <= i < |attempts| ==> attempts[i].completed.None?
  }

  /** The newest incomplete attempt of the user in the course. Attempts are
      kept in creation order, so the newest is the one at the highest index.
      This is the lookup `get_quiz_attempt(..., completed=False)` is meant
      to perform; `WrittenOpenAttempt` is the one it performs. */
  function OpenAttempt(attempts: seq<Attempt>, course: string, user: string): (r: Option<nat>)
    ensures r.Some? ==> r.value < |attempts| && attempts[r.value].course == course
                        && attempts[r.value].user == user && attempts[r.value].completedAt.None?
    ensures r.Some? ==> forall j :: r.value < j < |attempts| ==>
                          !(attempts[j].course == course && attempts[j].user == user && attempts[j].completedAt.None?)
    ensures r.None? <==> forall i :: 0 <= i < |attempts| ==>
                           !(attempts[i].course == course && attempts[i].user == user && attempts[i].completedAt.None?)
    decreases |attempts|
  {
    if |attempts| == 0 then None
    else
      var last := |attempts| - 1;
      if attempts[last].course == course && attempts[last].user == user && attempts[last].completedAt.None?
      then Some(last)
      else OpenAttempt(attempts[..last], course, user)
  }

  /** `get_quiz_attempt(..., completed=False)` as written: the newest
      attempt of the user in the course whose stored `completed` field is
      false. An equality filter never matches a document without the field. */
  function WrittenOpenAttempt(attempts: seq<Attempt>, course: string, user: string): (r: Option<nat>)
    ensures r.Some? ==> r.value < |attempts| && attempts[r.value].course == course
                        && attempts[r.value].user == user && attempts[r.value].completed == Some(false)
    ensures r.None? <==> forall i :: 0 <= i < |attempts| ==>
                           !(attempts[i].course == course && attempts[i].user == user && attempts[i].completed == Some(false))
    decreases |attempts|
  {
    if |attempts| == 0 then None
    else
      var last := |attempts| - 1;
      if attempts[last].course == course && attempts[last].user == user && attempts[last].completed == Some(false)
      then Some(last)
      else WrittenOpenAttempt(attempts[..last], course, user)
  }

  /** No user has two incomplete attempts in one course. */
  predicate AtMostOneOpen(attempts: seq<Attempt>) {
    forall i, j :: 0 <= i < j < |attempts| && attempts[i].completedAt.None? && attempts[j].completedAt.None?
      ==> attempts[i].course != attempts[j].course || attempts[i].user != attempts[j].user
  }

  /** The course attributes the session routes read. */
  datatype SessionCourse = SessionCourse(sessionType: string, passScore: Option<int>, minCompletionTime: Option<int>)

  /** `start_quiz`: 404 without a course, 400 unless it is a quiz, 403 unless
      enrolled; an open attempt is returned as it is; otherwise a new attempt
      whose maximum is the points of the current questions. */
  function StartQuiz(attempts: seq<Attempt>, course: Option<SessionCourse>, courseId: string, enrolled: bool,
                     user: string, qs: seq<Question>): (r: Result<(seq<Attempt>, nat)>)
    ensures course.None? ==> r == Err(NotFound)
    ensures course.Some? && course.value.sessionType != "quiz" ==> r == Err(BadRequest)
    ensures course.Some? && course.value.sessionType == "quiz" && !enrolled ==> r == Err(Forbidden)
    ensures r.Ok? ==> var (after, i) := r.value;
              && i < |after| && after[i].course == courseId && after[i].user == user && after[i].completedAt.None?
              && (OpenAttempt(attempts, courseId, user).Some? ==> after == attempts && Some(i) == OpenAttempt(attempts, courseId, user))
              && (OpenAttempt(attempts, courseId, user).None? ==>
                    after == attempts + [NewAttempt(courseId, user, qs)])
  {
    match QuizGate(course, enrolled)
    case Some(e) => Err(e)
    case None =>
      match OpenAttempt(attempts, courseId, user)
      case Some(i) => Ok((attempts, i))
      case None => Ok((attempts + [NewAttempt(courseId, user, qs)], |attempts|))
  }

  /** The guards `start_quiz` and `submit_quiz` share: 404 without a course,
      400 unless it is a quiz, 403 unless the user is enrolled. */
  function QuizGate(course: Option<SessionCourse>, enrolled: bool): (r: Option<Error>)
    ensures r.None? <==> course.Some? && course.value.sessionType == "quiz" && enrolled
    ensures r.Some? ==> r.value in {NotFound, BadRequest, Forbidden}
    ensures course.None? ==> r == Some(NotFound)
  {
    if course.None? then Some(NotFound)
    else if course.value.sessionType != "quiz" then Some(BadRequest)
    else if !enrolled then Some(Forbidden)
    else None
  }

  /** The attempt `start_quiz` stores: no score, no answers, no completion
      time and no `completed` field. */
  function NewAttempt(courseId: string, user: string, qs: seq<Question>): Attempt {
    Attempt(courseId, user, MaxScore(qs), None, None, map[], None)
  }

  /** Starting twice in a row leaves one open attempt and returns it twice,
      and starting never creates a second open attempt. */
  lemma StartQuizIsIdempotent(attempts: seq<Attempt>, course: Option<SessionCourse>, courseId: string,
                              enrolled: bool, user: string, qs: seq<Question>)
    requires AtMostOneOpen(attempts)
    requires StartQuiz(attempts, course, courseId, enrolled, user, qs).Ok?
    ensures var (after, i) := StartQuiz(attempts, course, courseId, enrolled, user, qs).value;
            && AtMostOneOpen(after)
            && StartQuiz(after, course, courseId, enrolled, user, qs) == Ok((after, i))
  {
    var (after, i) := StartQuiz(attempts, course, courseId, enrolled, user, qs).value;
    if OpenAttempt(attempts, courseId, user).None? {
      assert after[..|attempts|] == attempts;
      assert OpenAttempt(after, courseId, user) == Some(|attempts|);
    }
  }

  /** The completion record of a session, one per (course, user). */
  datatype Completion = Completion(kind: string, timeSpent: Option<int>, at: int)

  type Completions = map<(string, string), Completion>

  datatype Submitted = Submitted(attempts: seq<Attempt>, completions: Completions, score: int, maxScore: int, passed: bool)

  /** `submit_quiz`: the guards of `start_quiz`, then 400 without an open
      attempt; the open attempt is scored and closed, and a pass records a
      completion unless one exists. */
  function SubmitQuiz(attempts: seq<Attempt>, comps: Completions, course: Option<SessionCourse>, courseId: string,
                      enrolled: bool, user: string, qs: seq<Question>, answers: map<string, string>, now: int): (r: Result<Submitted>)
    ensures course.None? ==> r == Err(NotFound)
    ensures course.Some? && course.value.sessionType == "quiz" && enrolled && OpenAttempt(attempts, courseId, user).None?
            ==> r == Err(BadRequest)
    ensures r.Ok? ==> OpenAttempt(attempts, courseId, user).Some? && var i := OpenAttempt(attempts, courseId, user).value;
              && r.value.score == Score(qs, answers)
              && r.value.maxScore == attempts[i].maxScore
              && r.value.passed == Passed(Score(qs, answers), attempts[i].maxScore, course.value.passScore)
              && r.value.attempts == attempts[i := attempts[i].(score := Some(Score(qs, answers)), answers := answers, completedAt := Some(now))]
              && r.value.completions.Keys == comps.Keys + (if r.value.passed then {(courseId, user)} else {})
              && (forall k :: k in comps ==> r.value.completions[k] == comps[k])
              && ((courseId, user) !in comps && r.value.passed ==> r.value.completions[(courseId, user)].kind == "quiz_pass")
  {
    match QuizGate(course, enrolled)
    case Some(e) => Err(e)
    case None =>
      match OpenAttempt(attempts, courseId, user)
      case None => Err(BadRequest)
      case Some(i) => Ok(Close(attempts, comps, course.value, courseId, user, i, qs, answers, now))
  }

  /** Scores attempt `i`, closes it, and records a pass. */
  function Close(attempts: seq<Attempt>, comps: Completions, course: SessionCourse, courseId: string, user: string,
                 i: nat, qs: seq<Question>, answers: map<string, string>, now: int): (r: Submitted)
    requires i < |attempts|
    ensures r.score == Score(qs, answers) && r.maxScore == attempts[i].maxScore
    ensures r.passed == Passed(Score(qs, answers), attempts[i].maxScore, course.passScore)
    ensures r.attempts == attempts[i := attempts[i].(score := Some(Score(qs, answers)), answers := answers, completedAt := Some(now))]
    ensures r.completions.Keys == comps.Keys + (if r.passed then {(courseId, user)} else {})
    ensures forall k :: k in comps ==> r.completions[k] == comps[k]
    ensures (courseId, user) !in comps && r.passed ==> r.completions[(courseId, user)].kind == "quiz_pass"
  {
    var score := Score(qs, answers);
    var closed := attempts[i := attempts[i].(score := Some(score), answers := answers, completedAt := Some(now))];
    var passed := Passed(score, attempts[i].maxScore, course.passScore);
    var comps' := if passed && (courseId, user) !in comps then comps[(courseId, user) := Completion("quiz_pass", None, now)] else comps;
    Submitted(closed, comps', score, attempts[i].maxScore, passed)
  }

  /** `start_quiz` as written: it looks for an open attempt with
      `WrittenOpenAttempt`. */
  function StartQuizAsWritten(attempts: seq<Attempt>, course: Option<SessionCourse>, courseId: string, enrolled: bool,
                              user: string, qs: seq<Question>): (r: Result<(seq<Attempt>, nat)>)
    ensures QuizGate(course, enrolled).Some? ==> r == Err(QuizGate(course, enrolled).value)
    ensures r.Ok? ==> WrittenOpenAttempt(attempts, courseId, user).None? ==>
              r.value == (attempts + [NewAttempt(courseId, user, qs)], |attempts|)
  {
    match QuizGate(course, enrolled)
    case Some(e) => Err(e)
    case None =>
      match WrittenOpenAttempt(attempts, courseId, user)
      case Some(i) => Ok((attempts, i))
      case None => Ok((attempts + [NewAttempt(courseId, user, qs)], |attempts|))
  }

  /** `submit_quiz` as written: it looks for an open attempt with
      `WrittenOpenAttempt`. */
  function SubmitQuizAsWritten(attempts: seq<Attempt>, comps: Completions, course: Option<SessionCourse>, courseId: string,
                               enrolled: bool, user: string, qs: seq<Question>, answers: map<string, string>, now: int): (r: Result<Submitted>)
    ensures QuizGate(course, enrolled).Some? ==> r == Err(QuizGate(course, enrolled).value)
    ensures QuizGate(course, enrolled).None? && WrittenOpenAttempt(attempts, courseId, user).None? ==> r == Err(BadRequest)
  {
    match QuizGate(course, enrolled)
    case Some(e) => Err(e)
    case None =>
      match WrittenOpenAttempt(attempts, courseId, user)
      case None => Err(BadRequest)
      case Some(i) => Ok(Close(attempts, comps, course.value, courseId, user, i, qs, answers, now))
  }

  /** The lookup as written never finds an attempt, since no stored attempt
      has a `completed` field: every start appends another open attempt, and
      a submission after a start is refused with 400. */
  lemma QuizAsWrittenNeverFindsAttempt(attempts: seq<Attempt>, comps: Completions, course: Option<SessionCourse>,
                                       courseId: string, user: string, qs: seq<Question>,
                                       answers: map<string, string>, now: int)
    requires QuizGate(course, true).None? && WrittenByRoutes(attempts)
    ensures var first := StartQuizAsWritten(attempts, course, courseId, true, user, qs).value.0;
            var second := StartQuizAsWritten(first, course, courseId, true, user, qs).value.0;
            && second == attempts + [NewAttempt(courseId, user, qs), NewAttempt(courseId, user, qs)]
            && !AtMostOneOpen(second)
            && SubmitQuizAsWritten(first, comps, course, courseId, true, user, qs, answers, now) == Err(BadRequest)
  {
    var first := StartQuizAsWritten(attempts, course, courseId, true, user, qs).value.0;
    var second := StartQuizAsWritten(first, course, courseId, true, user, qs).value.0;
    assert WrittenOpenAttempt(attempts, courseId, user).None?;
    assert WrittenOpenAttempt(first, courseId, user).None?;
    assert second[|attempts|] == NewAttempt(courseId, user, qs) && second[|attempts| + 1] == NewAttempt(courseId, user, qs);
  }

  /** With the intended lookup a submission right after a start succeeds and
      closes the attempt the start returned. */
  lemma StartThenSubmit(attempts: seq<Attempt>, comps: Completions, course: Option<SessionCourse>,
                        courseId: string, user: string, qs: seq<Question>,
                        answers: map<string, string>, now: int)
    requires QuizGate(course, true).None?
    ensures var (first, i) := StartQuiz(attempts, course, courseId, true, user, qs).value;
            var r := SubmitQuiz(first, comps, course, courseId, true, user, qs, answers, now);
            r.Ok? && r.value.attempts[i].completedAt == Some(now) && r.value.attempts[i].score == Some(Score(qs, answers))
  {
  }

  /** Submitting closes the open attempt: afterwards the user has none open
      in that course, and no user gains an open attempt. */
  lemma SubmitClosesAttempt(attempts: seq<Attempt>, comps: Completions, course: Option<SessionCourse>, courseId: string,
                            enrolled: bool, user: string, qs: seq<Question>, answers: map<string, string>, now: int)
    requires AtMostOneOpen(attempts)
    requires SubmitQuiz(attempts, comps, course, courseId, enrolled, user, qs, answers, now).Ok?
    ensures var r := SubmitQuiz(attempts, comps, course, courseId, enrolled, user, qs, answers, now).value;
            AtMostOneOpen(r.attempts) && OpenAttempt(r.attempts, courseId, user).None?
  {
    var r := SubmitQuiz(attempts, comps, course, courseId, enrolled, user, qs, answers, now).value;
    var i := OpenAttempt(attempts, courseId, user).value;
    forall j | 0 <= j < |r.attempts|
      ensures !(r.attempts[j].course == courseId && r.attempts[j].user == user && r.attempts[j].completedAt.None?)
    {
      if j != i {
        assert r.attempts[j] == attempts[j];
        if j < i {
          assert attempts[j].completedAt.None? ==> attempts[j].course != attempts[i].course || attempts[j].user != attempts[i].user;
        } else {
          assert attempts[j].completedAt.None? ==> attempts[i].course != attempts[j].course || attempts[i].user != attempts[j].user;
        }
      }
    }
  }

  /** The result page's verdict on a closed attempt. */
  datatype Comment = Congratulate | AlmostThere | ReviewAgain | StartOver

  /** `quiz_result`: a pass congratulates; otherwise the share of wrong answers
      picks the advice (at most 20%, at most 50%, more). */
  function QuizComment(passed: bool, questionCount: nat, correct: nat): (c: Comment)
    requires correct <= questionCount
    ensures passed <==> c == Congratulate
    ensures !passed ==> (c == AlmostThere <==> (questionCount - correct) as real <= questionCount as real * 0.2)
    ensures !passed ==> (c == StartOver <==> (questionCount - correct) as real > questionCount as real * 0.5)
  {
    var wrong := questionCount - correct;
    if passed then Congratulate
    else if 5 * wrong <= questionCount then AlmostThere
    else if 2 * wrong <= questionCount then ReviewAgain
    else StartOver
  }

  function Rank(c: Comment): nat {
    match c
    case Congratulate => 0
    case AlmostThere => 1
    case ReviewAgain => 2
    case StartOver => 3
  }

  /** More correct answers never earn harsher advice. */
  lemma CommentIsMonotone(passed: bool, n: nat, c1: nat, c2: nat)
    requires c1 <= c2 <= n
    ensures Rank(QuizComment(passed, n, c2)) <= Rank(QuizComment(passed, n, c1))
  {
  }

  // ---------------------------------------------------------------------
  // Completion by hand and by time on page.

  /** `mark_complete`: 404/403 guards, then a manual completion unless one exists. */
  function MarkComplete(comps: Completions, courseFound: bool, allowed: bool, key: (string, string),
                        timeSpent: int, now: int): (r: Result<Completions>)
    ensures !courseFound ==> r == Err(NotFound)
    ensures courseFound && !allowed ==> r == Err(Forbidden)
    ensures r.Ok? ==> r.value.Keys == comps.Keys + {key}
                      && (key in comps ==> r.value == comps)
                      && (key !in comps ==> r.value == comps[key := Completion("manual", Some(timeSpent), now)])
  {
    if !courseFound then Err(NotFound)
    else if !allowed then Err(Forbidden)
    else if key in comps then Ok(comps)
    else Ok(comps[key := Completion("manual", Some(timeSpent), now)])
  }

  /** `mark_uncomplete`: the completion goes, if there is one. */
  function MarkUncomplete(comps: Completions, courseFound: bool, allowed: bool, key: (string, string)): (r: Result<Completions>)
    ensures !courseFound ==> r == Err(NotFound)
    ensures courseFound && !allowed ==> r == Err(Forbidden)
    ensures r.Ok? ==> key !in r.value && r.value.Keys == comps.Keys - {key}
                      && forall k :: k in r.value ==> r.value[k] == comps[k]
  {
    if !courseFound then Err(NotFound)
    else if !allowed then Err(Forbidden)
    else Ok(comps - {key})
  }

  /** A second `mark_complete` changes nothing, even at another time; and
      `mark_uncomplete` undoes a first completion. */
  lemma MarkCompleteIdempotent(comps: Completions, key: (string, string), t1: int, t2: int, n1: int, n2: int)
    ensures var once := MarkComplete(comps, true, true, key, t1, n1).value;
            MarkComplete(once, true, true, key, t2, n2) == Ok(once)
    ensures key !in comps ==>
              MarkUncomplete(MarkComplete(comps, true, true, key, t1, n1).value, true, true, key) == Ok(comps)
  {
    if key !in comps {
      assert comps[key := Completion("manual", Some(t1), n1)] - {key} == comps;
    }
  }

  const DefaultMinCompletionTime := 60

  datatype PageTime = PageTime(totals: map<(string, string), int>, completions: Completions,
                               total: int, autoCompleted: bool, minTime: int)

  /** `log_page_time`: the reported seconds are added to the stored total; a
      video session whose total reaches the minimum time (60 seconds unless
      the course sets a non-zero one) is completed once. */
  function LogPageTime(totals: map<(string, string), int>, comps: Completions, course: Option<SessionCourse>,
                       allowed: bool, key: (string, string), seconds: int, now: int): (r: Result<PageTime>)
    ensures course.None? ==> r == Err(NotFound)
    ensures course.Some? && !allowed ==> r == Err(Forbidden)
    ensures r.Ok? ==>
              && r.value.total == (if key in totals then totals[key] else 0) + seconds
              && r.value.totals == totals[key := r.value.total]
              && r.value.minTime == (if course.value.minCompletionTime.Some? && course.value.minCompletionTime.value != 0
                                     then course.value.minCompletionTime.value else DefaultMinCompletionTime)
              && (r.value.autoCompleted <==>
                    course.value.sessionType in {"video", "video_external"} && r.value.total >= r.value.minTime && key !in comps)
              && (r.value.autoCompleted ==> r.value.completions == comps[key := Completion("auto_time", Some(r.value.total), now)])
              && (!r.value.autoCompleted ==> r.value.completions == comps)
  {
    if course.None? then Err(NotFound)
    else if !allowed then Err(Forbidden)
    else
      var total := (if key in totals then totals[key] else 0) + seconds;
      var minTime := if course.value.minCompletionTime.Some? && course.value.minCompletionTime.value != 0
                     then course.value.minCompletionTime.value else DefaultMinCompletionTime;
      var auto := course.value.sessionType in {"video", "video_external"} && total >= minTime && key !in comps;
      var comps' := if auto then comps[key := Completion("auto_time", Some(total), now)] else comps;
      Ok(PageTime(totals[key := total], comps', total, auto, minTime))
  }

  /** Automatic completion happens at most once: a later report never
      completes the session again. */
  lemma AutoCompletesOnce(totals: map<(string, string), int>, comps: Completions, course: Option<SessionCourse>,
                          key: (string, string), s1: int, s2: int, t1: int, t2: int)
    requires LogPageTime(totals, comps, course, true, key, s1, t1).Ok?
    ensures var first := LogPageTime(totals, comps, course, true, key, s1, t1).value;
            first.autoCompleted ==>
              !LogPageTime(first.totals, first.completions, course, true, key, s2, t2).value.autoCompleted
  {
  }

  /** Totals only grow with non-negative reports. */
  lemma PageTimeAccumulates(totals: map<(string, string), int>, comps: Completions, course: Option<SessionCourse>,
                            key: (string, string), s1: int, s2: int, t1: int, t2: int)
    requires LogPageTime(totals, comps, course, true, key, s1, t1).Ok?
    ensures var first := LogPageTime(totals, comps, course, true, key, s1, t1).value;
            LogPageTime(first.totals, first.completions, course, true, key, s2, t2).value.total == first.total + s2
  {
  }
}

=== FILE: slide_decks.dfy ===
/**
 * Slide decks: upload validation and the conversion-status lifecycle, the
 * presenter's current slide index, the slide-image index parsed from a file
 * name, and the two AI checkpoint routes (image sampling and saving the
 * generated checkpoints after the existing ones).
 */
module SlideDecks {
  import opened Wrappers
  import Text
  import Checkpoints

  datatype Status = Pending | Converting | Completed | Failed

  /** A non-negative fraction; the deck's `flag_threshold_rate`. */
  datatype Ratio = Ratio(num: nat, den: nat)
  type Rate = r: Ratio | r.den > 0 witness Ratio(1, 2)

  /** A deck document. The two flag thresholds are absent from decks created
      by the upload route, and readers then fall back to their own defaults. */
  datatype Deck = Deck(
    courseId: string,
    sessionId: Option<string>,
    fileName: string,
    status: Status,
    conversionError: Option<string>,
    estimatedMinutes: Option<int>,
    slideCount: int,
    currentIndex: int,
    thresholdCount: Option<int>,
    thresholdRate: Option<Rate>)

  /** Largest accepted upload: 50 MiB. */
  const MaxUploadBytes: nat := 50 * 1024 * 1024

  /** The only status changes a deck goes through: conversion ends in success
      or failure. */
  predicate Transition(from: Status, to: Status) {
    from == Converting && (to == Completed || to == Failed)
  }

  /** The outcome of the external converter. */
  datatype Conversion = Converted(count: nat) | ConversionFailed(message: string)

  datatype UploadReply = Refused(code: nat) | Stored(deck: Deck, code: nat)

  /** The file checks of `upload_pptx`, in the order they are made. */
  predicate AcceptableFile(fileName: Option<string>, size: nat, allowed: set<string>) {
    && fileName.Some? && fileName.value != ""
    && Text.Lower(Text.SplitExt(fileName.value).1) in allowed
    && size <= MaxUploadBytes
  }

  /** The deck document written before conversion starts. */
  function NewDeck(courseId: string, session: Option<string>, fileName: string, estimate: Option<int>): (d: Deck)
    ensures d.status == Converting && d.slideCount == 0 && d.currentIndex == 0
    ensures d.estimatedMinutes.Some? <==> estimate.Some? && estimate.value > 0
    ensures d.estimatedMinutes.Some? ==> d.estimatedMinutes == estimate
    ensures d.thresholdCount.None? && d.thresholdRate.None? && d.conversionError.None?
  {
    Deck(courseId, session, fileName, Converting, None,
         if estimate.Some? && estimate.value > 0 then estimate else None,
         0, 0, None, None)
  }

  /** The update made once the converter returns. */
  function Finish(d: Deck, c: Conversion): (r: Deck)
    requires d.status == Converting
    ensures Transition(d.status, r.status)
    ensures c.Converted? <==> r.status == Completed
    ensures c.Converted? ==> r.slideCount == c.count && r.conversionError == d.conversionError
    ensures c.ConversionFailed? ==> r.slideCount == d.slideCount && r.conversionError == Some(c.message)
    ensures r.(status := d.status, slideCount := d.slideCount, conversionError := d.conversionError) == d
  {
    match c
    case Converted(n) => d.(status := Completed, slideCount := n)
    case ConversionFailed(m) => d.(status := Failed, conversionError := Some(m))
  }

  /** `upload_pptx`: 404 for an unknown course, 403 without course access, 400
      for a missing file, a disallowed extension or an oversized file (no deck
      is created in any of these cases); otherwise a deck is created converting
      and ends completed (200) or failed (500). */
  function Upload(courseFound: bool, canManage: bool, courseId: string,
                  fileName: Option<string>, size: nat, allowed: set<string>,
                  session: Option<string>, estimate: Option<int>, c: Conversion): (r: UploadReply)
    ensures !courseFound ==> r == Refused(404)
    ensures courseFound && !canManage ==> r == Refused(403)
    ensures courseFound && canManage && !AcceptableFile(fileName, size, allowed) ==> r == Refused(400)
    ensures r.Stored? <==> courseFound && canManage && AcceptableFile(fileName, size, allowed)
    ensures r.Stored? ==>
              && Transition(Converting, r.deck.status)
              && r.deck.courseId == courseId && r.deck.sessionId == session
              && r.deck.fileName == fileName.value && r.deck.currentIndex == 0
              && (r.code == 200 <==> r.deck.status == Completed)
              && (r.code == 500 <==> r.deck.status == Failed)
              && (c.Converted? ==> r.deck.slideCount == c.count)
              && (c.ConversionFailed? ==> r.deck.slideCount == 0 && r.deck.conversionError == Some(c.message))
  {
    if !courseFound then Refused(404)
    else if !canManage then Refused(403)
    else if !AcceptableFile(fileName, size, allowed) then Refused(400)
    else
      var d := Finish(NewDeck(courseId, session, fileName.value, estimate), c);
      Stored(d, if c.Converted? then 200 else 500)
  }

  /** The current slide index the room follows stays on a slide of the deck. */
  predicate CurrentIndexInRange(d: Deck) {
    d.currentIndex == 0 || 0 <= d.currentIndex < d.slideCount
  }

  /** `change_slide`: only the instructor who owns the course moves the current slide,
      and only to an index of an existing slide; anything else is ignored. */
  function ChangeSlide(d: Option<Deck>, isInstructor: bool, ownsCourse: bool, index: int): (r: Option<Deck>)
    ensures r.Some? <==> d.Some? && isInstructor && ownsCourse && 0 <= index < d.value.slideCount
    ensures r.Some? ==> r.value.currentIndex == index && r.value.(currentIndex := d.value.currentIndex) == d.value
  {
    if d.None? || !isInstructor || !ownsCourse then None
    else if index < 0 || index >= d.value.slideCount then None
    else Some(d.value.(currentIndex := index))
  }

  /** One `change_slide` event as the room receives it. */
  datatype ChangeRequest = ChangeRequest(isInstructor: bool, ownsCourse: bool, index: int)

  /** The deck after the room's change requests in arrival order; an
      ignored request leaves the deck as it was. */
  function Follow(d: Deck, reqs: seq<ChangeRequest>): (r: Deck)
    ensures r.(currentIndex := d.currentIndex) == d
    ensures r.currentIndex == d.currentIndex || exists i :: 0 <= i < |reqs| && r.currentIndex == reqs[i].index
    decreases |reqs|
  {
    if reqs == [] then d
    else
      var q := reqs[0];
      var next := ChangeSlide(Some(d), q.isInstructor, q.ownsCourse, q.index);
      var r := Follow(if next.Some? then next.value else d, reqs[1..]);
      assert forall i :: 0 <= i < |reqs[1..]| ==> reqs[1..][i] == reqs[i + 1];
      r
  }

  /** A freshly stored deck starts on slide 0, and however many change
      requests the room then receives, the current index stays on a slide
      of the deck. */
  lemma {:induction false} CurrentIndexStaysInRange(d: Deck, reqs: seq<ChangeRequest>)
    requires CurrentIndexInRange(d)
    ensures CurrentIndexInRange(Follow(d, reqs)) && (0 <= d.currentIndex ==> 0 <= Follow(d, reqs).currentIndex)
    decreases |reqs|
  {
    if reqs != [] {
      var q := reqs[0];
      var next := ChangeSlide(Some(d), q.isInstructor, q.ownsCourse, q.index);
      CurrentIndexStaysInRange(if next.Some? then next.value else d, reqs[1..]);
    }
  }

  /** `serve_slide_image`: the slide index is the integer stem of the requested
      file name; an unknown deck or course is 404, a user who is neither enrolled
      nor a course manager gets 403, and a non-integer stem is 404. */
  function ServeIndex(deckFound: bool, courseFound: bool, enrolled: bool, manages: bool, fileName: string): (r: Result<int>)
    ensures !(deckFound && courseFound) ==> r == Err(NotFound)
    ensures deckFound && courseFound && !enrolled && !manages ==> r == Err(Forbidden)
    ensures r.Ok? ==> Text.ParseInt(Text.SplitExt(fileName).0) == Some(r.value)
    ensures deckFound && courseFound && (enrolled || manages) ==>
              (r.Ok? <==> Text.ParseInt(Text.SplitExt(fileName).0).Some?)
  {
    if !deckFound || !courseFound then Err(NotFound)
    else if !enrolled && !manages then Err(Forbidden)
    else match Text.ParseInt(Text.SplitExt(fileName).0)
      case None => Err(NotFound)
      case Some(i) => Ok(i)
  }

  /** The image of slide `n` is stored as `<n>.png`, and that name serves slide `n`. */
  lemma ServeIndexOfImageName(n: nat)
    ensures ServeIndex(true, true, true, false, Text.NatToString(n) + ".png") == Ok(n)
  {
    var s := Text.NatToString(n);
    assert '.' !in s && '/' !in s by {
      forall i | 0 <= i < |s| ensures s[i] != '.' && s[i] != '/' {
        assert Text.IsDigit(s[i]);
      }
    }
    Text.SplitExtOfName(s, ".png");
    Text.ParseIntOfNatToString(n);
  }

  // ---------------------------------------------------------------------
  // AI checkpoint generation.

  /** At most this many slide images are sent for analysis. */
  const MaxSlidesForAi: nat := 50

  /** The images that exist, in slide order. */
  function Present(urls: seq<Option<string>>): (r: seq<string>)
    ensures |r| <= |urls|
    ensures forall j :: 0 <= j < |r| ==> Some(r[j]) in urls
    ensures (forall i :: 0 <= i < |urls| ==> urls[i].None?) <==> r == []
    decreases |urls|
  {
    if |urls| == 0 then []
    else
      var rest := Present(urls[1..]);
      assert forall i :: 1 <= i < |urls| ==> urls[i] == urls[1..][i - 1];
      assert forall o :: o in urls[1..] ==> o in urls;
      if urls[0].Some? then [urls[0].value] + rest else rest
  }

  /** The `i`-th sampled position among `n` images: the integer part of `i * n / 50`. */
  function SamplePosition(i: nat, n: nat): nat {
    i * n / MaxSlidesForAi
  }

  lemma SampleStep(i: nat, n: nat)
    requires n > MaxSlidesForAi
    ensures SamplePosition(i, n) < SamplePosition(i + 1, n)
  {
    var a := i * n;
    assert (i + 1) * n == a + n;
    var q := a / 50;
    assert a == 50 * q + a % 50;
    assert a + n >= 50 * (q + 1);
    var q' := (a + n) / 50;
    assert a + n == 50 * q' + (a + n) % 50;
  }

  lemma SampleBelow(i: nat, n: nat)
    requires i < MaxSlidesForAi
    ensures SamplePosition(i, n) < n || n == 0
  {
    if n > 0 {
      assert i * n <= 49 * n;
      assert 49 * n < 50 * n;
    }
  }

  /** The sampled positions are strictly increasing and name existing images. */
  lemma {:induction false} SamplePositionsIncrease(i: nat, j: nat, n: nat)
    requires n > MaxSlidesForAi && i < j < MaxSlidesForAi
    ensures SamplePosition(i, n) < SamplePosition(j, n) < n
    decreases j - i
  {
    SampleStep(i, n);
    SampleBelow(j, n);
    if i + 1 < j {
      SamplePositionsIncrease(i + 1, j, n);
    }
  }

  /** Down-sampling of the image list to at most 50 entries. */
  function Sample(paths: seq<string>): (r: seq<string>)
    ensures |paths| <= MaxSlidesForAi ==> r == paths
    ensures |paths| > MaxSlidesForAi ==> |r| == MaxSlidesForAi
    ensures |paths| > MaxSlidesForAi ==>
              forall i :: 0 <= i < |r| ==> SamplePosition(i, |paths|) < |paths| && r[i] == paths[SamplePosition(i, |paths|)]
  {
    if |paths| <= MaxSlidesForAi then paths
    else
      var n := |paths|;
      forall i | 0 <= i < MaxSlidesForAi ensures SamplePosition(i, n) < n {
        SampleBelow(i, n);
      }
      seq(MaxSlidesForAi, i requires 0 <= i < MaxSlidesForAi => paths[SamplePosition(i, n)])
  }

  /** `ai_generate_from_deck` up to the call to the model: 404 for an unknown
      deck, 403 without course access, 400 unless conversion completed with
      slides, 404 when no slide image exists; otherwise the images sent. */
  function AiImages(d: Option<Deck>, manages: bool, urls: seq<Option<string>>): (r: Result<seq<string>>)
    ensures d.None? ==> r == Err(NotFound)
    ensures d.Some? && !manages ==> r == Err(Forbidden)
    ensures d.Some? && manages && (d.value.status != Completed || d.value.slideCount == 0) ==> r == Err(BadRequest)
    ensures r.Ok? ==> d.value.status == Completed && d.value.slideCount != 0
    ensures r.Ok? ==> 0 < |r.value| <= MaxSlidesForAi && forall j :: 0 <= j < |r.value| ==> Some(r.value[j]) in urls
    ensures d.Some? && manages && d.value.status == Completed && d.value.slideCount != 0 ==>
              (r.Err? <==> Present(urls) == [])
    ensures r.Ok? ==> r.value == Sample(Present(urls))
  {
    if d.None? then Err(NotFound)
    else if !manages then Err(Forbidden)
    else if d.value.status != Completed || d.value.slideCount == 0 then Err(BadRequest)
    else
      var paths := Present(urls);
      if paths == [] then Err(NotFound)
      else
        var s := Sample(paths);
        assert forall j :: 0 <= j < |s| ==> s[j] in paths;
        Ok(s)
  }

  // ---------------------------------------------------------------------
  // Saving AI-generated checkpoints.

  datatype Draft = Draft(title: Option<string>, description: Option<string>, minutes: Option<int>)

  const DefaultMinutes := 5

  /** `ai_save_checkpoints`: an empty list is refused; otherwise the drafts become
      checkpoints of the deck's course, in list order, numbered on from the
      largest existing order (soft-deleted checkpoints included). */
  function AiSave(d: Option<Deck>, manages: bool, existing: seq<Checkpoints.Checkpoint>, drafts: seq<Draft>): (r: Result<seq<Checkpoints.Checkpoint>>)
    ensures d.None? ==> r == Err(NotFound)
    ensures d.Some? && !manages ==> r == Err(Forbidden)
    ensures d.Some? && manages ==> (r.Err? <==> drafts == [])
    ensures r.Err? ==> r.error in {NotFound, Forbidden, BadRequest}
    ensures r.Ok? ==> |r.value| == |drafts|
    ensures r.Ok? ==> forall i :: 0 <= i < |drafts| ==>
              && r.value[i].courseId == d.value.courseId && r.value[i].deletedAt.None?
              && r.value[i].title == drafts[i].title.GetOr("")
              && r.value[i].estimatedMinutes == Some(drafts[i].minutes.GetOr(DefaultMinutes))
              && (forall j :: 0 <= j < |existing| && existing[j].courseId == d.value.courseId ==>
                    existing[j].order < r.value[i].order)
    ensures r.Ok? ==> forall i :: 0 < i < |drafts| ==> r.value[i].order == r.value[i - 1].order + 1
    ensures r.Ok? ==> forall i :: 0 <= i < |drafts| ==>
              && r.value[i].order == Checkpoints.MaxOrZero(Checkpoints.CourseOrders(existing, d.value.courseId)) + i + 1
              && r.value[i].description == drafts[i].description.GetOr("")
    ensures r.Ok? && (forall j :: 0 <= j < |existing| ==> existing[j].courseId != d.value.courseId) ==>
              r.value[0].order == 1
  {
    if d.None? then Err(NotFound)
    else if !manages then Err(Forbidden)
    else if drafts == [] then Err(BadRequest)
    else
      var course := d.value.courseId;
      var orders := Checkpoints.CourseOrders(existing, course);
      var base := Checkpoints.MaxOrZero(orders);
      assert forall j :: 0 <= j < |existing| && existing[j].courseId == course ==> existing[j].order <= base by {
        forall j | 0 <= j < |existing| && existing[j].courseId == course ensures existing[j].order <= base {
          assert existing[j].order in orders;
        }
      }
      assert (forall j :: 0 <= j < |existing| ==> existing[j].courseId != course) ==> base == 0 by {
        if (forall j :: 0 <= j < |existing| ==> existing[j].courseId != course) && |orders| > 0 {
          Checkpoints.OrdersComeFromCourse(existing, course, 0);
        }
      }
      Ok(seq(|drafts|, i requires 0 <= i < |drafts| =>
        Checkpoints.Checkpoint(course, drafts[i].title.GetOr(""), drafts[i].description.GetOr(""),
                               Some(drafts[i].minutes.GetOr(DefaultMinutes)), base + i + 1, None)))
  }

  /** The images sent are the existing slide images in slide order: all of
      them up to 50, and otherwise 50 of them at strictly increasing
      positions. */
  lemma AiImagesInSlideOrder(d: Option<Deck>, manages: bool, urls: seq<Option<string>>)
    requires AiImages(d, manages, urls).Ok?
    ensures var sent := AiImages(d, manages, urls).value;
            |Present(urls)| <= MaxSlidesForAi ==> sent == Present(urls)
    ensures var sent := AiImages(d, manages, urls).value; var n := |Present(urls)|;
            n > MaxSlidesForAi ==> forall i, j :: 0 <= i < j < |sent| ==>
              SamplePosition(i, n) < SamplePosition(j, n) < n
              && sent[i] == Present(urls)[SamplePosition(i, n)] && sent[j] == Present(urls)[SamplePosition(j, n)]
  {
    var n := |Present(urls)|;
    if n > MaxSlidesForAi {
      forall i, j | 0 <= i < j < MaxSlidesForAi
        ensures SamplePosition(i, n) < SamplePosition(j, n) < n
      {
        SamplePositionsIncrease(i, j, n);
      }
    }
  }

  /** Once a course holds the checkpoints `saved` numbered up to `top`, and
      every other checkpoint of the course is numbered below, the largest
      order of the course is `top`. */
  lemma MaxAfterSave(existing: seq<Checkpoints.Checkpoint>, saved: seq<Checkpoints.Checkpoint>, course: string, top: int)
    requires |saved| > 0 && saved[|saved| - 1].courseId == course && saved[|saved| - 1].order == top
    requires forall j :: 0 <= j < |existing| && existing[j].courseId == course ==> existing[j].order <= top
    requires forall j :: 0 <= j < |saved| ==> saved[j].order <= top
    ensures Checkpoints.MaxOrZero(Checkpoints.CourseOrders(existing + saved, course)) == top
  {
    var all := existing + saved;
    var orders := Checkpoints.CourseOrders(all, course);
    assert all[|all| - 1] == saved[|saved| - 1];
    assert top in orders;
    var m := Checkpoints.MaxOrZero(orders);
    var k :| 0 <= k < |orders| && orders[k] == m;
    Checkpoints.OrdersComeFromCourse(all, course, k);
    var i :| 0 <= i < |all| && all[i].courseId == course && all[i].order == orders[k];
    if i < |existing| {
      assert all[i] == existing[i];
    } else {
      assert all[i] == saved[i - |existing|];
    }
  }

  /** The checkpoint saved from the draft at position `i`. */
  lemma AiSaveAt(d: Option<Deck>, manages: bool, existing: seq<Checkpoints.Checkpoint>, drafts: seq<Draft>, i: int)
    requires AiSave(d, manages, existing, drafts).Ok? && 0 <= i < |drafts|
    ensures AiSave(d, manages, existing, drafts).value[i]
              == Checkpoints.Checkpoint(d.value.courseId, drafts[i].title.GetOr(""), drafts[i].description.GetOr(""),
                                        Some(drafts[i].minutes.GetOr(DefaultMinutes)),
                                        Checkpoints.MaxOrZero(Checkpoints.CourseOrders(existing, d.value.courseId)) + i + 1,
                                        None)
  {
  }

  /** Saving drafts `a + b` is saving `a`, then saving `b` after them: the
      numbering carries on from the checkpoints just saved. */
  lemma AiSaveSplit(d: Option<Deck>, manages: bool, existing: seq<Checkpoints.Checkpoint>, a: seq<Draft>, b: seq<Draft>)
    requires d.Some? && manages && a != [] && b != []
    ensures var ra := AiSave(d, manages, existing, a);
            ra.Ok? && AiSave(d, manages, existing + ra.value, b).Ok?
            && AiSave(d, manages, existing, a + b) == Ok(ra.value + AiSave(d, manages, existing + ra.value, b).value)
  {
    var course := d.value.courseId;
    var base := Checkpoints.MaxOrZero(Checkpoints.CourseOrders(existing, course));
    var ra := AiSave(d, manages, existing, a).value;
    assert forall j :: 0 <= j < |existing| && existing[j].courseId == course ==> existing[j].order < ra[0].order;
    MaxAfterSave(existing, ra, course, base + |a|);
    var rb := AiSave(d, manages, existing + ra, b).value;
    var all := AiSave(d, manages, existing, a + b).value;
    assert |all| == |ra + rb|;
    forall i | 0 <= i < |all|
      ensures all[i] == (ra + rb)[i]
    {
      AiSaveAt(d, manages, existing, a + b, i);
      if i < |a| {
        assert (a + b)[i] == a[i];
        AiSaveAt(d, manages, existing, a, i);
      } else {
        assert (a + b)[i] == b[i - |a|];
        AiSaveAt(d, manages, existing + ra, b, i - |a|);
      }
    }
    assert all == ra + rb;
  }

  /** Saving one draft creates the checkpoint the create form makes for the
      course owner from the same title, description and minutes. */
  lemma AiSaveOneIsCreate(d: Option<Deck>, existing: seq<Checkpoints.Checkpoint>, owners: Checkpoints.Owners,
                          user: string, draft: Draft)
    requires d.Some? && Checkpoints.Owns(owners, d.value.courseId, user)
    ensures var made := Checkpoints.Create(existing, owners, user, d.value.courseId, draft.title.GetOr(""),
                                           draft.description.GetOr(""), Some(draft.minutes.GetOr(DefaultMinutes)));
            made.Ok? && AiSave(d, true, existing, [draft]) == Ok(made.value[|existing|..])
  {
    var made := Checkpoints.Create(existing, owners, user, d.value.courseId, draft.title.GetOr(""),
                                   draft.description.GetOr(""), Some(draft.minutes.GetOr(DefaultMinutes)));
    var saved := AiSave(d, true, existing, [draft]).value;
    assert made.value[|existing|..] == [made.value[|existing|]];
    assert saved == [saved[0]];
  }
}

=== FILE: slide_reactions.dfy ===
/**
 * Live slide reactions: one reaction per (deck, user, slide), the
 * per-slide aggregate, the threshold rule that flags a slide for review,
 * and the socket handler that records a reaction and refreshes the flag.
 * The checkpoint "understanding" poll works the same way per (user,
 * checkpoint, session).
 */
module SlideReactions {
  import opened Wrappers
  import Tally
  import Bookmarks
  import SlideDecks

  datatype RKey = RKey(deck: string, user: string, slide: int)

  /** Reaction documents by key, holding the `reaction` field. */
  type Reactions = map<RKey, string>

  const Understood := "understood"
  const Question := "question"
  const Hard := "hard"
  const NoReaction := "none"

  /** The values `count_reactions` counts; any other stored value is ignored. */
  const Counted: set<string> := {Understood, Question, Hard}

  function OnSlide(deck: string, slide: int): RKey -> bool {
    (k: RKey) => k.deck == deck && k.slide == slide
  }

  datatype Aggregate = Aggregate(understood: nat, question: nat, hard: nat, total: nat)

  /** The aggregate of one slide, stated by counting documents. */
  function AggregateOf(m: Reactions, deck: string, slide: int): (a: Aggregate)
    ensures a.total == a.understood + a.question + a.hard
  {
    var sel := OnSlide(deck, slide);
    var u := Tally.Count(m, sel, Understood);
    var q := Tally.Count(m, sel, Question);
    var h := Tally.Count(m, sel, Hard);
    Aggregate(u, q, h, u + q + h)
  }

  /** The reacting users are the documents of the slide with a counted value,
      so `total_reacted` counts each of them once. */
  lemma TotalCountsReactingUsers(m: Reactions, deck: string, slide: int)
    ensures AggregateOf(m, deck, slide).total == |Tally.Within(m, OnSlide(deck, slide), Counted)|
  {
    var sel := OnSlide(deck, slide);
    Tally.AddValue(m, sel, {}, Understood);
    Tally.AddValue(m, sel, {Understood}, Question);
    Tally.AddValue(m, sel, {Understood, Question}, Hard);
    assert Tally.Within(m, sel, {}) == {};
    assert {Understood} + {Question} == {Understood, Question};
    assert {Understood, Question} + {Hard} == Counted;
  }

  /** `get_slide_aggregate` over `count_reactions`: the counting loop, then the sum. */
  method GetSlideAggregate(m: Reactions, deck: string, slide: int) returns (a: Aggregate)
    ensures a == AggregateOf(m, deck, slide)
    ensures a.total == |Tally.Within(m, OnSlide(deck, slide), Counted)|
  {
    var counts := Tally.CountValues(m, OnSlide(deck, slide), Counted);
    var u := counts[Understood];
    var q := counts[Question];
    var h := counts[Hard];
    a := Aggregate(u, q, h, u + q + h);
    TotalCountsReactingUsers(m, deck, slide);
  }

  // ---------------------------------------------------------------------
  // The review flag.

  /** Thresholds a deck document falls back to when it lacks the fields. */
  const DefaultCount := 3
  const DefaultRate: SlideDecks.Rate := SlideDecks.Ratio(1, 2)

  function ThresholdCount(d: SlideDecks.Deck): int {
    d.thresholdCount.GetOr(DefaultCount)
  }

  function ThresholdRate(d: SlideDecks.Deck): SlideDecks.Rate {
    d.thresholdRate.GetOr(DefaultRate)
  }

  /** A slide needs review when enough people struggle, or when a large enough
      share of those who reacted struggle (rates compared by cross-multiplying). */
  predicate Flagged(a: Aggregate, count: int, rate: SlideDecks.Rate) {
    var problem := a.question + a.hard;
    problem >= count || (a.total > 0 && problem * rate.den >= rate.num * a.total)
  }

  lemma CrossMultiply(p: nat, t: nat, n: nat, d: nat)
    requires t > 0 && d > 0
    ensures p * d >= n * t <==> (p as real) / (t as real) >= (n as real) / (d as real)
  {
    var pr, tr, nr, dr := p as real, t as real, n as real, d as real;
    assert pr / tr == (pr * dr) / (tr * dr);
    assert nr / dr == (nr * tr) / (tr * dr);
    assert (p * d) as real == pr * dr;
    assert (n * t) as real == nr * tr;
  }

  /** The rule as the source states it, with the division. */
  lemma FlaggedIsTheFractionRule(a: Aggregate, count: int, rate: SlideDecks.Rate)
    ensures Flagged(a, count, rate) <==>
              (a.question + a.hard >= count
               || (a.total > 0 && ((a.question + a.hard) as real) / (a.total as real) >= (rate.num as real) / (rate.den as real)))
  {
    if a.total > 0 {
      CrossMultiply(a.question + a.hard, a.total, rate.num, rate.den);
    }
  }

  /** The reason recorded with a flag: the head count when that rule fired,
      otherwise the integer percentages of the rate rule. */
  function FlagReason(a: Aggregate, count: int, rate: SlideDecks.Rate): (r: Bookmarks.Reason)
    requires Flagged(a, count, rate)
    ensures r.ByCount? <==> a.question + a.hard >= count
    ensures r.ByCount? ==> r.problem == a.question + a.hard && r.threshold == count
    ensures r.ByRate? ==> a.total > 0 && 0 <= r.percent
                          && r.percent * a.total <= 100 * (a.question + a.hard) < (r.percent + 1) * a.total
  {
    var problem := a.question + a.hard;
    if problem >= count then Bookmarks.ByCount(problem, count)
    else Bookmarks.ByRate(problem * 100 / a.total, rate.num * 100 / rate.den)
  }

  /** `check_and_update_flag`: whether the slide is flagged, the reason, and the
      bookmark store afterwards; only this slide's bookmark can change. */
  function CheckAndUpdateFlag(deckId: string, d: SlideDecks.Deck, slide: int, a: Aggregate, s: Bookmarks.Store)
    : (r: (Bookmarks.Store, bool, Option<Bookmarks.Reason>))
    ensures r.1 == Flagged(a, ThresholdCount(d), ThresholdRate(d))
    ensures r.1 <==> r.2.Some?
    ensures r.1 ==> r.2.value == FlagReason(a, ThresholdCount(d), ThresholdRate(d))
    ensures var k := Bookmarks.BKey(deckId, slide);
            && (forall k' :: k' != k ==> (k' in r.0 <==> k' in s) && (k' in s ==> r.0[k'] == s[k']))
            && (r.1 ==> k in r.0 && r.0[k].isAuto && r.0[k].reason == r.2)
            && (!r.1 ==> (k in r.0 ==> !r.0[k].isAuto))
            && (k in s && s[k].isManual ==> k in r.0 && r.0[k].isManual)
  {
    var k := Bookmarks.BKey(deckId, slide);
    var count := ThresholdCount(d);
    var rate := ThresholdRate(d);
    var flagged := Flagged(a, count, rate);
    var reason := if flagged then FlagReason(a, count, rate) else Bookmarks.ByCount(0, count);
    var b := Bookmarks.ApplyFlag(if k in s then Some(s[k]) else None, flagged, reason);
    var s' := if b.Some? then s[k := b.value] else s - {k};
    (s', flagged, if flagged then Some(reason) else None)
  }

  // ---------------------------------------------------------------------
  // The reaction handler.

  datatype Room = Room(reactions: Reactions, bookmarks: Bookmarks.Store)

  /** What the handler broadcasts after recording a reaction. */
  datatype Broadcast = Broadcast(room: Room, counts: Aggregate, flagged: bool, reason: Option<Bookmarks.Reason>)

  predicate ValidReaction(v: string) {
    v in Counted || v == NoReaction
  }

  /** `set_slide_reaction`. Instructors, values other than the three reactions
      and "none", unknown decks and users without course access are ignored
      (None). Otherwise "none" withdraws the user's reaction to the slide and any
      other value replaces it; the aggregate is recomputed and the flag refreshed.
      `reaction` is None only when the message has no `reaction` key, which
      reads as "none". An explicit null is not "none": the handler ignores it,
      and a caller passes it as any string outside the four values. */
  function SetReaction(r: Room, isInstructor: bool, user: string, deckId: string, deck: Option<SlideDecks.Deck>,
                       hasAccess: bool, slide: int, reaction: Option<string>): (out: Option<Broadcast>)
    ensures out.Some? <==> !isInstructor && ValidReaction(reaction.GetOr(NoReaction)) && deck.Some? && hasAccess
    ensures out.Some? ==>
              var k := RKey(deckId, user, slide);
              var v := reaction.GetOr(NoReaction);
              && (v == NoReaction ==> k !in out.value.room.reactions)
              && (v != NoReaction ==> k in out.value.room.reactions && out.value.room.reactions[k] == v)
              && (forall k' :: k' != k ==> (k' in out.value.room.reactions <==> k' in r.reactions)
                                           && (k' in r.reactions ==> out.value.room.reactions[k'] == r.reactions[k']))
              && out.value.counts == AggregateOf(out.value.room.reactions, deckId, slide)
              && out.value.flagged == Flagged(out.value.counts, ThresholdCount(deck.value), ThresholdRate(deck.value))
              && var f := CheckAndUpdateFlag(deckId, deck.value, slide, out.value.counts, r.bookmarks);
                 out.value.room.bookmarks == f.0 && out.value.reason == f.2
  {
    var v := reaction.GetOr(NoReaction);
    if isInstructor || !ValidReaction(v) || deck.None? || !hasAccess then None
    else
      var k := RKey(deckId, user, slide);
      var m := if v == NoReaction then r.reactions - {k} else r.reactions[k := v];
      var a := AggregateOf(m, deckId, slide);
      var f := CheckAndUpdateFlag(deckId, deck.value, slide, a, r.bookmarks);
      Some(Broadcast(Room(m, f.0), a, f.1, f.2))
  }

  /** One user's reaction moves each count of the slide by at most one, and the
      number of reacting users by at most one. */
  lemma OneVoteMovesOneUnit(m: Reactions, deckId: string, user: string, slide: int, v: string)
    requires ValidReaction(v)
    ensures var k := RKey(deckId, user, slide);
            var m' := if v == NoReaction then m - {k} else m[k := v];
            var a, a' := AggregateOf(m, deckId, slide), AggregateOf(m', deckId, slide);
            && -1 <= a'.understood - a.understood <= 1
            && -1 <= a'.question - a.question <= 1
            && -1 <= a'.hard - a.hard <= 1
            && -1 <= a'.total - a.total <= 1
            && (v in Counted ==> a'.total >= a.total)
            && (v == NoReaction ==> a'.total <= a.total)
  {
    var k := RKey(deckId, user, slide);
    var sel := OnSlide(deckId, slide);
    assert sel(k);
    if v == NoReaction {
      Tally.Remove(m, sel, k, Understood);
      Tally.Remove(m, sel, k, Question);
      Tally.Remove(m, sel, k, Hard);
    } else {
      Tally.Rewrite(m, sel, k, v, Understood);
      Tally.Rewrite(m, sel, k, v, Question);
      Tally.Rewrite(m, sel, k, v, Hard);
    }
  }

  /** A reaction to one slide leaves every other slide's aggregate as it was. */
  lemma OtherSlidesUnchanged(m: Reactions, deckId: string, user: string, slide: int, v: string, deck2: string, slide2: int)
    requires deck2 != deckId || slide2 != slide
    ensures var k := RKey(deckId, user, slide);
            && AggregateOf(m[k := v], deck2, slide2) == AggregateOf(m, deck2, slide2)
            && AggregateOf(m - {k}, deck2, slide2) == AggregateOf(m, deck2, slide2)
  {
    var k := RKey(deckId, user, slide);
    var sel := OnSlide(deck2, slide2);
    assert !sel(k);
    Tally.Unselected(m, sel, k, v, Understood);
    Tally.Unselected(m, sel, k, v, Question);
    Tally.Unselected(m, sel, k, v, Hard);
  }

  // ---------------------------------------------------------------------
  // Checkpoint understanding poll.

  datatype UKey = UKey(user: string, checkpoint: string, session: string)

  const Confused := "confused"
  const PollValues: set<string> := {Understood, Confused}

  function InPoll(checkpoint: string, session: string): UKey -> bool {
    (k: UKey) => k.checkpoint == checkpoint && k.session == session
  }

  /** `count_understanding`: the counting loop restricted to (checkpoint, session). */
  method CountUnderstanding(m: map<UKey, string>, checkpoint: string, session: string) returns (counts: map<string, nat>)
    ensures counts.Keys == PollValues
    ensures counts[Understood] + counts[Confused] == |Tally.Within(m, InPoll(checkpoint, session), PollValues)|
    ensures forall v :: v in PollValues ==> counts[v] == Tally.Count(m, InPoll(checkpoint, session), v)
  {
    counts := Tally.CountValues(m, InPoll(checkpoint, session), PollValues);
    var sel := InPoll(checkpoint, session);
    Tally.AddValue(m, sel, {}, Understood);
    Tally.AddValue(m, sel, {Understood}, Confused);
    assert Tally.Within(m, sel, {}) == {};
    assert {Understood} + {Confused} == PollValues;
  }

  datatype PollReply = Ignored | AccessDenied | Recorded(poll: map<UKey, string>)

  /** `submit_understanding`: instructors and values other than understood and
      confused are ignored, a user without access to the course is told so, and
      without an active session nothing is stored; otherwise the user's answer
      for (checkpoint, session) is replaced. */
  function SubmitUnderstanding(m: map<UKey, string>, isInstructor: bool, user: string, checkpoint: string,
                               status: Option<string>, courseAccess: bool, activeSession: Option<string>): (r: PollReply)
    ensures isInstructor || status.None? || status.value !in PollValues ==> r == Ignored
    ensures !isInstructor && status.Some? && status.value in PollValues && !courseAccess ==> r == AccessDenied
    ensures r.Recorded? <==> !isInstructor && status.Some? && status.value in PollValues && courseAccess && activeSession.Some?
    ensures r.Recorded? ==>
              var k := UKey(user, checkpoint, activeSession.value);
              && k in r.poll && r.poll[k] == status.value
              && forall k' :: k' != k ==> (k' in r.poll <==> k' in m) && (k' in m ==> r.poll[k'] == m[k'])
  {
    if isInstructor || status.None? || status.value !in PollValues then Ignored
    else if !courseAccess then AccessDenied
    else if activeSession.None? then Ignored
    else Recorded(m[UKey(user, checkpoint, activeSession.value) := status.value])
  }

  /** Answering the poll again with the same value changes nothing. */
  lemma ResubmitIsIdempotent(m: map<UKey, string>, user: string, checkpoint: string, status: string, session: string)
    requires status in PollValues
    ensures var r := SubmitUnderstanding(m, false, user, checkpoint, Some(status), true, Some(session));
            SubmitUnderstanding(r.poll, false, user, checkpoint, Some(status), true, Some(session)) == r
  {
    var k := UKey(user, checkpoint, session);
    assert m[k := status][k := status] == m[k := status];
  }
}

=== FILE: subjects.dfy ===
/**
 * Subject enrolment: students enrol themselves (by subject or by invite
 * code), staff invite members with or without approval, and an enrolment
 * moves between pending, approved and rejected. Every path that approves an
 * enrolment also enrols the user in the subject's open courses.
 *
 * The subject's courses are a parameter (the store query); notifications and
 * flash messages are not part of the state.
 */
module Subjects {
  import opened Wrappers
  import Text
  import Access
  import InviteCodes
  import opened Enrollments

  /** A subject document as these handlers read it. `visible` is
      `is_visible` read with default true; `deleted` is a truthy `deleted_at`. */
  datatype Subject = Subject(id: string, instructorId: string, deleted: bool, visible: bool)

  /** Open to self-enrolment. */
  predicate Open(s: Subject) {
    !s.deleted && s.visible
  }

  datatype State = State(
    subjectEnrollments: SubjectEnrollments,
    members: Access.Members,
    enrollments: CourseEnrollments)

  /** How a handler ends: refused, stopped without a write, or done with the
      new state and the number of course enrolments it created. */
  datatype Reply = Refused | Unchanged | Done(state: State, created: nat)

  /** The staff check of the member-management handlers: the subject exists
      and `has_subject_access` with the default roles holds. */
  predicate Staff(st: State, subject: Option<Subject>, actor: string) {
    subject.Some? && Access.HasSubjectAccess(subject.value.id, subject.value.instructorId, actor, st.members, None)
  }

  // ---------------------------------------------------------------------
  // Self-enrolment.

  /** `enroll_subject`: instructors, missing subjects and closed subjects are
      refused; any existing enrolment, whatever its status, stops the
      handler; otherwise an approved enrolment is written and every eligible
      course is enrolled. */
  function EnrollSubject(st: State, role: string, subject: Option<Subject>, uid: string,
                         courses: seq<CourseRow>, now: int): (r: Reply)
    ensures r.Refused? <==> role == "instructor" || subject.None? || !Open(subject.value)
    ensures r.Unchanged? <==> role != "instructor" && subject.Some? && Open(subject.value)
                              && (subject.value.id, uid) in st.subjectEnrollments
    ensures r.Done? ==>
              && r.state.subjectEnrollments == st.subjectEnrollments[(subject.value.id, uid) := Created("approved", None, now)]
              && r.state.members == st.members
              && r.state.enrollments.Keys == st.enrollments.Keys + Targets(courses, uid)
  {
    if role == "instructor" || subject.None? || !Open(subject.value) then Refused
    else
      var k := (subject.value.id, uid);
      if k in st.subjectEnrollments then Unchanged
      else
        var auto := AutoEnroll(st.enrollments, uid, courses, now);
        Done(State(st.subjectEnrollments[k := Created("approved", None, now)], st.members, auto.0), auto.1)
  }

  /** The number the handler reports is the number of eligible courses the
      user was not yet enrolled in. */
  lemma EnrollSubjectCount(st: State, role: string, subject: Option<Subject>, uid: string,
                           courses: seq<CourseRow>, now: int)
    requires role != "instructor" && subject.Some? && Open(subject.value)
    requires (subject.value.id, uid) !in st.subjectEnrollments
    ensures EnrollSubject(st, role, subject, uid, courses, now).created == |Targets(courses, uid) - st.enrollments.Keys|
  {
    AutoEnrollCount(st.enrollments, uid, courses, now);
  }

  /** After enrolling, the user holds an approved enrolment and an
      enrolment in every eligible course, and enrolling again changes nothing. */
  lemma EnrollThenAgain(st: State, role: string, subject: Option<Subject>, uid: string,
                        courses: seq<CourseRow>, t1: int, t2: int)
    requires role != "instructor" && subject.Some? && Open(subject.value)
    requires (subject.value.id, uid) !in st.subjectEnrollments
    ensures var after := EnrollSubject(st, role, subject, uid, courses, t1).state;
            && (subject.value.id, uid) in after.subjectEnrollments
            && after.subjectEnrollments[(subject.value.id, uid)].status == "approved"
            && (forall i :: 0 <= i < |courses| && Eligible(courses[i]) ==> IsEnrolled(after.enrollments, uid, courses[i].id))
            && EnrollSubject(after, role, subject, uid, courses, t2) == Unchanged
  {
    var after := EnrollSubject(st, role, subject, uid, courses, t1).state;
    forall i | 0 <= i < |courses| && Eligible(courses[i])
      ensures IsEnrolled(after.enrollments, uid, courses[i].id)
    {
      TargetsAreEligibleCourses(courses, uid, (courses[i].id, uid));
    }
  }

  /** `enroll_by_code`: the typed code is stripped and upper-cased and looked
      up; an empty code and an unknown code are refused. */
  function EnrollByCode(st: State, role: string, typed: string, byCode: map<string, Subject>, uid: string,
                        courses: seq<CourseRow>, now: int): (r: Reply)
    ensures role == "instructor" ==> r == Refused
    ensures InviteCodes.Normalize(typed) == "" ==> r == Refused
    ensures InviteCodes.Normalize(typed) !in byCode ==> r == Refused
    ensures r.Done? ==> var s := byCode[InviteCodes.Normalize(typed)];
                        Open(s) && s.id != "" ==> (s.id, uid) in r.state.subjectEnrollments
  {
    if role == "instructor" then Refused
    else
      var code := InviteCodes.Normalize(typed);
      if code == "" || code !in byCode then Refused
      else EnrollSubject(st, role, Some(byCode[code]), uid, courses, now)
  }

  /** Enrolling by any typed text that normalises to a known code is
      enrolling in the subject that code names. A generated code normalises
      to itself, so enrolling by one is enrolling in its subject. */
  lemma ByCodeIsEnrollSubject(st: State, role: string, typed: string, code: string, byCode: map<string, Subject>,
                              uid: string, courses: seq<CourseRow>, now: int)
    requires InviteCodes.Normalize(typed) == code && code != "" && code in byCode
    ensures EnrollByCode(st, role, typed, byCode, uid, courses, now)
            == EnrollSubject(st, role, Some(byCode[code]), uid, courses, now)
  {
  }

  /** The same code typed in lower case enrols in the same subject. */
  lemma LowerCaseCodeEnrolls(st: State, role: string, code: string, byCode: map<string, Subject>, uid: string,
                             courses: seq<CourseRow>, now: int)
    requires InviteCodes.IsCode(code) && code in byCode
    ensures EnrollByCode(st, role, Text.Lower(code), byCode, uid, courses, now)
            == EnrollSubject(st, role, Some(byCode[code]), uid, courses, now)
  {
    InviteCodes.GeneratedCodeIsNormal(code);
    InviteCodes.LowerCaseCodeIsFound(code);
  }

  // ---------------------------------------------------------------------
  // Approval and rejection.

  /** The member role an approved enrolment grants: a requested ta or
      auditor role is kept, anything else (or none) becomes student. */
  function MemberRole(requested: Option<string>): (r: string)
    ensures r == "student" || r == "ta" || r == "auditor"
    ensures (requested == Some("ta") || requested == Some("auditor")) ==> Some(r) == requested
    ensures r == "student" <==> !(requested == Some("ta") || requested == Some("auditor"))
  {
    if requested == Some("ta") || requested == Some("auditor") then requested.value else "student"
  }

  /** `approve_enrollment` on the caller's own pending enrolment: it becomes
      approved, a member record is created only when none exists, and the
      eligible courses are enrolled. */
  function Approve(st: State, subject: Option<Subject>, uid: string, courses: seq<CourseRow>, now: int): (r: Reply)
    ensures r.Refused? <==> subject.None? || !Pending(st.subjectEnrollments, subject.value.id, uid)
    ensures !r.Unchanged?
    ensures r.Done? ==>
              var k := (subject.value.id, uid);
              var e := st.subjectEnrollments[k];
              && r.state.subjectEnrollments == st.subjectEnrollments[k := e.(status := "approved", approvedAt := Some(now), updatedAt := Some(now))]
              && (k in st.members ==> r.state.members == st.members)
              && (k !in st.members ==> r.state.members == st.members[k := MemberRole(e.role)])
              && r.state.enrollments.Keys == st.enrollments.Keys + Targets(courses, uid)
  {
    if subject.None? || !Pending(st.subjectEnrollments, subject.value.id, uid) then Refused
    else
      var k := (subject.value.id, uid);
      var e := st.subjectEnrollments[k];
      var members := if k in st.members then st.members else st.members[k := MemberRole(e.role)];
      var auto := AutoEnroll(st.enrollments, uid, courses, now);
      Done(State(st.subjectEnrollments[k := e.(status := "approved", approvedAt := Some(now), updatedAt := Some(now))],
                 members, auto.0), auto.1)
  }

  /** `reject_enrollment` on the caller's own pending enrolment. */
  function Reject(st: State, subject: Option<Subject>, uid: string, now: int): (r: Reply)
    ensures r.Refused? <==> subject.None? || !Pending(st.subjectEnrollments, subject.value.id, uid)
    ensures !r.Unchanged?
    ensures r.Done? ==>
              var k := (subject.value.id, uid);
              && r.state.subjectEnrollments == st.subjectEnrollments[k := st.subjectEnrollments[k].(status := "rejected", rejectedAt := Some(now), updatedAt := Some(now))]
              && r.state.members == st.members && r.state.enrollments == st.enrollments && r.created == 0
  {
    if subject.None? || !Pending(st.subjectEnrollments, subject.value.id, uid) then Refused
    else
      var k := (subject.value.id, uid);
      var e := st.subjectEnrollments[k];
      Done(st.(subjectEnrollments := st.subjectEnrollments[k := e.(status := "rejected", rejectedAt := Some(now), updatedAt := Some(now))]), 0)
  }

  /** `admin_approve_enrollment`: the same approval, for staff only. */
  function AdminApprove(st: State, subject: Option<Subject>, actor: string, uid: string,
                        courses: seq<CourseRow>, now: int): (r: Reply)
    ensures !Staff(st, subject, actor) ==> r == Refused
    ensures Staff(st, subject, actor) ==> r == Approve(st, subject, uid, courses, now)
  {
    if !Staff(st, subject, actor) then Refused else Approve(st, subject, uid, courses, now)
  }

  /** `admin_reject_enrollment`: the same rejection, for staff only. */
  function AdminReject(st: State, subject: Option<Subject>, actor: string, uid: string, now: int): (r: Reply)
    ensures !Staff(st, subject, actor) ==> r == Refused
    ensures Staff(st, subject, actor) ==> r == Reject(st, subject, uid, now)
  {
    if !Staff(st, subject, actor) then Refused else Reject(st, subject, uid, now)
  }

  /** A pending enrolment is decided once: after approval the user is a
      member with a student, ta or auditor role (or keeps the role they had),
      and neither a second approval nor a rejection applies any more; after
      a rejection neither applies either. */
  lemma DecidedOnce(st: State, subject: Subject, uid: string, courses: seq<CourseRow>, t1: int, t2: int)
    requires Pending(st.subjectEnrollments, subject.id, uid)
    ensures var a := Approve(st, Some(subject), uid, courses, t1);
            && a.Done?
            && (subject.id, uid) in a.state.members
            && ((subject.id, uid) !in st.members ==> a.state.members[(subject.id, uid)] in {"student", "ta", "auditor"})
            && Approve(a.state, Some(subject), uid, courses, t2) == Refused
            && Reject(a.state, Some(subject), uid, t2) == Refused
    ensures var j := Reject(st, Some(subject), uid, t1);
            && j.Done?
            && Approve(j.state, Some(subject), uid, courses, t2) == Refused
            && Reject(j.state, Some(subject), uid, t2) == Refused
  {
  }

  // ---------------------------------------------------------------------
  // Staff changes to an enrolment.

  predicate SettableStatus(s: Option<string>) {
    s == Some("approved") || s == Some("pending") || s == Some("rejected")
  }

  predicate SettableRole(s: Option<string>) {
    s == Some("student") || s == Some("ta")
  }

  /** `change_enrollment_status`: staff only, on an existing enrolment. Only
      the three statuses and the student and ta roles are applied; a
      rejection stamps `rejected_at`, and approving an enrolment that was not
      approved clears it. Nothing applicable means no write. */
  function ChangeStatus(st: State, subject: Option<Subject>, actor: string, uid: string,
                        newStatus: Option<string>, newRole: Option<string>, now: int): (r: Reply)
    ensures r.Refused? <==> !Staff(st, subject, actor) || (subject.value.id, uid) !in st.subjectEnrollments
    ensures r.Unchanged? <==> !r.Refused? && !SettableStatus(newStatus) && !SettableRole(newRole)
    ensures r.Done? ==>
              var k := (subject.value.id, uid);
              var e := st.subjectEnrollments[k];
              && r.state.members == st.members && r.state.enrollments == st.enrollments
              && r.state.subjectEnrollments.Keys == st.subjectEnrollments.Keys
              && (forall k2 :: k2 in st.subjectEnrollments && k2 != k ==> r.state.subjectEnrollments[k2] == st.subjectEnrollments[k2])
              && var e2 := r.state.subjectEnrollments[k];
              && e2.createdAt == e.createdAt && e2.approvedAt == e.approvedAt && e2.updatedAt == Some(now)
              && e2.status == (if SettableStatus(newStatus) then newStatus.value else e.status)
              && e2.role == (if SettableRole(newRole) then newRole else e.role)
              && (newStatus == Some("rejected") ==> e2.rejectedAt == Some(now))
              && (newStatus == Some("approved") && e.status != "approved" ==> e2.rejectedAt.None?)
              && (!SettableStatus(newStatus) || (newStatus == Some("approved") && e.status == "approved") || newStatus == Some("pending")
                  ==> e2.rejectedAt == e.rejectedAt)
  {
    if !Staff(st, subject, actor) || (subject.value.id, uid) !in st.subjectEnrollments then Refused
    else if !SettableStatus(newStatus) && !SettableRole(newRole) then Unchanged
    else
      var k := (subject.value.id, uid);
      var e := st.subjectEnrollments[k];
      var status := if SettableStatus(newStatus) then newStatus.value else e.status;
      var rejectedAt :=
        if newStatus == Some("rejected") then Some(now)
        else if newStatus == Some("approved") && e.status != "approved" then None
        else e.rejectedAt;
      var role := if SettableRole(newRole) then newRole else e.role;
      var e2 := e.(status := status, role := role, rejectedAt := rejectedAt, updatedAt := Some(now));
      Done(st.(subjectEnrollments := st.subjectEnrollments[k := e2]), 0)
  }

  /** A status change never moves an enrolment out of the three statuses and
      never grants a role other than student or ta. */
  lemma ChangeStatusStaysInRange(st: State, subject: Option<Subject>, actor: string, uid: string,
                                 newStatus: Option<string>, newRole: Option<string>, now: int)
    requires ChangeStatus(st, subject, actor, uid, newStatus, newRole, now).Done?
    ensures var k := (subject.value.id, uid);
            var e := st.subjectEnrollments[k];
            var e2 := ChangeStatus(st, subject, actor, uid, newStatus, newRole, now).state.subjectEnrollments[k];
            && (e.status in {"approved", "pending", "rejected"} ==> e2.status in {"approved", "pending", "rejected"})
            && (e2.role != e.role ==> e2.role == Some("student") || e2.role == Some("ta"))
            && (e2.status == "rejected" && e.status != "rejected" ==> e2.rejectedAt == Some(now))
  {
  }

  /** `apply_role`: a user asks for the ta or auditor role. An approved or
      pending enrolment stops the request; any other existing enrolment is
      reset to pending with the requested role; otherwise a pending
      enrolment is created. */
  function ApplyRole(st: State, subject: Option<Subject>, uid: string, role: Option<string>, now: int): (r: Reply)
    ensures r.Refused? <==> !(role == Some("ta") || role == Some("auditor")) || subject.None?
    ensures r.Unchanged? <==> !r.Refused? && (subject.value.id, uid) in st.subjectEnrollments
                              && st.subjectEnrollments[(subject.value.id, uid)].status in {"approved", "pending"}
    ensures r.Done? ==>
              var k := (subject.value.id, uid);
              && r.state.members == st.members && r.state.enrollments == st.enrollments && r.created == 0
              && r.state.subjectEnrollments.Keys == st.subjectEnrollments.Keys + {k}
              && (forall k2 :: k2 in st.subjectEnrollments && k2 != k ==> r.state.subjectEnrollments[k2] == st.subjectEnrollments[k2])
              && Pending(r.state.subjectEnrollments, subject.value.id, uid)
              && r.state.subjectEnrollments[k].role == role
              && (k in st.subjectEnrollments ==> r.state.subjectEnrollments[k].createdAt == st.subjectEnrollments[k].createdAt)
  {
    if !(role == Some("ta") || role == Some("auditor")) || subject.None? then Refused
    else
      var k := (subject.value.id, uid);
      if k in st.subjectEnrollments && st.subjectEnrollments[k].status in {"approved", "pending"} then Unchanged
      else
        var e := if k in st.subjectEnrollments
                 then st.subjectEnrollments[k].(status := "pending", role := role, updatedAt := Some(now))
                 else Created("pending", role, now);
        Done(st.(subjectEnrollments := st.subjectEnrollments[k := e]), 0)
  }

  /** The requested role survives to membership: applying and then having the
      application approved makes a new member with exactly that role. */
  lemma ApplyThenApprove(st: State, subject: Subject, uid: string, role: string, courses: seq<CourseRow>, t1: int, t2: int)
    requires role == "ta" || role == "auditor"
    requires (subject.id, uid) !in st.members
    requires ApplyRole(st, Some(subject), uid, Some(role), t1).Done?
    ensures var applied := ApplyRole(st, Some(subject), uid, Some(role), t1).state;
            var approved := Approve(applied, Some(subject), uid, courses, t2);
            approved.Done? && approved.state.members[(subject.id, uid)] == role
  {
  }

  // ---------------------------------------------------------------------
  // Staff adding a member by email.

  predicate MemberRoleName(role: string) {
    role in {"instructor", "assistant", "student", "ta", "auditor"}
  }

  /** The role written on the enrolment of an invited member: staff roles
      are enrolled as students. */
  function EnrollmentRole(role: string): (r: string)
    ensures r in {"student", "ta", "auditor"} || !MemberRoleName(role)
    ensures r == role <==> role !in {"instructor", "assistant"}
  {
    if role in {"student", "instructor", "assistant"} then "student" else role
  }

  /** `add_member`: staff only, for one of the five roles and a known user.
      An existing member only has its role replaced. Otherwise an approved
      enrolment stops the handler; any other enrolment is overwritten (or one
      created) as pending when approval is required, else as approved, in
      which case the member record and course enrolments are written too. */
  function AddMember(st: State, subject: Option<Subject>, actor: string, target: Option<string>, role: string,
                     requireApproval: bool, courses: seq<CourseRow>, now: int): (r: Reply)
    ensures r.Refused? <==> !Staff(st, subject, actor) || !MemberRoleName(role) || target.None?
    ensures r.Unchanged? <==> !r.Refused? && (subject.value.id, target.value) !in st.members
                              && (subject.value.id, target.value) in st.subjectEnrollments
                              && st.subjectEnrollments[(subject.value.id, target.value)].status == "approved"
    ensures r.Done? ==>
              var k := (subject.value.id, target.value);
              && (k in st.members ==> r.state == st.(members := st.members[k := role]) && r.created == 0)
              && (k !in st.members ==>
                    var status := if requireApproval then "pending" else "approved";
                    var w := if k in st.subjectEnrollments
                             then st.subjectEnrollments[k].(status := status, role := Some(EnrollmentRole(role)), updatedAt := Some(now))
                             else Created(status, Some(EnrollmentRole(role)), now);
                    && k in r.state.subjectEnrollments
                    && r.state.subjectEnrollments[k].role == Some(EnrollmentRole(role))
                    && (requireApproval ==> Pending(r.state.subjectEnrollments, k.0, k.1)
                                            && r.state.subjectEnrollments == st.subjectEnrollments[k := w]
                                            && r.state.members == st.members
                                            && r.state.enrollments == st.enrollments && r.created == 0)
                    && (!requireApproval ==> r.state.subjectEnrollments[k].status == "approved"
                                             && r.state.subjectEnrollments == st.subjectEnrollments[k := w.(approvedAt := Some(now), updatedAt := Some(now))]
                                             && r.state.members == st.members[k := role]
                                             && r.state.enrollments.Keys == st.enrollments.Keys + Targets(courses, target.value)
                                             && (forall k2 :: k2 in st.enrollments ==> r.state.enrollments[k2] == st.enrollments[k2])
                                             && r.created == |Targets(courses, target.value) - st.enrollments.Keys|))
  {
    if !Staff(st, subject, actor) || !MemberRoleName(role) || target.None? then Refused
    else
      var k := (subject.value.id, target.value);
      if k in st.members then Done(st.(members := st.members[k := role]), 0)
      else if k in st.subjectEnrollments && st.subjectEnrollments[k].status == "approved" then Unchanged
      else
        var er := Some(EnrollmentRole(role));
        var status := if requireApproval then "pending" else "approved";
        var written := if k in st.subjectEnrollments
                       then st.subjectEnrollments[k].(status := status, role := er, updatedAt := Some(now))
                       else Created(status, er, now);
        if requireApproval then Done(st.(subjectEnrollments := st.subjectEnrollments[k := written]), 0)
        else
          var auto := AutoEnroll(st.enrollments, target.value, courses, now);
          AutoEnrollCount(st.enrollments, target.value, courses, now);
          Done(State(st.subjectEnrollments[k := written.(approvedAt := Some(now), updatedAt := Some(now))],
                     st.members[k := role], auto.0), auto.1)
  }

  /** An invitation that needs approval does not carry a staff role through:
      an instructor or assistant invited that way becomes a student member
      once they approve it, while a direct add keeps the role. */
  lemma InvitedStaffJoinAsStudents(st: State, subject: Subject, actor: string, target: string, role: string,
                                   courses: seq<CourseRow>, t1: int, t2: int)
    requires role == "instructor" || role == "assistant"
    requires Staff(st, Some(subject), actor)
    requires (subject.id, target) !in st.members
    requires !((subject.id, target) in st.subjectEnrollments && st.subjectEnrollments[(subject.id, target)].status == "approved")
    ensures var invited := AddMember(st, Some(subject), actor, Some(target), role, true, courses, t1);
            && invited.Done?
            && var approved := Approve(invited.state, Some(subject), target, courses, t2);
            approved.Done? && approved.state.members[(subject.id, target)] == "student"
    ensures var direct := AddMember(st, Some(subject), actor, Some(target), role, false, courses, t1);
            direct.Done? && direct.state.members[(subject.id, target)] == role
  {
  }

  // ---------------------------------------------------------------------
  // The subject page's course list.

  /** `order_number or 9999`: a missing, null or zero number sorts last. */
  function NumberKey(n: Option<int>): (k: int)
    ensures n.Some? && n.value != 0 ==> k == n.value
    ensures n.None? || n.value == 0 ==> k == 9999
  {
    if n.Some? && n.value != 0 then n.value else 9999
  }

  /** Python's ordering of strings: code point by code point, a prefix first. */
  predicate StrLe(a: string, b: string)
    decreases |a|
  {
    |a| == 0 || (|b| > 0 && (a[0] < b[0] || (a[0] == b[0] && StrLe(a[1..], b[1..]))))
  }

  lemma {:induction false} StrLeTotal(a: string, b: string)
    ensures StrLe(a, b) || StrLe(b, a)
    decreases |a|
  {
    if |a| > 0 && |b| > 0 && a[0] == b[0] {
      StrLeTotal(a[1..], b[1..]);
    }
  }

  /** The sort key `(order_number or 9999, week_number or 9999, created_at)`,
      compared as a tuple. */
  predicate KeyLe(a: CourseRow, b: CourseRow) {
    var oa, ob := NumberKey(a.orderNumber), NumberKey(b.orderNumber);
    var wa, wb := NumberKey(a.weekNumber), NumberKey(b.weekNumber);
    oa < ob || (oa == ob && (wa < wb || (wa == wb && StrLe(a.createdAt, b.createdAt))))
  }

  lemma KeyLeTotal(a: CourseRow, b: CourseRow)
    ensures KeyLe(a, b) || KeyLe(b, a)
  {
    StrLeTotal(a.createdAt, b.createdAt);
  }

  predicate SortedByKey(s: seq<CourseRow>) {
    forall i :: 0 <= i < |s| - 1 ==> KeyLe(s[i], s[i + 1])
  }

  /** One step of the sort: `c` placed before the first course it does not
      follow. */
  function Insert(c: CourseRow, s: seq<CourseRow>): (r: seq<CourseRow>)
    requires SortedByKey(s)
    ensures SortedByKey(r)
    ensures multiset(r) == multiset(s) + multiset{c}
    ensures |r| == |s| + 1 && (r[0] == c || (|s| > 0 && r[0] == s[0]))
    decreases |s|
  {
    if |s| == 0 || KeyLe(c, s[0]) then [c] + s
    else
      KeyLeTotal(c, s[0]);
      var rest := Insert(c, s[1..]);
      assert s == [s[0]] + s[1..];
      [s[0]] + rest
  }

  function SortByKey(s: seq<CourseRow>): (r: seq<CourseRow>)
    ensures SortedByKey(r)
    ensures multiset(r) == multiset(s)
    decreases |s|
  {
    if |s| == 0 then []
    else
      assert s == [s[0]] + s[1..];
      Insert(s[0], SortByKey(s[1..]))
  }

  /** The courses that are not soft-deleted, in their original order. */
  function Live(courses: seq<CourseRow>): (r: seq<CourseRow>)
    ensures forall c :: multiset(r)[c] == if c.deleted then 0 else multiset(courses)[c]
    decreases |courses|
  {
    if |courses| == 0 then []
    else
      assert courses == [courses[0]] + courses[1..];
      (if courses[0].deleted then [] else [courses[0]]) + Live(courses[1..])
  }

  /** The subject page's list: every non-deleted course, each as often as
      the query returned it, and no deleted one, in key order. */
  function CourseListing(courses: seq<CourseRow>): (r: seq<CourseRow>)
    ensures SortedByKey(r)
    ensures forall c :: multiset(r)[c] == if c.deleted then 0 else multiset(courses)[c]
  {
    SortByKey(Live(courses))
  }

  /** Order numbers never decrease along the list, so a course without one
      (or numbered 0) comes after every course numbered below 9999. */
  lemma {:induction false} ListingFollowsOrderNumbers(courses: seq<CourseRow>, i: nat, j: nat)
    requires i < j < |CourseListing(courses)|
    ensures var r := CourseListing(courses);
            NumberKey(r[i].orderNumber) <= NumberKey(r[j].orderNumber)
    decreases j - i
  {
    var r := CourseListing(courses);
    if j > i + 1 {
      ListingFollowsOrderNumbers(courses, i, j - 1);
    }
  }

  // ---------------------------------------------------------------------
  // Spreadsheet import rows.

  predicate AsciiLetter(c: char) {
    'a' <= c <= 'z' || 'A' <= c <= 'Z'
  }

  predicate AsciiAlnum(c: char) {
    AsciiLetter(c) || '0' <= c <= '9'
  }

  predicate LocalChar(c: char) {
    AsciiAlnum(c) || c == '.' || c == '_' || c == '%' || c == '+' || c == '-'
  }

  predicate DomainChar(c: char) {
    AsciiAlnum(c) || c == '.' || c == '-'
  }

  /** The domain pattern `[a-zA-Z0-9.-]+\.[a-zA-Z]{2,}`, matched to the end. */
  predicate DomainPart(d: string) {
    exists dot :: 1 <= dot && dot + 2 < |d| && d[dot] == '.'
                  && (forall i :: 0 <= i < dot ==> DomainChar(d[i]))
                  && (forall i :: dot < i < |d| ==> AsciiLetter(d[i]))
  }

  /** The import's email pattern `^[a-zA-Z0-9._%+-]+@` followed by the domain. */
  predicate ValidEmail(s: string) {
    exists at :: 0 < at < |s| && s[at] == '@'
                 && (forall i :: 0 <= i < at ==> LocalChar(s[i]))
                 && DomainPart(s[at + 1..])
  }

  /** An address the pattern accepts has exactly one `@`. */
  lemma ValidEmailHasOneAt(s: string)
    requires ValidEmail(s)
    ensures exists at :: 0 < at < |s| && s[at] == '@' && forall i :: 0 <= i < |s| && i != at ==> s[i] != '@'
  {
    var at :| 0 < at < |s| && s[at] == '@'
              && (forall i :: 0 <= i < at ==> LocalChar(s[i]))
              && DomainPart(s[at + 1..]);
    DomainHasNoAt(s[at + 1..]);
    forall i | 0 <= i < |s| && i != at
      ensures s[i] != '@'
    {
      if i > at {
        assert s[i] == s[at + 1..][i - at - 1];
      }
    }
  }

  lemma DomainHasNoAt(d: string)
    requires DomainPart(d)
    ensures forall i :: 0 <= i < |d| ==> d[i] != '@'
  {
    var dot :| 1 <= dot && dot + 2 < |d| && d[dot] == '.'
               && (forall i :: 0 <= i < dot ==> DomainChar(d[i]))
               && (forall i :: dot < i < |d| ==> AsciiLetter(d[i]));
  }

  /** How one spreadsheet row is read. */
  datatype RowOutcome =
    | Skipped                                       // no first cell: ignored silently
    | Aborted                                       // a one-cell row: reading its role raises
    | BadEmail(email: string)                       // counted as skipped with a message
    | Entry(email: string, role: string, name: Option<string>)

  /** The role column: lower-cased and stripped; missing, empty or not one
      of instructor, assistant and student means student. */
  function RowRole(cell: Option<string>): (r: string)
    ensures r == "instructor" || r == "assistant" || r == "student"
    ensures cell.None? || cell.value == "" ==> r == "student"
    ensures cell.Some? && cell.value != "" && Text.Lower(Text.Strip(cell.value)) in {"instructor", "assistant", "student"}
            ==> r == Text.Lower(Text.Strip(cell.value))
  {
    var role := if cell.Some? && cell.value != "" then Text.Lower(Text.Strip(cell.value)) else "student";
    if role in {"instructor", "assistant", "student"} then role else "student"
  }

  /** One row of the member import, each cell as the text `str()` gives
      (None for an empty cell). */
  function ReadRow(row: seq<Option<string>>): (r: RowOutcome)
    ensures r.Skipped? <==> |row| == 0 || row[0].None? || row[0].value == ""
    ensures r.Aborted? <==> !r.Skipped? && |row| < 2
    ensures r.Entry? ==> ValidEmail(r.email) && Text.Trimmed(r.email) && r.email == Text.Strip(row[0].value)
                         && r.role == RowRole(row[1])
    ensures r.BadEmail? ==> !ValidEmail(r.email) && r.email == Text.Strip(row[0].value)
    ensures !r.Skipped? && !r.Aborted? ==> (r.BadEmail? <==> !ValidEmail(Text.Strip(row[0].value)))
    ensures r.Entry? && |row| > 2 && row[2].Some? && row[2].value != "" ==> r.name == Some(Text.Strip(row[2].value))
    ensures r.Entry? && (|row| == 2 || row[2].None? || row[2].value == "") ==> r.name.None?
  {
    if |row| == 0 || row[0].None? || row[0].value == "" then Skipped
    else if |row| < 2 then Aborted
    else
      var email := Text.Strip(row[0].value);
      var name := if |row| > 2 && row[2].Some? && row[2].value != "" then Some(Text.Strip(row[2].value)) else None;
      if !ValidEmail(email) then BadEmail(email)
      else Entry(email, RowRole(row[1]), name)
  }

  // ---------------------------------------------------------------------
  // Role labels.

  /** `get_role_display` of the subject handlers: the five member roles have
      labels; any other string is shown as it is. */
  function RoleDisplay(role: string): (r: string)
    ensures r == role <==> role !in {"instructor", "assistant", "student", "ta", "auditor"}
  {
    if role == "instructor" then "\U{ac15}\U{c0ac}"
    else if role == "assistant" then "\U{c870}\U{ad50}"
    else if role == "student" then "\U{d559}\U{c0dd}"
    else if role == "ta" then "TA"
    else if role == "auditor" then "\U{ccad}\U{ac15}\U{c0dd}"
    else role
  }

  /** `SubjectMember.get_role_display`: labels for three roles only, and a
      different label for student. */
  function MemberRoleDisplay(role: string): (r: string)
    ensures r == role <==> role !in {"instructor", "assistant", "student"}
  {
    if role == "instructor" then "\U{ac15}\U{c0ac}"
    else if role == "assistant" then "\U{c870}\U{ad50}"
    else if role == "student" then "\U{d559}\U{c2b5}\U{c790}"
    else role
  }

  /** The two label tables agree on the staff roles and on unknown roles,
      and differ on student. */
  lemma RoleLabelsAgree(role: string)
    ensures role != "student" && role != "ta" && role != "auditor" ==> RoleDisplay(role) == MemberRoleDisplay(role)
    ensures RoleDisplay("student") != MemberRoleDisplay("student")
  {
  }
}

=== FILE: tally.dfy ===
/**
 * Counting documents by a string field, the loop shared by
 * `count_reactions` and `count_understanding`: start every counted value
 * at zero, walk the matching documents, and bump the counter of each
 * document's value when that value is one being counted.
 *
 * A collection is a map from document key to the counted field, so each
 * key contributes at most once.
 */
module Tally {

  /** The keys selected by `sel` whose value is `v`. */
  function Holders<K>(m: map<K, string>, sel: K -> bool, v: string): set<K> {
    set k | k in m && sel(k) && m[k] == v
  }

  /** How many selected documents carry the value `v`. */
  function Count<K>(m: map<K, string>, sel: K -> bool, v: string): nat {
    |Holders(m, sel, v)|
  }

  /** The holders among the keys already visited (those not in `rest`). */
  function Seen<K>(m: map<K, string>, sel: K -> bool, v: string, rest: set<K>): set<K> {
    set k | k in m && k !in rest && sel(k) && m[k] == v
  }

  lemma VisitOne<K>(m: map<K, string>, sel: K -> bool, v: string, rest: set<K>, k: K)
    requires k in rest && k in m
    ensures sel(k) && m[k] == v ==> |Seen(m, sel, v, rest - {k})| == |Seen(m, sel, v, rest)| + 1
    ensures !(sel(k) && m[k] == v) ==> Seen(m, sel, v, rest - {k}) == Seen(m, sel, v, rest)
  {
    if sel(k) && m[k] == v {
      assert Seen(m, sel, v, rest - {k}) == Seen(m, sel, v, rest) + {k};
    } else {
      assert Seen(m, sel, v, rest - {k}) == Seen(m, sel, v, rest);
    }
  }

  /** The counting loop: the result has exactly the counted values as keys, and
      each maps to the number of selected documents carrying it; every other
      value is ignored. */
  method CountValues<K>(m: map<K, string>, sel: K -> bool, kinds: set<string>) returns (counts: map<string, nat>)
    ensures counts.Keys == kinds
    ensures forall v :: v in kinds ==> counts[v] == Count(m, sel, v)
  {
    counts := map v | v in kinds :: 0;
    var rest := m.Keys;
    while rest != {}
      invariant rest <= m.Keys
      invariant counts.Keys == kinds
      invariant forall v :: v in kinds ==> counts[v] == |Seen(m, sel, v, rest)|
      decreases |rest|
    {
      var k :| k in rest;
      forall v | v in kinds
        ensures sel(k) && m[k] == v ==> |Seen(m, sel, v, rest - {k})| == |Seen(m, sel, v, rest)| + 1
        ensures !(sel(k) && m[k] == v) ==> Seen(m, sel, v, rest - {k}) == Seen(m, sel, v, rest)
      {
        VisitOne(m, sel, v, rest, k);
      }
      if sel(k) && m[k] in kinds {
        counts := counts[m[k] := counts[m[k]] + 1];
      }
      rest := rest - {k};
    }
    forall v | v in kinds
      ensures counts[v] == Count(m, sel, v)
    {
      assert Seen(m, sel, v, {}) == Holders(m, sel, v);
    }
  }

  /** The holders after writing `x` under a selected key `k`: the others, and `k`
      itself when `x` is the value. */
  lemma HoldersAfterWrite<K>(m: map<K, string>, sel: K -> bool, k: K, x: string, v: string)
    requires sel(k)
    ensures Holders(m[k := x], sel, v) == (Holders(m, sel, v) - {k}) + (if x == v then {k} else {})
  {
  }

  /** Dropping `k` from the holders loses one exactly when `k` held the value. */
  lemma HoldersLessOne<K>(m: map<K, string>, sel: K -> bool, k: K, v: string)
    requires sel(k)
    ensures |Holders(m, sel, v) - {k}| == |Holders(m, sel, v)| - (if k in m && m[k] == v then 1 else 0)
  {
    if k in m && m[k] == v {
      assert Holders(m, sel, v) == (Holders(m, sel, v) - {k}) + {k};
    } else {
      assert Holders(m, sel, v) - {k} == Holders(m, sel, v);
    }
  }

  /** Writing value `x` under key `k` (or removing `k` when `x` is None) moves at
      most one unit: the old value of `k` loses one, the new value gains one. */
  lemma {:induction false} Rewrite<K>(m: map<K, string>, sel: K -> bool, k: K, x: string, v: string)
    requires sel(k)
    ensures Count(m[k := x], sel, v)
         == Count(m, sel, v) - (if k in m && m[k] == v then 1 else 0) + (if x == v then 1 else 0)
  {
    HoldersAfterWrite(m, sel, k, x, v);
    HoldersLessOne(m, sel, k, v);
  }

  lemma {:induction false} Remove<K>(m: map<K, string>, sel: K -> bool, k: K, v: string)
    requires sel(k)
    ensures Count(m - {k}, sel, v) == Count(m, sel, v) - (if k in m && m[k] == v then 1 else 0)
  {
    assert Holders(m - {k}, sel, v) == Holders(m, sel, v) - {k};
    HoldersLessOne(m, sel, k, v);
  }

  /** Keys the selector rejects never change a count. */
  lemma {:induction false} Unselected<K>(m: map<K, string>, sel: K -> bool, k: K, x: string, v: string)
    requires !sel(k)
    ensures Count(m[k := x], sel, v) == Count(m, sel, v)
    ensures Count(m - {k}, sel, v) == Count(m, sel, v)
  {
    assert Holders(m[k := x], sel, v) == Holders(m, sel, v);
    assert Holders(m - {k}, sel, v) == Holders(m, sel, v);
  }

  /** The selected keys whose value is one of `vs`. */
  function Within<K>(m: map<K, string>, sel: K -> bool, vs: set<string>): set<K> {
    set k | k in m && sel(k) && m[k] in vs
  }

  /** Counting one more value adds its holders to the total. */
  lemma AddValue<K>(m: map<K, string>, sel: K -> bool, vs: set<string>, v: string)
    requires v !in vs
    ensures |Within(m, sel, vs + {v})| == |Within(m, sel, vs)| + Count(m, sel, v)
  {
    assert Within(m, sel, vs + {v}) == Within(m, sel, vs) + Holders(m, sel, v);
    assert Within(m, sel, vs) * Holders(m, sel, v) == {};
  }
  /** A share in percent, `part / whole * 100`, and 0 when there is nothing
      to share. */
  function Percent(part: nat, whole: nat): (r: real)
    ensures whole == 0 ==> r == 0.0
    ensures whole > 0 ==> r * (whole as real) == (part as real) * 100.0
    ensures 0.0 <= r
    ensures part <= whole ==> r <= 100.0
  {
    if whole == 0 then 0.0
    else
      var w := whole as real;
      var p := part as real;
      assert (p * 100.0 / w) * w == p * 100.0;
      assert part <= whole ==> p * 100.0 <= w * 100.0;
      p * 100.0 / w
  }
}

=== FILE: text.dfy ===
/**
 * The handful of Python string operations the handlers rely on, over
 * ASCII: `strip`, `lower`/`upper`, `split`, `os.path.splitext`, `int()`
 * of a decimal string and `str()` of a natural number.
 */
module Text {
  import opened Wrappers

  /** The ASCII characters Python's `str.strip()` removes: space, tab, the
      line breaks \n, \v, \f, \r, and the separators \x1c to \x1f. */
  predicate IsSpace(c: char) {
    c == ' ' || c == '\t' || c == '\n' || c == '\r' || c as int == 11 || c as int == 12
    || 28 <= c as int <= 31
  }

  predicate Blank(s: string) {
    forall i :: 0 <= i < |s| ==> IsSpace(s[i])
  }

  function TrimLeft(s: string): (r: string)
    ensures |r| <= |s| && r == s[|s| - |r|..]
    ensures r == "" || !IsSpace(r[0])
    ensures Blank(s[..|s| - |r|])
    decreases |s|
  {
    if |s| > 0 && IsSpace(s[0]) then TrimLeft(s[1..]) else s
  }

  function TrimRight(s: string): (r: string)
    ensures |r| <= |s| && r == s[..|r|]
    ensures r == "" || !IsSpace(r[|r| - 1])
    ensures Blank(s[|r|..])
    decreases |s|
  {
    if |s| > 0 && IsSpace(s[|s| - 1]) then
      var r := TrimRight(s[..|s| - 1]);
      assert s[|r|..] == s[..|s| - 1][|r|..] + [s[|s| - 1]];
      r
    else s
  }

  /** Neither starts nor ends with whitespace. */
  predicate Trimmed(s: string) {
    s == "" || (!IsSpace(s[0]) && !IsSpace(s[|s| - 1]))
  }

  /** `s.strip()`: the text between the leading and trailing whitespace. */
  function Strip(s: string): (r: string)
    ensures |r| <= |s|
    ensures Trimmed(r)
    ensures Trimmed(s) ==> r == s
    ensures exists i, j :: 0 <= i <= j <= |s| && r == s[i..j] && Blank(s[..i]) && Blank(s[j..])
  {
    var l := TrimLeft(s);
    var r := TrimRight(l);
    StripParts(s, l, r);
    r
  }

  /** A suffix `l` of `s` after a blank prefix, and a prefix `r` of `l`
      before a blank suffix, sit in `s` between two blank ends. */
  lemma StripParts(s: string, l: string, r: string)
    requires |l| <= |s| && l == s[|s| - |l|..] && Blank(s[..|s| - |l|])
    requires |r| <= |l| && r == l[..|r|] && Blank(l[|r|..])
    ensures var i := |s| - |l|; var j := i + |r|;
            0 <= i <= j <= |s| && s[i..j] == r && Blank(s[..i]) && Blank(s[j..])
  {
    SliceOfSuffix(s, |s| - |l|, |r|);
  }

  lemma SliceOfSuffix(s: string, i: nat, n: nat)
    requires i + n <= |s|
    ensures s[i..i + n] == s[i..][..n] && s[i + n..] == s[i..][n..]
  {
  }

  /** A stripped string is empty exactly when the input was all whitespace
      (the "blank input" every form handler rejects). */
  lemma {:induction false} StripEmptyIffBlank(s: string)
    ensures Strip(s) == "" <==> Blank(s)
  {
    var l := TrimLeft(s);
    if Strip(s) == "" {
      assert Blank(l[|TrimRight(l)|..]);
      assert l == "";
      forall i | 0 <= i < |s|
        ensures IsSpace(s[i])
      {
        assert s[i] == s[..|s| - |l|][i];
      }
    }
  }

  lemma StripIdempotent(s: string)
    ensures Strip(Strip(s)) == Strip(s)
  {
  }

  /** A text field as the form handlers read it, `form.get(name, '').strip()`:
      None when that leaves nothing, which is when the field is blank. */
  function Field(field: Option<string>): (r: Option<string>)
    ensures r.None? <==> Blank(field.GetOr(""))
    ensures r.Some? ==> r.value == Strip(field.GetOr("")) && r.value != "" && Trimmed(r.value)
  {
    StripEmptyIffBlank(field.GetOr(""));
    var t := Strip(field.GetOr(""));
    if t == "" then None else Some(t)
  }

  function LowerChar(c: char): char {
    if 'A' <= c <= 'Z' then (c as int + 32) as char else c
  }

  function UpperChar(c: char): (u: char)
    ensures !('a' <= u <= 'z')
  {
    if 'a' <= c <= 'z' then (c as int - 32) as char else c
  }

  /** `s.lower()` over ASCII. */
  function Lower(s: string): (r: string)
    ensures |r| == |s|
    ensures forall i :: 0 <= i < |s| ==> r[i] == LowerChar(s[i])
  {
    seq(|s|, i requires 0 <= i < |s| => LowerChar(s[i]))
  }

  /** `s.upper()` over ASCII. */
  function Upper(s: string): (r: string)
    ensures |r| == |s|
    ensures forall i :: 0 <= i < |s| ==> r[i] == UpperChar(s[i])
  {
    seq(|s|, i requires 0 <= i < |s| => UpperChar(s[i]))
  }

  /** Case folding forgets the case it started from: both foldings are idempotent
      and lower-casing an upper-cased string is lower-casing the original. */
  lemma CaseFolding(s: string)
    ensures Upper(Upper(s)) == Upper(s)
    ensures Lower(Lower(s)) == Lower(s)
    ensures Lower(Upper(s)) == Lower(s)
  {
  }

  /** Index of the last occurrence of `c`, if any. */
  function LastIndexOf(s: string, c: char): (r: Option<nat>)
    ensures r.None? <==> c !in s
    ensures r.Some? ==> r.value < |s| && s[r.value] == c && c !in s[r.value + 1..]
    decreases |s|
  {
    if |s| == 0 then None
    else if s[|s| - 1] == c then Some(|s| - 1)
    else
      var r := LastIndexOf(s[..|s| - 1], c);
      assert s[..|s| - 1] + [s[|s| - 1]] == s;
      if r.Some? then
        assert s[r.value + 1..] == s[..|s| - 1][r.value + 1..] + [s[|s| - 1]];
        r
      else r
  }

  /** Index of the first character of the last path component (after the last '/'). */
  function BaseStart(p: string): (i: nat)
    ensures i <= |p| && '/' !in p[i..]
  {
    match LastIndexOf(p, '/')
    case None => 0
    case Some(j) => j + 1
  }

  predicate AllDots(s: string) {
    forall i :: 0 <= i < |s| ==> s[i] == '.'
  }

  /** `os.path.splitext(p)`: the extension is the text from the last dot of the
      last path component, unless that dot is only preceded by dots there
      (a leading-dot name such as `.pptx` has no extension). */
  function SplitExt(p: string): (r: (string, string))
    ensures r.0 + r.1 == p
    ensures r.1 == "" || (r.1[0] == '.' && '.' !in r.1[1..] && '/' !in r.1)
    ensures r.1 != "" ==> BaseStart(p) <= |r.0| && !AllDots(r.0[BaseStart(p)..])
    ensures r.1 == "" ==> forall k :: BaseStart(p) <= k < |p| && p[k] == '.' ==> AllDots(p[BaseStart(p)..k])
  {
    var b := BaseStart(p);
    match LastIndexOf(p, '.')
    case None => (p, "")
    case Some(d) =>
      if d < b || AllDots(p[b..d]) then
        NoDotPastLast(p, d, b);
        (p, "")
      else
        ExtParts(p, d, b);
        (p[..d], p[d..])
  }

  /** Cutting at the last dot `d` of the last component, when the dot
      follows a non-dot there, gives an extension of one dot, no further dot
      and no slash. */
  lemma ExtParts(p: string, d: nat, b: nat)
    requires d < |p| && p[d] == '.' && '.' !in p[d + 1..]
    requires b <= d && '/' !in p[b..] && !AllDots(p[b..d])
    ensures p[..d] + p[d..] == p
    ensures p[d..][0] == '.' && '.' !in p[d..][1..] && '/' !in p[d..]
    ensures b <= |p[..d]| && !AllDots(p[..d][b..])
  {
    assert p[d..][1..] == p[d + 1..];
    assert p[d..] == p[b..][d - b..];
    assert p[..d][b..] == p[b..d];
  }

  /** When `d` is the last dot and either lies before `b` or has only dots
      between `b` and itself, every dot from `b` on has only dots before it. */
  lemma NoDotPastLast(p: string, d: nat, b: nat)
    requires d < |p| && p[d] == '.' && '.' !in p[d + 1..] && b <= |p|
    requires d < b || AllDots(p[b..d])
    ensures forall k :: b <= k < |p| && p[k] == '.' ==> AllDots(p[b..k])
  {
    forall k | b <= k < |p| && p[k] == '.'
      ensures AllDots(p[b..k])
    {
      assert k <= d;
      assert p[b..k] == p[b..d][..k - b];
    }
  }

  /** A name `<stem><ext>` whose extension is one dot followed by no dot, with
      a non-empty stem and no slash or dot in the stem, splits into the two. */
  lemma SplitExtOfName(stem: string, ext: string)
    requires |stem| > 0 && '.' !in stem && '/' !in stem
    requires |ext| > 0 && ext[0] == '.' && '.' !in ext[1..] && '/' !in ext
    ensures SplitExt(stem + ext) == (stem, ext)
  {
    var p := stem + ext;
    assert BaseStart(p) == 0;
    var d := LastIndexOf(p, '.').value;
    assert forall j :: 0 <= j < |stem| ==> p[j] != '.' by {
      forall j | 0 <= j < |stem| ensures p[j] != '.' { assert p[j] == stem[j]; }
    }
    assert forall j :: |stem| < j < |p| ==> p[j] != '.' by {
      forall j | |stem| < j < |p| ensures p[j] != '.' { assert p[j] == ext[1..][j - |stem| - 1]; }
    }
    assert d == |stem|;
    assert p[0..d][0] == stem[0];
    assert p[..d] == stem && p[d..] == ext;
  }

  /** `s.split(sep)`: the pieces between occurrences of `sep`. */
  function Split(s: string, sep: char): (parts: seq<string>)
    ensures |parts| >= 1
    ensures forall i :: 0 <= i < |parts| ==> sep !in parts[i]
    decreases |s|
  {
    if |s| == 0 then [""]
    else
      var rest := Split(s[1..], sep);
      if s[0] == sep then [""] + rest
      else [[s[0]] + rest[0]] + rest[1..]
  }

  function Join(parts: seq<string>, sep: char): string
    requires |parts| >= 1
    decreases |parts|
  {
    if |parts| == 1 then parts[0] else parts[0] + [sep] + Join(parts[1..], sep)
  }

  /** Joining the pieces back with the separator gives the original text. */
  lemma {:induction false} SplitJoin(s: string, sep: char)
    ensures Join(Split(s, sep), sep) == s
    decreases |s|
  {
    if |s| > 0 {
      SplitJoin(s[1..], sep);
      var rest := Split(s[1..], sep);
      if s[0] == sep {
        assert Split(s, sep) == [""] + rest;
        assert (([""] + rest)[1..]) == rest;
      } else {
        var parts := Split(s, sep);
        assert parts == [[s[0]] + rest[0]] + rest[1..];
        if |rest| == 1 {
          assert s == [s[0]] + s[1..];
        } else {
          assert parts[1..] == rest[1..];
          assert Join(rest, sep) == rest[0] + [sep] + Join(rest[1..], sep);
          assert s == [s[0]] + s[1..];
        }
      }
    }
  }

  /** A text without the separator is one piece. */
  lemma {:induction false} SplitNoSep(a: string, sep: char)
    requires sep !in a
    ensures Split(a, sep) == [a]
    decreases |a|
  {
    if |a| > 0 {
      SplitNoSep(a[1..], sep);
      assert a[0] != sep;
      assert [a[0]] + a[1..] == a;
    }
  }

  /** A separator after a separator-free text ends the first piece there. */
  lemma {:induction false} SplitCons(a: string, sep: char, rest: string)
    requires sep !in a
    ensures Split(a + [sep] + rest, sep) == [a] + Split(rest, sep)
    decreases |a|
  {
    var s := a + [sep] + rest;
    if |a| == 0 {
      assert s[1..] == rest;
    } else {
      assert s[1..] == a[1..] + [sep] + rest;
      SplitCons(a[1..], sep, rest);
      assert [a[0]] + a[1..] == a;
    }
  }

  /** Splitting pieces joined by a separator none of them contains gives the
      pieces back. */
  lemma {:induction false} SplitOfJoin(parts: seq<string>, sep: char)
    requires |parts| >= 1 && forall i :: 0 <= i < |parts| ==> sep !in parts[i]
    ensures Split(Join(parts, sep), sep) == parts
    decreases |parts|
  {
    if |parts| == 1 {
      SplitNoSep(parts[0], sep);
    } else {
      SplitOfJoin(parts[1..], sep);
      SplitCons(parts[0], sep, Join(parts[1..], sep));
      assert [parts[0]] + parts[1..] == parts;
    }
  }

  // ---------------------------------------------------------------------
  // Decimal numerals.

  predicate IsDigit(c: char) {
    '0' <= c <= '9'
  }

  predicate AllDigits(s: string) {
    forall i :: 0 <= i < |s| ==> IsDigit(s[i])
  }

  function DigitChar(d: nat): (c: char)
    requires d < 10
    ensures IsDigit(c) && (c as int) - ('0' as int) == d
  {
    ('0' as int + d) as char
  }

  /** `str(n)` for a natural number. */
  function NatToString(n: nat): (r: string)
    ensures |r| >= 1 && AllDigits(r)
    ensures |r| > 1 ==> r[0] != '0'
    decreases n
  {
    if n < 10 then [DigitChar(n)] else NatToString(n / 10) + [DigitChar(n % 10)]
  }

  /** The value of a string of decimal digits. */
  function DigitsValue(s: string): nat
    requires AllDigits(s)
    decreases |s|
  {
    if |s| == 0 then 0 else DigitsValue(s[..|s| - 1]) * 10 + ((s[|s| - 1] as int) - ('0' as int))
  }

  lemma {:induction false} NatToStringRoundTrip(n: nat)
    ensures DigitsValue(NatToString(n)) == n
    decreases n
  {
    if n >= 10 {
      NatToStringRoundTrip(n / 10);
      var s := NatToString(n);
      assert s[..|s| - 1] == NatToString(n / 10);
    }
  }

  /** Different numbers print differently. */
  lemma NatToStringInjective(a: nat, b: nat)
    requires a != b
    ensures NatToString(a) != NatToString(b)
  {
    NatToStringRoundTrip(a);
    NatToStringRoundTrip(b);
  }

  /** `int(s)` for an optional sign followed by decimal digits, after Python's
      surrounding-whitespace removal; anything else is the source's ValueError. */
  function ParseInt(s: string): (r: Option<int>)
    ensures r.Some? ==> Strip(s) != ""
    ensures r.Some? <==> var t := Strip(s);
                         (|t| >= 1 && AllDigits(t))
                         || (|t| >= 2 && (t[0] == '-' || t[0] == '+') && AllDigits(t[1..]))
    ensures r.Some? && r.value < 0 ==> Strip(s)[0] == '-'
    ensures r.Some? ==> var t := Strip(s);
                        if IsDigit(t[0]) then r.value == DigitsValue(t)
                        else if t[0] == '-' then r.value == -(DigitsValue(t[1..]) as int)
                        else r.value == DigitsValue(t[1..])
  {
    var t := Strip(s);
    if |t| == 0 then None
    else if t[0] == '-' || t[0] == '+' then
      var d := t[1..];
      if |d| > 0 && AllDigits(d) then Some(if t[0] == '-' then 0 - DigitsValue(d) else DigitsValue(d))
      else None
    else if AllDigits(t) then Some(DigitsValue(t))
    else None
  }

  /** A plain run of digits parses to its value. */
  lemma ParseDigits(s: string)
    requires |s| >= 1 && AllDigits(s)
    ensures ParseInt(s) == Some(DigitsValue(s))
  {
    assert IsDigit(s[0]) && IsDigit(s[|s| - 1]);
    assert Trimmed(s);
    assert Strip(s) == s;
  }

  /** A sign followed by the digits of `n` parses to `n` or its negation. */
  lemma SignedParse(n: nat, sign: char)
    requires sign == '-' || sign == '+'
    ensures ParseInt([sign] + NatToString(n)).Some?
    ensures ParseInt([sign] + NatToString(n)).value == if sign == '-' then -(n as int) else n
  {
    var d := NatToString(n);
    var t := [sign] + d;
    assert t[1..] == d;
    assert t[|t| - 1] == d[|d| - 1];
    StripTrimmed(t);
    NatToStringRoundTrip(n);
  }

  lemma StripTrimmed(t: string)
    requires Trimmed(t)
    ensures Strip(t) == t
  {
  }

  /** `int(str(n)) == n`. */
  lemma ParseIntOfNatToString(n: nat)
    ensures ParseInt(NatToString(n)) == Some(n)
  {
    ParseDigits(NatToString(n));
    NatToStringRoundTrip(n);
  }
}

=== FILE: users.dfy ===
/**
 * Who the caller is: the session check that loads the stored user document,
 * the `CurrentUser` proxy over that document, the `User` record's own name
 * and role helpers, and the two route decorators that gate on them.
 */
module Users {
  import opened Wrappers
  import opened Records
  import Text

  /** The roles that count as instructors. */
  predicate InstructorRole(role: string) {
    role == "instructor" || role == "org_admin" || role == "system_admin"
  }

  // ---------------------------------------------------------------------
  // The stored user record.

  /** The attributes of the `User` record these rules read. */
  datatype User = User(
    id: Option<string>,
    username: string,
    role: string,
    organizationId: Option<string>,
    nickname: Option<string>,
    fullName: Option<string>)

  /** The first non-empty of nickname and full name, else the username. */
  function DisplayName(u: User): (r: string)
    ensures r == u.username || Some(r) == u.nickname || Some(r) == u.fullName
    ensures u.nickname.Some? && u.nickname.value != "" ==> r == u.nickname.value
    ensures u.nickname.GetOr("") == "" && u.fullName.GetOr("") != "" ==> r == u.fullName.value
    ensures u.nickname.GetOr("") == "" && u.fullName.GetOr("") == "" ==> r == u.username
    ensures r == "" <==> u.username == "" && u.nickname.GetOr("") == "" && u.fullName.GetOr("") == ""
  {
    if u.nickname.Some? && u.nickname.value != "" then u.nickname.value
    else if u.fullName.Some? && u.fullName.value != "" then u.fullName.value
    else u.username
  }

  /** The upper-cased first character of a name, or `?` for an empty one. */
  function Initial(name: string): (r: string)
    ensures |r| == 1
    ensures name == "" ==> r == "?"
    ensures name != "" ==> r[0] == Text.UpperChar(name[0])
    ensures !('a' <= r[0] <= 'z')
  {
    if name == "" then "?" else [Text.UpperChar(name[0])]
  }

  predicate IsStudent(u: User) { u.role == "student" }
  predicate IsInstructor(u: User) { InstructorRole(u.role) }
  predicate IsOrgAdmin(u: User) { u.role == "org_admin" }
  predicate IsSystemAdmin(u: User) { u.role == "system_admin" }

  /** Both admin roles are instructor roles; a student is not one. */
  lemma RoleHierarchy(u: User)
    ensures IsSystemAdmin(u) ==> IsInstructor(u)
    ensures IsOrgAdmin(u) ==> IsInstructor(u)
    ensures IsStudent(u) ==> !IsInstructor(u)
    ensures IsInstructor(u) <==> u.role in {"instructor", "org_admin", "system_admin"}
  {
  }

  /** `User.can_access_subject` on a subject document: system admins always;
      org admins when the subject's organisation equals theirs (a missing one
      on both sides counts as equal); otherwise only the subject's instructor. */
  function CanAccessSubject(u: User, subject: Doc): (r: bool)
    ensures IsSystemAdmin(u) ==> r
    ensures IsOrgAdmin(u) ==> (r <==> Get(subject, "organization_id", Null) == OptValue(u.organizationId)
                                       || Get(subject, "instructor_id", Null) == OptValue(u.id))
    ensures !IsSystemAdmin(u) && !IsOrgAdmin(u) ==> (r <==> Get(subject, "instructor_id", Null) == OptValue(u.id))
  {
    if IsSystemAdmin(u) then true
    else if IsOrgAdmin(u) && Get(subject, "organization_id", Null) == OptValue(u.organizationId) then true
    else Get(subject, "instructor_id", Null) == OptValue(u.id)
  }

  function OptValue(o: Option<string>): Value {
    match o
    case None => Null
    case Some(s) => Str(s)
  }

  /** A non-admin sees exactly the subjects they teach; changing the role to a
      student never widens access. */
  lemma SubjectAccessNeedsTeachingOrAdmin(u: User, subject: Doc)
    requires !IsSystemAdmin(u)
    requires Get(subject, "instructor_id", Null) != OptValue(u.id)
    ensures CanAccessSubject(u, subject) ==> IsOrgAdmin(u)
    ensures !CanAccessSubject(u.(role := "student"), subject)
  {
  }

  // ---------------------------------------------------------------------
  // The session and the `CurrentUser` proxy.

  /** `_verify_session`: no cookie, a cookie the identity provider refuses
      (`verify` is None), or an unknown uid give no user; otherwise the stored
      document with `uid`, `id` and `is_authenticated` added. */
  function VerifySession(cookie: Option<string>, verify: string -> Option<string>, users: map<string, Doc>): (r: Option<Doc>)
    ensures r.Some? <==> cookie.Some? && cookie.value != "" && verify(cookie.value).Some? && verify(cookie.value).value in users
    ensures r.Some? ==> var uid := verify(cookie.value).value;
              && "uid" in r.value && "id" in r.value && "is_authenticated" in r.value
              && r.value["uid"] == Str(uid) && r.value["id"] == Str(uid) && r.value["is_authenticated"] == Bool(true)
              && forall f :: f in users[uid] && f !in {"uid", "id", "is_authenticated"} ==> f in r.value && r.value[f] == users[uid][f]
  {
    if cookie.None? || cookie.value == "" then None
    else match verify(cookie.value)
      case None => None
      case Some(uid) =>
        if uid !in users then None
        else Some(users[uid]["uid" := Str(uid)]["id" := Str(uid)]["is_authenticated" := Bool(true)])
  }

  /** The request's user: the verified document, or `{}`. */
  datatype CurrentUser = CurrentUser(data: Doc)

  function Load(session: Option<Doc>): (u: CurrentUser)
    ensures session.None? ==> u.data == map[]
    ensures session.Some? ==> u.data == session.value
  {
    // `data or {}`: an empty document and no document both give `{}`.
    if session.Some? && |session.value| > 0 then CurrentUser(session.value) else CurrentUser(map[])
  }

  predicate IsAuthenticated(u: CurrentUser) {
    |u.data| > 0
  }

  /** `uid` and `id` both read the stored `uid`, or ''. */
  function Uid(u: CurrentUser): (v: Value)
    ensures "uid" !in u.data ==> v == Str("")
    ensures "uid" in u.data ==> v == u.data["uid"]
  {
    Get(u.data, "uid", Str(""))
  }

  /** `role`: the stored role, or 'student' when the document has none. */
  function Role(u: CurrentUser): (v: Value)
    ensures "role" !in u.data ==> v == Str("student")
    ensures "role" in u.data ==> v == u.data["role"]
  {
    if "role" in u.data then u.data["role"] else Str("student")
  }

  predicate HasInstructorRole(u: CurrentUser) {
    Role(u).Str? && InstructorRole(Role(u).s)
  }

  predicate HasRole(u: CurrentUser, role: string) {
    Role(u) == Str(role)
  }

  /** A session is authenticated exactly when the cookie verifies to a stored user. */
  lemma AuthenticatedIffVerified(cookie: Option<string>, verify: string -> Option<string>, users: map<string, Doc>)
    ensures var u := Load(VerifySession(cookie, verify, users));
            IsAuthenticated(u) <==> cookie.Some? && cookie.value != "" && verify(cookie.value).Some? && verify(cookie.value).value in users
    ensures var u := Load(VerifySession(cookie, verify, users));
            IsAuthenticated(u) ==> Uid(u) == Str(verify(cookie.value).value)
  {
    var r := VerifySession(cookie, verify, users);
    if r.Some? {
      assert "uid" in r.value;
    }
  }

  /** An anonymous user is a student with an empty uid. */
  lemma AnonymousDefaults()
    ensures var u := Load(None);
            !IsAuthenticated(u) && Uid(u) == Str("") && HasRole(u, "student") && !HasInstructorRole(u)
  {
  }

  /** `display_name` on the proxy: a truthy nickname, else a truthy full name,
      else the stored username, else ''. */
  function ProxyDisplayName(u: CurrentUser): (v: Value)
    ensures Truthy(v) ==> v == Get(u.data, "nickname", Null) || v == Get(u.data, "full_name", Null) || v == Get(u.data, "username", Str(""))
    ensures Truthy(Get(u.data, "nickname", Null)) ==> v == Get(u.data, "nickname", Null)
    ensures !Truthy(Get(u.data, "nickname", Null)) && Truthy(Get(u.data, "full_name", Null)) ==> v == Get(u.data, "full_name", Null)
    ensures !Truthy(Get(u.data, "nickname", Null)) && !Truthy(Get(u.data, "full_name", Null)) ==> v == Get(u.data, "username", Str(""))
  {
    if Truthy(Get(u.data, "nickname", Null)) then u.data["nickname"]
    else if Truthy(Get(u.data, "full_name", Null)) then u.data["full_name"]
    else Get(u.data, "username", Str(""))
  }

  /** `initial` on the proxy; None where a non-string name would make the
      property raise. */
  function ProxyInitial(u: CurrentUser): (r: Option<string>)
    ensures !Truthy(ProxyDisplayName(u)) ==> r == Some("?")
    ensures ProxyDisplayName(u).Str? ==> r.Some? && |r.value| == 1
    ensures ProxyDisplayName(u).Str? && Truthy(ProxyDisplayName(u)) ==> r == Some([Text.UpperChar(ProxyDisplayName(u).s[0])])
    ensures Truthy(ProxyDisplayName(u)) && !ProxyDisplayName(u).Str? ==> r.None?
  {
    var name := ProxyDisplayName(u);
    if !Truthy(name) then Some("?")
    else if name.Str? then Some([Text.UpperChar(name.s[0])])
    else None
  }

  /** The stored document of a user, as far as names and role go. */
  predicate Stores(d: Doc, user: User) {
    && "nickname" in d && d["nickname"] == OptValue(user.nickname)
    && "full_name" in d && d["full_name"] == OptValue(user.fullName)
    && "username" in d && d["username"] == Str(user.username)
    && "role" in d && d["role"] == Str(user.role)
  }

  /** The proxy and the stored record agree: the same display name, the same
      initial and the same instructor test. */
  lemma ProxyAgreesWithRecord(d: Doc, user: User)
    requires Stores(d, user)
    ensures ProxyDisplayName(CurrentUser(d)) == Str(DisplayName(user))
    ensures ProxyInitial(CurrentUser(d)) == Some(Initial(DisplayName(user)))
    ensures HasInstructorRole(CurrentUser(d)) <==> IsInstructor(user)
  {
  }

  // ---------------------------------------------------------------------
  // Route decorators.

  datatype Gate = ToLogin | ToDashboard | Proceed

  /** `auth_required`: an anonymous caller is sent to log in and the handler
      does not run. */
  function AuthRequired(u: CurrentUser): (g: Gate)
    ensures g == Proceed <==> IsAuthenticated(u)
    ensures g != ToDashboard
  {
    if !IsAuthenticated(u) then ToLogin else Proceed
  }

  /** `role_required(*roles)`: log in first, then the role must be listed. */
  function RoleRequired(u: CurrentUser, roles: seq<string>): (g: Gate)
    ensures g == ToLogin <==> !IsAuthenticated(u)
    ensures g == Proceed <==> IsAuthenticated(u) && Role(u).Str? && Role(u).s in roles
  {
    if !IsAuthenticated(u) then ToLogin
    else if !(Role(u).Str? && Role(u).s in roles) then ToDashboard
    else Proceed
  }

  /** A role gate lets through only callers the login gate lets through, and
      listing more roles never turns a caller away. */
  lemma RoleGateIsStricter(u: CurrentUser, roles: seq<string>, more: seq<string>)
    ensures RoleRequired(u, roles) == Proceed ==> AuthRequired(u) == Proceed
    ensures RoleRequired(u, roles) == Proceed ==> RoleRequired(u, roles + more) == Proceed
    ensures AuthRequired(u) == ToLogin <==> RoleRequired(u, roles) == ToLogin
  {
  }
}

=== FILE: wrappers.dfy ===
/** Option and error-carrying result shared by every module of the model. */
module Wrappers {

  /** The Some/None datatype used in place of Python's `None`. */
  datatype Option<+T> = None | Some(value: T) {

    /** The value, or `default` when absent (Python's `x if x is not None else default`). */
    function GetOr(default: T): T {
      match this
      case Some(v) => v
      case None => default
    }
  }

  /** An HTTP-style rejection: the status code the route answers with. */
  datatype Error = Error(status: nat)

  /** Outcome of a route or socket handler: a value, or the status it rejects with. */
  datatype Result<+T> = Ok(value: T) | Err(error: Error)

  const BadRequest := Error(400)
  const Forbidden := Error(403)
  const NotFound := Error(404)
}
